=== FILE: README.md ===
# A verified model of the robot firmware's core

The repository is MicroPython firmware for a small robot on an ESP32 board.
It consists of:

- a CoAP server answering requests over UDP (`utils/coap_server.py`);
- an in-process publish/subscribe message bus (`utils/messagebus.py`);
- the application routes that bridge CoAP requests onto the bus (`app/__init__.py`);
- two small HTTP servers;
- a URL parser;
- drivers for a PWM controller, DC motors, a NeoPixel matrix, an OLED display
  task, the on-board LEDs and a magnetometer;
- a JSON calibration store;
- an RTTTL ringtone parser for the passive buzzer.

The model is written in Dafny as immutable datatypes and pure functions.

- **Python exceptions.** An exception is a value of `Wrappers.Exc`, and a fallible
  operation returns `Result<T>` (`Ok` or `Raise`).
- **The CoAP server.** It is a state record: routes, reassembly buffers,
  observers, message id, worker budget. One pass of the receive loop is a
  function; one worker run to completion is another. Each returns the new state
  and the datagrams sent.
- **The message bus.** It is a map from topic names to subscriber lists, plus the
  subscribers' queues.
- **Handlers, JSON encoding, clocks, file reads and queue waits.** These are
  parameters: a handler's outcome, a codec, `now`, a read function, the
  message that arrives while a coroutine waits.
- **Python integers and text.** Integers are unbounded, and every wrap-around
  the code performs is written out (`% 65535`, `% 0xFFFFFF`, masks). Text that
  the server turns into bytes is one byte per character.

Where the code misbehaves, the operation takes a `fixed: bool` argument.
`fixed == false` is the code as written. `fixed == true` is the evident intent.
Both are proved about; see "Findings".

Where the code and its documentation disagree, the model follows the code:

- **Admission order.** The receive loop admits a request against the worker
  budget before block-wise reassembly. So every Block1 block takes a worker
  slot, not only the reassembled request.
- **The LED task.** It subscribes to `led_task` and reads `led_list`, as
  the REST client's sample messages do. Its docstring names `leds_task` and
  `leds_commands`; a message in that shape ends the task with KeyError
  (`LedsTask.DocumentedKeyRefused`).
- **`restful_api_client/restful_server.py`.** The live code is lines
  29-146: `_PUBLISH`, `handle_client`, the path and query helpers,
  `send_json`, `send_response` and the server start. The model describes
  that server. Two string literals hold dead code and are not modelled:
  lines 8-28 (a client-counting sketch of `handle_client`) and lines
  148-206 (`motor_task`, `sensor_task`, a stub server and a second
  `main`).

## Model

| member | source | states |
|---|---|---|
| CoapWire.Be16 | utils/coap_server.py:377 | `struct.pack('!H', v)` is two bytes that read back as `v` for every 16-bit value |
| CoapWire.MinimalBytes | utils/coap_server.py:464-467 | the block acknowledgement writes a value as its shortest big-endian byte string (`[0]` for zero), which reads back as the value |
| CoapWire.ReadOptHead | utils/coap_server.py:96-109 | the server's reader takes the length nibble literally, and raises exactly when a delta nibble of 13 or 14 announces extension bytes the packet does not have |
| CoapWire.ReadExtended | utils/coap_server.py:99-104 | an extended field as section 3.1 of RFC 7252 defines it never reads past the packet, and nibble 15 is reserved and raises |
| CoapWire.EncodeOptHead | utils/coap_server.py:450-459 | `_encode_opt_head` as written never writes a nibble above 13, even for values that need two extension bytes |
| CoapWire.EncodeOptHeadRfc | utils/coap_server.py:450-459 | a head from the corrected encoder never starts with the 0xFF payload marker |
| CoapWire.OptHeadRoundTrip | utils/coap_server.py:450-459 | the server's reader recovers what its encoder wrote exactly when the delta is at most 268 and the length at most 12, whatever follows the head |
| CoapWire.OptHeadDeltaLost | utils/coap_server.py:452-455 | a delta of 269 is written as nibble 13 plus two bytes and read back as a different delta |
| CoapWire.OptHeadLengthLost | utils/coap_server.py:97-109 | a length of 13 is written as nibble 13 plus a byte, and the reader takes 13 from the nibble and misreads the extension byte as value |
| CoapWire.OptHeadRfcRoundTrip | utils/coap_server.py:450-459 | the corrected encoder and reader agree on every delta and length up to 65804, whatever follows the head |
| CoapWire.ScanOptions | utils/coap_server.py:90-109 | the option loop stops at the end of the packet or at the 0xFF marker, and what it leaves is no longer than the packet |
| CoapWire.ScanEncodeRoundTripRfc | utils/coap_server.py:90-109 | decoding what the corrected encoder wrote returns every encodable option list in order and stops at the bytes that follow |
| CoapWire.ScanEncodeRoundTrip | utils/coap_server.py:90-109 | the same round trip holds for the server's own encoder and reader on lists with gaps up to 268 and values up to 12 bytes |
| CoapPacket.Collect | utils/coap_server.py:111-118 | URI-Path and URI-Query values are kept in order, Observe is present exactly when some option 6 is, and Block1 is the last option 27's big-endian value |
| CoapPacket.QueryEntry | utils/coap_server.py:122-126 | a query segment splits at its first `=`; an all-digit value becomes an int, any other stays text, and a bare key maps to True |
| CoapPacket.QueryMap | utils/coap_server.py:122-126 | the query dictionary has exactly the keys of the segments |
| CoapPacket.QueryLastWins | utils/coap_server.py:122-126 | a key repeated in the query takes the value of its last segment |
| CoapPacket.Parse | utils/coap_server.py:63-135 | a datagram is invalid exactly when it is shorter than 4 bytes or its version is not 1; otherwise its type, code, message id, token (up to 15 bytes, cut at the end), options and payload after the marker are read |
| CoapPacket.PayloadPart | utils/coap_server.py:443-446 | an empty payload is sent without the marker; a non-empty one follows a 0xFF marker |
| CoapPacket.OptionsOf | utils/coap_server.py:429-441 | `transmit` writes one option per path segment and per query piece, in order |
| CoapPacket.RequestPacket | utils/coap_server.py:411-446 | `transmit`'s datagram can be built exactly when every option's gap and length fit two extension bytes |
| CoapPacket.HeaderReads | utils/coap_server.py:73-83 | the header the server writes reads back field by field |
| CoapPacket.ParseFrame | utils/coap_server.py:63-135 | a datagram the server writes parses to its header fields, its token and what its option bytes scan to |
| CoapPacket.RootPath | utils/coap_server.py:120 | with no path options the path is `/`, and with no query options the dictionary is empty |
| CoapPacket.RootFrame | utils/coap_server.py:63-135 | a datagram without path and query options parses to path `/` and an empty query |
| CoapPacket.AckReads | utils/coap_server.py:355-357 | an acknowledgement reads back as an ACK with its code, message id and token, no options and no payload |
| CoapPacket.PiggybackReads | utils/coap_server.py:336-353 | a piggy-backed response reads back with its payload, and with Observe exactly when it was written with one |
| CoapPacket.RawReads | utils/coap_server.py:399-406 | a separate NON response reads back with its code and payload |
| CoapPacket.NotificationOptionsScan | utils/coap_server.py:386-389 | a notification's option bytes are Observe with the sequence value and Content-Format 50 |
| CoapPacket.NotificationReads | utils/coap_server.py:382-390 | a notification reads back as an observing NON 2.05 with the token and the payload |
| CoapPacket.BlockOptionScan | utils/coap_server.py:468-470 | the block acknowledgement's option bytes scan to one Block1 option |
| CoapPacket.BlockAckReads | utils/coap_server.py:462-471 | a block acknowledgement reads back as an ACK whose Block1 value is the block number written |
| CoapPacket.BlockAckLayout | utils/coap_server.py:462-471 | a block acknowledgement is its header, its token and one option |
| CoapPacket.CollectBlock | utils/coap_server.py:114-118 | a lone Block1 option collects to the block number its minimal bytes encode |
| CoapPacket.CollectQueries | utils/coap_server.py:112 | URI-Query options alone collect to their texts in order |
| CoapPacket.CollectTransmitted | utils/coap_server.py:111-112 | the options `transmit` writes collect back to its segments and queries |
| CoapPacket.TransmitReads | utils/coap_server.py:411-446 | a request `transmit` writes parses back to its type, code, message id, path, query and payload: always with the corrected reader, and with the server's reader when no value exceeds 12 bytes |
| CoapServer.Init | utils/coap_server.py:157-177 | a new server has no routes, reassemblies, observers or jobs, and its message id is the random draw |
| CoapServer.Next | utils/coap_server.py:400 | the message id advances by one modulo 65535 |
| CoapServer.CleanPath | utils/coap_server.py:182 | a route is stored under its path with exactly one leading slash and no trailing slash |
| CoapServer.Register | utils/coap_server.py:179-188 | `route` stores the handler and methods under the cleaned path and changes nothing else |
| CoapServer.MethodName | utils/coap_server.py:19 | codes 1-4 name GET, POST, PUT and DELETE; other codes name no method |
| CoapServer.Truncate | utils/coap_server.py:193 | `recvfrom(1500)` hands over at most the first 1500 bytes |
| CoapServer.Sweep | utils/coap_server.py:229-233 | the sweep keeps only unchanged entries of the reassembly table |
| CoapServer.Tick | utils/coap_server.py:211-212 | the sweep check changes only the reassembly table and the sweep time, and only removes entries |
| CoapServer.Admit | utils/coap_server.py:200-209 | admission keeps the server's invariant and changes neither routes, reassemblies nor observers |
| CoapServer.Receive | utils/coap_server.py:190-221 | one pass of the receive loop keeps the server's invariant, queues at most one job, and never changes routes or observers |
| CoapServer.ReceiveParsed | utils/coap_server.py:196-221 | the pass after parsing keeps the server's invariant, queues at most one job, and never changes routes or observers, whatever the datagram parsed to |
| CoapServer.Reassemble | utils/coap_server.py:244-270 | a block is refused when it is not the expected number, continues the transfer when more are announced, and completes it otherwise |
| CoapServer.ContinuePacket | utils/coap_server.py:265 | the corrected 2.31 Continue acknowledgement can be written exactly when the Block1 value fits two extension bytes |
| CoapServer.AddObserver | utils/coap_server.py:368-370 | the peer observes the path with its token, and every other observer entry is as it was |
| CoapServer.Notifications | utils/coap_server.py:378-390 | one notification per observer, each after its own message id step |
| CoapServer.Notify | utils/coap_server.py:372-380 | without observers nothing changes; otherwise only the sequence number and message id change |
| CoapServer.CodeByte | utils/coap_server.py:343 | `struct.pack('!BBH')` accepts exactly an int code and, like MicroPython, keeps its low byte without a range check: the byte is the code modulo 256, and the code itself for 0..255; any other value raises TypeError |
| CoapServer.Shape | utils/coap_server.py:294-308 | a tuple or list gives its first two items (and needs two), an int is a code alone, anything else is data under 2.04 for POST and 2.05 otherwise |
| CoapServer.PiggybackBody | utils/coap_server.py:338-340 | a piggy-backed body can be built exactly from a dict, a string or bytes |
| CoapServer.SeparateBody | utils/coap_server.py:359-366 | a separate body raises exactly for a truthy int or sequence, and `None` or a falsy value gives an empty body |
| CoapServer.Answer | utils/coap_server.py:310-316 | the answer draws a fresh message id exactly when the empty ACK has gone out, and is built only when the code packs into a byte |
| CoapServer.Separate | utils/coap_server.py:359-366 | a separate response is sent exactly when its code packs and its body converts |
| CoapServer.SendAck | utils/coap_server.py:137-141 | `send_ack` sends one empty ACK only for a CON request and only once |
| CoapServer.Failure | utils/coap_server.py:320-325 | a handler failure is answered separately after the empty ACK, with ACK 5.00 for a CON without it, and not at all otherwise |
| CoapServer.Handle | utils/coap_server.py:289-325 | running a handler changes only the message id counter |
| CoapServer.Dispatch | utils/coap_server.py:272-329 | an observing GET registers its peer first, and only the observers and message id change |
| CoapServer.Process | utils/coap_server.py:235-332 | processing a request never changes the routes, the budget or the job queue |
| CoapServer.Work | utils/coap_server.py:223-227 | a worker's job leaves the queue and its budget slot is released |
| CoapServer.RequestJson | utils/coap_server.py:143-149 | `req.json` is a truthy value or `{}`, and `{}` for an empty body |
| CoapServer.SendResponse | utils/coap_server.py:392-397 | `send_response` advances the message id twice and changes nothing else |
| CoapServer.Transmit | utils/coap_server.py:411-448 | `transmit` advances the message id once and sends at most one datagram |
| ServerProperties.AdmitUnderBudget | utils/coap_server.py:200-203 | under the budget a valid request is queued and counted, and nothing is sent |
| ServerProperties.RefuseOverBudget | utils/coap_server.py:204-209 | over the budget no job is queued; a CON gets ACK 5.03, a NON gets NON 5.03, anything else nothing |
| ServerProperties.ReceiveValid | utils/coap_server.py:196-203 | a valid request adds its job exactly when there is room |
| ServerProperties.FillBudget | utils/coap_server.py:200-203 | from an idle server, as many valid requests as the budget allows are all admitted |
| ServerProperties.BudgetPlusOneRefused | utils/coap_server.py:200-209 | with a budget of n and no worker finishing, the confirmable request after the first n is refused with 5.03 |
| ServerProperties.SweepKeeps | utils/coap_server.py:229-233 | the sweep keeps an entry exactly when it is at most 15 seconds old |
| ServerProperties.SweepIdempotent | utils/coap_server.py:229-233 | sweeping twice at the same time removes nothing more |
| ServerProperties.TickWhenDue | utils/coap_server.py:211-212 | the table is swept and the sweep time reset exactly when more than 10 seconds have passed |
| ServerProperties.BlockValue | utils/coap_server.py:245-246 | a Block1 value carries the block number above bit 4 and the more-flag at bit 3 |
| ServerProperties.ReassembleInOrder | utils/coap_server.py:244-270 | blocks sent in order from 0 reassemble to the concatenation of their payloads, and the table is left as found |
| ServerProperties.OutOfOrderBlock | utils/coap_server.py:249-258 | a block with the wrong number is answered with ACK 4.08 alone, the state is untouched and the handler does not run |
| ServerProperties.ContinuedBlock | utils/coap_server.py:263-266 | an accepted non-final block updates the transfer; as written nothing is sent, and the corrected server acknowledges with 2.31 |
| ServerProperties.ContinueIsBlockAck | utils/coap_server.py:462-471 | for Block1 values up to 12 bytes the corrected Continue reply has the bytes the block acknowledgement builder writes |
| ServerProperties.CleanPathIdempotent | utils/coap_server.py:182 | cleaning a cleaned path changes nothing, so `/a/` and `a` name the same route |
| ServerProperties.RegisterThenLookup | utils/coap_server.py:179-188 | after `route`, the cleaned path finds the route and every other route is as before |
| ServerProperties.UnknownPath | utils/coap_server.py:326-329 | an unknown path gets ACK 4.04 for a CON and nothing otherwise, and no handler runs |
| ServerProperties.MethodNotAllowed | utils/coap_server.py:280-287 | a method the route does not list gets ACK 4.05 for a CON and nothing otherwise |
| ServerProperties.ObserveRegistersFirst | utils/coap_server.py:274-275 | an observing GET registers its peer even when no route matches |
| ServerReplies.HandleAnswers | utils/coap_server.py:289-325 | everything a handler's completion sends reads back as a response with the request's token |
| ServerReplies.DispatchAnswers | utils/coap_server.py:272-329 | everything dispatch sends reads back as a response with the request's token |
| ServerReplies.ProcessAnswers | utils/coap_server.py:235-332 | every datagram a worker sends reads back as a response with the request's token, and every ACK carries the request's message id |
| ServerReplies.ContinueAnswers | utils/coap_server.py:263-266 | the corrected Continue reply reads back as an ACK echoing the request and carrying its Block1 value |
| ServerReplies.ReceiveAnswers | utils/coap_server.py:190-209 | everything one pass of the receive loop sends answers the request it parsed |
| ServerReplies.TupleReply | utils/coap_server.py:299-316 | a `(code, dict)` result without an empty ACK is piggy-backed on the ACK |
| ServerReplies.IntReply | utils/coap_server.py:303-314 | a bare int result is sent as an ACK with no body whose code byte is the int's low byte |
| ServerReplies.DataReply | utils/coap_server.py:307-316 | any other result is data under 2.04 for POST and 2.05 otherwise |
| ServerReplies.SeparateReply | utils/coap_server.py:310-311 | after the empty ACK on a CON, the result goes out as a separate NON under the next message id |
| ServerReplies.RaisedReply | utils/coap_server.py:320-325 | a raising handler gets a separate 5.00 with the error text after the ACK, ACK 5.00 for a CON without it, nothing for a NON |
| ServerReplies.NoneReply | utils/coap_server.py:294 | a `None` result sends nothing and changes nothing |
| ServerReplies.SendAckOnce | utils/coap_server.py:137-141 | a second `send_ack` sends nothing |
| ServerReplies.NotificationsShape | utils/coap_server.py:378-390 | notification k goes to the k-th observer under the id k+1 steps on |
| ServerReplies.NotifyDelivers | utils/coap_server.py:372-390 | with the observers in iteration order, the sequence number advances once and the k-th notification goes to the k-th observer, reading back as an observing NON 2.05 with its token and the JSON body |
| ServerReplies.NotifyEachOnce | utils/coap_server.py:372-390 | every observer of the path gets exactly one notification: as many datagrams as observers, to distinct addresses that cover them all |
| CoapServer.IterationOrderSize | utils/coap_server.py:376 | iterating the observer dictionary meets each of its addresses once, so as many as it holds |
| ServerReplies.NotifyValid | utils/coap_server.py:372-380 | notifying keeps the server's invariant |
| ServerReplies.SendResponseReads | utils/coap_server.py:392-406 | `send_response` reads back as a NON 2.05 with the JSON body, under the id two steps on |
| ServerReplies.TransmitDelivers | utils/coap_server.py:411-446 | a request `transmit` can encode is sent once to the target and reads back as the intended request |
| MessageBus.PutNowait | utils/messagebus.py:63-67 | a non-full queue appends at the tail; a full one raises QueueFull and is unchanged; a bounded queue stays within its bound |
| MessageBus.GetNowait | utils/messagebus.py:57-61 | the oldest item is removed and returned; an empty queue raises `asyncio.QueueEmpty` |
| MessageBus.Put | utils/messagebus.py:29-38 | `put` waits exactly while the queue is full, then appends as `put_nowait` does |
| MessageBus.Get | utils/messagebus.py:40-55 | `get` takes the oldest item; on an empty queue a zero timeout raises bare QueueEmpty, a timed wait raises "Queue get timed out", and no timeout waits for an arrival |
| MessageBus.AddSub | utils/messagebus.py:153-155 | adding a subscriber makes it a member, keeps the others, and keeps the list free of duplicates |
| MessageBus.RemoveSub | utils/messagebus.py:157-162 | removing deletes one occurrence when present and is a no-op when absent |
| MessageBus.GetTopic | utils/messagebus.py:185-187 | `get_topic` keeps an existing list, creates an empty one otherwise, and never removes a topic |
| MessageBus.Subscribe | utils/messagebus.py:189-190 | subscribing adds the subscriber to that topic only |
| MessageBus.SubscribeAll | utils/messagebus.py:98-102 | subscribing to a set of names adds the subscriber once to each named topic, in any order |
| MessageBus.Unsubscribe | utils/messagebus.py:192-195 | unsubscribing from an unknown topic changes nothing; otherwise only that topic's list changes |
| MessageBus.UnsubscribeAll | utils/messagebus.py:197-199 | `unsubscribe_all` removes the subscriber from every topic list |
| MessageBus.PushAll | utils/messagebus.py:164-167 | the fan-out loop touches only listed subscribers' queues |
| MessageBus.Publish | utils/messagebus.py:201-205 | publishing creates the topic if needed and changes only its subscribers' queues |
| MessageBus.FirstUnhashable | utils/messagebus.py:98-102 | the position of the first list item Python cannot use as a dictionary key, or the list's length when there is none |
| MessageBus.TopicNames | utils/messagebus.py:98-102 | a falsy `topics` names none, a non-empty string names itself, a dict names its keys; a list names exactly the strings before its first list or dict item and raises TypeError exactly when it holds one; any other truthy value is not iterable |
| MessageBus.NewSubscriber | utils/messagebus.py:93-102 | a new subscriber gets its given queue or a fresh unbounded one and is subscribed to the topics named before any error, which it reports; no other subscriber changes |
| MessageBus.SubGetNowait | utils/messagebus.py:114-118 | `Subscriber.get_nowait` answers None on an empty queue and the oldest message otherwise |
| MessageBus.SubGet | utils/messagebus.py:108-112 | `Subscriber.get` waits on its queue, and fails after `close` |
| MessageBus.Close | utils/messagebus.py:132-135 | `close` takes the subscriber off every topic and drops its queue, and changes no other subscriber |
| MessageBus.PublisherPublish | utils/messagebus.py:220-222 | a publisher publishes under its own id |
| MessageBus.Event | utils/messagebus.py:224-226 | an event is a publish with message `None` |
| BusProperties.DrainInOrder | utils/messagebus.py:57-61 | repeated `get_nowait` hands out the items oldest first |
| BusProperties.Fifo | utils/messagebus.py:63-67 | an unbounded queue takes every put and returns the items in put order after what it already held |
| BusProperties.BoundedRejects | utils/messagebus.py:23-24 | a bounded queue takes puts exactly while it has room, and the first put beyond raises QueueFull |
| BusProperties.AddIdempotent | utils/messagebus.py:153-155 | adding a subscriber twice is adding it once |
| BusProperties.RemoveAdded | utils/messagebus.py:153-162 | removing what was just added restores the list |
| BusProperties.RemoveDeletesFirst | utils/messagebus.py:157-162 | removing deletes the first occurrence and keeps the others in order |
| BusProperties.SubscribeIdempotent | utils/messagebus.py:189-190 | subscribing twice is subscribing once |
| BusProperties.SubscribeEachIsAll | utils/messagebus.py:100-102 | subscribing to the names one by one is subscribing to the set of them |
| BusProperties.FirstBlocked | utils/messagebus.py:164-167 | the position of the first listed subscriber whose full queue makes the fan-out raise |
| BusProperties.PushAllEffect | utils/messagebus.py:164-167 | the fan-out pushes the message to every listed subscriber before the first full queue, in list order, and to nobody else |
| BusProperties.PublishDelivers | utils/messagebus.py:201-205 | `publish(t, s, m)` delivers `(t, s, m)` in list order to every subscriber of t up to the first full queue, changes no other queue, and raises only on a full queue |
| BusProperties.PublishUnbounded | utils/messagebus.py:201-205 | with unbounded queues every subscriber of t gets the message once and nothing raises |
| BusProperties.PublishToNobody | utils/messagebus.py:201-205 | publishing to a topic without subscribers delivers nothing and only creates the topic |
| BusProperties.PublishValid | utils/messagebus.py:201-205 | the bus stays well-formed through a publish |
| BusProperties.StringTopicSubscribesOne | utils/messagebus.py:98-102 | a non-empty string `topics` subscribes to exactly that topic |
| BusProperties.UnsubscribeAllEffect | utils/messagebus.py:197-199 | `unsubscribe_all` takes the subscriber off every topic and leaves every other membership intact |
| BusProperties.SubscribeValid | utils/messagebus.py:189-190 | the bus stays well-formed through `subscribe` |
| BusProperties.UnsubscribeValid | utils/messagebus.py:192-195 | the bus stays well-formed through `unsubscribe` |
| BusProperties.UnsubscribeAllValid | utils/messagebus.py:197-199 | the bus stays well-formed through `unsubscribe_all` |
| BusProperties.NewSubscriberValid | utils/messagebus.py:93-102 | the bus stays well-formed when a subscriber is created |
| BusProperties.CloseEffect | utils/messagebus.py:132-138 | after `close` the subscriber is on no topic and has no queue, nobody else changes, and a second close changes nothing |
| BusProperties.SubscribeThenClose | utils/messagebus.py:120-135 | a subscriber that subscribes and then closes leaves every topic list as it was |
| BusProperties.SubGetNowaitEmpty | utils/messagebus.py:114-118 | on an empty queue `Subscriber.get_nowait` answers None where the queue's own `get_nowait` raises |
| App.Ping | app/__init__.py:89-91 | the ping route always answers 2.05 `{'text': 'OK'}` without an ACK first |
| App.Quit | app/__init__.py:93-96 | the quit route publishes `{}` on `quit` and answers 2.04 |
| App.WaitOf | app/__init__.py:128 | `reply_timeout` never makes the wait unbounded; an int timeout of 0 does not wait |
| App.WantsReply | app/__init__.py:120 | the reply path is taken when `wait_reply` upper-cases to YES or `reply_topic` is truthy; a non-string `wait_reply` raises |
| App.Bridge | app/__init__.py:111-137 | the bus bridge adds at most its temporary subscriber to the bus |
| App.Await | app/__init__.py:120-135 | on the reply path the ACK is sent and the temporary subscriber ends without a queue; when creating it raises, as written it stays on the topics it joined |
| App.AwaitReply | app/__init__.py:128 | waiting changes only the temporary subscriber's queue |
| AppProperties.PingAnswered | app/__init__.py:89-91 | `/app/ping` is answered by a piggy-backed 2.05 `{'text': 'OK'}` |
| AppProperties.QuitPublishes | app/__init__.py:93-96 | `/app/quit` hands every subscriber of `quit` the message `{}` from `app_main` and answers 2.04 |
| AppProperties.EmptyBodyRejected | app/__init__.py:114-116 | an empty, undecodable or falsy body is answered 4.00 and the bus is untouched |
| AppProperties.NoReplyRequested | app/__init__.py:118-137 | without a reply requested the payload is published on the topic and the answer is 2.04 `{'text': 'OK'}` |
| AppProperties.AckOnlyOnReplyPath | app/__init__.py:118-121 | the ACK is sent exactly on the reply path |
| AppProperties.BridgeAwaits | app/__init__.py:118-124 | on the reply path the publish comes first, then the wait on the bus it left |
| AppProperties.AwaitDefault | app/__init__.py:124-131 | with the default timeout, a reply on `reply_topic` is answered 2.05, and a missing reply escapes as QueueEmpty |
| AppProperties.ReplyReceived | app/__init__.py:128-129 | a received reply is answered 2.05 with its topic, sender and message |
| AppProperties.TimeoutEscapes | app/__init__.py:126-131 | as written a timeout escapes the handler as QueueEmpty after the ACK |
| AppProperties.TimedOutReply | utils/coap_server.py:320-323 | the server answers that escaped timeout with a separate 5.00 carrying "Queue get timed out" |
| AppProperties.TimeoutAnswered | app/__init__.py:130-131 | with the timeout caught, the answer is a separate 5.00 `{'text': 'Timeout waiting for reply'}` |
| AppProperties.BridgeCleansUp | app/__init__.py:132-135 | unless creating the temporary subscriber raised, the temporary subscriber ends on no topic and without a queue, and every other subscriber and topic list is as the publish left it |
| AppProperties.AwaitCleansUp | app/__init__.py:124-135 | the wait-and-close step leaves the temporary subscriber on no topic; with the creation inside the `try`, that holds when creating it raises too |
| AppProperties.AwaitLeaks | app/__init__.py:124 | as written, when creating the subscriber raises, the error escapes and the subscriber stays on every topic it named |
| AppProperties.LeakOnBadTopicList | app/__init__.py:124 | a `reply_topic` of `["a", []]` leaves the temporary subscriber on `a` as written, and not once the creation is inside the `try` |
| HttpQuery.Unquote | utils/async_restful_server.py:202-210 | a text without `%` only has `+` turned into spaces |
| HttpQuery.Pair | utils/async_restful_server.py:196-198 | a query piece is a pair exactly when it holds `=` |
| HttpQuery.Pairs | utils/async_restful_server.py:195-198 | every piece of the query is read as a pair, in order |
| HttpQuery.SplitPath | utils/async_restful_server.py:191-200 | without `?` the whole text is the path with no parameters; otherwise the path ends at the first `?` and the rest is parsed |
| HttpQuery.ParseQuery | utils/async_restful_server.py:195-198 | the query dictionary has at most as many keys as the query has `&`-pieces |
| HttpQuery.CollectSize | utils/async_restful_server.py:195-198 | collecting pairs into a dictionary gives at most one key per pair |
| HttpQuery.RequestLine | utils/async_restful_server.py:152 | `method, path, _ = line.split()` succeeds exactly for a line of three words, giving the first two, and raises ValueError otherwise |
| PyStr.Words | utils/async_restful_server.py:152 | `str.split()` gives words that are non-empty and hold no whitespace |
| PyStr.WordsJoin | utils/async_restful_server.py:152 | words joined by single spaces, with any trailing whitespace, split back into those words |
| HttpQueryProperties.RequestLineReads | utils/async_restful_server.py:152 | `<method> <target> HTTP/1.1` with a CRLF splits into that method and target |
| HttpQueryProperties.EmptyLineRefused | utils/async_restful_server.py:151-152 | an empty line, as a closed connection gives, is not three words and raises ValueError |
| HttpQueryProperties.CollectMeaning | utils/async_restful_server.py:195-198 | a key is in the dictionary exactly when some piece with `=` has it, and its value is that of the last such piece |
| HttpQueryProperties.QueryMeaning | utils/async_restful_server.py:191-200 | the query dictionary in terms of the `&`-pieces of the query string |
| HttpQueryProperties.ParseHexPair | utils/async_restful_server.py:208 | two hex digits are read as a number base 16 |
| HttpQueryProperties.DecodeHexItem | utils/async_restful_server.py:208 | `%` with two hex digits decodes to the character they name, followed by the rest |
| HttpQueryProperties.DecodeNonHex | utils/async_restful_server.py:209 | a `%` not followed by a number is kept literally |
| HttpQueryProperties.ParseIntRejects | utils/async_restful_server.py:208-209 | `int(s, base)` raises for text that starts with neither whitespace, a sign, an underscore nor a digit |
| HttpQueryProperties.DecodeUnderscoreItem | utils/async_restful_server.py:208-209 | MicroPython's `int()` skips an underscore, so `%_X` decodes like `%0X` |
| HttpQueryProperties.UnquoteUnderscore | utils/async_restful_server.py:205-211 | `_unquote("%_4")` is the character with code 4 |
| PyStr.ParseIntSeparator | utils/async_restful_server.py:208 | an underscore between two digit runs does not change what `int()` reads |
| HttpQueryProperties.DecodeLastHex | utils/async_restful_server.py:208 | a single hex digit at the end is decoded too |
| HttpQueryProperties.DecodeHex2 | utils/async_restful_server.py:208 | the `%XX` form of a character below 256 decodes back to it |
| HttpQueryProperties.DecodePieces | utils/async_restful_server.py:206-210 | the pieces of a percent-encoding decode back to the text |
| HttpQueryProperties.UnquoteEncoded | utils/async_restful_server.py:202-210 | `_unquote` inverts percent-encoding of every character below 256 |
| AsyncRestful.KeyIndex | utils/async_restful_server.py:124 | finds the route already stored under a path and method set, if there is one |
| AsyncRestful.Register | utils/async_restful_server.py:121-126 | registering either replaces a handler in place or appends one route |
| AsyncRestful.FindRoute | utils/async_restful_server.py:185-189 | for any order the dictionary iterates in, `_find_handler` finds an entry whose path is equal and whose methods hold the verb, the first such in that order, and none exactly when no entry serves the request |
| AsyncRestful.FirstIn | utils/async_restful_server.py:186-188 | the loop stops at the first place in the iteration order whose entry serves the request, or finds none exactly when no entry does |
| AsyncRestful.Sanitize | utils/async_restful_server.py:288 | the sanitised name holds no `..` |
| AsyncRestful.SanitizeFixed | utils/async_restful_server.py:337 | removing `..` before the slashes leaves neither a `..` nor a leading slash |
| AsyncRestfulProperties.RegisterUnique | utils/async_restful_server.py:124 | the route dictionary's keys stay unique |
| AsyncRestfulProperties.RegisterKeepsOthers | utils/async_restful_server.py:124 | registering leaves every other key in place with its handler |
| AsyncRestfulProperties.RegisterThenFind | utils/async_restful_server.py:121-126 | after registration the path and any listed method find the handler, unless another entry serving them comes first in the iteration order |
| AsyncRestfulProperties.RegisterElsewhere | utils/async_restful_server.py:185-189 | registering a path changes no lookup of another path, in any iteration order |
| AsyncRestfulProperties.DispatchMeaning | utils/async_restful_server.py:163-177 | a request reaches a handler exactly when a route serves its path and method, and the handler gets the parsed query |
| AsyncRestfulProperties.OrderIrrelevant | utils/async_restful_server.py:185-189 | when at most one entry serves a request, every iteration order finds the same entry |
| AsyncRestfulProperties.OverlapDependsOnOrder | utils/async_restful_server.py:121-126 | `GET` and `(GET, POST)` on one path both serve `GET`, and which handler is found depends on the iteration order |
| AsyncRestful.Dispatch | utils/async_restful_server.py:163-177 | a target reaches a handler exactly when some entry serves its path and method, and the handler gets the query parsed from the text after `?` |
| AsyncRestfulProperties.HandleRequestMeaning | utils/async_restful_server.py:147-181 | `_handle_request` returns silently exactly for an empty or bare CRLF line, answers 500 exactly when the line is not three words or reading the headers failed, runs a handler exactly when an entry serves the request, and answers 404 otherwise |
| AsyncRestfulProperties.WellFormedLineRouted | utils/async_restful_server.py:151-177 | a `<method> <target> HTTP/1.1` line is routed by its method and target, and the empty line of a closed connection gets no answer |
| AsyncRestful.BodyJson | utils/async_restful_server.py:95-103 | a body above 2048 bytes raises ValueError; an empty one is `{}`; otherwise a failed read raises its error and the bytes read go to `loads` |
| AsyncRestful.Enter | utils/async_restful_server.py:135-139 | at the limit a connection is told the server is busy and not counted in; below it the count and the connections counted in both grow by it |
| AsyncRestful.Leave | utils/async_restful_server.py:143-145 | a leaving connection is no longer counted in; a counted one lowers the count by one, and a busy one lowers it exactly when uncorrected |
| AsyncRestful.ClientStep | utils/async_restful_server.py:134-145 | one connection event never lets the count run further ahead of the connections counted in, and with the correction keeps the difference |
| AsyncRestful.ClientRun | utils/async_restful_server.py:134-145 | over any run of connection events the same holds from start to end |
| AsyncRestful.Sanitized | utils/async_restful_server.py:288 | the name the file routes use holds no `..`, and with the correction no leading slash |
| AsyncRestful.Upload | utils/async_restful_server.py:282-292 | the upload is refused with 400 exactly for a missing or empty `filename`, and compresses exactly when `compress=true` is asked for and `deflate` is there |
| AsyncRestful.Download | utils/async_restful_server.py:331-340 | the download is refused with 400 exactly for a missing or empty `file`, and serves a name without `..` |
| AsyncRestful.DirAndName | utils/async_restful_server.py:224-227 | the name holds no slash; once backslashes are slashes, a path with a slash is the directory, `/` and the name, and one without is the name in `/` |
| AsyncRestful.SendFile | utils/async_restful_server.py:218-239 | the `.gz` sibling is sent exactly when the directory lists it, nothing exactly when neither it nor the file is listed, and otherwise the file as named |
| AsyncRestfulProperties.BodyTooLarge | utils/async_restful_server.py:97-98 | above 2048 bytes the body is refused with a ValueError naming the length |
| AsyncRestfulProperties.BodyWindow | utils/async_restful_server.py:95-103 | an empty body is `{}`; the reader is consulted only between 1 and 2048 bytes, and its bytes go to `loads` |
| AsyncRestfulProperties.FixedStepExact | utils/async_restful_server.py:134-145 | with the decrement limited to counted connections, every event keeps the client counter exact |
| AsyncRestfulProperties.FixedRunExact | utils/async_restful_server.py:134-145 | with the correction every run of connections keeps the client counter exact |
| AsyncRestfulProperties.BusyExitDrifts | utils/async_restful_server.py:136-144 | as written a busy connection's exit lowers the counter, so one more client than the limit is served |
| AsyncRestfulProperties.BusyExitKeepsLimit | utils/async_restful_server.py:136-144 | with the correction the next connection is told the server is busy |
| AsyncRestfulProperties.SanitizeUncoversSlash | utils/async_restful_server.py:288 | as written `../a` becomes `/a` |
| AsyncRestfulProperties.SanitizersAgree | utils/async_restful_server.py:337 | on names without `..` both orders only strip the leading slashes |
| AsyncRestfulProperties.UploadSafe | utils/async_restful_server.py:282-292 | the upload route refuses exactly a missing or empty `filename`; a saved name holds no `..` before its `.gz`, and with the correction no leading slash |
| AsyncRestfulProperties.DownloadSafe | utils/async_restful_server.py:331-340 | the download route refuses exactly a missing or empty `file` and serves a name without `..` |
| AsyncRestfulProperties.SendFileSibling | utils/async_restful_server.py:218-239 | with the correction `send_file` sends the gzip sibling the directory lists, or the file itself |
| AsyncRestfulProperties.SendFileDropsDirectory | utils/async_restful_server.py:224-239 | as written `dir/name` with `name.gz` listed sends `name.gz` from the current directory |
| RestfulServer.RawQueryMeaning | restful_api_client/restful_server.py:113-121 | a key is the literal text before the first `=` of some `&`-piece, and its value comes from the last such piece |
| RestfulServer.ParsePath | restful_api_client/restful_server.py:105-111 | the path is a prefix of the target with no `?`; without `?` it is the whole target and the query is empty |
| RestfulServer.ReadHeaders | restful_api_client/restful_server.py:43-50 | the header loop runs on for ever only as written and only when no line is blank |
| RestfulServer.Route | restful_api_client/restful_server.py:64-101 | the reply steps are never empty, end by publishing `quit` exactly for `GET /quit`, and otherwise end by closing the writer |
| RestfulServer.ResponseText | restful_api_client/restful_server.py:127-137 | the response starts with the status line and ends with the body |
| RestfulServer.HandleClient | restful_api_client/restful_server.py:32-37 | `handle_client` raises ValueError exactly when the request line is not three words, and otherwise produces reply steps |
| RestfulServer.HandleClientLine | restful_api_client/restful_server.py:34-37 | a `<verb> <target> HTTP/1.1` line is routed by that verb and target |
| RestfulServer.ClosedClientEscapes | restful_api_client/restful_server.py:34-37 | a client that closes before sending a line makes `handle_client` raise ValueError, so the writer is never closed |
| RestfulServer.LengthValue | restful_api_client/restful_server.py:49 | a length header without `:` raises IndexError |
| RestfulServer.HeaderLength | restful_api_client/restful_server.py:43-50 | without a length header the content length stays 0 |
| RestfulServer.BlankAt | restful_api_client/restful_server.py:46-47 | the position of the first blank line, or the number of lines when there is none |
| RestfulServer.ReadHeadersMeaning | restful_api_client/restful_server.py:43-50 | the header loop ends at the first blank line with the length the lines before it give, raises what that reading raises, and without a blank line never ends unless end of input is tested |
| RestfulServer.EofNeverEnds | restful_api_client/restful_server.py:44-47 | as written, headers that end without a blank line keep the loop reading empty lines for ever; with the end-of-input test it ends with their length |
| RestfulServer.FixedHeadersEnd | restful_api_client/restful_server.py:43-50 | with the end-of-input test the header loop always ends |
| RestfulServer.HostThenEof | restful_api_client/restful_server.py:44-47 | a connection that sends `Host: x` and closes spins as written and ends with length 0 when end of input is tested |
| RestfulServer.ResponseHeadersEnd | restful_api_client/restful_server.py:127-137 | the header loop on `send_response`'s headers and blank line ends with the body's length |
| RestfulServer.BodyData | restful_api_client/restful_server.py:51-62 | an empty body is None, a decodable one its JSON, and an undecodable one the error and raw text |
| RestfulServer.QueryJson | restful_api_client/restful_server.py:68 | the query echoed in a reply has the query's keys with their texts |
| RestfulServer.HelloAnswersTwice | restful_api_client/restful_server.py:65-99 | as written `GET /hello` is answered with the greeting and then a 404 |
| RestfulServer.AsWrittenReplies | restful_api_client/restful_server.py:64-101 | as written every request but `GET /quit` gets one answer, and `GET /hello` two |
| RestfulServer.OneReplyEach | restful_api_client/restful_server.py:64-101 | with one decision chain every request gets exactly one answer, except `GET /quit`, which shuts down and publishes `quit` |
| RestfulServer.StatusText | restful_api_client/restful_server.py:128 | the status text is "OK" exactly for status 200 |
| RestfulServer.LengthLineReadsBack | restful_api_client/restful_server.py:132 | the Content-Length line `send_response` writes reads back as the number written |
| RestfulServer.ResponseLengthReadsBack | restful_api_client/restful_server.py:127-137 | the header loop reading `send_response`'s headers finds the body's length |
| URequests.DefaultPort | restful_api_client/urequests/urequests/__init__.py:52-57 | `http:` gives 80, `https:` gives 443, and any other scheme raises ValueError naming it |
| URequests.SplitUrl | restful_api_client/urequests/urequests/__init__.py:46-50 | the scheme and host hold no `/` |
| URequests.ParseUrl | restful_api_client/urequests/urequests/__init__.py:44-63 | the split's and the scheme's errors surface; a result's scheme, host and path come from the split |
| URequests.SplitUrlFails | restful_api_client/urequests/urequests/__init__.py:46-50 | the split fails exactly when the URL has fewer than two `/` |
| URequests.SplitFour | restful_api_client/urequests/urequests/__init__.py:47 | with three `/` the host lies between the second and third, and the path is the rest |
| URequests.SplitThree | restful_api_client/urequests/urequests/__init__.py:49-50 | with two `/` the host is the rest and the path is empty |
| URequests.DefaultPortRoundTrip | restful_api_client/urequests/urequests/__init__.py:44-63 | a URL built from a known scheme, a host and a path parses back to them and the scheme's port |
| URequests.ExplicitPortRoundTrip | restful_api_client/urequests/urequests/__init__.py:59-63 | an explicit decimal port after the host replaces the scheme's |
| Pca9685.SetBitToMeaning | mbit_ext/superbit_extension_board.py:69-76 | `set_bit_to` writes `bit_value & mask` into the field and keeps the bits above and below |
| Pca9685.SetBitToKeeps | mbit_ext/superbit_extension_board.py:73-76 | every bit outside the field keeps its value |
| Pca9685.GetBit | mbit_ext/superbit_extension_board.py:79-83 | `get_bit` reads the field of an int, or of the first byte of bytes, and an empty bytes raises IndexError |
| Pca9685.GetSetBit | mbit_ext/superbit_extension_board.py:69-83 | `get_bit` reads back `bit_value & mask` after `set_bit_to` |
| Pca9685.ByteStays | mbit_ext/superbit_extension_board.py:69-76 | writing a field inside the low eight bits keeps a byte a byte |
| Pca9685.Prescale | mbit_ext/superbit_extension_board.py:139-148 | the prescale lies in 3..255, equals `clock // (4096 * freq) - 1` when that is in range, and a zero frequency divides by zero |
| Pca9685.DefaultPrescale | mbit_ext/superbit_extension_board.py:88-89 | the default 25 MHz clock and 50 Hz give prescale 121 |
| Pca9685.PrescaleMonotone | mbit_ext/superbit_extension_board.py:139-148 | a higher frequency never gives a larger prescale |
| Pca9685.ToByte | mbit_ext/superbit_extension_board.py:168 | `bytes([x])` accepts exactly 0..255 |
| Pca9685.SetFieldsBit | mbit_ext/superbit_extension_board.py:156-163 | each bit ends with the last value written to it, or its old value |
| Pca9685.SetFieldsByte | mbit_ext/superbit_extension_board.py:156-163 | fields below bit 8 keep a byte a byte |
| Pca9685.Mode1Bits | mbit_ext/superbit_extension_board.py:150-171 | a given MODE1 field sets its bit, a `None` field keeps the cached bit, and a valid cache always gives a byte |
| Pca9685.Mode1Raw | mbit_ext/superbit_extension_board.py:164-168 | `raw_val` overrides every field |
| Pca9685.Mode2ReadsBack | mbit_ext/superbit_extension_board.py:173-201 | `get_mode2` reads back, field by field, what `set_mode2` wrote |
| Pca9685.Round | mbit_ext/superbit_extension_board.py:205-206 | `round` gives an integer within one half of the tick, and the even one on a tie |
| Pca9685.RoundInRange | mbit_ext/superbit_extension_board.py:205-206 | a tick in 0..4095 rounds into that range |
| Pca9685.WriteBytes | mbit_ext/superbit_extension_board.py:213-216 | the register writes happen in order until a value is not a byte, which raises ValueError |
| Pca9685.SetLedPwm | mbit_ext/superbit_extension_board.py:204-216 | `set_led_pwm` raises ValueError before writing exactly when the rounded ticks sum above 4095 |
| Pca9685.LedPwmReadsBack | mbit_ext/superbit_extension_board.py:204-216 | in range, registers `4 * id + 6` to `+ 9` hold the low and high bytes of `on` and then `off` |
| Pca9685.NegativeTickHalfWrites | mbit_ext/superbit_extension_board.py:213-214 | a negative `on` tick writes its low byte and then fails on the high byte |
| Motors.ChannelMap | mbit_ext/superbit_extension_board.py:237-239 | motor k drives channels 8+2k and 9+2k, swapped when `revers`; ids past the end and -1 have no channels |
| Motors.Channels | mbit_ext/superbit_extension_board.py:237-239 | a motor's two channels are distinct, form one of the board's pairs, and come in ascending order exactly when not reversed; a bad id raises IndexError |
| Motors.NewMotor | mbit_ext/superbit_extension_board.py:235-245 | a motor is built exactly when its channels exist and a controller is given or the module's I2C object exists; it drives the PWM controller exactly when one is given |
| Motors.NewDcMotor | devices/motors/dc_motor.py:4-14 | the copy builds a motor exactly when its channels exist and a controller is given |
| Motors.Through | mbit_ext/superbit_extension_board.py:262-270 | `set_led_pwm` calls go through on the PWM controller, and raise AttributeError on the bare I2C object |
| Motors.SetThrottle | mbit_ext/superbit_extension_board.py:248-270 | `set_throttle` succeeds exactly with a PWM driver and a number (or, corrected, a brake request), and then makes two calls, on channel A and then B |
| Motors.DcSetThrottle | devices/motors/dc_motor.py:16-35 | the copy's `set_throttle` succeeds exactly with a PWM driver and a number, and then makes two calls, on channel A and then B |
| Motors.ModuleBusMotorRaises | mbit_ext/superbit_extension_board.py:244-270 | a motor built on the module's I2C object is created, but every throttle then raises, a number with AttributeError on `set_led_pwm` |
| Motors.NegativeIdsAlias | mbit_ext/superbit_extension_board.py:237 | ids -4..-2 alias motors 0..2 through Python slicing |
| Motors.ConstructorsAgree | devices/motors/dc_motor.py:4-14 | both constructors agree when given a controller; without one the board's is built exactly when the module's I2C object exists, and the copy raises NameError |
| Motors.Clamp | mbit_ext/superbit_extension_board.py:256 | the clamped tick lies in -4095..4095 |
| Motors.Scaled | mbit_ext/superbit_extension_board.py:256 | `throttle * 4095` then `max`/`min` succeed exactly for a number |
| Motors.DcMatchesBoard | devices/motors/dc_motor.py:16-35 | the copy's `set_throttle` behaves as the board's as written, for every input |
| Motors.ThrottleDispatch | mbit_ext/superbit_extension_board.py:255-270 | a number succeeds exactly with a PWM driver, and then gives one call per channel with `on == 0` and off in 0..4095, at most one non-zero: A forwards and B backwards |
| Motors.ThrottleNeverRefused | mbit_ext/superbit_extension_board.py:255-270 | with a PWM driver, `set_led_pwm` never refuses what a numeric throttle asks for |
| Motors.BrakeUnreachable | mbit_ext/superbit_extension_board.py:256-260 | as written `None` and `'break'` raise TypeError before the brake test |
| Motors.BrakeFixed | mbit_ext/superbit_extension_board.py:258-260 | with the test first, `None` and `'break'` brake both channels through the driver, and numbers are unaffected |
| NeoPixel.ColorCodes | devices/display/neopixel_display.py:75-83 | tuples and lists pass through, names are looked up in the table for the channel count, and anything else raises ValueError |
| NeoPixel.NamedColorShape | devices/display/neopixel_display.py:78-81 | a name is known exactly for 3 or 4 channels and a table name, and its colour has one byte per channel |
| NeoPixel.NamedColor | devices/display/neopixel_display.py:78-81 | a name has a colour only for 3 or 4 channels |
| NeoPixel.TablesAgree | devices/display/neopixel_display.py:12-47 | both tables name the same colours, and each RGBW colour is the RGB one plus white lit only for `white` |
| NeoPixel.GrayMismatch | devices/display/neopixel_display.py:40 | as written RGBW `gray` has blue 12 where RGB `gray` has 128 |
| NeoPixel.IndexOfCell | devices/display/neopixel_display.py:71-73 | every grid cell has a strip index in `[0, columns * rows)` from which it is recovered |
| NeoPixel.CellOfIndex | devices/display/neopixel_display.py:71-73 | every strip index belongs to exactly one cell, so the wiring is a bijection |
| NeoPixel.IndexInjective | devices/display/neopixel_display.py:71-73 | distinct cells have distinct indices |
| NeoPixel.SetPixel | devices/display/neopixel_display.py:85-96 | `set_pixel` changes only the pixels |
| NeoPixel.GetPixel | devices/display/neopixel_display.py:98-102 | `get_pixel` answers a colour only inside the grid |
| NeoPixel.OutsideGrid | devices/display/neopixel_display.py:94-102 | outside the grid `set_pixel` changes nothing and `get_pixel` gives None |
| NeoPixel.SetPixelMeaning | devices/display/neopixel_display.py:85-96 | an in-grid `set_pixel` changes that cell to the colour and no other cell |
| NeoPixel.GetAfterSet | devices/display/neopixel_display.py:98-101 | with the read corrected, `get_pixel` returns what `set_pixel` wrote |
| NeoPixel.GetAfterSetAsWritten | devices/display/neopixel_display.py:98-101 | as written only strip index 0 reads back; other cells read pixel `index * bpp` or raise IndexError |
| NeoPixel.SetCols | devices/display/neopixel_display.py:106-107 | the inner loop of `set_rect` changes only the pixels |
| NeoPixel.SetRows | devices/display/neopixel_display.py:105-107 | the outer loop of `set_rect` changes only the pixels |
| NeoPixel.SetRect | devices/display/neopixel_display.py:104-107 | `set_rect` changes only the pixels |
| NeoPixel.SetColsMeaning | devices/display/neopixel_display.py:106-107 | one column of the rectangle is written to the in-grid cells it covers |
| NeoPixel.SetRowsMeaning | devices/display/neopixel_display.py:105-107 | the remaining columns are written to the in-grid cells they cover |
| NeoPixel.SetRectMeaning | devices/display/neopixel_display.py:104-107 | `set_rect` writes `rect[i - x][j - y]` to every covered in-grid cell and leaves the others alone |
| NeoPixel.Clear | devices/display/neopixel_display.py:110-112 | `clear` makes every pixel black, and raises ValueError when the channel count has no `black` |
| NeoPixel.Transpose | devices/display/neopixel_display.py:116-124 | the transpose has `len(rect[0])` rows of `len(rect)` entries with `ret[i][j] == rect[j][i]`; an empty or ragged array raises IndexError |
| NeoPixel.TransposeInvolution | devices/display/neopixel_display.py:116-124 | transposing twice gives a rectangular array back |
| DisplayTask.WindowToScreen | tasks/display_task.py:20-23 | the start point is the window origin moved by (x, y) but never past the right and bottom edges, which follow |
| DisplayTask.SetWindowClamps | tasks/display_task.py:97-102 | a set window starts at non-negative coordinates and ends within the screen |
| DisplayTask.SetWindowKeepsShape | tasks/display_task.py:93-102 | with the reset corrected, the window always has six entries |
| DisplayTask.WrapBounds | tasks/display_task.py:116-126 | each drawn line has at most `(x1 - x0) // 8` characters on a row wholly inside the window; without wrapping at most one line |
| DisplayTask.WrapPrefix | tasks/display_task.py:116-126 | what is drawn is the text's beginning, in order |
| DisplayTask.WrapAll | tasks/display_task.py:116-126 | with wrapping, no indent and room for the text, all of it is drawn |
| DisplayTask.PrintOutsideRefused | tasks/display_task.py:107-111 | a `print_at_xy` outside the window is answered NACK and draws nothing |
| DisplayTask.FixedNeverRaises | tasks/display_task.py:90-138 | with the reset corrected, every typed message gets one acknowledgement, and an accepted one ends its drawing with `show()` |
| DisplayTask.ResetBreaksWindow | tasks/display_task.py:94-95 | as written the reset leaves four entries, and a later window change or accepted print raises IndexError |
| DisplayTask.Run | tasks/display_task.py:90-138 | the task answers at most one acknowledgement per message |
| DisplayTask.FixedAnswersAll | tasks/display_task.py:90-138 | with the reset corrected, the task answers every typed message |
| DisplayTask.ResetStopsTask | tasks/display_task.py:93-102 | as written a reset followed by a window change stops the task after one acknowledgement |
| DisplayTask.SetWindow | tasks/display_task.py:93-102 | a window change succeeds exactly for `'reset'` or a window of six entries or more, raising IndexError otherwise; the reset gives six entries when corrected and four as written |
| DisplayTask.Wrap | tasks/display_task.py:116-126 | never more lines than characters, and without wrapping at most one line |
| DisplayTask.Perform | tasks/display_task.py:104-135 | a command keeps the window; NACK comes only from `print_at_xy` and draws nothing, and ACK ends the drawing with `show()` |
| DisplayTask.Handle | tasks/display_task.py:90-138 | a typed message is answered NACK only for `print_at_xy` and draws nothing then; ACK ends its drawing with `show()` |
| DisplayTask.IntArg | tasks/display_task.py:97-133 | an int argument is read as itself and a boolean as 0 or 1; anything else raises TypeError |
| DisplayTask.IntArgs | tasks/display_task.py:104-133 | a list of arguments is read exactly when each one is, giving as many integers |
| DisplayTask.Args | tasks/display_task.py:104-133 | `payload[k]` for each key succeeds exactly on a dict holding them all, giving their values in order |
| DisplayTask.ArgsFirstMissing | tasks/display_task.py:104-133 | the first missing key raises KeyError naming it |
| DisplayTask.OptionalInt | tasks/display_task.py:97-102 | `get(k, default)` gives the default for a missing key and otherwise reads the value as an int argument |
| DisplayTask.WindowArgOf | tasks/display_task.py:93-102 | `'reset'` resets, a dict gives the four optional fields, and any other value raises AttributeError on `get` |
| DisplayTask.WrapJson | tasks/display_task.py:116-126 | a string text is wrapped as `Wrap` wraps it; any other value draws nothing or raises TypeError |
| DisplayTask.PrintJson | tasks/display_task.py:107-126 | `print_at_xy` is refused outside the window without reading the text, and otherwise draws the wrapped text |
| DisplayTask.CommandJson | tasks/display_task.py:104-135 | a decoded command draws what its typed form draws, or raises what reading its arguments raises |
| DisplayTask.HandleJson | tasks/display_task.py:90-138 | a decoded message changes the window as `set_window` asks, then runs its command; an answer is NACK only for `print_at_xy` |
| DisplayTask.RunJson | tasks/display_task.py:90-138 | the task answers at most one acknowledgement per message, and stops early exactly when a message raises |
| DisplayTask.WindowArgRoundTrip | tasks/display_task.py:93-102 | a window argument encoded as JSON reads back as itself |
| DisplayTask.CommandEncoded | tasks/display_task.py:104-135 | a typed command encoded as JSON does what the typed command does |
| DisplayTask.HandleEncoded | tasks/display_task.py:90-138 | a typed message encoded as JSON is handled as the typed message is |
| DisplayTask.RunEncoded | tasks/display_task.py:90-138 | a run over encoded messages gives the typed run's answers |
| DisplayTask.FixedAnswersWellFormed | tasks/display_task.py:90-138 | with the reset corrected, the task answers every well-formed JSON message |
| DisplayTask.MissingKeyRaises | tasks/display_task.py:104-133 | a `clear_rect`, `draw_line` or `draw_ellipse` missing one of its keys raises KeyError for the first missing one |
| DisplayTask.PrintMissingTextRaises | tasks/display_task.py:112-116 | a `print_at_xy` inside the window without `text` raises KeyError |
| DisplayTask.WindowNotDictRaises | tasks/display_task.py:97 | a `set_window` value other than `'reset'` or a dict raises AttributeError on `get` |
| Json.Contains | tasks/display_task.py:93 | `k in v` succeeds exactly for a dict, a list or a string, tests the keys of a dict and the items of a list, and raises TypeError otherwise |
| LedsTask.Unpack | tasks/leds_task.py:63 | an int colour gives three channels in 0..255 |
| LedsTask.PackUnpack | tasks/leds_task.py:63 | unpacking a 24-bit colour and packing the channels gives it back |
| LedsTask.UnpackPack | tasks/leds_task.py:63 | packing three bytes and unpacking gives them back |
| LedsTask.Pack | tasks/leds_task.py:63 | three bytes pack into a 24-bit colour |
| LedsTask.ColorValue | tasks/leds_task.py:59-63 | a missing colour or unknown name is black, a tuple passes through, an int gives three bytes |
| LedsTask.IntColorMeaning | tasks/leds_task.py:62-63 | an int colour is the packed form of its channels |
| LedsTask.SetLed | tasks/leds_task.py:64 | a record succeeds exactly for `led_id` in -3..2 and raises IndexError otherwise |
| LedsTask.SetLedOnly | tasks/leds_task.py:64 | a record sets only the LED it names |
| LedsTask.Apply | tasks/leds_task.py:58-64 | the records keep the strip three pixels long |
| LedsTask.ApplyLastWins | tasks/leds_task.py:58-64 | with valid ids each pixel ends with the colour of the last record naming it, or as it was |
| LedsTask.ApplyBadIndex | tasks/leds_task.py:58-64 | a record with a bad index raises, whatever came before |
| LedsTask.IntOf | tasks/leds_task.py:64 | `int()` keeps an integer, turns a boolean into 0 or 1, truncates a float toward zero, parses a string as a decimal literal and raises TypeError on None, a list or a dict |
| LedsTask.ColorArgOf | tasks/leds_task.py:59-63 | a missing colour, a string, an integer and a list of integers are the colours taken, each as given; None, a float, a dict and other lists are not |
| LedsTask.RecordOf | tasks/leds_task.py:59-64 | a record that is not a dict raises AttributeError, a missing `led_id` KeyError, an `led_id` `int()` refuses its error; a record is read exactly when it is a dict with a convertible `led_id` and a usable colour |
| LedsTask.LedList | tasks/leds_task.py:58 | a message that is not a dict raises TypeError, one without `led_list` KeyError, and a list under `led_list` gives its records |
| LedsTask.ApplyJson | tasks/leds_task.py:58-64 | the records of a message all go through exactly when each is accepted, and the strip stays three pixels long |
| LedsTask.Decoded | tasks/leds_task.py:59-64 | accepted records decode to one record each |
| LedsTask.ApplyJsonDecoded | tasks/leds_task.py:58-64 | once every record is accepted, each names a pixel and the loop sets the colours the records decode to |
| LedsTask.Handle | tasks/leds_task.py:57-66 | a message is acknowledged with one ACK exactly when the task accepts it |
| LedsTask.HandleLastWins | tasks/leds_task.py:58-64 | after an accepted message each pixel has the colour of the last record naming it, or is as it was |
| LedsTask.DocumentedKeyRefused | tasks/leds_task.py:37 | a message shaped like the docstring's, with `leds_commands`, ends the task with KeyError |
| LedsTask.ClientMessage | restful_api_client/restful_client.py:77 | the REST client's sample message turns pixel 0 red and pixel 1 green and is acknowledged |
| LedsTask.RunMeaning | tasks/leds_task.py:56-66 | one ACK per message, in order, up to the first message not accepted, which ends the task; the task goes through the whole run exactly when it accepts every message |
| LedsTask.OneAckPerMessage | tasks/leds_task.py:56-66 | while the task accepts every message, exactly one ACK per message is published and the task does not stop |
| LedsTask.Run | tasks/leds_task.py:56-66 | the task publishes at most one acknowledgement per message, and every one is `ACK` |
| Calibration.LoadMeaning | utils/calibration.py:12-21 | a missing or undecodable file loads as `{}`, a decodable one as its contents, and the path is the given one or the store's |
| Calibration.Load | utils/calibration.py:12-21 | the store loaded keeps the path given or else its own, and neither a missing file nor undecodable text raises |
| Calibration.New | utils/calibration.py:8-11 | a new store has the path given, and is empty when the file is missing |
| Calibration.Get | utils/calibration.py:30-34 | `get` works exactly on an object document and otherwise raises TypeError |
| Calibration.Set | utils/calibration.py:36-38 | `set` works exactly on an object document and otherwise raises TypeError |
| Calibration.Delete | utils/calibration.py:41-47 | `delete` never raises on an object document |
| Calibration.GetMeaning | utils/calibration.py:30-34 | `get` of a missing key stores and returns the default; of a present key returns the value and ignores the default |
| Calibration.GetStable | utils/calibration.py:30-34 | once answered, later `get`s of the key answer the same, whatever their default |
| Calibration.SetThenGet | utils/calibration.py:36-38 | after `set`, `get` returns the value and every other key is unchanged |
| Calibration.DeleteMeaning | utils/calibration.py:41-47 | `delete` answers whether the key was present, removes it, keeps the others, and a second delete answers False |
| Calibration.SetThenDelete | utils/calibration.py:36-47 | deleting a key just set answers True and restores the store |
| Mmc5983.AssembleRange | devices/magnetometer/mmc5983.py:79-81 | an assembled raw value lies in 0..2^18-1 |
| Mmc5983.AssembleInverse | devices/magnetometer/mmc5983.py:79-81 | an 18-bit raw value determines its two register bytes and its two low bits |
| Mmc5983.RawAxes | devices/magnetometer/mmc5983.py:79-81 | every raw axis of a seven-byte read is an 18-bit value |
| Mmc5983.LowBits | devices/magnetometer/mmc5983.py:79-81 | the three two-bit fields of byte 6 are read back from their positions |
| Mmc5983.RawAxesEncode | devices/magnetometer/mmc5983.py:79-81 | every 18-bit sample is what some register read yields |
| Mmc5983.EncodeRawAxes | devices/magnetometer/mmc5983.py:79-81 | a read is determined by its sample up to the two unused low bits of byte 6 |
| Mmc5983.ReadRaw | devices/magnetometer/mmc5983.py:72-92 | a failed, empty or short read gives None |
| Mmc5983.DefaultOrientation | devices/magnetometer/mmc5983.py:72-88 | with the default orientation a full read gives `(r2, -r1, -r0)`, and only a failed or short read gives None |
| Mmc5983.ExtendExtremes | devices/magnetometer/mmc5983.py:113-122 | one more read keeps the per-axis minimum and maximum of the reads so far |
| Mmc5983.Extrema | devices/magnetometer/mmc5983.py:112-124 | the loop computes each axis's minimum and maximum over the successful reads, starting from `sys.maxsize` and `-sys.maxsize` |
| Mmc5983.Calibrate | devices/magnetometer/mmc5983.py:105-137 | `calibrate` changes something exactly when every axis moved: entries 0-2 of the calibration list become `[100 / (max - min), (max + min) / 2]`, a longer list keeps its tail, a shorter one has its existing entries assigned and then raises IndexError (when the list is the store's own `MMC5983` entry, as it is without a `calib` argument, those assignments are already in the store; a caller's own list leaves the store alone), and otherwise the list is stored under `MMC5983`; when an axis did not move nothing changes and the answer is False |
| Mmc5983.SpreadMeaning | devices/magnetometer/mmc5983.py:128 | an axis's extremes spread exactly when two reads differ on it |
| Buzzer.PitchMeaning | devices/buzzer/buzzer_passive.py:48 | a pause is silent in every octave, a table note sounds, and any other name raises KeyError |
| Buzzer.PitchDoubles | devices/buzzer/buzzer_passive.py:48 | one octave up doubles the pitch |
| Buzzer.PitchOctaveFour | devices/buzzer/buzzer_passive.py:9-14 | in octave 4 a note has its table frequency |
| Buzzer.Pitch | devices/buzzer/buzzer_passive.py:48 | a pitch exists exactly for a table name, raising KeyError naming it otherwise; it is never negative and is zero exactly for the pause |
| Buzzer.NoteToFreq | devices/buzzer/buzzer_passive.py:16-19 | a frequency `note_to_freq` gives is never negative |
| Buzzer.NoteGroups | devices/buzzer/buzzer_passive.py:42-43 | the note pattern yields digits, note characters and digits |
| Buzzer.GroupsOfNoteText | devices/buzzer/buzzer_passive.py:42-43 | the pattern splits a note written in full back into its duration, name, dot and octave |
| Buzzer.NoteToFreqOctave | devices/buzzer/buzzer_passive.py:16-19 | `note_to_freq` plays a bare table name in octave 4 and a name with digits in that octave |
| Buzzer.NameInTable | devices/buzzer/buzzer_passive.py:9-14 | the table's names are a lower-case letter, possibly with `#` |
| Buzzer.NoteToFreqNoMatch | devices/buzzer/buzzer_passive.py:17-18 | a note without any character of `[a-gp#]` has no match and raises |
| Buzzer.Params | devices/buzzer/buzzer_passive.py:25 | the header dictionary exists exactly when every item holds `=`, and otherwise IndexError is raised |
| Buzzer.ParamsKeys | devices/buzzer/buzzer_passive.py:25 | the header's keys are the parts before the first `=` of its items |
| Buzzer.HeaderDefaults | devices/buzzer/buzzer_passive.py:27-29 | a header naming none of d, o, b gives duration 4, octave 6 and 63 beats per minute |
| Buzzer.EmptyHeaderRaises | devices/buzzer/buzzer_passive.py:25 | an empty header section raises IndexError |
| Buzzer.HeaderRoundTrip | devices/buzzer/buzzer_passive.py:24-29 | `d=<d>,o=<o>,b=<b>` reads back as the three numbers |
| Buzzer.ParseHeader | devices/buzzer/buzzer_passive.py:24-29 | a header item without `=` raises IndexError, and a key not given takes its default: d 4, o 6, b 63 |
| Buzzer.Filter | devices/buzzer/buzzer_passive.py:33 | the clean-up keeps only allowed characters and never lengthens the text |
| Buzzer.FilterIdentity | devices/buzzer/buzzer_passive.py:33 | the clean-up leaves a text alone exactly when every character is allowed |
| Buzzer.FilterNone | devices/buzzer/buzzer_passive.py:33 | nothing the clean-up drops survives it |
| Buzzer.CleanMeaning | devices/buzzer/buzzer_passive.py:32-33 | after the clean-up no bar character remains, and as written no digit |
| Buzzer.Duration | devices/buzzer/buzzer_passive.py:50 | a zero duration raises ZeroDivisionError |
| Buzzer.DurationBounds | devices/buzzer/buzzer_passive.py:50 | the length is the largest whole number of milliseconds that `dur` notes fit in the (dotted) whole note |
| Buzzer.DottedLonger | devices/buzzer/buzzer_passive.py:50 | a dot never shortens a note |
| Buzzer.NoteOfGroups | devices/buzzer/buzzer_passive.py:44-48 | a name without digits takes the header's duration and octave |
| Buzzer.ParseNoteFull | devices/buzzer/buzzer_passive.py:42-51 | a note written in full plays at its own octave for its own duration |
| Buzzer.ParseNoteDefaults | devices/buzzer/buzzer_passive.py:44-47 | a note without digits takes the header's duration and octave, and with no name it is a pause |
| Buzzer.ParseNote | devices/buzzer/buzzer_passive.py:42-51 | a note's frequency is never negative |
| Buzzer.NoteOf | devices/buzzer/buzzer_passive.py:44-51 | the tone of a note's groups has a frequency that is never negative |
| Buzzer.PauseSilent | devices/buzzer/buzzer_passive.py:45-48 | a pause, or a note with no name, is silent |
| Buzzer.Notes | devices/buzzer/buzzer_passive.py:37-40 | the notes kept are the stripped, lower-cased non-empty segments |
| Buzzer.ParseAll | devices/buzzer/buzzer_passive.py:37-51 | the notes parse exactly when each does, and then tone k is note k's |
| Buzzer.ParseNotesMeaning | devices/buzzer/buzzer_passive.py:36-53 | the loop gives one tone per non-empty segment, in order |
| Buzzer.ParseNotes | devices/buzzer/buzzer_passive.py:36-53 | the loop gives at most one tone per segment |
| Buzzer.ParseRttl | devices/buzzer/buzzer_passive.py:22-53 | a tune without exactly three `:`-sections raises ValueError, and a parsed one has at most one tone per note of its cleaned notes section |
| Buzzer.SectionsRequired | devices/buzzer/buzzer_passive.py:24 | a tune without exactly two `:` raises ValueError |
| Buzzer.CleanNoteAsWritten | devices/buzzer/buzzer_passive.py:33 | as written the clean-up of a full note keeps only its name and dot |
| Buzzer.DigitsGone | devices/buzzer/buzzer_passive.py:33 | as written the clean-up deletes a number |
| Buzzer.OneNote | devices/buzzer/buzzer_passive.py:34-40 | a note without comma, space or capital is the one note of its section |
| Buzzer.AsWrittenIgnoresDigits | devices/buzzer/buzzer_passive.py:22-53 | as written a note with its own duration and octave plays for the header's duration in the header's octave |
| Buzzer.FixedReadsDigits | devices/buzzer/buzzer_passive.py:22-53 | with digits kept, a note with its own duration and octave plays for that duration in that octave |

## Left out

- Sockets, `sendto`/`recvfrom`, asyncio tasks and events, `wait_for` timing, `gc.collect`, `mem_info` and logging. These are I/O or scheduling. Datagrams sent are a returned list. A queue wait is an abstract outcome: an item arrives, the wait times out, or the coroutine is still waiting.
- Interleaving of CoAP workers: each worker is one atomic step from its request to its replies. Concurrent handlers are not modelled.
- The futures in `pending_requests`: only their lookup and removal in `_process_request` is modelled. Nothing in the modelled code adds to the table.
- `random.randint`, `time.time()` and the JSON codec are parameters. The random draw, the clock and the encoder and decoder are outside the code's logic.
- Text encoding: text becomes bytes one byte per character. UTF-8 and its decode errors are not modelled.
- `broadcast_presence` is a single call of `transmit` with fixed arguments and has no model of its own.
- The `ota_enter_handler` and `log_level_handler` routes, `i2c_bus_recovery` and the start-up in `async_main`/`main` are left out. They write files, reset the machine or configure logging.
- The bridge handler passes `payload` on as any JSON value and reads `reply_topic` through `MessageBus.TopicNames`. Only `topic` must be a string: the model reports any other topic as TypeError. Python would use a number, boolean or None topic as a dictionary key with no subscriber under it, and raises TypeError only for a list or dict. A missing key is modelled as KeyError.
- `Subscriber.__del__`, `Publisher.close` and `Publisher.__del__` are left out. They run at garbage collection and only drop references.
- `asyncio.QueueEmpty` is raised by `Queue.get_nowait` as written. It is modelled as its own exception, `AsyncioQueueEmpty`, whether or not the runtime provides it.
- In `utils/async_restful_server.py`:
  - left out (file system or I/O): `compress_file`, `decompress_file`, the upload write loop, file streaming in `send_file`, the `/api/compress` route, `run`, the 404 drain and the response writer;
  - modelled: only the file names that `send_file` picks.
- In `restful_api_client/restful_server.py`:
  - not modelled: the dead code in the string literals at lines 8-28 and 148-206;
  - the request line is split as `str.split()` splits it. A line that is not three words raises ValueError out of `handle_client` (`RestfulServer.HandleClient`); the header loop, body read and `writer` calls are modelled as a list of steps.
- The rest of urequests (`request`, `_send_request`, `_read_response`, `Response`) is socket I/O and is left out.
- In `mbit_ext/superbit_extension_board.py`:
  - left out: `Servo`, `Buzzer`, `Pca9685.__init__`, `reset`, `pwm_freq`, `get_led_pwm`, `_read_regs`, and the I2C transfers themselves (hardware access);
  - modelled: register writes as a list of (register, value) pairs.
- AsyncRestful.FindRoute: the order in which `_routes.items()` meets the entries is a parameter. A MicroPython dictionary iterates in hash-table order, which the model does not compute. When two entries serve the same request (such as `GET` and `(GET, POST)` on one path), which handler runs depends on that order (`AsyncRestfulProperties.OverlapDependsOnOrder`). When at most one entry serves it, the order does not matter (`AsyncRestfulProperties.OrderIrrelevant`).
- Motors.SetThrottle, Motors.DcSetThrottle, Motors.Scaled, Pca9685.Round and Pca9685.SetLedPwm: throttles and ticks are exact rationals, not IEEE doubles. `throttle * 4095` is exact, so when the float product lands on a half that the exact product misses (or the reverse), `round` in the code can choose the neighbouring tick; the written tick may then differ by one from the model's. The bounds and the refusal test hold either way.
- PyStr.ParseInt: the base prefixes `0x`, `0o` and `0b` are not modelled; base 16 is read only on texts of at most two characters, where `"0x"` raises either way. Underscores are modelled as MicroPython's `int()` treats them: skipped anywhere in the digit run (`int("_4", 16) == 4`, `int("1_0") == 10`, a lone `"_"` is 0), so `_unquote`, the Content-Length header, the RTTTL header values and a string `led_id` all read such text as a number.
- In `devices/display/neopixel_display.py`:
  - the `neopixel` driver is not part of this model. The strip is a sequence of the tuples written, and reading past its end raises IndexError.
  - left out: `scroll_text`, `symbol` and `show`, which drive the LEDs through the font tables and sleep.
  - left out: the `_setitem__` and `__getitem__` wrappers, which are plain forwards.
- In `tasks/display_task.py`:
  - the SSD1306 drawing calls are recorded as steps, not rendered;
  - messages are decoded JSON values (`DisplayTask.HandleJson`); the typed `Message` datatype is what well-formed ones decode to (`DisplayTask.HandleEncoded`);
  - `clear_rect`, `draw_line`, `draw_ellipse` and `print` are each one recorded drawing step;
  - the `_Print` helper and the `PRINT` logger are left out.
- DisplayTask.IntArg: a coordinate or size must be an integer or a boolean. A float, string, list, dict or None is reported as TypeError where it is first used. In the code a float passes `max`, `min` and the range test, and fails only in the driver or when slicing the text.
- The display task's `print_at_xy` reads an `indent` key that the code never uses; the model, like the code, moves each wrapped line right by `x`.
- `leds.write()` in the LED task is left out; the strip is the list of its three colours.
- LedsTask.RecordOf: the `neopixel` driver is not part of this model. A colour that is not a string, an integer or a list of integers is reported as TypeError instead of whatever the driver does with it, and a list of integers is stored as given, whatever its length.
- MessageBus.TopicNames: a number, boolean or None in a topic list is a valid dictionary key in Python, so the subscriber is listed under a topic no string names. The model does not represent such topics, since a publisher names its topic by string.
- `Calibration.save_calibration` and `__str__` are left out. They write the file and call `json.dumps`.
- `MMC5983.read_mag_xyz` is left out: it is floating-point scaling of `read_mag_xyz_raw`. So are the register setup in `__init__`, `reset` and `enable_continuous`.
- The calibration loop's 20-second time window is modelled as the list of reads it made. Its 100/(max-min) and midpoint are exact rationals, not floats.
- `Calibration.Delete`'s own contract covers only object documents. What a list or string document does is in the body and is not stated as a property.
- The `BuzzerPassive` class (PWM output, `play_tone`, `play_rttl`, silence) is hardware and is left out. Frequencies are exact rationals rather than floats. `2 ** (o - 4)` is an exact power of two.
- `note_to_freq` reads the first run of `[a-gp#]` after lower-casing, so a note such as `c-1` plays `c` in octave 4 and ignores the `-1`. The model follows the code.

## Findings

| source | as written | input that shows it | evidently intended | confidence | as-written member | corrected member |
|---|---|---|---|---|---|---|
| utils/coap_server.py:452-455 | a delta of 269 or more is written with nibble 13 but two extension bytes | delta 269: nibble 13, bytes 0 0, read back as delta 13 | nibble 14 before the two-byte extension (section 3.1 of RFC 7252) | high, not executed | CoapWire.OptHeadDeltaLost | CoapWire.OptHeadRfcRoundTrip |
| utils/coap_server.py:97-109 | the option reader takes the length nibble literally, never reading its extension | an option value of 13 bytes, written as nibble 13 plus one byte | lengths extended like deltas | high, not executed | CoapWire.OptHeadLengthLost | CoapWire.ScanEncodeRoundTripRfc |
| utils/coap_server.py:263-266 | `RESP_CONTINUE` is not defined, so a non-final Block1 block raises NameError after the state update and no acknowledgement is sent | a POST with Block1 value 0x08 (block 0, more) | ACK 2.31 Continue echoing the Block1 option | high, not executed | ServerProperties.ContinuedBlock | ServerReplies.ContinueAnswers |
| app/__init__.py:126-131 | the bridge catches `asyncio.TimeoutError`, but the bus's `get` raises `QueueEmpty` on timeout | a request with `reply_topic` and no reply within the timeout | 5.00 `{'text': 'Timeout waiting for reply'}` | high, not executed | AppProperties.TimeoutEscapes | AppProperties.TimeoutAnswered |
| utils/async_restful_server.py:136-144 | a connection refused as busy still decrements `_client_count` | five clients served, a sixth refused, then a seventh | the counter counts served clients only | high, not executed | AsyncRestfulProperties.BusyExitDrifts | AsyncRestfulProperties.BusyExitKeepsLimit |
| utils/async_restful_server.py:288 | slashes are stripped before `..` is removed | filename `../a` becomes `/a` | no leading slash and no `..` | high, not executed | AsyncRestfulProperties.SanitizeUncoversSlash | AsyncRestful.SanitizeFixed |
| utils/async_restful_server.py:224-239 | `send_file` tests the listing of the directory but sends the bare name | `dir/name` with `name.gz` in `dir` sends `name.gz` from the current directory | send `dir/name.gz` | high, not executed | AsyncRestfulProperties.SendFileDropsDirectory | AsyncRestfulProperties.SendFileSibling |
| restful_api_client/restful_server.py:44-47 | the header loop stops only at a blank line, and `readline` returns `b""` at end of input for ever | a client that sends `Host: x` and closes | stop at end of input | high, not executed | RestfulServer.HostThenEof | RestfulServer.FixedHeadersEnd |
| app/__init__.py:124 | the temporary subscriber is created before the `try`, so if subscribing raises half way its topics are never cleared | `reply_topic` of `["a", []]` | create the subscriber inside the `try` | medium, not executed | AppProperties.LeakOnBadTopicList | AppProperties.AwaitCleansUp |
| restful_api_client/restful_server.py:65-99 | the `/quit` test starts a new `if` chain, so `/hello` also reaches the final `else` | `GET /hello` gets the greeting and then a 404 | one `if`/`elif` chain | high, not executed | RestfulServer.HelloAnswersTwice | RestfulServer.OneReplyEach |
| mbit_ext/superbit_extension_board.py:256-260 | `throttle * 4095` is computed before the brake test | `set_throttle(None)` raises TypeError | brake on `None` or `'break'` | high, not executed | Motors.BrakeUnreachable | Motors.BrakeFixed |
| devices/display/neopixel_display.py:98-101 | `get_pixel` reads pixel `index * bytes_per_pixel` | `set_pixel(0, 3, 'red')` then `get_pixel(0, 3)` on a 5x5 RGB display | read pixel `index` | high, not executed | NeoPixel.GetAfterSetAsWritten | NeoPixel.GetAfterSet |
| devices/display/neopixel_display.py:40 | RGBW `gray` is `(128, 128, 12, 0)` | `'gray'` on a four-channel display | `(128, 128, 128, 0)` like RGB `gray` | medium, not executed | NeoPixel.GrayMismatch | NeoPixel.TablesAgree |
| tasks/display_task.py:94-95 | `'reset'` leaves a four-entry window | `set_window: 'reset'` then `set_window: {}` raises IndexError and ends the task | the six-entry full window | high, not executed | DisplayTask.ResetBreaksWindow | DisplayTask.FixedAnswersAll |
| devices/buzzer/buzzer_passive.py:33 | the clean-up deletes digits, so a note's own duration and octave are lost | `t:d=4,o=6,b=63:8c5` plays an octave-6 quarter note | keep digits in the clean-up | high, not executed | Buzzer.AsWrittenIgnoresDigits | Buzzer.FixedReadsDigits |

=== FILE: app.dfy ===
/** The CoAP routes of the application (`app/__init__.py`) that bridge the
    server and the bus: `/app/ping`, `/app/quit` and `/app/messagebus`.

    A handler is a function from the bus and the request to the bus after it
    and a `HandlerRun` for the server: whether it called `send_ack` and what
    it returned or raised. The reply the bridge waits for is a parameter
    (`arrival`), as is the new subscriber's identity (`tmp`).
 */
module App {
  import opened Wrappers
  import opened Json
  import opened PyStr
  import opened CoapWire
  import opened CoapPacket
  import opened CoapServer
  import opened MessageBus
  import BusProperties

  /** A handler's `(code, {...})` tuple. */
  function Reply(code: byte, body: map<string, Json>): Value
  {
    VSeq([VInt(code), VDict(body)])
  }

  /** The publisher every route of the application publishes with. */
  const MAIN_PUBLISHER := Publisher("app_main", true)

  /** The subscriber id of the bridge's temporary subscriber. */
  const BRIDGE_ID := "messagebus_handler"

  /** `ping_handler`: always 2.05 `{'text': 'OK'}`. */
  function Ping(): (r: HandlerRun)
    ensures !r.sendsAck && r.result == Ok(Reply(RESP_CONTENT, map["text" := JStr("OK")]))
  {
    HandlerRun(false, Ok(Reply(RESP_CONTENT, map["text" := JStr("OK")])))
  }

  /** `quit_handler`: publishes `{}` on `quit`, then answers 2.04. */
  function Quit(b: Bus): (r: (Bus, HandlerRun))
    requires Refs(b)
    ensures var p := Publish(b, "quit", JStr("app_main"), JObj(map[]));
      && r.0 == p.0
      && !r.1.sendsAck
      && (p.1.None? ==> r.1.result == Ok(Reply(RESP_CHANGED, map["text" := JStr("Shutting down")])))
      && (p.1.Some? ==> r.1.result == Raise(p.1.value))
  {
    var (b1, err) := PublisherPublish(b, MAIN_PUBLISHER, "quit", JObj(map[]));
    match err
    case Some(e) => (b1, HandlerRun(false, Raise(e)))
    case None => (b1, HandlerRun(false, Ok(Reply(RESP_CHANGED, map["text" := JStr("Shutting down")]))))
  }

  /** `float(data.get('reply_timeout', 2))`, reduced to what `Queue.get`
      distinguishes: zero or not. `floatOf` parses a string. */
  function WaitOf(j: Json, floatOf: string -> Result<real>): (r: Result<Wait>)
    ensures r.Ok? ==> r.value != Forever
    ensures j.JInt? ==> r == Ok(if j.i == 0 then NoWait else Within)
  {
    match j
    case JInt(i) => Ok(if i == 0 then NoWait else Within)
    case JReal(x) => Ok(if x == 0.0 then NoWait else Within)
    case JBool(v) => Ok(if v then Within else NoWait)
    case JStr(s) =>
      (match floatOf(s)
       case Ok(x) => Ok(if x == 0.0 then NoWait else Within)
       case Raise(e) => Raise(e))
    case _ => Raise(TypeError("can't convert to float"))
  }

  /** `data.get('wait_reply', 'No').upper() == 'YES' or data.get('reply_topic')`:
      the first test needs a string and short-circuits the second. */
  function WantsReply(fields: map<string, Json>): (r: Result<bool>)
    ensures r.Raise? <==> "wait_reply" in fields && !fields["wait_reply"].JStr?
    ensures r.Ok? ==> (r.value <==>
      (var w := GetOr(fields, "wait_reply", JStr("No")); Upper(w.s) == "YES")
      || Truthy(GetOr(fields, "reply_topic", JNull)))
  {
    match GetOr(fields, "wait_reply", JStr("No"))
    case JStr(w) => Ok(Upper(w) == "YES" || Truthy(GetOr(fields, "reply_topic", JNull)))
    case _ => Raise(AttributeError("object has no attribute 'upper'"))
  }

  /** What the bridge's temporary subscriber sees: the reply, if one comes
      in time on a topic it subscribed to. */
  function Arrival(arrival: Option<Msg>, names: set<string>): Option<Msg>
  {
    match arrival
    case Some(m) => if m.topic in names then Some(m) else None
    case None => None
  }

  /** The body answering a received reply. */
  function ReplyBody(m: Msg): map<string, Json>
  {
    map["topic" := JStr(m.topic), "sender_id" := m.sender, "message" := m.message]
  }

  /** `messagebus_handler`. An empty body is 4.00. Otherwise `payload` is
      published on `topic`; without a reply requested the answer is 2.04.
      With one, the empty ACK goes out, a subscriber `tmp` joins
      `reply_topic`, waits for one message and answers 2.05 with it, and is
      closed whatever happens. As written only `asyncio.TimeoutError` is
      caught, which the bus never raises, so a timeout escapes as
      `QueueEmpty`; with `fixed` the timeout is caught and answered with
      5.00 `{'text': 'Timeout waiting for reply'}`. */
  function Bridge(b: Bus, req: Request, loads: Bytes -> Result<Json>, floatOf: string -> Result<real>,
                  tmp: SubRef, arrival: Option<Msg>, fixed: bool): (r: (Bus, HandlerRun))
    requires MessageBus.Valid(b) && tmp !in b.subs
    ensures r.0.subs.Keys <= b.subs.Keys + {tmp}
  {
    var data := RequestJson(req.payload, loads);
    if !Truthy(data) then (b, HandlerRun(false, Ok(Reply(RESP_BAD_REQ, map["text" := JStr("Bad Request missing body")]))))
    else match Index(data, "topic")
      case Raise(e) => (b, HandlerRun(false, Raise(e)))
      case Ok(topic) =>
        match Index(data, "payload")
        case Raise(e) => (b, HandlerRun(false, Raise(e)))
        case Ok(payload) =>
          if !topic.JStr? then (b, HandlerRun(false, Raise(TypeError("topic is not a string"))))
          else
            var (b1, err) := PublisherPublish(b, MAIN_PUBLISHER, topic.s, payload);
            if err.Some? then (b1, HandlerRun(false, Raise(err.value)))
            else match WantsReply(data.fields)
              case Raise(e) => (b1, HandlerRun(false, Raise(e)))
              case Ok(wants) =>
                if !wants then (b1, HandlerRun(false, Ok(Reply(RESP_CHANGED, map["text" := JStr("OK")]))))
                else
                  assert MessageBus.Valid(b1) by { BusProperties.PublishValid(b, topic.s, JStr("app_main"), payload); }
                  Await(b1, data.fields, floatOf, tmp, arrival, fixed)
  }

  /** As written, a `reply_topic` list the subscriber's constructor fails
      on part-way leaves the temporary subscriber on the topics before the
      bad item: the `try` whose `finally` closes it starts only after the
      constructor returned. */
  predicate Leaks(fields: map<string, Json>, fixed: bool)
  {
    !fixed && "reply_topic" in fields && TopicNames(fields["reply_topic"]).1.Some?
  }

  /** The reply path after the empty ACK: subscribe, wait, close. The
      corrected handler (`fixed`) also closes the subscriber when its
      constructor raises. */
  function Await(b: Bus, fields: map<string, Json>, floatOf: string -> Result<real>,
                 tmp: SubRef, arrival: Option<Msg>, fixed: bool): (r: (Bus, HandlerRun))
    requires MessageBus.Valid(b) && tmp !in b.subs
    ensures r.1.sendsAck
    ensures r.0.subs.Keys <= b.subs.Keys + {tmp}
    ensures tmp in r.0.subs && !Leaks(fields, fixed) ==> r.0.subs[tmp].queue.None?
    ensures Leaks(fields, fixed) ==> r.0 == NewSubscriber(b, tmp, BRIDGE_ID, fields["reply_topic"], None).0
  {
    if "reply_topic" !in fields then (b, HandlerRun(true, Raise(KeyError("reply_topic"))))
    else
      var (b2, err) := NewSubscriber(b, tmp, BRIDGE_ID, fields["reply_topic"], None);
      if err.Some? then (if fixed then Close(b2, tmp) else b2, HandlerRun(true, Raise(err.value)))
      else
        var outcome := AwaitReply(b2, fields, floatOf, tmp, Arrival(arrival, TopicNames(fields["reply_topic"]).0), fixed);
        (Close(outcome.0, tmp), HandlerRun(true, outcome.1))
  }

  /** The wait itself, on the bus holding the fresh subscriber `tmp`: only
      `tmp`'s queue changes, and only when a message is taken from it. */
  function AwaitReply(b2: Bus, fields: map<string, Json>, floatOf: string -> Result<real>,
                      tmp: SubRef, seen: Option<Msg>, fixed: bool): (r: (Bus, Result<Value>))
    requires tmp in b2.subs && b2.subs[tmp].queue == Some(Queue(0, []))
    ensures r.0.topics == b2.topics && r.0.subs.Keys == b2.subs.Keys
    ensures forall x :: x in b2.subs && x != tmp ==> r.0.subs[x] == b2.subs[x]
    ensures var w := WaitOf(GetOr(fields, "reply_timeout", JInt(2)), floatOf);
      && (w.Raise? ==> r.1 == Raise(w.exc))
      && (w == Ok(Within) && seen.Some? ==> r.1 == Ok(Reply(RESP_CONTENT, ReplyBody(seen.value))))
      && ((w == Ok(Within) && seen.None?) || w == Ok(NoWait) ==>
            r.1 == if fixed then Ok(Reply(RESP_INTERNAL_ERR, map["text" := JStr("Timeout waiting for reply")]))
                   else Raise(QueueEmpty(if w == Ok(NoWait) then "" else "Queue get timed out")))
  {
    match WaitOf(GetOr(fields, "reply_timeout", JInt(2)), floatOf)
    case Raise(e) => (b2, Raise(e))
    case Ok(wait) =>
      match SubGet(b2, tmp, wait, seen)
      case Some(Ok((m, b3))) => (b3, Ok(Reply(RESP_CONTENT, ReplyBody(m))))
      case Some(Raise(QueueEmpty(msg))) =>
        if fixed then (b2, Ok(Reply(RESP_INTERNAL_ERR, map["text" := JStr("Timeout waiting for reply")])))
        else (b2, Raise(QueueEmpty(msg)))
      case Some(Raise(e)) => (b2, Raise(e))
      case None => assert false; (b2, Raise(QueueEmpty("")))
  }
}

=== FILE: app_props.dfy ===
/** Properties of the application's bridge routes, on their own and as the
    server answers them.
 */
module AppProperties {
  import opened Wrappers
  import opened Json
  import opened CoapWire
  import opened CoapPacket
  import opened CoapServer
  import opened MessageBus
  import opened App
  import BusProperties
  import ServerReplies

  /** `/app/ping` piggy-backs 2.05 `{'text': 'OK'}` on the ACK. */
  lemma PingAnswered(s: Server, addr: Addr, req: Request, codec: Codec)
    requires s.msgId < MSG_ID_MOD && req.msgId < 65536
    ensures Handle(s, addr, req, Ping(), codec) ==
      (s, [Send(addr, PiggybackPacket(req.token, req.msgId, RESP_CONTENT, codec.dumps(TextReply("OK")), req.observe))])
  {
    ServerReplies.TupleReply(s, addr, req, codec, RESP_CONTENT, map["text" := JStr("OK")]);
  }

  /** `/app/quit` hands every subscriber of `quit` the message `{}` from
      `app_main` and answers 2.04, when no subscriber's queue is bounded. */
  lemma QuitPublishes(b: Bus)
    requires MessageBus.Valid(b)
    requires forall k :: 0 <= k < |Subscribers(b, "quit")| ==> b.subs[Subscribers(b, "quit")[k]].queue.value.maxsize <= 0
    ensures var r := Quit(b);
      && r.1 == HandlerRun(false, Ok(Reply(RESP_CHANGED, TextReply("Shutting down").fields)))
      && BusProperties.Delivered(b.subs, r.0.subs, Subscribers(b, "quit"), Msg("quit", JStr("app_main"), JObj(map[])))
  {
    BusProperties.PublishUnbounded(b, "quit", JStr("app_main"), JObj(map[]));
  }

  /** An empty body is answered 4.00 without touching the bus or sending
      an ACK; so is one that does not decode or decodes to something falsy. */
  lemma EmptyBodyRejected(b: Bus, req: Request, loads: Bytes -> Result<Json>, floatOf: string -> Result<real>,
                          tmp: SubRef, arrival: Option<Msg>, fixed: bool)
    requires MessageBus.Valid(b) && tmp !in b.subs
    requires |req.payload| == 0 || loads(req.payload).Raise? || !Truthy(loads(req.payload).value)
    ensures Bridge(b, req, loads, floatOf, tmp, arrival, fixed) ==
      (b, HandlerRun(false, Ok(Reply(RESP_BAD_REQ, TextReply("Bad Request missing body").fields))))
  {
  }

  /** The request body as the bridge reads it: an object naming a string
      topic and a payload. */
  predicate Publishable(req: Request, loads: Bytes -> Result<Json>, t: string, payload: Json)
  {
    var data := RequestJson(req.payload, loads);
    data.JObj? && "topic" in data.fields && data.fields["topic"] == JStr(t)
    && "payload" in data.fields && data.fields["payload"] == payload
  }

  /** Without a reply requested, the payload is published on the topic and
      the answer is 2.04 `{'text': 'OK'}`; no ACK goes out first. */
  lemma NoReplyRequested(b: Bus, req: Request, loads: Bytes -> Result<Json>, floatOf: string -> Result<real>,
                         tmp: SubRef, arrival: Option<Msg>, fixed: bool, t: string, payload: Json)
    requires MessageBus.Valid(b) && tmp !in b.subs
    requires Publishable(req, loads, t, payload)
    requires Publish(b, t, JStr("app_main"), payload).1.None?
    requires WantsReply(RequestJson(req.payload, loads).fields) == Ok(false)
    ensures Bridge(b, req, loads, floatOf, tmp, arrival, fixed) ==
      (Publish(b, t, JStr("app_main"), payload).0, HandlerRun(false, Ok(Reply(RESP_CHANGED, TextReply("OK").fields))))
  {
  }

  /** The ACK goes out exactly on the reply path, that is when the body is
      publishable, the publish went through and a reply is asked for. */
  lemma AckOnlyOnReplyPath(b: Bus, req: Request, loads: Bytes -> Result<Json>, floatOf: string -> Result<real>,
                           tmp: SubRef, arrival: Option<Msg>, fixed: bool)
    requires MessageBus.Valid(b) && tmp !in b.subs
    ensures Bridge(b, req, loads, floatOf, tmp, arrival, fixed).1.sendsAck <==>
      exists t, payload :: Publishable(req, loads, t, payload)
        && Publish(b, t, JStr("app_main"), payload).1.None?
        && WantsReply(RequestJson(req.payload, loads).fields) == Ok(true)
  {
    var data := RequestJson(req.payload, loads);
    if Bridge(b, req, loads, floatOf, tmp, arrival, fixed).1.sendsAck {
      var t := data.fields["topic"].s;
      var payload := data.fields["payload"];
      assert Publishable(req, loads, t, payload);
    }
  }

  /** On the reply path the bridge hands over to `Await` on the bus the
      publish left. */
  lemma BridgeAwaits(b: Bus, req: Request, loads: Bytes -> Result<Json>, floatOf: string -> Result<real>,
                     tmp: SubRef, arrival: Option<Msg>, fixed: bool, t: string, payload: Json)
    requires MessageBus.Valid(b) && tmp !in b.subs
    requires Publishable(req, loads, t, payload)
    requires Publish(b, t, JStr("app_main"), payload).1.None?
    requires WantsReply(RequestJson(req.payload, loads).fields) == Ok(true)
    ensures var p := Publish(b, t, JStr("app_main"), payload).0;
      && MessageBus.Valid(p) && tmp !in p.subs
      && Bridge(b, req, loads, floatOf, tmp, arrival, fixed) == Await(p, RequestJson(req.payload, loads).fields, floatOf, tmp, arrival, fixed)
  {
    BusProperties.PublishValid(b, t, JStr("app_main"), payload);
  }

  /** With a non-empty string `reply_topic` and the default timeout, a reply
      on that topic is answered 2.05 and no reply is a timeout, which escapes
      as `QueueEmpty` as written. */
  lemma AwaitDefault(p: Bus, f: map<string, Json>, floatOf: string -> Result<real>,
                     tmp: SubRef, arrival: Option<Msg>, fixed: bool, rt: string)
    requires MessageBus.Valid(p) && tmp !in p.subs
    requires "reply_topic" in f && f["reply_topic"] == JStr(rt) && |rt| > 0 && "reply_timeout" !in f
    ensures arrival.Some? && arrival.value.topic == rt ==>
      Await(p, f, floatOf, tmp, arrival, fixed).1 == HandlerRun(true, Ok(Reply(RESP_CONTENT, ReplyBody(arrival.value))))
    ensures arrival.None? ==>
      Await(p, f, floatOf, tmp, arrival, fixed).1 == HandlerRun(true,
        if fixed then Ok(Reply(RESP_INTERNAL_ERR, TextReply("Timeout waiting for reply").fields))
        else Raise(QueueEmpty("Queue get timed out")))
  {
    var b2 := NewSubscriber(p, tmp, BRIDGE_ID, JStr(rt), None).0;
    assert TopicNames(JStr(rt)) == ({rt}, None);
    assert WaitOf(GetOr(f, "reply_timeout", JInt(2)), floatOf) == Ok(Within);
    assert Await(p, f, floatOf, tmp, arrival, fixed).1 ==
      HandlerRun(true, AwaitReply(b2, f, floatOf, tmp, Arrival(arrival, {rt}), fixed).1);
  }

  /** On the reply path, a reply arriving on the reply topic is answered
      2.05 with its topic, sender and message. */
  lemma ReplyReceived(b: Bus, req: Request, loads: Bytes -> Result<Json>, floatOf: string -> Result<real>,
                      tmp: SubRef, fixed: bool, t: string, payload: Json, rt: string, m: Msg)
    requires MessageBus.Valid(b) && tmp !in b.subs
    requires Publishable(req, loads, t, payload)
    requires Publish(b, t, JStr("app_main"), payload).1.None?
    requires var f := RequestJson(req.payload, loads).fields;
      && WantsReply(f) == Ok(true)
      && "reply_topic" in f && f["reply_topic"] == JStr(rt) && |rt| > 0
      && "reply_timeout" !in f
    requires m.topic == rt
    ensures Bridge(b, req, loads, floatOf, tmp, Some(m), fixed).1 == HandlerRun(true, Ok(Reply(RESP_CONTENT, ReplyBody(m))))
  {
    BridgeAwaits(b, req, loads, floatOf, tmp, Some(m), fixed, t, payload);
    AwaitDefault(Publish(b, t, JStr("app_main"), payload).0, RequestJson(req.payload, loads).fields, floatOf, tmp, Some(m), fixed, rt);
  }

  /** As written, a reply that does not come in time escapes the handler as
      `QueueEmpty("Queue get timed out")` after the empty ACK, so the server
      sends a separate 5.00 carrying that text instead of the intended
      "Timeout waiting for reply". */
  lemma TimeoutEscapes(b: Bus, req: Request, loads: Bytes -> Result<Json>, floatOf: string -> Result<real>,
                       tmp: SubRef, t: string, payload: Json, rt: string,
                       s: Server, addr: Addr, codec: Codec)
    requires MessageBus.Valid(b) && tmp !in b.subs
    requires Publishable(req, loads, t, payload)
    requires Publish(b, t, JStr("app_main"), payload).1.None?
    requires var f := RequestJson(req.payload, loads).fields;
      && WantsReply(f) == Ok(true)
      && "reply_topic" in f && f["reply_topic"] == JStr(rt) && |rt| > 0
      && "reply_timeout" !in f
    requires s.msgId < MSG_ID_MOD && req.msgId < 65536 && req.mtype == TYPE_CON
    ensures var run := Bridge(b, req, loads, floatOf, tmp, None, false).1;
      && run == HandlerRun(true, Raise(QueueEmpty("Queue get timed out")))
      && Handle(s, addr, req, run, codec).1 ==
         [Send(addr, AckPacket(req.token, req.msgId, CODE_EMPTY)),
          Send(addr, RawPacket(req.token, Next(s.msgId), RESP_INTERNAL_ERR, codec.dumps(TextReply("Queue get timed out"))))]
  {
    BridgeAwaits(b, req, loads, floatOf, tmp, None, false, t, payload);
    AwaitDefault(Publish(b, t, JStr("app_main"), payload).0, RequestJson(req.payload, loads).fields, floatOf, tmp, None, false, rt);
    TimedOutReply(s, addr, req, codec);
  }

  /** The server's answer to a handler that sent the ACK and then raised
      the timeout. */
  lemma TimedOutReply(s: Server, addr: Addr, req: Request, codec: Codec)
    requires s.msgId < MSG_ID_MOD && req.msgId < 65536 && req.mtype == TYPE_CON
    ensures Handle(s, addr, req, HandlerRun(true, Raise(QueueEmpty("Queue get timed out"))), codec).1 ==
      [Send(addr, AckPacket(req.token, req.msgId, CODE_EMPTY)),
       Send(addr, RawPacket(req.token, Next(s.msgId), RESP_INTERNAL_ERR, codec.dumps(TextReply("Queue get timed out"))))]
  {
    ServerReplies.RaisedReply(s, addr, req, codec, true, QueueEmpty("Queue get timed out"));
  }

  /** With the timeout caught, the same situation is answered 5.00
      `{'text': 'Timeout waiting for reply'}`, separately after the ACK. */
  lemma TimeoutAnswered(b: Bus, req: Request, loads: Bytes -> Result<Json>, floatOf: string -> Result<real>,
                        tmp: SubRef, t: string, payload: Json, rt: string,
                        s: Server, addr: Addr, codec: Codec)
    requires MessageBus.Valid(b) && tmp !in b.subs
    requires Publishable(req, loads, t, payload)
    requires Publish(b, t, JStr("app_main"), payload).1.None?
    requires var f := RequestJson(req.payload, loads).fields;
      && WantsReply(f) == Ok(true)
      && "reply_topic" in f && f["reply_topic"] == JStr(rt) && |rt| > 0
      && "reply_timeout" !in f
    requires s.msgId < MSG_ID_MOD && req.msgId < 65536 && req.mtype == TYPE_CON
    ensures var run := Bridge(b, req, loads, floatOf, tmp, None, true).1;
      && run == HandlerRun(true, Ok(Reply(RESP_INTERNAL_ERR, TextReply("Timeout waiting for reply").fields)))
      && Handle(s, addr, req, run, codec).1 ==
         [Send(addr, AckPacket(req.token, req.msgId, CODE_EMPTY)),
          Send(addr, RawPacket(req.token, Next(s.msgId), RESP_INTERNAL_ERR, codec.dumps(TextReply("Timeout waiting for reply"))))]
  {
    BridgeAwaits(b, req, loads, floatOf, tmp, None, true, t, payload);
    AwaitDefault(Publish(b, t, JStr("app_main"), payload).0, RequestJson(req.payload, loads).fields, floatOf, tmp, None, true, rt);
    ServerReplies.SeparateReply(s, addr, req, codec, RESP_INTERNAL_ERR, TextReply("Timeout waiting for reply").fields);
  }

  /** Whatever happens, the bridge's temporary subscriber is on no topic
      afterwards and has no queue; every other subscriber and every topic
      list is as the publish left it. As written this fails only when the
      subscriber's constructor raises part-way (`AwaitLeaks`); the
      corrected handler cleans up on every path. */
  lemma BridgeCleansUp(b: Bus, req: Request, loads: Bytes -> Result<Json>, floatOf: string -> Result<real>,
                       tmp: SubRef, arrival: Option<Msg>, fixed: bool, t: string, payload: Json)
    requires MessageBus.Valid(b) && tmp !in b.subs
    requires Publishable(req, loads, t, payload)
    ensures var data := RequestJson(req.payload, loads);
      var r := Bridge(b, req, loads, floatOf, tmp, arrival, fixed).0;
      var p := Publish(b, t, JStr("app_main"), payload).0;
      !(data.JObj? && Leaks(data.fields, fixed)) ==>
      && (forall x :: x in b.subs ==> x in r.subs && r.subs[x] == p.subs[x])
      && (forall u :: u in p.topics ==> u in r.topics)
      && (forall u :: u in r.topics ==> r.topics[u] == Subscribers(p, u))
      && (tmp in r.subs ==> r.subs[tmp].queue.None?)
  {
    var f := RequestJson(req.payload, loads).fields;
    var p := Publish(b, t, JStr("app_main"), payload).0;
    var r := Bridge(b, req, loads, floatOf, tmp, arrival, fixed).0;
    BusProperties.PublishValid(b, t, JStr("app_main"), payload);
    if Publish(b, t, JStr("app_main"), payload).1.None? && WantsReply(f) == Ok(true) {
      AwaitCleansUp(p, f, floatOf, tmp, arrival, fixed);
    }
  }

  /** `Await` leaves every other subscriber and every topic list as it
      found them, unless the subscriber leaks. */
  lemma AwaitCleansUp(p: Bus, f: map<string, Json>, floatOf: string -> Result<real>,
                      tmp: SubRef, arrival: Option<Msg>, fixed: bool)
    requires MessageBus.Valid(p) && tmp !in p.subs
    ensures var r := Await(p, f, floatOf, tmp, arrival, fixed).0;
      !Leaks(f, fixed) ==>
      && (forall x :: x in p.subs ==> x in r.subs && r.subs[x] == p.subs[x])
      && (forall u :: u in p.topics ==> u in r.topics)
      && (forall u :: u in r.topics ==> r.topics[u] == Subscribers(p, u))
  {
    if "reply_topic" in f {
      if TopicNames(f["reply_topic"]).1.None? {
        AwaitReplyCleansUp(p, f, floatOf, tmp, arrival, fixed);
      } else if fixed {
        var names := TopicNames(f["reply_topic"]).0;
        var b2 := Joined(p, tmp, names);
        assert NewSubscriber(p, tmp, BRIDGE_ID, f["reply_topic"], None) == (b2, TopicNames(f["reply_topic"]).1);
        assert Await(p, f, floatOf, tmp, arrival, fixed).0 == Close(b2, tmp);
        JoinedThenClosed(p, tmp, names);
      }
    }
  }

  /** The case of `AwaitCleansUp` where the subscriber is created whole. */
  lemma AwaitReplyCleansUp(p: Bus, f: map<string, Json>, floatOf: string -> Result<real>,
                           tmp: SubRef, arrival: Option<Msg>, fixed: bool)
    requires MessageBus.Valid(p) && tmp !in p.subs
    requires "reply_topic" in f && TopicNames(f["reply_topic"]).1.None?
    ensures var r := Await(p, f, floatOf, tmp, arrival, fixed).0;
      && (forall x :: x in p.subs ==> x in r.subs && r.subs[x] == p.subs[x])
      && (forall u :: u in p.topics ==> u in r.topics)
      && (forall u :: u in r.topics ==> r.topics[u] == Subscribers(p, u))
  {
    var names := TopicNames(f["reply_topic"]).0;
    var b2 := Joined(p, tmp, names);
    var r := Await(p, f, floatOf, tmp, arrival, fixed).0;
    assert NewSubscriber(p, tmp, BRIDGE_ID, f["reply_topic"], None) == (b2, None);
    var o := AwaitReply(b2, f, floatOf, tmp, Arrival(arrival, names), fixed).0;
    AwaitUnfold(p, f, floatOf, tmp, arrival, fixed);
    assert r.topics == Close(b2, tmp).topics by { CloseSameTopics(b2, o, tmp); }
    JoinedThenClosed(p, tmp, names);
    forall x | x in p.subs ensures x in r.subs && r.subs[x] == p.subs[x] {
      assert x != tmp && o.subs[x] == b2.subs[x];
    }
  }

  /** As written, a `reply_topic` the constructor fails on part-way leaves
      the temporary subscriber, queue and all, on every topic named before
      the bad item. */
  lemma AwaitLeaks(p: Bus, f: map<string, Json>, floatOf: string -> Result<real>,
                   tmp: SubRef, arrival: Option<Msg>)
    requires MessageBus.Valid(p) && tmp !in p.subs
    requires Leaks(f, false)
    ensures var r := Await(p, f, floatOf, tmp, arrival, false);
      && r.1 == HandlerRun(true, Raise(TopicNames(f["reply_topic"]).1.value))
      && tmp in r.0.subs && r.0.subs[tmp].queue == Some(Queue(0, []))
      && forall u :: u in TopicNames(f["reply_topic"]).0 ==> tmp in r.0.topics[u]
  {
    var names := TopicNames(f["reply_topic"]).0;
    assert NewSubscriber(p, tmp, BRIDGE_ID, f["reply_topic"], None).0 == Joined(p, tmp, names);
  }

  /** Counterexample: `reply_topic` `["a", []]` subscribes to `a` and then
      raises `TypeError`; as written the subscriber stays on `a`, and the
      corrected handler takes it off. */
  lemma LeakOnBadTopicList(p: Bus, floatOf: string -> Result<real>, tmp: SubRef, arrival: Option<Msg>)
    requires MessageBus.Valid(p) && tmp !in p.subs
    ensures var f := map["reply_topic" := JList([JStr("a"), JList([])])];
      && Await(p, f, floatOf, tmp, arrival, false).1 == HandlerRun(true, Raise(TypeError("unhashable type")))
      && tmp in Await(p, f, floatOf, tmp, arrival, false).0.topics["a"]
      && tmp !in Await(p, f, floatOf, tmp, arrival, true).0.topics["a"]
  {
    var f := map["reply_topic" := JList([JStr("a"), JList([])])];
    var items := [JStr("a"), JList([])];
    assert FirstUnhashable(items) == 1 by {
      assert Hashable(items[0]) && !Hashable(items[1]);
      assert items[1..][0] == JList([]);
    }
    assert TopicNames(JList(items)).0 == {"a"} by {
      assert items[0] == JStr("a");
    }
    AwaitLeaks(p, f, floatOf, tmp, arrival);
    var b2 := Joined(p, tmp, {"a"});
    assert Await(p, f, floatOf, tmp, arrival, true).0 == Close(b2, tmp);
    JoinedThenClosed(p, tmp, {"a"});
    FreshOnNoTopic(p, p.(subs := p.subs[tmp := Sub(BRIDGE_ID, Some(Queue(0, [])))]), tmp);
    assert tmp !in Subscribers(p, "a");
  }

  /** The bus after the bridge's subscriber `tmp` joined `names`. */
  function Joined(p: Bus, tmp: SubRef, names: set<string>): Bus
  {
    SubscribeAll(p.(subs := p.subs[tmp := Sub(BRIDGE_ID, Some(Queue(0, [])))]), tmp, names)
  }

  /** With a usable `reply_topic`, `Await` subscribes, waits and closes. */
  lemma AwaitUnfold(p: Bus, f: map<string, Json>, floatOf: string -> Result<real>,
                    tmp: SubRef, arrival: Option<Msg>, fixed: bool)
    requires MessageBus.Valid(p) && tmp !in p.subs
    requires "reply_topic" in f && TopicNames(f["reply_topic"]).1.None?
    ensures var names := TopicNames(f["reply_topic"]).0;
      var b2 := Joined(p, tmp, names);
      && tmp in b2.subs && b2.subs[tmp].queue == Some(Queue(0, []))
      && Await(p, f, floatOf, tmp, arrival, fixed).0
         == Close(AwaitReply(b2, f, floatOf, tmp, Arrival(arrival, names), fixed).0, tmp)
  {
    var names := TopicNames(f["reply_topic"]).0;
    assert NewSubscriber(p, tmp, BRIDGE_ID, f["reply_topic"], None) == (Joined(p, tmp, names), None);
  }

  /** Joining and closing again leaves every topic list as it was. */
  lemma JoinedThenClosed(p: Bus, tmp: SubRef, names: set<string>)
    requires MessageBus.Valid(p) && tmp !in p.subs
    ensures var c := Close(Joined(p, tmp, names), tmp);
      && p.topics.Keys <= c.topics.Keys
      && forall u :: u in c.topics ==> c.topics[u] == Subscribers(p, u)
  {
    var p1 := p.(subs := p.subs[tmp := Sub(BRIDGE_ID, Some(Queue(0, [])))]);
    FreshOnNoTopic(p, p1, tmp);
    BusProperties.SubscribeThenClose(p1, tmp, names);
  }

  /** A subscriber just added to `subs` is on no topic. */
  lemma FreshOnNoTopic(p: Bus, p1: Bus, tmp: SubRef)
    requires MessageBus.Valid(p) && tmp !in p.subs && p1.topics == p.topics
    ensures forall u :: u in p1.topics ==> tmp !in p1.topics[u]
  {
    forall u | u in p1.topics ensures tmp !in p1.topics[u] {
      assert forall k :: 0 <= k < |p.topics[u]| ==> p.topics[u][k] in p.subs;
    }
  }

  /** Closing depends on the topic lists only through the lists. */
  lemma CloseSameTopics(b2: Bus, o: Bus, r: SubRef)
    requires r in b2.subs && r in o.subs && o.topics == b2.topics
    ensures Close(o, r).topics == Close(b2, r).topics
  {
  }
}

=== FILE: arith.dfy ===
/** Arithmetic on Python's unbounded integers: powers of two, floor
    division, and the bit fields that shifts and masks select. Python's `>>`
    and `//` round toward minus infinity, as Dafny's Euclidean `/` does for a
    positive divisor.
 */
module Arith {

  function Pow2(n: nat): (r: nat)
    ensures r >= 1
  {
    if n == 0 then 1 else 2 * Pow2(n - 1)
  }

  lemma {:induction false} Pow2Add(a: nat, b: nat)
    ensures Pow2(a + b) == Pow2(a) * Pow2(b)
  {
    if a > 0 {
      Pow2Add(a - 1, b);
      assert Pow2(a + b) == 2 * Pow2(a - 1 + b);
    }
  }

  /** Division with remainder is unique. */
  lemma DivModUnique(a: int, d: int, q: int, r: int)
    requires d > 0 && 0 <= r < d && a == q * d + r
    ensures a / d == q && a % d == r
  {
    var q0 := a / d;
    var r0 := a % d;
    assert (q - q0) * d == r0 - r;
    assert (q - q0) * d == -((q0 - q) * d);
    if q > q0 {
      MulAtLeast(q - q0, d);
    } else if q < q0 {
      MulAtLeast(q0 - q, d);
    }
  }

  lemma MulAtLeast(k: int, d: int)
    requires k >= 1 && d > 0
    ensures k * d >= d
  {
    assert k * d == (k - 1) * d + d;
    assert (k - 1) * d >= 0;
  }

  /** Dividing twice is dividing by the product. */
  lemma DivDiv(a: int, b: int, c: int)
    requires b > 0 && c > 0
    ensures (a / b) / c == a / (b * c)
  {
    var q := (a / b) / c;
    var m := (a / b) % c;
    assert a / b == q * c + m;
    assert a == (a / b) * b + a % b;
    assert a == q * (b * c) + (m * b + a % b) by {
      assert (q * c + m) * b == q * (b * c) + m * b;
    }
    assert 0 <= m * b + a % b < b * c by {
      assert m * b <= (c - 1) * b by { MulMono(m, c - 1, b); }
      assert (c - 1) * b == b * c - b;
    }
    DivModUnique(a, b * c, q, m * b + a % b);
  }

  lemma MulMono(x: int, y: int, b: int)
    requires 0 <= x <= y && b > 0
    ensures 0 <= x * b <= y * b
  {
    assert y * b == x * b + (y - x) * b;
    assert (y - x) * b >= 0;
  }

  /** `(value >> bit_position) & ((1 << bits) - 1)`: with Python's floor
      shift, this is Dafny's Euclidean division and remainder. */
  function Field(v: int, pos: nat, bits: nat): (r: nat)
    ensures r < Pow2(bits)
  {
    (v / Pow2(pos)) % Pow2(bits)
  }

  lemma Distrib(a: int, b: int, c: int)
    ensures (a + b) * c == a * c + b * c
  {
  }

  lemma MulAssoc(a: int, b: int, c: int)
    ensures (a * b) * c == a * (b * c)
  {
  }

  /** `v` split at `p` and again at `p * n`. */
  lemma DecomposeBy(v: int, p: int, n: int)
    requires p > 0 && n > 0
    ensures v == (v / (p * n)) * (p * n) + ((v / p) % n) * p + v % p
  {
    var a := v / p;
    var h := a / n;
    var f := a % n;
    assert v == a * p + v % p;
    assert a == h * n + f;
    DivDiv(v, p, n);
    Distrib(h * n, f, p);
    MulAssoc(h, n, p);
  }

  /** An integer in three parts: the bits above the field, the field, and
      the bits below it. */
  lemma Decompose(v: int, pos: nat, bits: nat)
    ensures v == (v / Pow2(pos + bits)) * Pow2(pos + bits) + Field(v, pos, bits) * Pow2(pos) + v % Pow2(pos)
  {
    Pow2Add(pos, bits);
    DecomposeBy(v, Pow2(pos), Pow2(bits));
  }

  lemma RecomposeBy(r: int, hi: int, f: int, lo: int, p: int, n: int)
    requires p > 0 && n > 0 && 0 <= f < n && 0 <= lo < p
    requires r == hi * (p * n) + f * p + lo
    ensures r / (p * n) == hi && (r / p) % n == f && r % p == lo
  {
    Distrib(hi * n, f, p);
    MulAssoc(hi, n, p);
    assert r == (hi * n + f) * p + lo;
    DivModUnique(r, p, hi * n + f, lo);
    DivModUnique(r / p, n, hi, f);
    DivDiv(r, p, n);
  }

  /** The three parts determine each other. */
  lemma Recompose(r: int, hi: int, f: int, lo: int, pos: nat, bits: nat)
    requires 0 <= f < Pow2(bits) && 0 <= lo < Pow2(pos)
    requires r == hi * Pow2(pos + bits) + f * Pow2(pos) + lo
    ensures r / Pow2(pos + bits) == hi && Field(r, pos, bits) == f && r % Pow2(pos) == lo
  {
    Pow2Add(pos, bits);
    RecomposeBy(r, hi, f, lo, Pow2(pos), Pow2(bits));
  }

  /** A bit above position `k` is read from the part above `k`. */
  lemma BitAbove(v: int, k: nat, q: nat)
    requires q >= k
    ensures Field(v, q, 1) == Field(v / Pow2(k), q - k, 1)
  {
    Pow2Add(k, q - k);
    DivDiv(v, Pow2(k), Pow2(q - k));
  }

  /** Adding an even number keeps the parity. */
  lemma ParityShift(m: int, x: int)
    ensures (m * 2 + x) % 2 == x % 2
  {
    DivModUnique(m * 2 + x, 2, m + x / 2, x % 2);
  }

  /** Below `p = 2 * e * d`, the parity of `v / d` is that of `(v % p) / d`. */
  lemma BitBelowBy(v: int, d: int, e: int)
    requires d > 0 && e > 0
    ensures (v / d) % 2 == ((v % (2 * e * d)) / d) % 2
  {
    var p := 2 * e * d;
    var a := v / p;
    var lo := v % p;
    assert v == a * p + lo;
    assert lo == (lo / d) * d + lo % d;
    assert a * p == (a * (2 * e)) * d by { MulAssoc(a, 2 * e, d); }
    Distrib(a * (2 * e), lo / d, d);
    assert v == (a * (2 * e) + lo / d) * d + lo % d;
    DivModUnique(v, d, a * (2 * e) + lo / d, lo % d);
    assert a * (2 * e) == (a * e) * 2 by { MulAssoc(a, e, 2); }
    ParityShift(a * e, lo / d);
  }

  /** A bit below position `k` is read from the part below `k`. */
  lemma BitBelow(v: int, k: nat, q: nat)
    requires q < k
    ensures Field(v, q, 1) == Field(v % Pow2(k), q, 1)
  {
    var d := Pow2(q);
    var e := Pow2(k - q - 1);
    assert Pow2(k - q) == 2 * e;
    assert Pow2(k) == d * (2 * e) by { Pow2Add(q, k - q); }
    assert Pow2(k) == 2 * e * d;
    BitBelowBy(v, d, e);
  }

  /** Python's `a // b`, rounding toward minus infinity. */
  function FloorDiv(a: int, b: int): int
    requires b != 0
  {
    if b > 0 then a / b else (-a) / (-b)
  }

  lemma DivAntitone(a: int, b1: int, b2: int)
    requires a >= 0 && 0 < b1 <= b2
    ensures a / b2 <= a / b1
  {
    var q := a / b2;
    assert q >= 0;
    MulMono(b1, b2, q + 1);
    assert q * b2 <= a;
    MulMono(b1, b2, if q == 0 then 1 else q);
    if q > 0 {
      assert q * b1 <= q * b2;
      assert a == (a / b1) * b1 + a % b1;
      if a / b1 < q {
        MulMono(a / b1 + 1, q, b1);
      }
    }
  }
}

=== FILE: async_restful.dfy ===
/** The firmware's asynchronous HTTP server (`utils/async_restful_server.py`):
    route registration and lookup, the dispatch of a request line's path,
    the size rule of `ClientRequest.json`, the busy-client counter of
    `_handle_client`, and the file names the upload and download routes
    derive from their query parameters. Sockets, file streaming and gzip are
    not modelled; what they would answer is a parameter.
 */
module AsyncRestful {
  import opened Wrappers
  import opened Json
  import opened PyStr
  import opened HttpQuery

  const MAX_CLIENTS := 5
  const MAX_JSON_SIZE := 2048

  // ---------------------------------------------------------------------
  // Routes
  // ---------------------------------------------------------------------

  /** One entry of `_routes`. The dictionary key is the path with the sorted
      method tuple; two method lists with the same members sort to the same
      tuple, so the key's methods are kept as a multiset. */
  datatype Route<H> = Route(path: string, methods: multiset<string>, handler: H)

  predicate HasRouteKey<H>(r: Route<H>, path: string, methods: multiset<string>)
  {
    r.path == path && r.methods == methods
  }

  /** A dictionary holds each key once. */
  predicate UniqueKeys<H>(routes: seq<Route<H>>)
  {
    forall i, j :: 0 <= i < j < |routes| ==> !HasRouteKey(routes[j], routes[i].path, routes[i].methods)
  }

  /** Where the key already sits, if it does. */
  function KeyIndex<H>(routes: seq<Route<H>>, path: string, methods: multiset<string>): (r: Option<nat>)
    ensures r.None? <==> forall i :: 0 <= i < |routes| ==> !HasRouteKey(routes[i], path, methods)
    ensures r.Some? ==> r.value < |routes| && HasRouteKey(routes[r.value], path, methods)
  {
    if |routes| == 0 then None
    else if HasRouteKey(routes[|routes| - 1], path, methods) then Some(|routes| - 1)
    else KeyIndex(routes[..|routes| - 1], path, methods)
  }

  /** `route(path, methods)(handler)`: assigning an existing key replaces its
      handler; a new key is added. The position of an entry in `routes` is
      only a name for it, not the order the dictionary iterates in. */
  function Register<H>(routes: seq<Route<H>>, path: string, methods: seq<string>, h: H): (r: seq<Route<H>>)
    ensures |r| == |routes| || |r| == |routes| + 1
  {
    var key := multiset(methods);
    match KeyIndex(routes, path, key)
    case Some(i) => routes[i := Route(path, key, h)]
    case None => routes + [Route(path, key, h)]
  }

  predicate Serves<H>(r: Route<H>, path: string, verb: string)
  {
    r.path == path && verb in r.methods
  }

  /** An order in which iterating `_routes.items()` can meet the `n`
      entries: each position once. A MicroPython dictionary iterates in
      hash-table order, which a rehash may change, so the lookup takes the
      order as given rather than assuming insertion order. */
  predicate IterationOrder(order: seq<nat>, n: nat)
  {
    && (forall k :: 0 <= k < |order| ==> order[k] < n)
    && (forall i :: 0 <= i < n ==> i in order)
    && forall j, k :: 0 <= j < k < |order| ==> order[j] != order[k]
  }

  /** The place in `order` of the first entry serving the request. */
  function FirstIn<H>(routes: seq<Route<H>>, order: seq<nat>, path: string, verb: string): (r: Option<nat>)
    requires forall k :: 0 <= k < |order| ==> order[k] < |routes|
    ensures r.None? <==> forall k :: 0 <= k < |order| ==> !Serves(routes[order[k]], path, verb)
    ensures r.Some? ==> (r.value < |order| && Serves(routes[order[r.value]], path, verb)
      && forall j :: 0 <= j < r.value ==> !Serves(routes[order[j]], path, verb))
    decreases |order|
  {
    if |order| == 0 then None
    else if Serves(routes[order[0]], path, verb) then Some(0)
    else
      match FirstIn(routes, order[1..], path, verb)
      case Some(k) => Some(k + 1)
      case None =>
        assert forall k :: 1 <= k < |order| ==> order[k] == order[1..][k - 1];
        None
  }

  /** The loop of `_find_handler`: the entry whose path is equal and whose
      methods hold the verb, the first such in iteration order, or `None`
      when no entry serves the request. */
  function FindRoute<H>(routes: seq<Route<H>>, order: seq<nat>, path: string, verb: string): (r: Option<nat>)
    requires IterationOrder(order, |routes|)
    ensures r.None? <==> forall i :: 0 <= i < |routes| ==> !Serves(routes[i], path, verb)
    ensures r.Some? ==> r.value < |routes| && Serves(routes[r.value], path, verb)
    ensures r.Some? ==> exists k :: (0 <= k < |order| && order[k] == r.value
      && forall j :: 0 <= j < k ==> !Serves(routes[order[j]], path, verb))
  {
    match FirstIn(routes, order, path, verb)
    case Some(k) => Some(order[k])
    case None =>
      assert forall i :: 0 <= i < |routes| ==> !Serves(routes[i], path, verb) by {
        forall i | 0 <= i < |routes| ensures !Serves(routes[i], path, verb) {
          assert i in order;
          var k :| 0 <= k < |order| && order[k] == i;
        }
      }
      None
  }

  /** `_find_handler`: the handler found, or `None`. */
  function FindHandler<H>(routes: seq<Route<H>>, order: seq<nat>, path: string, verb: string): Option<H>
    requires IterationOrder(order, |routes|)
  {
    match FindRoute(routes, order, path, verb)
    case Some(i) => Some(routes[i].handler)
    case None => None
  }

  /** Where `_handle_request` sends a request once its line is split: the
      matching handler with the parsed query, or the 404 answer. */
  datatype Routed<H> = Handler(handler: H, query: map<string, string>) | NoRoute

  function Dispatch<H>(routes: seq<Route<H>>, order: seq<nat>, verb: string, fullPath: string): (r: Routed<H>)
    requires IterationOrder(order, |routes|)
    ensures r.Handler? <==> exists i :: 0 <= i < |routes| && Serves(routes[i], SplitPath(fullPath, true).0, verb)
    ensures r.Handler? ==> r.query == SplitPath(fullPath, true).1
  {
    var (path, query) := SplitPath(fullPath, true);
    match FindHandler(routes, order, path, verb)
    case Some(h) => Handler(h, query)
    case None => NoRoute
  }

  /** What `_handle_request` does with a connection. */
  datatype Handled<H> =
    | Silent                                                  // returns without an answer
    | Status(code: int)                                       // `_send_response` with that status
    | Call(handler: H, query: map<string, string>, length: int)  // the handler runs

  /** `_handle_request`: an empty line or a bare `\r\n` returns at once; a
      line that does not split into three words raises inside the `try`,
      which answers 500, and so does a failed header loop (`length` is its
      outcome: the `Content-Length` value or the error of its `int()`);
      otherwise the request is routed, 404 when no entry serves it. */
  function HandleRequest<H>(routes: seq<Route<H>>, order: seq<nat>, line: string, length: Result<int>): (r: Handled<H>)
    requires IterationOrder(order, |routes|)
  {
    if line == "" || line == "\r\n" then Silent
    else
      match RequestLine(line)
      case Raise(_) => Status(500)
      case Ok((verb, fullPath)) =>
        match length
        case Raise(_) => Status(500)
        case Ok(n) =>
          match Dispatch(routes, order, verb, fullPath)
          case Handler(h, q) => Call(h, q, n)
          case NoRoute => Status(404)
  }

  // ---------------------------------------------------------------------
  // Request bodies
  // ---------------------------------------------------------------------

  /** The text of the `ValueError` for an oversized body. */
  function TooLargeText(n: int): string
  {
    "JSON too large (" + DecimalText(n) + " bytes)"
  }

  /** `ClientRequest.json()`. `read` is what `readexactly(content_length)`
      would give and `loads` is `ujson.loads`; neither is consulted above
      the limit or for an empty body. */
  function BodyJson(contentLength: int, read: Result<Bytes>, loads: Bytes -> Result<Json>): (r: Result<Json>)
    ensures contentLength > MAX_JSON_SIZE ==> r.Raise? && r.exc.ValueError?
    ensures contentLength == 0 ==> r == Ok(JObj(map[]))
    ensures contentLength <= MAX_JSON_SIZE && contentLength != 0 && read.Raise? ==> r == Raise(read.exc)
    ensures contentLength <= MAX_JSON_SIZE && contentLength != 0 && read.Ok? ==> r == loads(read.value)
  {
    if contentLength > MAX_JSON_SIZE then Raise(ValueError(TooLargeText(contentLength)))
    else if contentLength == 0 then Ok(JObj(map[]))
    else
      match read
      case Raise(e) => Raise(e)
      case Ok(data) => loads(data)
  }

  // ---------------------------------------------------------------------
  // The client counter
  // ---------------------------------------------------------------------

  /** `_client_count` with the connections that are inside `_handle_client`:
      those counted in, and those being told the server is busy. */
  datatype Clients = Clients(count: int, admitted: set<nat>, busy: set<nat>)

  const NO_CLIENTS := Clients(0, {}, {})

  datatype ClientEvent = Connect(c: nat) | Finish(c: nat)

  /** A connection enters `_handle_client`: at or above the limit it gets the
      503 answer and is not counted; otherwise it is counted in. */
  function Enter(s: Clients, c: nat): (r: Clients)
    ensures s.count >= MAX_CLIENTS ==> r.count == s.count && r.admitted == s.admitted && r.busy == s.busy + {c}
    ensures s.count < MAX_CLIENTS ==> r.count == s.count + 1 && r.admitted == s.admitted + {c} && r.busy == s.busy
  {
    if s.count >= MAX_CLIENTS then s.(busy := s.busy + {c})
    else Clients(s.count + 1, s.admitted + {c}, s.busy)
  }

  /** The `finally` clause. As written it decrements for every connection,
      the busy ones included; with `fixed` only a counted connection is
      counted out. */
  function Leave(s: Clients, c: nat, fixed: bool): (r: Clients)
    ensures r.admitted == s.admitted - {c}
    ensures c in s.admitted ==> r.count == s.count - 1
    ensures c !in s.admitted ==> (r.count == s.count <==> fixed) && r.count >= s.count - 1
  {
    if c in s.admitted then Clients(s.count - 1, s.admitted - {c}, s.busy)
    else Clients(if fixed then s.count else s.count - 1, s.admitted, s.busy - {c})
  }

  /** One event; a `Connect` of a connection already inside and a `Finish`
      of one that is not inside cannot happen and change nothing. */
  function ClientStep(s: Clients, e: ClientEvent, fixed: bool): (r: Clients)
    ensures r.count - |r.admitted| <= s.count - |s.admitted|
    ensures fixed ==> r.count - |r.admitted| == s.count - |s.admitted|
  {
    match e
    case Connect(c) => if c in s.admitted || c in s.busy then s else Enter(s, c)
    case Finish(c) => if c in s.admitted || c in s.busy then Leave(s, c, fixed) else s
  }

  /** The counter never runs ahead of the connections counted in; with
      `fixed` it stays exactly their number plus what it started above it. */
  function ClientRun(s: Clients, events: seq<ClientEvent>, fixed: bool): (r: Clients)
    ensures r.count - |r.admitted| <= s.count - |s.admitted|
    ensures fixed ==> r.count - |r.admitted| == s.count - |s.admitted|
    decreases |events|
  {
    if |events| == 0 then s else ClientRun(ClientStep(s, events[0], fixed), events[1..], fixed)
  }

  // ---------------------------------------------------------------------
  // Upload and download names
  // ---------------------------------------------------------------------

  /** `name.lstrip("/").replace("..", "")`, as both file routes write it. */
  function Sanitize(name: string): (r: string)
    ensures !ContainsPair(r, '.', '.')
  {
    RemoveDotDotComplete(LStrip(name, '/'));
    Replace(LStrip(name, '/'), "..", "")
  }

  /** The evidently intended order: remove `..` first, then the leading
      slashes, so that neither survives. */
  function SanitizeFixed(name: string): (r: string)
    ensures !ContainsPair(r, '.', '.')
    ensures |r| == 0 || r[0] != '/'
  {
    var t := Replace(name, "..", "");
    RemoveDotDotComplete(name);
    StripKeepsNoPair(t);
    LStrip(t, '/')
  }

  /** Stripping leading slashes from a text without `..` leaves none. */
  lemma StripKeepsNoPair(t: string)
    requires !ContainsPair(t, '.', '.')
    ensures !ContainsPair(LStrip(t, '/'), '.', '.')
  {
    var r := LStrip(t, '/');
    var k :| 0 <= k <= |t| && r == t[k..] && forall j :: 0 <= j < k ==> t[j] == '/';
    SuffixKeepsNoPair(t, k);
  }

  /** A suffix of a text without `..` has none either. */
  lemma SuffixKeepsNoPair(t: string, k: nat)
    requires k <= |t| && !ContainsPair(t, '.', '.')
    ensures !ContainsPair(t[k..], '.', '.')
  {
    var r := t[k..];
    forall j | 0 <= j < |r| - 1 ensures !(r[j] == '.' && r[j + 1] == '.') {
      assert r[j] == t[k + j] && r[j + 1] == t[k + j + 1];
    }
  }

  function Sanitized(name: string, fixed: bool): (r: string)
    ensures !ContainsPair(r, '.', '.')
    ensures fixed ==> |r| == 0 || r[0] != '/'
  {
    if fixed then SanitizeFixed(name) else Sanitize(name)
  }

  /** What a file route decides before touching the file system. */
  datatype FileAction =
    | Refuse(status: int, text: string)
    | Save(name: string, compress: bool)
    | Serve(name: string)

  /** `upload_handler`: a missing or empty `filename` is 400; otherwise the
      sanitised name, with `.gz` appended when `compress=true` was asked
      for and the `deflate` module is there. */
  function Upload(query: map<string, string>, hasDeflate: bool, fixed: bool): (r: FileAction)
    ensures r.Refuse? <==> "filename" !in query || query["filename"] == ""
    ensures r.Refuse? ==> r.status == 400
    ensures r.Save? ==> (r.compress <==> "compress" in query && query["compress"] == "true" && hasDeflate)
  {
    if "filename" !in query || query["filename"] == "" then Refuse(400, "Missing filename")
    else
      var name := Sanitized(query["filename"], fixed);
      var compress := "compress" in query && query["compress"] == "true" && hasDeflate;
      Save(if compress then name + ".gz" else name, compress)
  }

  /** `download_handler`: a missing or empty `file` is 400; otherwise the
      sanitised name goes to `send_file`. */
  function Download(query: map<string, string>, fixed: bool): (r: FileAction)
    ensures r.Refuse? <==> "file" !in query || query["file"] == ""
    ensures r.Refuse? ==> r.status == 400
    ensures r.Serve? ==> !ContainsPair(r.name, '.', '.')
  {
    if "file" !in query || query["file"] == "" then Refuse(400, "Missing file param")
    else Serve(Sanitized(query["file"], fixed))
  }

  /** What `send_file` opens: the `.gz` sibling when the directory lists
      one, the file itself when it is listed, nothing otherwise. */
  datatype Sent = FileMissing | SendPlain(path: string) | SendGzip(path: string)

  /** `(directory, name)` as `send_file` splits a path: at the last `/`
      after turning backslashes into slashes, `/` when there is none. */
  function DirAndName(filename: string): (r: (string, string))
    ensures '/' !in r.1
    ensures '/' in ReplaceChar(filename, '\\', '/') ==> ReplaceChar(filename, '\\', '/') == r.0 + "/" + r.1
    ensures '/' !in ReplaceChar(filename, '\\', '/') ==> r == ("/", filename)
  {
    match RPartition(ReplaceChar(filename, '\\', '/'), '/')
    case None => ("/", filename)
    case Some((d, n)) => (d, n)
  }

  /** `send_file` choosing the file, with `listdir` the directory listing.
      As written the `.gz` name drops the directory the listing was taken
      from; with `fixed` the path keeps it. */
  function SendFile(filename: string, listdir: string -> seq<string>, fixed: bool): (r: Sent)
    ensures r.SendGzip? <==> DirAndName(filename).1 + ".gz" in listdir(DirAndName(filename).0)
    ensures r.FileMissing? <==> (DirAndName(filename).1 + ".gz" !in listdir(DirAndName(filename).0)
      && DirAndName(filename).1 !in listdir(DirAndName(filename).0))
    ensures r.SendPlain? ==> r.path == filename
  {
    var (dir, name) := DirAndName(filename);
    if name + ".gz" in listdir(dir) then
      SendGzip(if fixed then ReplaceChar(filename, '\\', '/') + ".gz" else name + ".gz")
    else if name !in listdir(dir) then FileMissing
    else SendPlain(filename)
  }
}

=== FILE: async_restful_props.dfy ===
/** What the asynchronous HTTP server promises: registration and lookup
    agree, the body rule never reads outside its window, the corrected
    client counter stays exact, and the file routes never hand `..` to the
    file system.
 */
module AsyncRestfulProperties {
  import opened Wrappers
  import opened Json
  import opened PyStr
  import opened HttpQuery
  import opened AsyncRestful
  import opened HttpQueryProperties

  // ---------------------------------------------------------------------
  // Routes
  // ---------------------------------------------------------------------

  /** Registering keeps the dictionary's keys unique. */
  lemma RegisterUnique<H>(routes: seq<Route<H>>, path: string, methods: seq<string>, h: H)
    requires UniqueKeys(routes)
    ensures UniqueKeys(Register(routes, path, methods, h))
  {
    var r := Register(routes, path, methods, h);
    var key := multiset(methods);
    match KeyIndex(routes, path, key)
    case Some(k) =>
      forall i, j | 0 <= i < j < |r| ensures !HasRouteKey(r[j], r[i].path, r[i].methods) {
        assert HasRouteKey(r[i], routes[i].path, routes[i].methods) && HasRouteKey(r[j], routes[j].path, routes[j].methods);
      }
    case None =>
      forall i, j | 0 <= i < j < |r| ensures !HasRouteKey(r[j], r[i].path, r[i].methods) {
        if j == |routes| {
          assert !HasRouteKey(routes[i], path, key);
        }
      }
  }

  /** Registering leaves every other key where it was, with its handler. */
  lemma RegisterKeepsOthers<H>(routes: seq<Route<H>>, path: string, methods: seq<string>, h: H)
    ensures var r := Register(routes, path, methods, h);
      forall j :: 0 <= j < |routes| && !HasRouteKey(routes[j], path, multiset(methods)) ==> r[j] == routes[j]
  {
  }

  /** After registering `h` for a path and method list, a request with that
      path and one of those methods finds `h`, whatever order the
      dictionary iterates in, unless a route with another key serves it
      too. */
  lemma RegisterThenFind<H>(routes: seq<Route<H>>, path: string, methods: seq<string>, h: H, verb: string, order: seq<nat>)
    requires UniqueKeys(routes) && verb in methods
    requires forall i :: 0 <= i < |routes| && Serves(routes[i], path, verb) ==> HasRouteKey(routes[i], path, multiset(methods))
    requires IterationOrder(order, |Register(routes, path, methods, h)|)
    ensures FindHandler(Register(routes, path, methods, h), order, path, verb) == Some(h)
  {
    var r := Register(routes, path, methods, h);
    var key := multiset(methods);
    assert verb in key;
    match KeyIndex(routes, path, key)
    case Some(k) => assert Serves(r[k], path, verb);
    case None => assert Serves(r[|routes|], path, verb);
  }

  /** Registering a path changes no lookup of another path: the entries
      serving it are the ones that did, and whatever is found for it is an
      entry registering left as it was. */
  lemma RegisterElsewhere<H>(routes: seq<Route<H>>, path: string, methods: seq<string>, h: H,
                             other: string, verb: string, order: seq<nat>)
    requires other != path
    requires IterationOrder(order, |Register(routes, path, methods, h)|)
    ensures var r := Register(routes, path, methods, h);
      && (forall i :: 0 <= i < |r| ==> (Serves(r[i], other, verb) <==> i < |routes| && Serves(routes[i], other, verb)))
      && (FindRoute(r, order, other, verb).None? <==> forall i :: 0 <= i < |routes| ==> !Serves(routes[i], other, verb))
      && (FindRoute(r, order, other, verb).Some? ==>
            var i := FindRoute(r, order, other, verb).value; i < |routes| && r[i] == routes[i])
  {
  }

  /** When at most one entry serves a request, the iteration order does
      not matter: every order finds that entry. */
  lemma OrderIrrelevant<H>(routes: seq<Route<H>>, order1: seq<nat>, order2: seq<nat>, path: string, verb: string)
    requires IterationOrder(order1, |routes|) && IterationOrder(order2, |routes|)
    requires forall i, j :: 0 <= i < |routes| && 0 <= j < |routes| && Serves(routes[i], path, verb) && Serves(routes[j], path, verb) ==> i == j
    ensures FindRoute(routes, order1, path, verb) == FindRoute(routes, order2, path, verb)
  {
  }

  /** Two keys that overlap, `("/x", ("GET",))` and `("/x", ("GET", "POST"))`:
      which handler a `GET /x` reaches is decided by the iteration order,
      not by which was registered first. */
  lemma OverlapDependsOnOrder(h1: int, h2: int)
    ensures var routes := Register(Register([], "/x", ["GET"], h1), "/x", ["GET", "POST"], h2);
      && |routes| == 2
      && FindHandler(routes, [0, 1], "/x", "GET") == Some(h1)
      && FindHandler(routes, [1, 0], "/x", "GET") == Some(h2)
  {
    var get := multiset(["GET"]);
    var both := multiset(["GET", "POST"]);
    assert both["POST"] == 1 && get["POST"] == 0;
    var r1 := Register([], "/x", ["GET"], h1);
    var none: seq<Route<int>> := [];
    assert KeyIndex(none, "/x", get) == None;
    assert r1 == [Route("/x", get, h1)];
    assert !HasRouteKey(r1[0], "/x", both);
    assert r1[..0] == [];
    assert KeyIndex(r1, "/x", both) == None;
    var routes := Register(r1, "/x", ["GET", "POST"], h2);
    assert routes == [Route("/x", get, h1), Route("/x", both, h2)];
    assert Serves(routes[0], "/x", "GET") && Serves(routes[1], "/x", "GET");
    assert FirstIn(routes, [0, 1], "/x", "GET") == Some(0);
    assert FirstIn(routes, [1, 0], "/x", "GET") == Some(0);
  }

  /** A request is dispatched to a handler iff some route serves its path
      (the text before any `?`) and method, and the handler gets the parsed
      query. */
  lemma DispatchMeaning<H>(routes: seq<Route<H>>, order: seq<nat>, verb: string, fullPath: string)
    requires IterationOrder(order, |routes|)
    ensures var (path, query) := SplitPath(fullPath, true);
      && (Dispatch(routes, order, verb, fullPath).Handler? <==> exists i :: 0 <= i < |routes| && Serves(routes[i], path, verb))
      && (Dispatch(routes, order, verb, fullPath).Handler? ==> Dispatch(routes, order, verb, fullPath).query == query)
      && ('?' !in fullPath ==> path == fullPath && query == map[])
  {
  }

  /** `_handle_request` on every line: it returns without an answer exactly
      for an empty line or a bare `\r\n`; otherwise it answers 500 exactly
      when the line is not three words or the header loop failed, and it
      runs a handler exactly when an entry serves the method and path. */
  lemma HandleRequestMeaning<H>(routes: seq<Route<H>>, order: seq<nat>, line: string, length: Result<int>)
    requires IterationOrder(order, |routes|)
    ensures var r := HandleRequest(routes, order, line, length);
      && (r.Silent? <==> line == "" || line == "\r\n")
      && (!r.Silent? ==> (r == Status(500) <==> |Words(line)| != 3 || length.Raise?))
      && (r.Call? <==> (!r.Silent? && |Words(line)| == 3 && length.Ok?
            && exists i :: 0 <= i < |routes| && Serves(routes[i], SplitPath(Words(line)[1], true).0, Words(line)[0])))
      && (r.Call? ==> r.length == length.value && r.query == SplitPath(Words(line)[1], true).1)
  {
    if !(line == "" || line == "\r\n") && |Words(line)| == 3 && length.Ok? {
      DispatchMeaning(routes, order, Words(line)[0], Words(line)[1]);
    }
  }

  /** A well-formed request line, such as `GET /x HTTP/1.1\r\n`, reaches
      the routing with its method and target; the empty line of a client
      that connects and closes gets no answer. */
  lemma WellFormedLineRouted<H>(routes: seq<Route<H>>, order: seq<nat>, verb: string, target: string, n: int)
    requires IterationOrder(order, |routes|) && IsWord(verb) && IsWord(target)
    ensures var r := HandleRequest(routes, order, verb + " " + target + " HTTP/1.1\r\n", Ok(n));
      match Dispatch(routes, order, verb, target)
      case Handler(h, q) => r == Call(h, q, n)
      case NoRoute => r == Status(404)
    ensures HandleRequest(routes, order, "", Ok(n)) == Silent
  {
    var line := verb + " " + target + " HTTP/1.1\r\n";
    assert IsWord("HTTP/1.1") && AllSpace("\r\n");
    RequestLineReads(verb, target, "HTTP/1.1", "\r\n");
    assert verb + " " + target + " " + "HTTP/1.1" + "\r\n" == line;
    assert line != "" && line != "\r\n" by { assert |line| > 2; }
  }

  // ---------------------------------------------------------------------
  // Request bodies
  // ---------------------------------------------------------------------

  /** Above 2048 bytes the request is refused with a `ValueError` whose text
      carries the length in decimal, and nothing is read. */
  lemma BodyTooLarge(n: int, read: Result<Bytes>, loads: Bytes -> Result<Json>)
    requires n > MAX_JSON_SIZE
    ensures exists t :: (BodyJson(n, read, loads) == Raise(ValueError("JSON too large (" + t + " bytes)"))
      && ParseInt(t, 10) == Ok(n))
  {
    DecimalRoundTrip(n);
    assert BodyJson(n, read, loads) == Raise(ValueError("JSON too large (" + DecimalText(n) + " bytes)"));
  }

  /** The body is consulted only between the limits: an empty body is `{}`,
      and above the limit or at zero what the reader would give does not
      matter. Inside the window the reader's bytes go to `loads`. */
  lemma BodyWindow(n: int, read: Result<Bytes>, other: Result<Bytes>, loads: Bytes -> Result<Json>)
    ensures n == 0 ==> BodyJson(n, read, loads) == Ok(JObj(map[]))
    ensures n > MAX_JSON_SIZE || n == 0 ==> BodyJson(n, read, loads) == BodyJson(n, other, loads)
    ensures n != 0 && n <= MAX_JSON_SIZE && read.Ok? ==> BodyJson(n, read, loads) == loads(read.value)
    ensures n != 0 && n <= MAX_JSON_SIZE && read.Raise? ==> BodyJson(n, read, loads) == Raise(read.exc)
  {
  }

  // ---------------------------------------------------------------------
  // The client counter
  // ---------------------------------------------------------------------

  /** The counter equals the number of counted connections, which stays
      within the limit and apart from the busy ones. */
  predicate CountExact(s: Clients)
  {
    s.count == |s.admitted| && |s.admitted| <= MAX_CLIENTS && s.admitted !! s.busy
  }

  /** With the `finally` decrement limited to counted connections, every
      event keeps the counter exact. */
  lemma FixedStepExact(s: Clients, e: ClientEvent)
    requires CountExact(s)
    ensures CountExact(ClientStep(s, e, true))
  {
    match e
    case Connect(c) =>
      if c !in s.admitted && c !in s.busy && s.count < MAX_CLIENTS {
        assert |s.admitted + {c}| == |s.admitted| + 1;
      }
    case Finish(c) =>
      if c in s.admitted {
        assert |s.admitted - {c}| == |s.admitted| - 1;
      }
  }

  /** ... and so does every run from the empty server. */
  lemma {:induction false} FixedRunExact(s: Clients, events: seq<ClientEvent>)
    requires CountExact(s)
    ensures CountExact(ClientRun(s, events, true))
    decreases |events|
  {
    if |events| > 0 {
      FixedStepExact(s, events[0]);
      FixedRunExact(ClientStep(s, events[0], true), events[1..]);
    }
  }

  /** As written, when the server is full a connection told it is busy
      lowers the counter it never raised on its way out, so the next
      connection is counted in while the others are still served: one
      handler more than `MAX_CLIENTS` runs, and the counter is one short. */
  lemma BusyExitDrifts(s: Clients, c: nat, d: nat)
    requires CountExact(s) && |s.admitted| == MAX_CLIENTS
    requires c != d && c !in s.admitted && c !in s.busy && d !in s.admitted && d !in s.busy
    ensures var t := ClientStep(ClientStep(ClientStep(s, Connect(c), false), Finish(c), false), Connect(d), false);
      && t.admitted == s.admitted + {d}
      && |t.admitted| == MAX_CLIENTS + 1
      && t.count == MAX_CLIENTS
  {
  }

  /** With the correction the same connections leave the next one busy. */
  lemma BusyExitKeepsLimit(s: Clients, c: nat, d: nat)
    requires CountExact(s) && |s.admitted| == MAX_CLIENTS
    requires c != d && c !in s.admitted && c !in s.busy && d !in s.admitted && d !in s.busy
    ensures var t := ClientStep(ClientStep(ClientStep(s, Connect(c), true), Finish(c), true), Connect(d), true);
      && t.admitted == s.admitted && d in t.busy && CountExact(t)
  {
  }

  // ---------------------------------------------------------------------
  // File names
  // ---------------------------------------------------------------------

  /** As written the slashes are stripped before `..` is removed, so the
      removal can uncover a leading slash. */
  lemma SanitizeUncoversSlash()
    ensures Sanitize("../a") == "/a"
  {
    assert LStrip("../a", '/') == "../a";
    assert "../a"[..2] == "..";
    assert Replace("/a", "..", "") == "/a" by {
      assert "/a"[..2] != "..";
      assert Replace("a", "..", "") == "a";
    }
    assert "../a"[2..] == "/a";
  }

  /** Removing `..` from a text that holds none changes nothing. */
  lemma {:induction false} ReplaceNoPair(s: string)
    requires !ContainsPair(s, '.', '.')
    ensures Replace(s, "..", "") == s
    decreases |s|
  {
    if |s| >= 2 {
      assert !(s[0] == '.' && s[1] == '.');
      assert s[..2] != "..";
      assert !ContainsPair(s[1..], '.', '.') by {
        forall k | 0 <= k < |s[1..]| - 1 ensures !(s[1..][k] == '.' && s[1..][k + 1] == '.') {
          assert s[1..][k] == s[k + 1] && s[1..][k + 1] == s[k + 2];
        }
      }
      ReplaceNoPair(s[1..]);
      assert s == [s[0]] + s[1..];
    }
  }

  /** On names without `..` the two sanitisers agree: both only strip the
      leading slashes. */
  lemma SanitizersAgree(name: string)
    requires !ContainsPair(name, '.', '.')
    ensures Sanitize(name) == SanitizeFixed(name) == LStrip(name, '/')
  {
    ReplaceNoPair(name);
    StripKeepsNoPair(name);
    ReplaceNoPair(LStrip(name, '/'));
  }

  /** The upload route refuses exactly a missing or empty `filename`; a
      saved name holds no `..` before its `.gz`, and with the corrected
      sanitiser does not start with a slash. */
  lemma UploadSafe(query: map<string, string>, hasDeflate: bool, fixed: bool)
    ensures var r := Upload(query, hasDeflate, fixed);
      && (r.Refuse? <==> "filename" !in query || query["filename"] == "")
      && (r.Refuse? ==> r == Refuse(400, "Missing filename"))
      && (r.Save? ==> r.compress == (hasDeflate && "compress" in query && query["compress"] == "true"))
      && (r.Save? ==> var base := if r.compress then r.name[..|r.name| - 3] else r.name;
            && !ContainsPair(base, '.', '.')
            && (fixed ==> |base| == 0 || base[0] != '/')
            && r.name == base + (if r.compress then ".gz" else ""))
  {
    var r := Upload(query, hasDeflate, fixed);
    if r.Save? && r.compress {
      var base := Sanitized(query["filename"], fixed);
      assert r.name == base + ".gz";
      assert r.name[..|r.name| - 3] == base;
    }
  }

  /** The download route refuses exactly a missing or empty `file` and
      otherwise serves a name without `..`. */
  lemma DownloadSafe(query: map<string, string>, fixed: bool)
    ensures var r := Download(query, fixed);
      && (r.Refuse? <==> "file" !in query || query["file"] == "")
      && (r.Refuse? ==> r == Refuse(400, "Missing file param"))
      && (r.Serve? ==> !ContainsPair(r.name, '.', '.') && (fixed ==> |r.name| == 0 || r.name[0] != '/'))
  {
  }

  /** With the correction, `send_file` sends exactly the sibling the listing
      showed: the requested path with `.gz` appended, or the path itself. */
  lemma SendFileSibling(filename: string, listdir: string -> seq<string>)
    ensures var (dir, name) := DirAndName(filename);
      var norm := ReplaceChar(filename, '\\', '/');
      && ('/' in norm ==> norm == dir + "/" + name)
      && ('/' !in norm ==> norm == name)
      && (SendFile(filename, listdir, true).SendGzip? <==> name + ".gz" in listdir(dir))
      && (SendFile(filename, listdir, true).SendGzip? ==> SendFile(filename, listdir, true).path == norm + ".gz")
      && (SendFile(filename, listdir, true).SendPlain? ==> SendFile(filename, listdir, true).path == filename && name in listdir(dir))
      && (SendFile(filename, listdir, true) == FileMissing <==> name + ".gz" !in listdir(dir) && name !in listdir(dir))
  {
    var norm := ReplaceChar(filename, '\\', '/');
    if '/' !in norm {
      assert forall k :: 0 <= k < |filename| ==> filename[k] != '\\' && filename[k] != '/' by {
        forall k | 0 <= k < |filename| ensures filename[k] != '\\' && filename[k] != '/' {
          assert norm[k] != '/';
        }
      }
      assert norm == filename;
    }
  }

  /** A text splits at its last separator in one way only. */
  lemma LastSeparator(a: string, b: string, a2: string, b2: string, c: char)
    requires a + [c] + b == a2 + [c] + b2 && c !in b && c !in b2
    ensures a == a2 && b == b2
  {
    var s := a + [c] + b;
    assert s[|a|] == c && s[|a2|] == c;
    assert forall k :: |a| < k < |s| ==> s[k] == b[k - |a| - 1];
    assert forall k :: |a2| < k < |s| ==> s[k] == b2[k - |a2| - 1];
    assert |a| == |a2|;
    assert b == s[|s| - |b|..] == b2;
    assert a == s[..|a|] == a2;
  }

  /** As written, asking for `dir/name` while `dir` lists `name.gz` sends
      `name.gz` from the current directory rather than from `dir`; with the
      correction it is `dir/name.gz`. */
  lemma SendFileDropsDirectory(dir: string, name: string, listdir: string -> seq<string>)
    requires '/' !in name && '\\' !in name && '\\' !in dir
    requires name + ".gz" in listdir(dir)
    ensures SendFile(dir + "/" + name, listdir, false) == SendGzip(name + ".gz")
    ensures SendFile(dir + "/" + name, listdir, true) == SendGzip(dir + "/" + name + ".gz")
  {
    var f := dir + "/" + name;
    assert '\\' !in f by {
      forall k | 0 <= k < |f| ensures f[k] != '\\' {
        if k < |dir| { assert f[k] == dir[k]; }
        else if k > |dir| { assert f[k] == name[k - |dir| - 1]; }
      }
    }
    ReplaceAbsent(f, '\\', '/');
    assert '/' in f by { assert f[|dir|] == '/'; }
    var p := RPartition(f, '/');
    LastSeparator(p.value.0, p.value.1, dir, name, '/');
  }
}

=== FILE: buzzer.dfy ===
/** The passive buzzer's tune parser (`devices/buzzer/buzzer_passive.py`):
    `note_to_freq` and `parse_rttl`, which turn an RTTTL ring tone
    (`name:d=4,o=6,b=63:notes`) into `(frequency, milliseconds)` pairs.
    Frequencies are exact reals and the millisecond arithmetic is done on
    exact reals, where the device uses floats. The PWM output of
    `BuzzerPassive` is not modelled.

    The parser can be run as written, where the clean-up deletes the digits
    of every note, or with `fixed`, where the digits survive so that a
    note's own duration and octave are read.
 */
module Buzzer {
  import opened Wrappers
  import opened PyStr

  /** `_NOTES`: the frequency in Hz of each note name in octave 4, and the
      pause `p`. */
  const NOTES: map<string, real> := map[
    "c" := 261.63, "c#" := 277.18, "d" := 293.66, "d#" := 311.13,
    "e" := 329.63, "f" := 349.23, "f#" := 369.99, "g" := 392.00,
    "g#" := 415.30, "a" := 440.00, "a#" := 466.16, "b" := 493.88,
    "p" := 0.0]

  /** `2 ** e` for an integer exponent, a fraction when `e` is negative. */
  function Pow2Real(e: int): (r: real)
    ensures r > 0.0
    decreases if e < 0 then -e else e
  {
    if e == 0 then 1.0
    else if e > 0 then 2.0 * Pow2Real(e - 1)
    else Pow2Real(e + 1) / 2.0
  }

  lemma {:induction false} Pow2RealStep(e: int)
    ensures Pow2Real(e) > 0.0
    ensures Pow2Real(e + 1) == 2.0 * Pow2Real(e)
    decreases if e < 0 then -e else e
  {
    if e < 0 {
      Pow2RealStep(e + 1);
    } else if e > 0 {
      Pow2RealStep(e - 1);
    }
  }

  /** `0 if n == 'p' else _NOTES[n] * (2 ** (o - 4))`: the pitch of a note
      name in an octave; a name outside the table raises `KeyError`. */
  function Pitch(name: string, octave: int): (r: Result<real>)
    ensures r.Ok? <==> name in NOTES
    ensures r.Raise? ==> r.exc == KeyError(name)
    ensures r.Ok? ==> r.value >= 0.0 && (r.value == 0.0 <==> name == "p")
  {
    if name == "p" then Ok(0.0)
    else if name in NOTES then Ok(NOTES[name] * Pow2Real(octave - 4))
    else Raise(KeyError(name))
  }

  /** The pause is silent in every octave, a table note sounds, and any
      other name is a `KeyError`. */
  lemma PitchMeaning(name: string, octave: int)
    ensures Pitch(name, octave).Ok? <==> name in NOTES
    ensures Pitch(name, octave).Raise? ==> Pitch(name, octave).exc == KeyError(name)
    ensures name == "p" ==> Pitch(name, octave) == Ok(0.0)
    ensures name != "p" && name in NOTES ==> Pitch(name, octave).value > 0.0
  {
    assert "p" in NOTES;
    if name != "p" && name in NOTES {
      Pow2RealStep(octave - 4);
      assert NOTES[name] > 0.0;
    }
  }

  /** One octave up doubles the pitch. */
  lemma PitchDoubles(name: string, octave: int)
    requires name in NOTES
    ensures Pitch(name, octave + 1).Ok? && Pitch(name, octave).Ok?
    ensures Pitch(name, octave + 1).value == 2.0 * Pitch(name, octave).value
  {
    PitchMeaning(name, octave);
    PitchMeaning(name, octave + 1);
    Pow2RealStep(octave - 4);
  }

  /** In octave 4 a note has its table frequency. */
  lemma PitchOctaveFour(name: string)
    requires name in NOTES
    ensures Pitch(name, 4) == Ok(NOTES[name])
  {
    assert "p" in NOTES && NOTES["p"] == 0.0;
  }

  // ---------------------------------------------------------------------
  // Scanning
  // ---------------------------------------------------------------------

  /** The length of the longest prefix of `s` whose characters satisfy `p`:
      what a greedy `*` or `+` of a character class matches. */
  function Span(s: string, p: char -> bool): (n: nat)
    ensures n <= |s|
    ensures forall k :: 0 <= k < n ==> p(s[k])
    ensures n < |s| ==> !p(s[n])
  {
    if |s| == 0 || !p(s[0]) then 0 else 1 + Span(s[1..], p)
  }

  /** `s` cut after its longest prefix satisfying `p`. */
  function TakeSpan(s: string, p: char -> bool): (r: (string, string))
    ensures r.0 + r.1 == s
    ensures forall k :: 0 <= k < |r.0| ==> p(r.0[k])
    ensures |r.1| > 0 ==> !p(r.1[0])
  {
    var n := Span(s, p);
    assert s[..n] + s[n..] == s;
    (s[..n], s[n..])
  }

  /** A prefix that satisfies `p`, followed by a character that does not
      (or by nothing), is exactly what `Span` measures. */
  lemma {:induction false} SpanOf(a: string, b: string, p: char -> bool)
    requires forall k :: 0 <= k < |a| ==> p(a[k])
    requires |b| > 0 ==> !p(b[0])
    ensures Span(a + b, p) == |a|
    decreases |a|
  {
    if |a| > 0 {
      assert (a + b)[1..] == a[1..] + b;
      SpanOf(a[1..], b, p);
    } else {
      assert a + b == b;
    }
  }

  lemma TakeSpanOf(a: string, b: string, p: char -> bool)
    requires forall k :: 0 <= k < |a| ==> p(a[k])
    requires |b| > 0 ==> !p(b[0])
    ensures TakeSpan(a + b, p) == (a, b)
  {
    SpanOf(a, b, p);
    assert (a + b)[..|a|] == a && (a + b)[|a|..] == b;
  }

  /** The class `[a-gA-GpP#]`. */
  predicate IsNoteChar(c: char)
  {
    'a' <= c <= 'g' || 'A' <= c <= 'G' || c == 'p' || c == 'P' || c == '#'
  }

  /** The class `[a-gp#]` of `note_to_freq`, applied after `lower()`. */
  predicate IsLowerNoteChar(c: char)
  {
    'a' <= c <= 'g' || c == 'p' || c == '#'
  }

  /** The groups of `([0-9]*)([a-gA-GpP#]*)(\.?)([0-9]*)` searched in a
      note: every part may be empty, so the match starts at the first
      character. */
  datatype Groups = Groups(dur: string, note: string, dot: bool, octave: string)

  function NoteGroups(n: string): (g: Groups)
    ensures AllDigits(g.dur) && AllNoteChars(g.note) && AllDigits(g.octave)
  {
    var (dur, rest) := TakeSpan(n, IsAsciiDigit);
    var (name, rest2) := TakeSpan(rest, IsNoteChar);
    var dot := |rest2| > 0 && rest2[0] == '.';
    var rest3 := if dot then rest2[1..] else rest2;
    Groups(dur, name, dot, TakeSpan(rest3, IsAsciiDigit).0)
  }

  /** The text of a note written in full: duration digits, a non-empty
      name, an optional dot and octave digits. */
  function NoteText(dur: string, name: string, dot: bool, octave: string): string
  {
    dur + name + (if dot then "." else "") + octave
  }

  predicate AllDigits(s: string)
  {
    forall k :: 0 <= k < |s| ==> IsAsciiDigit(s[k])
  }

  predicate AllNoteChars(s: string)
  {
    forall k :: 0 <= k < |s| ==> IsNoteChar(s[k])
  }

  /** The pattern splits a note written in full back into its parts. */
  lemma GroupsOfNoteText(dur: string, name: string, dot: bool, octave: string)
    requires AllDigits(dur) && AllDigits(octave)
    requires |name| > 0 && AllNoteChars(name)
    ensures NoteGroups(NoteText(dur, name, dot, octave)) == Groups(dur, name, dot, octave)
  {
    var ds := if dot then "." else "";
    var tail := ds + octave;
    assert NoteText(dur, name, dot, octave) == dur + (name + tail);
    TakeSpanOf(dur, name + tail, IsAsciiDigit);
    assert |tail| > 0 ==> !IsNoteChar(tail[0]);
    TakeSpanOf(name, tail, IsNoteChar);
    assert (if |tail| > 0 && tail[0] == '.' then tail[1..] else tail) == octave;
    TakeSpanOf(octave, "", IsAsciiDigit);
    assert octave + "" == octave;
  }

  // ---------------------------------------------------------------------
  // note_to_freq
  // ---------------------------------------------------------------------

  /** `note_to_freq(note)`: the first run of `[a-gp#]` in the lower-cased
      note is the name, digits after it (and after an optional dot) the
      octave, 4 when there are none. A note with no such character leaves
      the search without a match and raises `AttributeError`. */
  function NoteToFreq(note: string): (r: Result<real>)
    ensures r.Ok? ==> r.value >= 0.0
  {
    var (skipped, rest) := TakeSpan(Lower(note), IsOtherChar);
    if rest == "" then Raise(AttributeError("'NoneType' object has no attribute 'group'"))
    else
      var (name, rest2) := TakeSpan(rest, IsLowerNoteChar);
      var rest3 := if |rest2| > 0 && rest2[0] == '.' then rest2[1..] else rest2;
      var digits := TakeSpan(rest3, IsAsciiDigit).0;
      var octave :- if |digits| > 0 then ParseInt(digits, 10) else Ok(4);
      Pitch(name, octave)
  }

  predicate IsOtherChar(c: char)
  {
    !IsLowerNoteChar(c)
  }

  /** A lower-case name from the table, with no octave, sounds in octave
      4; followed by the digits of a non-negative octave it sounds in that
      octave. */
  lemma NoteToFreqOctave(name: string, octave: nat)
    requires name in NOTES
    ensures NoteToFreq(name) == Pitch(name, 4)
    ensures NoteToFreq(name + DecimalText(octave)) == Pitch(name, octave)
  {
    NameInTable(name);
    LowerOfName(name);
    TakeSpanOf("", name, IsOtherChar);
    assert "" + name == name;
    TakeSpanOf(name, "", IsLowerNoteChar);
    assert name + "" == name;
    TakeSpanOf("", "", IsAsciiDigit);
    NoteToFreqDigits(name, octave);
  }

  lemma NoteToFreqDigits(name: string, octave: nat)
    requires |name| > 0 && forall k :: 0 <= k < |name| ==> IsLowerNoteChar(name[k])
    ensures NoteToFreq(name + DecimalText(octave)) == Pitch(name, octave)
  {
    var digits := DecimalText(octave);
    LowerOfName(name);
    LowerOfDigits(digits);
    LowerAppend(name, digits);
    TakeSpanOf("", name + digits, IsOtherChar);
    assert "" + (name + digits) == name + digits;
    TakeSpanOf(name, digits, IsLowerNoteChar);
    TakeSpanOf(digits, "", IsAsciiDigit);
    assert digits + "" == digits;
    DecimalRoundTrip(octave);
  }

  /** The table's names: one or two characters, a lower-case letter and
      possibly `#`. */
  lemma NameInTable(name: string)
    requires name in NOTES
    ensures 1 <= |name| <= 2 && forall k :: 0 <= k < |name| ==> IsLowerNoteChar(name[k])
  {
  }

  lemma LowerOfName(name: string)
    requires forall k :: 0 <= k < |name| ==> IsLowerNoteChar(name[k])
    ensures Lower(name) == name
  {
  }

  lemma LowerOfDigits(s: string)
    requires IsDigits(s)
    ensures Lower(s) == s && s[0] != '.'
    ensures forall k :: 0 <= k < |s| ==> !IsLowerNoteChar(s[k])
  {
  }

  lemma LowerAppend(a: string, b: string)
    ensures Lower(a + b) == Lower(a) + Lower(b)
  {
  }

  /** A note with no character of `[a-gp#]`, whatever its case, has no
      match and raises. */
  lemma NoteToFreqNoMatch(note: string)
    requires forall k :: 0 <= k < |note| ==> !IsLowerNoteChar(ToLower(note[k]))
    ensures NoteToFreq(note).Raise? && NoteToFreq(note).exc.AttributeError?
  {
    TakeSpanOf(Lower(note), "", IsOtherChar);
    assert Lower(note) + "" == Lower(note);
  }

  // ---------------------------------------------------------------------
  // parse_rttl: the header
  // ---------------------------------------------------------------------

  /** `{p.split('=')[0]: p.split('=')[1] for p in defaults.split(',')}`: an
      item without `=` raises `IndexError`; a later item overrides an
      earlier one with the same key. */
  function Params(items: seq<string>): (r: Result<map<string, string>>)
    ensures r.Ok? <==> forall k :: 0 <= k < |items| ==> |Split(items[k], '=')| >= 2
    ensures r.Raise? ==> r.exc == IndexError
    decreases |items|
  {
    if items == [] then Ok(map[])
    else
      var m :- Params(items[..|items| - 1]);
      var kv := Split(items[|items| - 1], '=');
      if |kv| < 2 then Raise(IndexError) else Ok(m[kv[0] := kv[1]])
  }

  /** The keys of the header are the parts before the first `=` of its
      items. */
  lemma ParamsKeys(items: seq<string>, key: string)
    requires Params(items).Ok?
    ensures key in Params(items).value <==> exists k :: 0 <= k < |items| && Split(items[k], '=')[0] == key
  {
    if key in Params(items).value {
      ParamsKeyFrom(items, key);
    }
    forall k | 0 <= k < |items| && Split(items[k], '=')[0] == key
      ensures key in Params(items).value
    {
      ParamsHasKey(items, k);
    }
  }

  /** The header's last item, and what it adds to the earlier ones. */
  lemma ParamsLast(items: seq<string>)
    requires Params(items).Ok? && items != []
    ensures Params(items[..|items| - 1]).Ok?
    ensures var kv := Split(items[|items| - 1], '=');
      |kv| >= 2 && Params(items).value == Params(items[..|items| - 1]).value[kv[0] := kv[1]]
  {
    var init := items[..|items| - 1];
    forall k | 0 <= k < |init| ensures |Split(init[k], '=')| >= 2 {
      assert init[k] == items[k];
    }
    var kv := Split(items[|items| - 1], '=');
    assert |kv| >= 2;
    assert Params(items) == Ok(Params(init).value[kv[0] := kv[1]]);
  }

  lemma {:induction false} ParamsHasKey(items: seq<string>, k: nat)
    requires Params(items).Ok? && k < |items|
    ensures Split(items[k], '=')[0] in Params(items).value
    decreases |items|
  {
    var last := |items| - 1;
    ParamsLast(items);
    if k < last {
      ParamsHasKey(items[..last], k);
      assert items[..last][k] == items[k];
    }
  }

  lemma {:induction false} ParamsKeyFrom(items: seq<string>, key: string)
    requires Params(items).Ok? && key in Params(items).value
    ensures exists k :: 0 <= k < |items| && Split(items[k], '=')[0] == key
    decreases |items|
  {
    var last := |items| - 1;
    ParamsLast(items);
    if Split(items[last], '=')[0] != key {
      ParamsKeyFrom(items[..last], key);
      var k :| 0 <= k < last && Split(items[..last][k], '=')[0] == key;
      assert items[..last][k] == items[k];
    }
  }

  /** `int(params.get(key, default))`. */
  function IntParam(params: map<string, string>, key: string, default: int): Result<int>
  {
    if key in params then ParseInt(params[key], 10) else Ok(default)
  }

  /** The header's default duration, default octave and tempo. */
  datatype Header = Header(dur: int, octave: int, bpm: int)

  function ParseHeader(defaults: string): (r: Result<Header>)
    ensures Params(Split(defaults, ',')).Raise? ==> r == Raise(IndexError)
    ensures r.Ok? ==> (var p := Params(Split(defaults, ',')).value;
      && ("d" !in p ==> r.value.dur == 4)
      && ("o" !in p ==> r.value.octave == 6)
      && ("b" !in p ==> r.value.bpm == 63))
  {
    var params :- Params(Split(defaults, ','));
    var d :- IntParam(params, "d", 4);
    var o :- IntParam(params, "o", 6);
    var b :- IntParam(params, "b", 63);
    Ok(Header(d, o, b))
  }

  /** A header that names none of `d`, `o` and `b` gives duration 4,
      octave 6 and 63 beats per minute. */
  lemma HeaderDefaults(defaults: string)
    requires Params(Split(defaults, ',')).Ok?
    requires forall k :: 0 <= k < |Split(defaults, ',')| ==> Split(Split(defaults, ',')[k], '=')[0] !in {"d", "o", "b"}
    ensures ParseHeader(defaults) == Ok(Header(4, 6, 63))
  {
    var items := Split(defaults, ',');
    ParamsKeys(items, "d");
    ParamsKeys(items, "o");
    ParamsKeys(items, "b");
  }

  /** An empty defaults section is one item without `=`, so it raises. */
  lemma EmptyHeaderRaises()
    ensures ParseHeader("") == Raise(IndexError)
  {
    assert Find("", ',') == 0;
    assert Split("", ',') == [""];
    assert Find("", '=') == 0;
    assert Split("", '=') == [""];
  }

  /** `Split` of a string without the separator. */
  lemma SplitNone(s: string, c: char)
    requires c !in s
    ensures Split(s, c) == [s]
  {
    assert Find(s, c) == |s|;
  }

  /** `Split` at the first separator. */
  lemma SplitFirst(a: string, b: string, c: char)
    requires c !in a
    ensures Split(a + [c] + b, c) == [a] + Split(b, c)
  {
    var s := a + [c] + b;
    SplitAt(s, c, |a|);
    assert s[..|a|] == a && s[|a| + 1..] == b;
  }

  /** `d=<d>,o=<o>,b=<b>` reads back as the three numbers. */
  lemma HeaderRoundTrip(d: int, o: int, b: int)
    ensures ParseHeader(HeaderText(d, o, b)) == Ok(Header(d, o, b))
  {
    var dd, od, bd := DecimalText(d), DecimalText(o), DecimalText(b);
    DecimalNoPunctuation(d);
    DecimalNoPunctuation(o);
    DecimalNoPunctuation(b);
    HeaderItems(d, o, b);
    HeaderParams(dd, od, bd);
    HeaderLookups(d, o, b);
  }

  lemma HeaderLookups(d: int, o: int, b: int)
    ensures var m := map["d" := DecimalText(d), "o" := DecimalText(o), "b" := DecimalText(b)];
      IntParam(m, "d", 4) == Ok(d) && IntParam(m, "o", 6) == Ok(o) && IntParam(m, "b", 63) == Ok(b)
  {
    DecimalRoundTrip(d);
    DecimalRoundTrip(o);
    DecimalRoundTrip(b);
  }

  lemma HeaderItems(d: int, o: int, b: int)
    ensures Split(HeaderText(d, o, b), ',') == ["d=" + DecimalText(d), "o=" + DecimalText(o), "b=" + DecimalText(b)]
  {
    DecimalNoPunctuation(d);
    DecimalNoPunctuation(o);
    DecimalNoPunctuation(b);
    var i0, i1, i2 := "d=" + DecimalText(d), "o=" + DecimalText(o), "b=" + DecimalText(b);
    assert ',' !in i0 && ',' !in i1 && ',' !in i2;
    var tail := i1 + [','] + i2;
    assert HeaderText(d, o, b) == i0 + [','] + tail;
    calc {
      Split(HeaderText(d, o, b), ',');
      { SplitFirst(i0, tail, ','); }
      [i0] + Split(tail, ',');
      { SplitFirst(i1, i2, ','); }
      [i0] + ([i1] + Split(i2, ','));
      { SplitNone(i2, ','); }
      [i0] + ([i1] + [i2]);
    }
  }

  lemma HeaderParams(dd: string, od: string, bd: string)
    requires '=' !in dd && '=' !in od && '=' !in bd
    ensures Params(["d=" + dd, "o=" + od, "b=" + bd]) == Ok(map["d" := dd, "o" := od, "b" := bd])
  {
    var i0, i1, i2 := "d=" + dd, "o=" + od, "b=" + bd;
    ItemSplit('d', dd);
    ItemSplit('o', od);
    ItemSplit('b', bd);
    assert Params([i0]) == Ok(map["d" := dd]) by {
      assert [i0][..0] == [];
    }
    assert Params([i0, i1]) == Ok(map["d" := dd, "o" := od]) by {
      assert [i0, i1][..1] == [i0];
    }
    assert [i0, i1, i2][..2] == [i0, i1];
  }

  function HeaderText(d: int, o: int, b: int): string
  {
    "d=" + DecimalText(d) + ",o=" + DecimalText(o) + ",b=" + DecimalText(b)
  }

  lemma DecimalNoPunctuation(n: int)
    ensures ',' !in DecimalText(n) && '=' !in DecimalText(n) && ':' !in DecimalText(n)
  {
  }

  lemma ItemSplit(key: char, value: string)
    requires key != '=' && '=' !in value
    ensures Split([key, '='] + value, '=') == [[key], value]
  {
    assert [key, '='] + value == [key] + ['='] + value;
    SplitFirst([key], value, '=');
    SplitNone(value, '=');
  }

  // ---------------------------------------------------------------------
  // parse_rttl: the notes
  // ---------------------------------------------------------------------

  /** The characters the clean-up keeps: `[a-gA-GpP#,\.]`, and the digits
      as well when `fixed`. */
  predicate Keep(c: char, fixed: bool)
  {
    IsNoteChar(c) || c == ',' || c == '.' || (fixed && IsAsciiDigit(c))
  }

  /** `re.sub('[^…]', '', s)`: the kept characters, in order. */
  function Filter(s: string, fixed: bool): (r: string)
    ensures |r| <= |s|
    ensures forall k :: 0 <= k < |r| ==> Keep(r[k], fixed)
  {
    if s == "" then "" else (if Keep(s[0], fixed) then [s[0]] else "") + Filter(s[1..], fixed)
  }

  /** The notes section after both substitutions: `|` becomes `,`, then
      the filter. */
  function Clean(s: string, fixed: bool): string
  {
    Filter(ReplaceChar(s, '|', ','), fixed)
  }

  lemma {:induction false} FilterAppend(a: string, b: string, fixed: bool)
    ensures Filter(a + b, fixed) == Filter(a, fixed) + Filter(b, fixed)
    decreases |a|
  {
    if a == "" {
      assert a + b == b;
    } else {
      assert (a + b)[1..] == a[1..] + b;
      FilterAppend(a[1..], b, fixed);
    }
  }

  /** The filter leaves a string alone exactly when it keeps all of it. */
  lemma {:induction false} FilterIdentity(s: string, fixed: bool)
    ensures Filter(s, fixed) == s <==> forall k :: 0 <= k < |s| ==> Keep(s[k], fixed)
    decreases |s|
  {
    if s != "" {
      FilterIdentity(s[1..], fixed);
      if !Keep(s[0], fixed) {
        assert |Filter(s, fixed)| < |s|;
      }
    }
  }

  /** Nothing the filter drops survives it. */
  lemma {:induction false} FilterNone(s: string, fixed: bool)
    requires forall k :: 0 <= k < |s| ==> !Keep(s[k], fixed)
    ensures Filter(s, fixed) == ""
    decreases |s|
  {
    if s != "" {
      FilterNone(s[1..], fixed);
    }
  }

  /** After the clean-up no `|` remains; as written, no digit does. */
  lemma CleanMeaning(s: string, fixed: bool)
    ensures forall k :: 0 <= k < |Clean(s, fixed)| ==> Clean(s, fixed)[k] != '|'
    ensures !fixed ==> forall k :: 0 <= k < |Clean(s, fixed)| ==> !IsAsciiDigit(Clean(s, fixed)[k])
    ensures (forall k :: 0 <= k < |s| ==> Keep(s[k], fixed)) ==> Clean(s, fixed) == s
  {
    if forall k :: 0 <= k < |s| ==> Keep(s[k], fixed) {
      assert ReplaceChar(s, '|', ',') == s;
      FilterIdentity(s, fixed);
    }
  }

  /** The value of a tone: its frequency and its length in milliseconds. */
  datatype Tone = Tone(freq: real, ms: int)

  /** `int(whole // dur)`, or `int(whole * 1.5 // dur)` when dotted: a
      zero duration divides by zero. */
  function Duration(whole: real, dur: int, dotted: bool): (r: Result<int>)
    ensures r.Raise? <==> dur == 0
    ensures r.Raise? ==> r.exc == ZeroDivisionError
  {
    if dur == 0 then Raise(ZeroDivisionError)
    else Ok(((if dotted then whole * 1.5 else whole) / dur as real).Floor)
  }

  /** For a positive duration the length is the largest whole number of
      milliseconds that `dur` notes fit in the (dotted) whole note. */
  lemma DurationBounds(whole: real, dur: int, dotted: bool)
    requires dur > 0
    ensures var w := if dotted then whole * 1.5 else whole;
      var ms := Duration(whole, dur, dotted).value;
      ms as real * dur as real <= w < (ms + 1) as real * dur as real
  {
    var w := if dotted then whole * 1.5 else whole;
    var dr := dur as real;
    var q := w / dr;
    var ms := q.Floor;
    var a, b := ms as real, (ms + 1) as real;
    assert Duration(whole, dur, dotted).value == ms;
    assert a <= q < b;
    ScaleBounds(a, q, b, dr);
    assert q * dr == w;
    assert q * dr < b * dr;
    assert w < b * dr;
  }

  /** `a <= q < b` scaled by a positive `c`. */
  lemma ScaleBounds(a: real, q: real, b: real, c: real)
    requires a <= q < b && c > 0.0
    ensures a * c <= q * c < b * c
  {
  }

  /** A dot never shortens a note of a non-negative whole. */
  lemma DottedLonger(whole: real, dur: int)
    requires dur > 0 && whole >= 0.0
    ensures Duration(whole, dur, true).value >= Duration(whole, dur, false).value
  {
    var a := whole / dur as real;
    var b := whole * 1.5 / dur as real;
    assert b == a * 1.5;
    assert b >= a;
  }

  /** One note: `<dur?><note><dot?><oct?>`, the header's duration and
      octave standing in for missing digits and a pause for a missing
      name. */
  function ParseNote(n: string, h: Header, whole: real): (r: Result<Tone>)
    ensures r.Ok? ==> r.value.freq >= 0.0
  {
    NoteOf(NoteGroups(n), h, whole)
  }

  /** The tone of a note's groups. */
  function NoteOf(g: Groups, h: Header, whole: real): (r: Result<Tone>)
    ensures r.Ok? ==> r.value.freq >= 0.0
  {
    var dur :- NoteDur(g, h);
    var octave :- NoteOctave(g, h);
    var freq :- Pitch(NoteName(g), octave);
    var ms :- Duration(whole, dur, g.dot);
    Ok(Tone(freq, ms))
  }

  /** Groups with a name and no digits: the header's duration and octave. */
  lemma NoteOfGroups(g: Groups, h: Header, whole: real)
    requires g.dur == "" && g.octave == "" && g.note != ""
    ensures NoteOf(g, h, whole) == ToneOf(Pitch(g.note, h.octave), Duration(whole, h.dur, g.dot))
  {
  }

  /** `int(dur) if dur else default_dur`. */
  function NoteDur(g: Groups, h: Header): Result<int>
  {
    if |g.dur| > 0 then ParseInt(g.dur, 10) else Ok(h.dur)
  }

  /** `int(oct) if oct else default_oct`. */
  function NoteOctave(g: Groups, h: Header): Result<int>
  {
    if |g.octave| > 0 then ParseInt(g.octave, 10) else Ok(h.octave)
  }

  /** `note if note else 'p'`. */
  function NoteName(g: Groups): string
  {
    if |g.note| > 0 then g.note else "p"
  }

  /** The pitch, then the length: the first failure is the one raised. */
  function ToneOf(freq: Result<real>, ms: Result<int>): Result<Tone>
  {
    match freq
    case Raise(e) => Raise(e)
    case Ok(f) => match ms
      case Raise(e) => Raise(e)
      case Ok(m) => Ok(Tone(f, m))
  }

  /** A note written in full is played at its own octave for its own
      duration. */
  lemma ParseNoteFull(dur: nat, name: string, dot: bool, octave: nat, h: Header, whole: real)
    requires |name| > 0 && AllNoteChars(name)
    ensures ParseNote(NoteText(DecimalText(dur), name, dot, DecimalText(octave)), h, whole)
      == ToneOf(Pitch(name, octave), Duration(whole, dur, dot))
  {
    DigitsText(dur);
    DigitsText(octave);
    GroupsOfNoteText(DecimalText(dur), name, dot, DecimalText(octave));
    DecimalRoundTrip(dur);
    DecimalRoundTrip(octave);
  }

  lemma DigitsText(n: nat)
    ensures AllDigits(DecimalText(n)) && |DecimalText(n)| > 0
  {
  }

  /** A note without digits takes the header's duration and octave; with
      no name it is a pause. */
  lemma ParseNoteDefaults(n: string, h: Header, whole: real)
    requires forall k :: 0 <= k < |n| ==> !IsAsciiDigit(n[k])
    ensures var g := NoteGroups(n);
      ParseNote(n, h, whole) == ToneOf(Pitch(if |g.note| > 0 then g.note else "p", h.octave), Duration(whole, h.dur, g.dot))
  {
    NoDigitGroups(n);
  }

  lemma NoDigitGroups(n: string)
    requires forall k :: 0 <= k < |n| ==> !IsAsciiDigit(n[k])
    ensures NoteGroups(n).dur == "" && NoteGroups(n).octave == ""
  {
    var (dur, rest) := TakeSpan(n, IsAsciiDigit);
    var (name, rest2) := TakeSpan(rest, IsNoteChar);
    assert n == dur + (name + rest2);
  }

  /** A pause, or a note with no name, is silent. */
  lemma PauseSilent(n: string, h: Header, whole: real)
    requires NoteGroups(n).note == "" || NoteGroups(n).note == "p"
    ensures ParseNote(n, h, whole).Ok? ==> ParseNote(n, h, whole).value.freq == 0.0
  {
    var g := NoteGroups(n);
    assert NoteName(g) == "p";
    NoteOfFreq(g, h, whole);
  }

  /** A tone's frequency is the pitch of its name in its octave. */
  lemma NoteOfFreq(g: Groups, h: Header, whole: real)
    ensures NoteOf(g, h, whole).Ok? ==>
      && NoteOctave(g, h).Ok?
      && Pitch(NoteName(g), NoteOctave(g, h).value) == Ok(NoteOf(g, h, whole).value.freq)
  {
  }

  /** The loop over the notes: each is stripped and lower-cased, empty ones
      are skipped, and the first failing note ends the parse. */
  function ParseNotes(segs: seq<string>, parse: string -> Result<Tone>): (r: Result<seq<Tone>>)
    ensures r.Ok? ==> |r.value| <= |segs|
    decreases |segs|
  {
    if segs == [] then Ok([])
    else
      var n := Lower(TrimSpace(segs[0]));
      if n == "" then ParseNotes(segs[1..], parse)
      else
        var t :- parse(n);
        var rest :- ParseNotes(segs[1..], parse);
        Ok([t] + rest)
  }

  /** The notes a list of segments holds, in order: the stripped,
      lower-cased non-empty ones. */
  function Notes(segs: seq<string>): (r: seq<string>)
    ensures forall k :: 0 <= k < |r| ==> r[k] != ""
    decreases |segs|
  {
    if segs == [] then []
    else
      var n := Lower(TrimSpace(segs[0]));
      (if n == "" then [] else [n]) + Notes(segs[1..])
  }

  /** Every note parsed in turn, stopping at the first failure: the parse
      succeeds exactly when every note does, and then the `k`-th tone is
      that of the `k`-th note. */
  function ParseAll(ns: seq<string>, parse: string -> Result<Tone>): (r: Result<seq<Tone>>)
    ensures r.Ok? <==> forall k :: 0 <= k < |ns| ==> parse(ns[k]).Ok?
    ensures r.Ok? ==> |r.value| == |ns|
    ensures r.Ok? ==> forall k :: 0 <= k < |ns| ==> r.value[k] == parse(ns[k]).value
    decreases |ns|
  {
    if ns == [] then Ok([])
    else
      var t :- parse(ns[0]);
      var rest :- ParseAll(ns[1..], parse);
      Ok([t] + rest)
  }

  /** The loop over the segments is the parse of the notes they hold: one
      tone per non-empty note, in order. */
  lemma {:induction false} ParseNotesMeaning(segs: seq<string>, parse: string -> Result<Tone>)
    ensures ParseNotes(segs, parse) == ParseAll(Notes(segs), parse)
    decreases |segs|
  {
    if segs != [] {
      ParseNotesMeaning(segs[1..], parse);
      var n := Lower(TrimSpace(segs[0]));
      if n != "" {
        var ns := Notes(segs);
        assert ns == [n] + Notes(segs[1..]);
        assert ns[0] == n && ns[1..] == Notes(segs[1..]);
        var t, rest := parse(n), ParseAll(ns[1..], parse);
        assert ParseAll(ns, parse) == if t.Raise? then Raise(t.exc) else if rest.Raise? then Raise(rest.exc) else Ok([t.value] + rest.value);
        assert ParseNotes(segs, parse) == if t.Raise? then Raise(t.exc) else if rest.Raise? then Raise(rest.exc) else Ok([t.value] + rest.value);
      } else {
        assert Notes(segs) == [] + Notes(segs[1..]) == Notes(segs[1..]);
      }
    }
  }

  /** `(60_000 / bpm) * 4`: the length of a whole note in milliseconds. */
  function Whole(bpm: int): real
    requires bpm != 0
  {
    60000.0 / bpm as real * 4.0
  }

  /** `parse_rttl(s)`: exactly three `:`-separated sections, the header,
      a tempo that must not be zero, then one tone per note of the cleaned
      notes section. */
  function ParseRttl(s: string, fixed: bool): (r: Result<seq<Tone>>)
    ensures |Split(s, ':')| != 3 ==> r.Raise? && r.exc.ValueError?
    ensures r.Ok? ==> |r.value| <= |Split(Clean(Split(s, ':')[2], fixed), ',')|
  {
    var parts := Split(s, ':');
    if |parts| < 3 then Raise(ValueError("need more values to unpack"))
    else if |parts| > 3 then Raise(ValueError("too many values to unpack"))
    else
      var h :- ParseHeader(parts[1]);
      if h.bpm == 0 then Raise(ZeroDivisionError)
      else
        ParseNotes(Split(Clean(parts[2], fixed), ','), NoteParser(h))
  }

  /** The parser `parse_rttl` applies to each note under header `h`. */
  function NoteParser(h: Header): string -> Result<Tone>
    requires h.bpm != 0
  {
    n => ParseNote(n, h, Whole(h.bpm))
  }

  /** A tune of three sections with a usable header parses its third
      section's cleaned notes. */
  lemma RttlNotes(s: string, title: string, defaults: string, notes: string, fixed: bool)
    requires Split(s, ':') == [title, defaults, notes]
    requires ParseHeader(defaults).Ok? && ParseHeader(defaults).value.bpm != 0
    ensures ParseRttl(s, fixed) == ParseNotes(Split(Clean(notes, fixed), ','), NoteParser(ParseHeader(defaults).value))
  {
  }

  /** A tone with no `:` or two of them is refused. */
  lemma SectionsRequired(s: string, fixed: bool)
    requires |Split(s, ':')| != 3
    ensures ParseRttl(s, fixed).Raise? && ParseRttl(s, fixed).exc.ValueError?
  {
  }

  /** A tune of one note. */
  function Tune(title: string, defaults: string, note: string): string
  {
    title + [':'] + (defaults + [':'] + note)
  }

  lemma TuneSections(title: string, defaults: string, note: string)
    requires ':' !in title && ':' !in defaults && ':' !in note
    ensures Split(Tune(title, defaults, note), ':') == [title, defaults, note]
  {
    SplitFirst(title, defaults + [':'] + note, ':');
    SplitFirst(defaults, note, ':');
    SplitNone(note, ':');
  }

  /** A one-tone result. */
  function Single(t: Result<Tone>): Result<seq<Tone>>
  {
    match t
    case Raise(e) => Raise(e)
    case Ok(v) => Ok([v])
  }

  /** Lower-case note characters, dots and digits: what a cleaned note
      written in full consists of. */
  predicate NoteChars(s: string)
  {
    forall k :: 0 <= k < |s| ==> IsLowerNoteChar(s[k]) || s[k] == '.' || IsAsciiDigit(s[k])
  }

  lemma NoteCharsAppend(a: string, b: string)
    requires NoteChars(a) && NoteChars(b)
    ensures NoteChars(a + b)
  {
  }

  /** Such a text has no separator, no `|`, no space and no capital, and
      the clean-up with digits kept leaves it alone. */
  lemma NoteCharsFacts(s: string)
    requires NoteChars(s)
    ensures ':' !in s && ',' !in s
    ensures ReplaceChar(s, '|', ',') == s
    ensures Filter(s, true) == s
    ensures TrimSpace(s) == s && Lower(s) == s
  {
    assert forall k :: 0 <= k < |s| ==> Keep(s[k], true);
    FilterIdentity(s, true);
    NoteCharsSpace(s);
    assert forall k :: 0 <= k < |s| ==> s[k] != '|';
    assert forall k :: 0 <= k < |s| ==> ToLower(s[k]) == s[k];
  }

  lemma NoteCharsSpace(s: string)
    requires NoteChars(s)
    ensures TrimSpace(s) == s
  {
    if |s| > 0 {
      assert !IsSpace(s[0]) && !IsSpace(s[|s| - 1]);
    }
  }

  lemma NoteTextChars(dur: nat, name: string, dot: bool, octave: nat)
    requires forall k :: 0 <= k < |name| ==> IsLowerNoteChar(name[k])
    ensures NoteChars(DecimalText(dur)) && NoteChars(DecimalText(octave))
    ensures NoteChars(name + (if dot then "." else ""))
    ensures NoteChars(NoteText(DecimalText(dur), name, dot, DecimalText(octave)))
  {
    var dd, od, ds := DecimalText(dur), DecimalText(octave), if dot then "." else "";
    DigitsText(dur);
    DigitsText(octave);
    NoteCharsAppend(dd, name + ds);
    NoteCharsAppend(dd + (name + ds), od);
    assert NoteText(dd, name, dot, od) == dd + (name + ds) + od;
  }

  /** As written the clean-up of a note written in full keeps only its
      name and dot. */
  lemma CleanNoteAsWritten(dur: nat, name: string, dot: bool, octave: nat)
    requires forall k :: 0 <= k < |name| ==> IsLowerNoteChar(name[k])
    ensures Clean(NoteText(DecimalText(dur), name, dot, DecimalText(octave)), false) == name + (if dot then "." else "")
  {
    var dd, od, ds := DecimalText(dur), DecimalText(octave), if dot then "." else "";
    assert ReplaceChar(NoteText(dd, name, dot, od), '|', ',') == NoteText(dd, name, dot, od) by {
      NoteTextChars(dur, name, dot, octave);
      NoBar(NoteText(dd, name, dot, od));
    }
    NameKept(name);
    NameKept(ds);
    DigitsGone(dur);
    DigitsGone(octave);
    FilterFour(dd, name, ds, od);
  }

  /** The filter of four pieces, the outer two of which vanish. */
  lemma FilterFour(a: string, b: string, c: string, d: string)
    requires Filter(a, false) == "" && Filter(b, false) == b && Filter(c, false) == c && Filter(d, false) == ""
    ensures Filter(a + b + c + d, false) == b + c
  {
    calc {
      Filter(a + b + c + d, false);
      { FilterAppend(a + b + c, d, false); }
      Filter(a + b + c, false) + Filter(d, false);
      Filter(a + b + c, false);
      { FilterAppend(a + b, c, false); }
      Filter(a + b, false) + c;
      { FilterAppend(a, b, false); }
      "" + b + c;
      b + c;
    }
  }

  lemma NoBar(s: string)
    requires NoteChars(s)
    ensures ReplaceChar(s, '|', ',') == s
  {
    assert forall k :: 0 <= k < |s| ==> s[k] != '|';
  }

  lemma NameKept(s: string)
    requires forall k :: 0 <= k < |s| ==> IsLowerNoteChar(s[k]) || s[k] == '.'
    ensures Filter(s, false) == s
  {
    assert forall k :: 0 <= k < |s| ==> Keep(s[k], false);
    FilterIdentity(s, false);
  }

  /** As written the clean-up deletes a number. */
  lemma DigitsGone(n: nat)
    ensures Filter(DecimalText(n), false) == ""
  {
    DigitsText(n);
    FilterNone(DecimalText(n), false);
  }

  /** A note with no comma, space or capital is the one note of its
      section. */
  lemma OneNote(c: string, parse: string -> Result<Tone>)
    requires |c| > 0 && Lower(TrimSpace(c)) == c
    ensures ParseNotes([c], parse) == Single(parse(c))
  {
    var rest := ParseNotes([c][1..], parse);
    assert [c][1..] == [] && rest == Ok([]);
    assert ParseNotes([c], parse) == if parse(c).Raise? then Raise(parse(c).exc) else Ok([parse(c).value] + []);
    if parse(c).Ok? {
      assert [parse(c).value] + [] == [parse(c).value];
    }
  }

  /** As written, the digits of a note are deleted before it is read: a
      note written with its own duration and octave is played for the
      header's duration in the header's octave. */
  lemma AsWrittenIgnoresDigits(title: string, defaults: string, dur: nat, name: string, dot: bool, octave: nat)
    requires ':' !in title && ':' !in defaults
    requires name in NOTES
    requires ParseHeader(defaults).Ok? && ParseHeader(defaults).value.bpm != 0
    ensures var h := ParseHeader(defaults).value;
      ParseRttl(Tune(title, defaults, NoteText(DecimalText(dur), name, dot, DecimalText(octave))), false)
        == Single(ToneOf(Pitch(name, h.octave), Duration(Whole(h.bpm), h.dur, dot)))
  {
    var h := ParseHeader(defaults).value;
    var t := NoteText(DecimalText(dur), name, dot, DecimalText(octave));
    NameInTable(name);
    NoteTextChars(dur, name, dot, octave);
    NoteCharsFacts(t);
    TuneSections(title, defaults, t);
    RttlNotes(Tune(title, defaults, t), title, defaults, t, false);
    CleanNoteAsWritten(dur, name, dot, octave);
    var c := name + (if dot then "." else "");
    NoteCharsFacts(c);
    SplitNone(c, ',');
    OneNote(c, NoteParser(h));
    NotePlain(name, dot, h, Whole(h.bpm));
  }

  /** A name and a dot, without digits: the header's duration and octave. */
  lemma NotePlain(name: string, dot: bool, h: Header, whole: real)
    requires |name| > 0 && AllNoteChars(name)
    ensures ParseNote(name + (if dot then "." else ""), h, whole)
      == ToneOf(Pitch(name, h.octave), Duration(whole, h.dur, dot))
  {
    var g := Groups("", name, dot, "");
    assert NoteGroups(name + (if dot then "." else "")) == g by {
      NamePlainGroups(name, dot);
    }
    NoteOfGroups(g, h, whole);
  }

  lemma NamePlainGroups(name: string, dot: bool)
    requires |name| > 0 && AllNoteChars(name)
    ensures NoteGroups(name + (if dot then "." else "")) == Groups("", name, dot, "")
  {
    assert NoteText("", name, dot, "") == name + (if dot then "." else "");
    GroupsOfNoteText("", name, dot, "");
  }

  /** With the digits kept, a note written with its own duration and
      octave is played for that duration in that octave. */
  lemma FixedReadsDigits(title: string, defaults: string, dur: nat, name: string, dot: bool, octave: nat)
    requires ':' !in title && ':' !in defaults
    requires name in NOTES
    requires ParseHeader(defaults).Ok? && ParseHeader(defaults).value.bpm != 0
    ensures var h := ParseHeader(defaults).value;
      ParseRttl(Tune(title, defaults, NoteText(DecimalText(dur), name, dot, DecimalText(octave))), true)
        == Single(ToneOf(Pitch(name, octave), Duration(Whole(h.bpm), dur, dot)))
  {
    var h := ParseHeader(defaults).value;
    var t := NoteText(DecimalText(dur), name, dot, DecimalText(octave));
    NameInTable(name);
    NoteTextChars(dur, name, dot, octave);
    NoteCharsFacts(t);
    TuneSections(title, defaults, t);
    RttlNotes(Tune(title, defaults, t), title, defaults, t, true);
    assert Clean(t, true) == t;
    SplitNone(t, ',');
    OneNote(t, NoteParser(h));
    ParseNoteFull(dur, name, dot, octave, h, Whole(h.bpm));
  }
}

=== FILE: calibration.dfy ===
/** The calibration store (`utils/calibration.py`): a JSON document read
    from a file, with `get`, `set` and `delete` on its top-level keys.
    Opening the file and decoding its text are parameters; saving it and
    `__str__` (file writing and `json.dumps`) are not modelled.
 */
module Calibration {
  import opened Wrappers
  import opened Json

  /** The default file name (spelled `CALIBARTION_FILE` in the module). */
  const CALIBRATION_FILE := "calibration.json"

  /** The store: the file it was read from and the decoded document. */
  datatype Store = Store(path: string, data: Json)

  /** What opening the file for reading gives: its text, or `OSError`. */
  datatype FileRead = NoFile | FileText(text: string)

  /** `load_calibration(file_name)`: the data starts empty, the file name
      replaces the path when given, and the decoded file becomes the data;
      a file that cannot be opened or read (`OSError`) or decoded
      (`ValueError`) leaves it empty. Any other exception escapes. */
  function Load(s: Store, fileName: Option<string>, read: string -> FileRead, loads: string -> Result<Json>): (r: Result<Store>)
    ensures r.Ok? ==> r.value.path == if fileName.Some? then fileName.value else s.path
    ensures r.Raise? ==> !r.exc.ValueError? && !r.exc.OSError?
  {
    var path := if fileName.Some? then fileName.value else s.path;
    match read(path)
    case NoFile => Ok(Store(path, JObj(map[])))
    case FileText(t) =>
      match loads(t)
      case Ok(j) => Ok(Store(path, j))
      case Raise(e) => if e.ValueError? || e.OSError? then Ok(Store(path, JObj(map[]))) else Raise(e)
  }

  /** `Calibration(file_path)`: a store loaded from the file. */
  function New(path: string, read: string -> FileRead, loads: string -> Result<Json>): (r: Result<Store>)
    ensures r.Ok? ==> r.value.path == path
    ensures read(path).NoFile? ==> r == Ok(Store(path, JObj(map[])))
  {
    Load(Store(path, JObj(map[])), None, read, loads)
  }

  /** A missing or undecodable file loads as `{}`; a decodable one as its
      contents; the path is the one given, or else the store's own. */
  lemma LoadMeaning(s: Store, fileName: Option<string>, read: string -> FileRead, loads: string -> Result<Json>)
    ensures var path := if fileName.Some? then fileName.value else s.path;
      && (read(path).NoFile? ==> Load(s, fileName, read, loads) == Ok(Store(path, JObj(map[]))))
      && (read(path).FileText? && loads(read(path).text).Raise? && (loads(read(path).text).exc.ValueError? || loads(read(path).text).exc.OSError?) ==>
          Load(s, fileName, read, loads) == Ok(Store(path, JObj(map[]))))
      && (read(path).FileText? && loads(read(path).text).Ok? ==>
          Load(s, fileName, read, loads) == Ok(Store(path, loads(read(path).text).value)))
    ensures Load(s, fileName, read, loads).Ok? ==> Load(s, fileName, read, loads).value.path == (if fileName.Some? then fileName.value else s.path)
    ensures Load(s, fileName, read, loads).Raise? ==>
      !Load(s, fileName, read, loads).exc.ValueError? && !Load(s, fileName, read, loads).exc.OSError?
  {
  }

  const NOT_ITERABLE := TypeError("argument of type is not iterable")
  const NO_ITEM_ASSIGNMENT := TypeError("object does not support item assignment")

  /** `get(key, default)`: a missing key is stored with the default first;
      the stored value is returned. On a document that is not an object
      the lookup or the store raises `TypeError`. */
  function Get(s: Store, key: string, default: Json): (r: Result<(Store, Json)>)
    ensures r.Ok? <==> s.data.JObj?
    ensures r.Raise? ==> r.exc.TypeError?
  {
    match s.data
    case JObj(m) =>
      if key !in m then Ok((s.(data := JObj(m[key := default])), default))
      else Ok((s, m[key]))
    case JList(_) => Raise(NO_ITEM_ASSIGNMENT)
    case JStr(_) => Raise(NO_ITEM_ASSIGNMENT)
    case _ => Raise(NOT_ITERABLE)
  }

  /** `set(key, value)`. */
  function Set(s: Store, key: string, value: Json): (r: Result<Store>)
    ensures r.Ok? <==> s.data.JObj?
    ensures r.Raise? ==> r.exc.TypeError?
  {
    match s.data
    case JObj(m) => Ok(s.(data := JObj(m[key := value])))
    case _ => Raise(NO_ITEM_ASSIGNMENT)
  }

  /** `delete(key)`: `True` after removing a present key, `False` when it
      is absent. A list or string document answers `in` and raises only
      when asked to delete; other documents raise at `in`. */
  function Delete(s: Store, key: string): (r: Result<(Store, bool)>)
    ensures s.data.JObj? ==> r.Ok?
  {
    match s.data
    case JObj(m) =>
      if key in m then Ok((s.(data := JObj(m - {key})), true)) else Ok((s, false))
    case JList(items) => if JStr(key) in items then Raise(TypeError("list indices must be integers")) else Ok((s, false))
    case JStr(t) => if Occurs(key, t) then Raise(TypeError("object doesn't support item deletion")) else Ok((s, false))
    case _ => Raise(NOT_ITERABLE)
  }

  /** `get` of a missing key stores and returns the default and keeps the
      other keys; of a present key it returns the stored value and ignores
      the default. */
  lemma GetMeaning(m: map<string, Json>, path: string, key: string, default: Json)
    ensures key !in m ==> Get(Store(path, JObj(m)), key, default) == Ok((Store(path, JObj(m[key := default])), default))
    ensures key in m ==> Get(Store(path, JObj(m)), key, default) == Ok((Store(path, JObj(m)), m[key]))
  {
  }

  /** Once `get` has answered, later `get`s of the same key answer the
      same, whatever their default, and change nothing. */
  lemma GetStable(s: Store, key: string, d1: Json, d2: Json)
    requires s.data.JObj?
    ensures var (s1, v1) := Get(s, key, d1).value;
      Get(s1, key, d2) == Ok((s1, v1))
  {
  }

  /** `set` makes `get` return the value, whatever the default, and leaves
      every other key as it was. */
  lemma SetThenGet(s: Store, key: string, value: Json, default: Json)
    requires s.data.JObj?
    ensures Set(s, key, value).Ok?
    ensures Get(Set(s, key, value).value, key, default) == Ok((Set(s, key, value).value, value))
    ensures forall k :: k != key ==>
      (k in s.data.fields <==> k in Set(s, key, value).value.data.fields)
      && (k in s.data.fields ==> Set(s, key, value).value.data.fields[k] == s.data.fields[k])
  {
  }

  /** `delete` answers whether the key was present; afterwards it is
      absent, every other key is as it was, and a second `delete` answers
      `False`. */
  lemma DeleteMeaning(s: Store, key: string)
    requires s.data.JObj?
    ensures Delete(s, key).Ok?
    ensures Delete(s, key).value.1 <==> key in s.data.fields
    ensures Delete(s, key).value.0.data.JObj?
    ensures Delete(s, key).value.0.data.fields.Keys == s.data.fields.Keys - {key}
    ensures forall k :: k in s.data.fields && k != key ==> Delete(s, key).value.0.data.fields[k] == s.data.fields[k]
    ensures Delete(Delete(s, key).value.0, key) == Ok((Delete(s, key).value.0, false))
  {
  }

  /** Deleting a key just set answers `True` and leaves the other keys as
      they were before the `set`. */
  lemma SetThenDelete(s: Store, key: string, value: Json)
    requires s.data.JObj? && key !in s.data.fields
    ensures Set(s, key, value).Ok?
    ensures Delete(Set(s, key, value).value, key) == Ok((s, true))
  {
    assert s.data.fields[key := value] - {key} == s.data.fields;
  }
}

=== FILE: coap_packet.dfy ===
/** Whole CoAP datagrams: the request the server's parser builds from a
    datagram, and the packets the server writes (acknowledgements,
    piggy-backed and separate responses, block acknowledgements,
    notifications and the requests it sends itself).
 */
module CoapPacket {
  import opened Wrappers
  import opened PyStr
  import opened CoapWire

  /** A query value: digits become an integer, `key=text` a string, a bare
      key `True`. */
  datatype QueryValue = QInt(n: nat) | QStr(s: string) | QTrue

  /** The fields of a parsed request the server goes on to use. */
  datatype Request = Request(
    mtype: nat,
    code: byte,
    msgId: nat,
    token: Bytes,
    path: string,
    query: map<string, QueryValue>,
    observe: bool,
    block1: Option<nat>,
    payload: Bytes)

  // ---------------------------------------------------------------------
  // What the option loop keeps
  // ---------------------------------------------------------------------

  datatype Collected = Collected(segments: seq<string>, queries: seq<string>, observe: bool, block1: Option<nat>)

  /** The option loop's bookkeeping: URI-Path and URI-Query values in
      order, whether an Observe option was present, and the value of the
      last Block1 option. Other options are skipped. */
  function Collect(opts: seq<RawOption>): (c: Collected)
    ensures c.observe <==> exists i :: 0 <= i < |opts| && opts[i].number == OPT_OBSERVE
    ensures c.block1.None? <==> forall i :: 0 <= i < |opts| ==> opts[i].number != OPT_BLOCK1
    ensures c.block1.Some? ==>
      exists i :: (0 <= i < |opts| && opts[i].number == OPT_BLOCK1
        && c.block1.value == BigEndian(opts[i].value)
        && forall j :: i < j < |opts| ==> opts[j].number != OPT_BLOCK1)
  {
    if |opts| == 0 then Collected([], [], false, None)
    else
      var o := opts[0];
      var c := Collect(opts[1..]);
      assert forall i :: 1 <= i < |opts| ==> opts[i] == opts[1..][i - 1];
      if o.number == OPT_URI_PATH then c.(segments := [Text(o.value)] + c.segments)
      else if o.number == OPT_URI_QUERY then c.(queries := [Text(o.value)] + c.queries)
      else if o.number == OPT_OBSERVE then c.(observe := true)
      else if o.number == OPT_BLOCK1 then
        if c.block1.Some? then
          ghost var i :| 0 <= i < |opts[1..]| && opts[1..][i].number == OPT_BLOCK1
            && c.block1.value == BigEndian(opts[1..][i].value)
            && forall j :: i < j < |opts[1..]| ==> opts[1..][j].number != OPT_BLOCK1;
          assert opts[i + 1] == opts[1..][i];
          c
        else c.(block1 := Some(BigEndian(o.value)))
      else c
  }

  /** One `key=value` query segment. */
  function QueryEntry(q: string): (r: (string, QueryValue))
    ensures '=' !in q ==> r == (q, QTrue)
    ensures '=' in q ==> '=' !in r.0 && !r.1.QTrue?
    ensures r.1.QInt? ==> exists v :: q == r.0 + "=" + v && IsDigits(v) && r.1.n == DigitsValue(v, 10)
    ensures r.1.QStr? ==> q == r.0 + "=" + r.1.s && !IsDigits(r.1.s)
  {
    match Partition(q, '=')
    case None => (q, QTrue)
    case Some((k, v)) =>
      ParseIntDecimalDigits(v);
      if IsDigits(v) then (k, QInt(DigitsValue(v, 10))) else (k, QStr(v))
  }

  lemma ParseIntDecimalDigits(v: string)
    ensures IsDigits(v) ==> forall k :: 0 <= k < |v| ==> IsDigitOf(v[k], 10)
  {
  }

  /** The query dictionary: segments in order, a later key overwriting an
      earlier one. */
  function QueryMap(qs: seq<string>): (m: map<string, QueryValue>)
    ensures forall k :: k in m <==> exists i :: 0 <= i < |qs| && QueryEntry(qs[i]).0 == k
  {
    if |qs| == 0 then map[]
    else
      var e := QueryEntry(qs[|qs| - 1]);
      var m := QueryMap(qs[..|qs| - 1]);
      assert forall i :: 0 <= i < |qs| - 1 ==> qs[..|qs| - 1][i] == qs[i];
      m[e.0 := e.1]
  }

  /** The value a key ends up with is the one its last segment gave. */
  lemma {:induction false} QueryLastWins(qs: seq<string>, i: nat)
    requires i < |qs|
    requires forall j :: i < j < |qs| ==> QueryEntry(qs[j]).0 != QueryEntry(qs[i]).0
    ensures QueryEntry(qs[i]).0 in QueryMap(qs)
    ensures QueryMap(qs)[QueryEntry(qs[i]).0] == QueryEntry(qs[i]).1
    decreases |qs|
  {
    if i < |qs| - 1 {
      var front := qs[..|qs| - 1];
      assert front[i] == qs[i];
      forall j | i < j < |front|
        ensures QueryEntry(front[j]).0 != QueryEntry(front[i]).0
      {
        assert front[j] == qs[j];
      }
      QueryLastWins(front, i);
    }
  }

  // ---------------------------------------------------------------------
  // Parsing a datagram
  // ---------------------------------------------------------------------

  /** `CoAPRequest.parse`. `Ok(None)` is a datagram the server marks invalid
      and drops (shorter than four bytes or not version 1); `Raise` is an
      exception from the option loop, which escapes the constructor and is
      logged by the receive loop. The token is whatever of the announced
      token bytes exists; the payload is everything after the 0xFF marker.
      `rfc` selects the corrected option-head reader. */
  function Parse(p: Bytes, rfc: bool): (r: Result<Option<Request>>)
    ensures r == Ok(None) <==> |p| < 4 || p[0] / 64 != 1
    ensures r.Ok? && r.value.Some? ==>
      var q := r.value.value;
      && q.mtype < 4 && q.msgId < 65536 && |q.token| <= 15
      && |q.path| >= 1 && q.path[0] == '/'
      && q.mtype == p[0] / 16 % 4 && q.code == p[1] && q.msgId == p[2] as int * 256 + p[3] as int
      && q.token <= p[4..]
  {
    if |p| < 4 || p[0] / 64 != 1 then Ok(None)
    else
      var tkl := p[0] % 16;
      var start := if 4 + tkl <= |p| then 4 + tkl else |p|;
      var scanned :- ScanOptions(p[start..], 0, rfc);
      var c := Collect(scanned.0);
      var rest := scanned.1;
      Ok(Some(Request(
        p[0] / 16 % 4, p[1], p[2] as int * 256 + p[3] as int, p[4..start],
        "/" + Join(c.segments, '/'), QueryMap(c.queries), c.observe, c.block1,
        if |rest| > 0 then rest[1..] else [])))
  }

  // ---------------------------------------------------------------------
  // Packets the server writes
  // ---------------------------------------------------------------------

  /** `_send_ack`: an ACK with a code and no payload. */
  function AckPacket(token: Bytes, msgId: nat, code: byte): Bytes
    requires msgId < 65536
  {
    HeaderBytes(TYPE_ACK, |token|, code, msgId) + token
  }

  /** `_send_response_packet`: a piggy-backed ACK carrying the payload, with
      an empty Observe option when the request observes. */
  function PiggybackPacket(token: Bytes, msgId: nat, code: byte, payload: Bytes, observe: bool): Bytes
    requires msgId < 65536
  {
    HeaderBytes(TYPE_ACK, |token|, code, msgId) + token
    + (if observe then [0x60] else []) + [PAYLOAD_MARKER] + payload
  }

  /** What follows the options: nothing for an empty payload, otherwise the
      marker and the payload. */
  function PayloadPart(payload: Bytes): (r: Bytes)
    ensures |r| == 0 <==> |payload| == 0
    ensures |r| > 0 ==> r[0] == PAYLOAD_MARKER && r[1..] == payload
  {
    if |payload| > 0 then [PAYLOAD_MARKER] + payload else []
  }

  /** `send_response_raw`: a NON message; the marker is written only before
      a non-empty payload. */
  function RawPacket(token: Bytes, msgId: nat, code: byte, payload: Bytes): Bytes
    requires msgId < 65536
  {
    HeaderBytes(TYPE_NON, |token|, code, msgId) + token + PayloadPart(payload)
  }

  /** `_send_block_ack`: an ACK carrying one Block1 option (head nibble 13,
      extension byte 14, so option 27) whose value is the block number's
      minimal big-endian bytes. */
  function BlockAckPacket(token: Bytes, msgId: nat, code: byte, block: nat): Bytes
    requires msgId < 65536 && |MinimalBytes(block)| <= 15
  {
    var b := MinimalBytes(block);
    HeaderBytes(TYPE_ACK, |token|, code, msgId) + token + [13 * 16 + |b|, 14] + b
  }

  /** `_send_notification`: a NON 2.05 with an Observe option carrying the
      low 16 bits of the sequence number, a Content-Format option of 50
      (JSON) and the payload. */
  function NotificationPacket(token: Bytes, msgId: nat, obsSeq: nat, payload: Bytes): Bytes
    requires msgId < 65536
  {
    HeaderBytes(TYPE_NON, |token|, RESP_CONTENT, msgId) + token
    + [0x62] + Be16(obsSeq % 65536) + [0x61, 0x32, PAYLOAD_MARKER] + payload
  }

  /** The Uri-Path segments `transmit` writes: the non-empty pieces of the
      part before `?`, stripped of slashes and split on `/`. */
  function TransmitSegments(path: string): seq<string>
  {
    var root := match Partition(path, '?') case Some((a, _)) => a case None => path;
    NonEmpty(Split(Strip(root, '/'), '/'))
  }

  /** The Uri-Query segments `transmit` writes: the part after the first
      `?`, split on `&`, when it is non-empty. */
  function TransmitQueries(path: string): seq<string>
  {
    match Partition(path, '?')
    case Some((_, query)) => if |query| > 0 then Split(query, '&') else []
    case None => []
  }

  function NonEmpty(parts: seq<string>): (r: seq<string>)
    ensures forall k :: 0 <= k < |r| ==> |r[k]| > 0 && r[k] in parts
    ensures |r| <= |parts|
  {
    if |parts| == 0 then []
    else (if |parts[0]| > 0 then [parts[0]] else []) + NonEmpty(parts[1..])
  }

  function OptionsOf(number: int, values: seq<string>): (r: seq<RawOption>)
    requires forall k :: 0 <= k < |values| ==> IsByteText(values[k])
    ensures |r| == |values|
    ensures forall k :: 0 <= k < |r| ==> r[k] == RawOption(number, Encode(values[k]))
  {
    if |values| == 0 then [] else [RawOption(number, Encode(values[0]))] + OptionsOf(number, values[1..])
  }

  /** The option list of an outgoing request. */
  function TransmitOptions(path: string): seq<RawOption>
    requires IsByteText(path)
  {
    TextPieces(path);
    OptionsOf(OPT_URI_PATH, TransmitSegments(path)) + OptionsOf(OPT_URI_QUERY, TransmitQueries(path))
  }

  /** Every segment `transmit` cuts out of byte text is byte text. */
  lemma TextPieces(path: string)
    requires IsByteText(path)
    ensures forall k :: 0 <= k < |TransmitSegments(path)| ==> IsByteText(TransmitSegments(path)[k])
    ensures forall k :: 0 <= k < |TransmitQueries(path)| ==> IsByteText(TransmitQueries(path)[k])
  {
    var root := match Partition(path, '?') case Some((a, _)) => a case None => path;
    assert forall ch :: ch in root ==> ch in path;
    var parts := Split(Strip(root, '/'), '/');
    forall k | 0 <= k < |TransmitSegments(path)|
      ensures IsByteText(TransmitSegments(path)[k])
    {
      var seg := TransmitSegments(path)[k];
      assert seg in parts;
      var i :| 0 <= i < |parts| && parts[i] == seg;
      assert forall ch :: ch in seg ==> ch in Strip(root, '/');
    }
    match Partition(path, '?')
    case Some((_, query)) =>
      assert forall ch :: ch in query ==> ch in path;
    case None =>
  }

  /** `transmit`: a request with no token, its path and query as options
      written by the server's option-head encoder (or, with `rfc`, the
      corrected one), and the payload after a marker when it is non-empty.
      A value too long for two extension bytes is never sent: MicroPython's
      `struct.pack` would truncate its length rather than raise, but such a
      value alone makes the datagram larger than UDP carries, so `sendto`
      raises and `transmit`'s `try`/`except` drops the request. The error
      here stands for that outcome. */
  function RequestPacket(mtype: nat, code: byte, msgId: nat, path: string, payload: Bytes, rfc: bool): (r: Result<Bytes>)
    requires mtype < 4 && msgId < 65536 && IsByteText(path)
    ensures r.Ok? <==> Encodable(TransmitOptions(path), 0)
  {
    var opts := TransmitOptions(path);
    if !Encodable(opts, 0) then Raise(ValueError("value out of range for two bytes"))
    else Ok(HeaderBytes(mtype, 0, code, msgId) + (EncodeOptions(opts, 0, rfc) + PayloadPart(payload)))
  }

  // ---------------------------------------------------------------------
  // Reading back what the server writes
  // ---------------------------------------------------------------------

  /** The header the server writes reads back field by field. */
  lemma HeaderReads(mtype: nat, code: byte, msgId: nat, token: Bytes, q: Bytes)
    requires mtype < 4 && msgId < 65536 && |token| <= 15
    ensures var p := HeaderBytes(mtype, |token|, code, msgId) + token + q;
      && |p| >= 4 && p[0] / 64 == 1 && p[0] % 16 == |token| && p[0] / 16 % 4 == mtype
      && p[1] == code && p[2] as int * 256 + p[3] as int == msgId
      && 4 + |token| <= |p| && p[4..4 + |token|] == token && p[4 + |token|..] == q
  {
    var p := HeaderBytes(mtype, |token|, code, msgId) + token + q;
    var h := HeaderBytes(mtype, |token|, code, msgId);
    assert p[0] == h[0] && p[1] == h[1] && p[2] == h[2] && p[3] == h[3];
    assert p[4..] == token + q;
  }

  /** A datagram the server writes parses to its header fields, its token
      and whatever its option bytes scan to. */
  lemma ParseFrame(mtype: nat, code: byte, msgId: nat, token: Bytes, q: Bytes, rfc: bool,
                   scanned: (seq<RawOption>, Bytes))
    requires mtype < 4 && msgId < 65536 && |token| <= 15
    requires ScanOptions(q, 0, rfc) == Ok(scanned)
    ensures var c := Collect(scanned.0);
      Parse(HeaderBytes(mtype, |token|, code, msgId) + token + q, rfc) ==
      Ok(Some(Request(mtype, code, msgId, token, "/" + Join(c.segments, '/'), QueryMap(c.queries),
                      c.observe, c.block1, if |scanned.1| > 0 then scanned.1[1..] else [])))
  {
    HeaderReads(mtype, code, msgId, token, q);
    ParseOf(HeaderBytes(mtype, |token|, code, msgId) + token + q, mtype, code, msgId, token, q, rfc, scanned);
  }

  lemma ParseOf(p: Bytes, mtype: nat, code: byte, msgId: nat, token: Bytes, q: Bytes, rfc: bool,
                scanned: (seq<RawOption>, Bytes))
    requires |p| >= 4 && p[0] / 64 == 1 && p[0] % 16 == |token| && p[0] / 16 % 4 == mtype
    requires p[1] == code && p[2] as int * 256 + p[3] as int == msgId
    requires 4 + |token| <= |p| && p[4..4 + |token|] == token && p[4 + |token|..] == q
    requires ScanOptions(q, 0, rfc) == Ok(scanned)
    ensures var c := Collect(scanned.0);
      Parse(p, rfc) ==
      Ok(Some(Request(mtype, code, msgId, token, "/" + Join(c.segments, '/'), QueryMap(c.queries),
                      c.observe, c.block1, if |scanned.1| > 0 then scanned.1[1..] else [])))
  {
  }

  /** With no path and no query options the request path is `/` and the
      query dictionary is empty. */
  lemma RootPath(c: Collected)
    requires c.segments == [] && c.queries == []
    ensures "/" + Join(c.segments, '/') == "/" && QueryMap(c.queries) == map[]
  {
    assert Join(c.segments, '/') == "";
  }

  /** A datagram whose options name no path segment and no query parses to
      the root path with an empty query map. */
  lemma RootFrame(mtype: nat, code: byte, msgId: nat, token: Bytes, q: Bytes, rfc: bool,
                  opts: seq<RawOption>, tail: Bytes, observe: bool, block1: Option<nat>)
    requires mtype < 4 && msgId < 65536 && |token| <= 15
    requires ScanOptions(q, 0, rfc) == Ok((opts, tail))
    requires Collect(opts) == Collected([], [], observe, block1)
    ensures Parse(HeaderBytes(mtype, |token|, code, msgId) + token + q, rfc) ==
      Ok(Some(Request(mtype, code, msgId, token, "/", map[], observe, block1,
                      if |tail| > 0 then tail[1..] else [])))
  {
    ParseFrame(mtype, code, msgId, token, q, rfc, (opts, tail));
    RootPath(Collect(opts));
  }

  /** An empty acknowledgement reads back as an ACK with its code, message
      id and token, no options and no payload. */
  lemma AckReads(token: Bytes, msgId: nat, code: byte, rfc: bool)
    requires msgId < 65536 && |token| <= 15
    ensures Parse(AckPacket(token, msgId, code), rfc) ==
      Ok(Some(Request(TYPE_ACK, code, msgId, token, "/", map[], false, None, [])))
  {
    assert AckPacket(token, msgId, code) == HeaderBytes(TYPE_ACK, |token|, code, msgId) + token + [];
    ParseFrame(TYPE_ACK, code, msgId, token, [], rfc, ([], []));
    RootPath(Collect([]));
  }

  /** An option head of one byte with small nibbles, then the rest. */
  lemma SmallHeadScan(q: Bytes, d: nat, l: nat, num: int, rfc: bool, rest: (seq<RawOption>, Bytes))
    requires d <= 12 && l <= 12 && 1 + l <= |q| && q[0] == d * 16 + l
    requires ScanOptions(q[1 + l..], num + d, rfc) == Ok(rest)
    ensures ScanOptions(q, num, rfc) == Ok(([RawOption(num + d, q[1..1 + l])] + rest.0, rest.1))
  {
    assert q[0] / 16 == d && q[0] % 16 == l;
    var h := OptHead(d, l, 1);
    assert ReadHead(q, rfc) == Ok(h) by {
      if rfc {
        assert ReadExtended(q, d, 1) == Ok((d, 1));
        assert ReadExtended(q, l, 1) == Ok((l, 1));
      }
    }
    ScanCons(q, num, rfc, h, num + d, q[1 + l..], rest);
  }

  /** A piggy-backed response reads back with its payload, and with an
      Observe option exactly when it was written with one. */
  lemma PiggybackReads(token: Bytes, msgId: nat, code: byte, payload: Bytes, observe: bool, rfc: bool)
    requires msgId < 65536 && |token| <= 15
    ensures Parse(PiggybackPacket(token, msgId, code, payload, observe), rfc) ==
      Ok(Some(Request(TYPE_ACK, code, msgId, token, "/", map[], observe, None, payload)))
  {
    if observe {
      ObservedPiggybackReads(token, msgId, code, payload, rfc);
    } else {
      var tail := [PAYLOAD_MARKER] + payload;
      assert tail[1..] == payload;
      assert PiggybackPacket(token, msgId, code, payload, observe) == HeaderBytes(TYPE_ACK, |token|, code, msgId) + token + tail;
      ParseFrame(TYPE_ACK, code, msgId, token, tail, rfc, ([], tail));
      RootPath(Collect([]));
    }
  }

  lemma ObservedPiggybackReads(token: Bytes, msgId: nat, code: byte, payload: Bytes, rfc: bool)
    requires msgId < 65536 && |token| <= 15
    ensures Parse(PiggybackPacket(token, msgId, code, payload, true), rfc) ==
      Ok(Some(Request(TYPE_ACK, code, msgId, token, "/", map[], true, None, payload)))
  {
    var tail := [PAYLOAD_MARKER] + payload;
    assert tail[1..] == payload;
    var q := [0x60] + tail;
    assert PiggybackPacket(token, msgId, code, payload, true) == HeaderBytes(TYPE_ACK, |token|, code, msgId) + token + q;
    assert q[1..] == tail;
    SmallHeadScan(q, 6, 0, 0, rfc, ([], tail));
    assert q[1..1] == [];
    assert [RawOption(0 + 6, q[1..1])] + [] == [RawOption(6, [])];
    var opts := [RawOption(6, [])];
    assert Collect(opts[1..]) == Collected([], [], false, None);
    assert Collect(opts) == Collected([], [], true, None);
    ParseFrame(TYPE_ACK, code, msgId, token, q, rfc, (opts, tail));
    RootPath(Collect(opts));
  }

  /** A separate (NON) response reads back with its code and payload. */
  lemma RawReads(token: Bytes, msgId: nat, code: byte, payload: Bytes, rfc: bool)
    requires msgId < 65536 && |token| <= 15
    ensures Parse(RawPacket(token, msgId, code, payload), rfc) ==
      Ok(Some(Request(TYPE_NON, code, msgId, token, "/", map[], false, None, payload)))
  {
    var tail := PayloadPart(payload);
    ParseFrame(TYPE_NON, code, msgId, token, tail, rfc, ([], tail));
    RootPath(Collect([]));
  }

  /** The option bytes of a notification scan to its Observe and
      Content-Format options. */
  lemma NotificationOptionsScan(q: Bytes, o: Bytes, tail: Bytes, rfc: bool)
    requires |q| == 5 + |tail| && |tail| > 0 && tail[0] == PAYLOAD_MARKER
    requires q[0] == 0x62 && q[1..3] == o && q[3] == 0x61 && q[4] == 0x32 && q[5..] == tail
    ensures ScanOptions(q, 0, rfc) == Ok(([RawOption(6, o), RawOption(12, [0x32])], tail))
  {
    var q2 := q[3..];
    assert q2[2..] == tail;
    assert ScanOptions(tail, 12, rfc) == Ok(([], tail));
    assert q2[0] == 0x61 && q2[1..2] == [0x32];
    SmallHeadScan(q2, 6, 1, 6, rfc, ([], tail));
    var second := [RawOption(12, [0x32])];
    assert [RawOption(6 + 6, q2[1..2])] + [] == second;
    assert [RawOption(0 + 6, q[1..3])] + second == [RawOption(6, o), RawOption(12, [0x32])];
    assert q[1 + 2..] == q2;
    SmallHeadScan(q, 6, 2, 0, rfc, (second, tail));
  }

  /** A notification reads back as an observing 2.05 carrying its payload. */
  lemma NotificationReads(token: Bytes, msgId: nat, obsSeq: nat, payload: Bytes, rfc: bool)
    requires msgId < 65536 && |token| <= 15
    ensures Parse(NotificationPacket(token, msgId, obsSeq, payload), rfc) ==
      Ok(Some(Request(TYPE_NON, RESP_CONTENT, msgId, token, "/", map[], true, None, payload)))
  {
    var o := Be16(obsSeq % 65536);
    var tail := [PAYLOAD_MARKER] + payload;
    var q := [0x62] + o + ([0x61, 0x32] + tail);
    assert NotificationPacket(token, msgId, obsSeq, payload) == HeaderBytes(TYPE_NON, |token|, RESP_CONTENT, msgId) + token + q;
    assert tail[1..] == payload;
    assert q[1..3] == o && q[5..] == tail;
    NotificationOptionsScan(q, o, tail, rfc);
    var opts := [RawOption(6, o), RawOption(12, [0x32])];
    assert Collect(opts[1..][1..]) == Collected([], [], false, None);
    assert Collect(opts[1..]) == Collected([], [], false, None);
    assert Collect(opts) == Collected([], [], true, None);
    ParseFrame(TYPE_NON, RESP_CONTENT, msgId, token, q, rfc, (opts, tail));
    RootPath(Collect(opts));
  }

  /** The option bytes of a block acknowledgement scan to one Block1 option. */
  lemma BlockOptionScan(q: Bytes, b: Bytes, rfc: bool)
    requires |b| <= 15 && (rfc ==> |b| <= 12)
    requires |q| == 2 + |b| && q[0] == 13 * 16 + |b| && q[1] == 14 && q[2..] == b
    ensures ScanOptions(q, 0, rfc) == Ok(([RawOption(27, b)], []))
  {
    var h := OptHead(27, |b|, 2);
    assert q[0] / 16 == 13 && q[0] % 16 == |b|;
    assert ReadHead(q, rfc) == Ok(h) by {
      if rfc {
        assert ReadExtended(q, 13, 1) == Ok((27, 2));
        assert ReadExtended(q, |b|, 2) == Ok((|b|, 2));
      }
    }
    assert q[2..2 + |b|] == b && q[2 + |b|..] == [];
    ScanCons(q, 0, rfc, h, 27, [], ([], []));
    assert [RawOption(27, b)] + [] == [RawOption(27, b)];
  }

  /** A block acknowledgement reads back as an ACK whose Block1 value is the
      block number it was written with. The corrected reader extends a
      length nibble of 13 or more, so there it holds for values of up to 12
      bytes. */
  lemma BlockAckReads(token: Bytes, msgId: nat, code: byte, block: nat, rfc: bool)
    requires msgId < 65536 && |token| <= 15 && |MinimalBytes(block)| <= 15
    requires rfc ==> |MinimalBytes(block)| <= 12
    ensures Parse(BlockAckPacket(token, msgId, code, block), rfc) ==
      Ok(Some(Request(TYPE_ACK, code, msgId, token, "/", map[], false, Some(block), [])))
  {
    var b := MinimalBytes(block);
    var q := [13 * 16 + |b|, 14] + b;
    BlockAckLayout(token, msgId, code, block);
    BlockOptionScan(q, b, rfc);
    CollectBlock(block);
    RootFrame(TYPE_ACK, code, msgId, token, q, rfc, [RawOption(27, b)], [], false, Some(block));
  }

  /** A block acknowledgement is its header, its token and one option. */
  lemma BlockAckLayout(token: Bytes, msgId: nat, code: byte, block: nat)
    requires msgId < 65536 && |MinimalBytes(block)| <= 15
    ensures var b := MinimalBytes(block); var q := [13 * 16 + |b|, 14] + b;
      && BlockAckPacket(token, msgId, code, block) == HeaderBytes(TYPE_ACK, |token|, code, msgId) + token + q
      && |q| == 2 + |b| && q[0] == 13 * 16 + |b| && q[1] == 14 && q[2..] == b
  {
    var b := MinimalBytes(block);
    var q := [13 * 16 + |b|, 14] + b;
    assert q[2..] == b;
  }

  /** A lone Block1 option collects to its block number. */
  lemma CollectBlock(block: nat)
    ensures Collect([RawOption(27, MinimalBytes(block))]) == Collected([], [], false, Some(block))
  {
    var opts := [RawOption(27, MinimalBytes(block))];
    assert Collect(opts[1..]) == Collected([], [], false, None);
  }

  /** Query options alone collect to their texts. */
  lemma {:induction false} CollectQueries(qs: seq<string>)
    requires forall k :: 0 <= k < |qs| ==> IsByteText(qs[k])
    ensures Collect(OptionsOf(OPT_URI_QUERY, qs)) == Collected([], qs, false, None)
  {
    if |qs| > 0 {
      var opts := OptionsOf(OPT_URI_QUERY, qs);
      CollectQueries(qs[1..]);
      assert opts[1..] == OptionsOf(OPT_URI_QUERY, qs[1..]);
      assert [qs[0]] + qs[1..] == qs;
    }
  }

  lemma ConsTail<T>(x: T, a: seq<T>, b: seq<T>)
    ensures ([x] + a + b)[0] == x && ([x] + a + b)[1..] == a + b
  {
  }

  /** A leading Uri-Path option adds its text before the later segments. */
  lemma CollectPathHead(opts: seq<RawOption>)
    requires |opts| > 0 && opts[0].number == OPT_URI_PATH
    ensures Collect(opts) == Collect(opts[1..]).(segments := [Text(opts[0].value)] + Collect(opts[1..]).segments)
  {
  }

  /** The options `transmit` writes collect back to its segments and queries. */
  lemma {:induction false} CollectTransmitted(segs: seq<string>, qs: seq<string>)
    requires forall k :: 0 <= k < |segs| ==> IsByteText(segs[k])
    requires forall k :: 0 <= k < |qs| ==> IsByteText(qs[k])
    ensures Collect(OptionsOf(OPT_URI_PATH, segs) + OptionsOf(OPT_URI_QUERY, qs)) == Collected(segs, qs, false, None)
  {
    if |segs| == 0 {
      assert OptionsOf(OPT_URI_PATH, segs) + OptionsOf(OPT_URI_QUERY, qs) == OptionsOf(OPT_URI_QUERY, qs);
      CollectQueries(qs);
    } else {
      var opts := OptionsOf(OPT_URI_PATH, segs) + OptionsOf(OPT_URI_QUERY, qs);
      CollectTransmitted(segs[1..], qs);
      assert OptionsOf(OPT_URI_PATH, segs) == [RawOption(OPT_URI_PATH, Encode(segs[0]))] + OptionsOf(OPT_URI_PATH, segs[1..]);
      ConsTail(RawOption(OPT_URI_PATH, Encode(segs[0])), OptionsOf(OPT_URI_PATH, segs[1..]), OptionsOf(OPT_URI_QUERY, qs));
      CollectPathHead(opts);
      assert [segs[0]] + segs[1..] == segs;
    }
  }

  /** A tokenless datagram whose option bytes scan to `opts` and then the
      payload (behind its marker when non-empty) parses to what `opts`
      collect to and that payload. */
  lemma TokenlessFrame(mtype: nat, code: byte, msgId: nat, q: Bytes, rfc: bool, opts: seq<RawOption>,
                       payload: Bytes, segs: seq<string>, qs: seq<string>)
    requires mtype < 4 && msgId < 65536
    requires ScanOptions(q, 0, rfc) == Ok((opts, PayloadPart(payload)))
    requires Collect(opts) == Collected(segs, qs, false, None)
    ensures Parse(HeaderBytes(mtype, 0, code, msgId) + q, rfc) ==
      Ok(Some(Request(mtype, code, msgId, [], "/" + Join(segs, '/'), QueryMap(qs), false, None, payload)))
  {
    var tail := PayloadPart(payload);
    var token: Bytes := [];
    assert HeaderBytes(mtype, 0, code, msgId) + q == HeaderBytes(mtype, |token|, code, msgId) + token + q;
    ParseFrame(mtype, code, msgId, token, q, rfc, (opts, tail));
  }

  /** A request `transmit` writes parses back, with the corrected option
      reader, to its type, code, message id, path segments, query map and
      payload; with the server's own reader the same holds as long as no
      option value is longer than 12 bytes and no gap exceeds 268. */
  lemma TransmitReads(mtype: nat, code: byte, msgId: nat, path: string, payload: Bytes, rfc: bool)
    requires mtype < 4 && msgId < 65536 && IsByteText(path)
    requires Encodable(TransmitOptions(path), 0)
    requires !rfc ==> SafeAsWritten(TransmitOptions(path), 0)
    ensures RequestPacket(mtype, code, msgId, path, payload, rfc).Ok?
    ensures Parse(RequestPacket(mtype, code, msgId, path, payload, rfc).value, rfc) ==
      Ok(Some(Request(mtype, code, msgId, [], "/" + Join(TransmitSegments(path), '/'),
                      QueryMap(TransmitQueries(path)), false, None, payload)))
  {
    var segs, qs := TransmitSegments(path), TransmitQueries(path);
    TextPieces(path);
    var opts := TransmitOptions(path);
    assert opts == OptionsOf(OPT_URI_PATH, segs) + OptionsOf(OPT_URI_QUERY, qs);
    var tail := PayloadPart(payload);
    var q := EncodeOptions(opts, 0, rfc) + tail;
    assert RequestPacket(mtype, code, msgId, path, payload, rfc) == Ok(HeaderBytes(mtype, 0, code, msgId) + q);
    if rfc {
      ScanEncodeRoundTripRfc(opts, 0, tail);
    } else {
      ScanEncodeRoundTrip(opts, 0, tail);
    }
    assert ScanOptions(q, 0, rfc) == Ok((opts, tail));
    CollectTransmitted(segs, qs);
    TokenlessFrame(mtype, code, msgId, q, rfc, opts, payload, segs, qs);
  }
}

=== FILE: coap_replies.dfy ===
/** What the server sends, read back with its own parser: every reply to a
    request carries that request's token, every ACK its message id; how a
    handler's result becomes a reply; notifications; requests the server
    sends as a client.
 */
module ServerReplies {
  import opened Wrappers
  import opened Json
  import opened CoapWire
  import opened CoapPacket
  import opened CoapServer

  /** `o` is a datagram to `addr` that reads back as a response to `req`:
      same token, and either an ACK with the request's message id or a NON. */
  predicate Answers(o: Out, addr: Addr, req: Request, rfc: bool)
  {
    && o.Send? && o.to == addr
    && match Parse(o.bytes, rfc)
       case Ok(Some(r)) =>
         r.token == req.token && ((r.mtype == TYPE_ACK && r.msgId == req.msgId) || r.mtype == TYPE_NON)
       case _ => false
  }

  predicate AllAnswer(outs: seq<Out>, addr: Addr, req: Request, rfc: bool)
  {
    forall k :: 0 <= k < |outs| ==> outs[k].Send? ==> Answers(outs[k], addr, req, rfc)
  }

  lemma AckAnswers(addr: Addr, req: Request, code: byte, rfc: bool)
    requires |req.token| <= 15 && req.msgId < 65536
    ensures Answers(Send(addr, AckPacket(req.token, req.msgId, code)), addr, req, rfc)
  {
    AckReads(req.token, req.msgId, code, rfc);
  }

  lemma PiggybackAnswers(addr: Addr, req: Request, code: byte, body: Bytes, observe: bool, rfc: bool)
    requires |req.token| <= 15 && req.msgId < 65536
    ensures Answers(Send(addr, PiggybackPacket(req.token, req.msgId, code, body, observe)), addr, req, rfc)
  {
    PiggybackReads(req.token, req.msgId, code, body, observe, rfc);
  }

  lemma RawAnswers(addr: Addr, req: Request, m: nat, code: byte, body: Bytes, rfc: bool)
    requires |req.token| <= 15 && m < 65536
    ensures Answers(Send(addr, RawPacket(req.token, m, code, body)), addr, req, rfc)
  {
    RawReads(req.token, m, code, body, rfc);
  }

  lemma FailureAnswers(msgId: nat, addr: Addr, req: Request, ackSent: bool, e: Exc, codec: Codec, rfc: bool)
    requires msgId < MSG_ID_MOD && |req.token| <= 15 && req.msgId < 65536
    ensures AllAnswer(Failure(msgId, addr, req, ackSent, e, codec).1, addr, req, rfc)
  {
    if ackSent {
      RawAnswers(addr, req, Next(msgId), RESP_INTERNAL_ERR, codec.dumps(TextReply(ExcText(e))), rfc);
    } else if req.mtype == TYPE_CON {
      AckAnswers(addr, req, RESP_INTERNAL_ERR, rfc);
    }
  }

  lemma AnswerAnswers(msgId: nat, addr: Addr, req: Request, ackSent: bool, code: Value, data: Value, codec: Codec, rfc: bool)
    requires msgId < MSG_ID_MOD && |req.token| <= 15 && req.msgId < 65536
    ensures Answer(msgId, req, ackSent, code, data, codec).1.Ok? ==>
      Answers(Send(addr, Answer(msgId, req, ackSent, code, data, codec).1.value), addr, req, rfc)
  {
    var a := Answer(msgId, req, ackSent, code, data, codec);
    if a.1.Ok? {
      var c := CodeByte(code).value;
      if ackSent {
        RawAnswers(addr, req, Next(msgId), c, SeparateBody(data, codec).value, rfc);
      } else if data.VNone? {
        AckAnswers(addr, req, c, rfc);
      } else {
        PiggybackAnswers(addr, req, c, PiggybackBody(data, codec).value, req.observe, rfc);
      }
    }
  }

  lemma AppendAnswers(a: seq<Out>, b: seq<Out>, addr: Addr, req: Request, rfc: bool)
    requires AllAnswer(a, addr, req, rfc) && AllAnswer(b, addr, req, rfc)
    ensures AllAnswer(a + b, addr, req, rfc)
  {
    forall k | 0 <= k < |a + b| && (a + b)[k].Send?
      ensures Answers((a + b)[k], addr, req, rfc)
    {
      if k >= |a| {
        assert (a + b)[k] == b[k - |a|];
      }
    }
  }

  /** Everything a handler's completion sends answers the request. */
  lemma HandleAnswers(s: Server, addr: Addr, req: Request, run: HandlerRun, codec: Codec, rfc: bool)
    requires s.msgId < MSG_ID_MOD && |req.token| <= 15 && req.msgId < 65536
    ensures AllAnswer(Handle(s, addr, req, run, codec).1, addr, req, rfc)
  {
    var ack := if run.sendsAck then SendAck(req, false) else (false, []);
    var pre := if |ack.1| == 1 then [Send(addr, ack.1[0])] else [];
    if |pre| == 1 {
      AckAnswers(addr, req, CODE_EMPTY, rfc);
    }
    assert AllAnswer(pre, addr, req, rfc);
    match run.result
    case Raise(e) =>
      FailureAnswers(s.msgId, addr, req, ack.0, e, codec, rfc);
      AppendAnswers(pre, Failure(s.msgId, addr, req, ack.0, e, codec).1, addr, req, rfc);
    case Ok(v) =>
      if !v.VNone? {
        match Shape(req.code, v)
        case Raise(e) =>
          FailureAnswers(s.msgId, addr, req, ack.0, e, codec, rfc);
          AppendAnswers(pre, Failure(s.msgId, addr, req, ack.0, e, codec).1, addr, req, rfc);
        case Ok(cd) =>
          var a := Answer(s.msgId, req, ack.0, cd.0, cd.1, codec);
          AnswerAnswers(s.msgId, addr, req, ack.0, cd.0, cd.1, codec, rfc);
          match a.1
          case Ok(b) =>
            AppendAnswers(pre, [Send(addr, b)], addr, req, rfc);
          case Raise(e) =>
            FailureAnswers(a.0, addr, req, ack.0, e, codec, rfc);
            AppendAnswers(pre, Failure(a.0, addr, req, ack.0, e, codec).1, addr, req, rfc);
      }
  }

  lemma DispatchAnswers(s: Server, addr: Addr, req: Request, run: HandlerRun, codec: Codec, rfc: bool)
    requires s.msgId < MSG_ID_MOD && |req.token| <= 15 && req.msgId < 65536
    ensures AllAnswer(Dispatch(s, addr, req, run, codec).1, addr, req, rfc)
  {
    var obs := if req.code == METHOD_GET && req.observe then AddObserver(s.observers, req.path, addr, req.token) else s.observers;
    var s1 := s.(observers := obs);
    if req.path !in s.routes {
      AckAnswers(addr, req, RESP_NOT_FOUND, rfc);
    } else if !Allows(s.routes[req.path], req.code) {
      AckAnswers(addr, req, RESP_METHOD_NOT_ALLOWED, rfc);
    } else {
      HandleAnswers(s1, addr, req, run, codec, rfc);
    }
  }

  /** Every datagram a worker sends reads back, with the parser it runs
      with, as a response carrying the request's token, and every ACK
      among them carries the request's message id. */
  lemma ProcessAnswers(s: Server, job: Job, now: int, run: HandlerRun, codec: Codec, fixed: bool)
    requires s.msgId < MSG_ID_MOD && |job.req.token| <= 15 && job.req.msgId < 65536
    ensures AllAnswer(Process(s, job, now, run, codec, fixed).1, job.addr, job.req, fixed)
  {
    var req := job.req;
    var addr := job.addr;
    var r := Process(s, job, now, run, codec, fixed);
    if (req.mtype == TYPE_ACK || req.mtype == TYPE_RST) && req.msgId in s.pending {
      assert forall k :: 0 <= k < |r.1| ==> r.1[k].Resolve?;
    } else if req.block1.Some? {
      match Reassemble(s.partials, BlockKey(addr, req.token), req.block1.value, req.payload, now)
      case Incomplete =>
        assert r.1 == [Send(addr, AckPacket(req.token, req.msgId, RESP_ENTITY_INCOMPLETE))];
        AckAnswers(addr, req, RESP_ENTITY_INCOMPLETE, fixed);
      case Continued(p) =>
        if fixed && ContinuePacket(req.token, req.msgId, req.block1.value).Ok? {
          assert r.1 == [Send(addr, ContinuePacket(req.token, req.msgId, req.block1.value).value)];
          ContinueAnswers(addr, req, req.block1.value);
        } else {
          assert r.1 == [];
        }
      case Completed(p, body) =>
        assert r == Dispatch(s.(partials := p), addr, req.(payload := body), run, codec);
        DispatchAnswers(s.(partials := p), addr, req.(payload := body), run, codec, fixed);
    } else {
      assert r == Dispatch(s, addr, req, run, codec);
      DispatchAnswers(s, addr, req, run, codec, fixed);
    }
  }

  /** The corrected Continue reply reads back, with the corrected parser,
      as an ACK echoing the request and carrying its Block1 value. */
  lemma ContinueAnswers(addr: Addr, req: Request, v: nat)
    requires |req.token| <= 15 && req.msgId < 65536
    requires ContinuePacket(req.token, req.msgId, v).Ok?
    ensures Parse(ContinuePacket(req.token, req.msgId, v).value, true) ==
      Ok(Some(Request(TYPE_ACK, RESP_CONTINUE, req.msgId, req.token, "/", map[], false, Some(v), [])))
    ensures Answers(Send(addr, ContinuePacket(req.token, req.msgId, v).value), addr, req, true)
  {
    var b := MinimalBytes(v);
    var opts := [RawOption(OPT_BLOCK1, b)];
    assert Encodable(opts, 0) by {
      assert opts[1..] == [];
    }
    var q := EncodeOptions(opts, 0, true);
    ScanEncodeRoundTripRfc(opts, 0, []);
    assert q + [] == q;
    CollectBlock(v);
    RootFrame(TYPE_ACK, RESP_CONTINUE, req.msgId, req.token, q, true, opts, [], false, Some(v));
  }

  /** Everything one pass of the receive loop sends answers the request it
      parsed. */
  lemma ReceiveAnswers(s: Server, addr: Addr, data: Bytes, now: int, fixed: bool, req: Request, rfc: bool)
    requires Valid(s) && Parse(Truncate(data), fixed) == Ok(Some(req))
    ensures AllAnswer(Receive(s, addr, data, now, fixed).1, addr, req, rfc)
  {
    var outs := Admit(s, addr, req).1;
    assert Receive(s, addr, data, now, fixed).1 == outs;
    if s.active >= s.maxWorkers {
      if req.mtype == TYPE_CON {
        assert outs == [Send(addr, AckPacket(req.token, req.msgId, RESP_SERVICE_UNAVAILABLE))];
        AckAnswers(addr, req, RESP_SERVICE_UNAVAILABLE, rfc);
      } else if req.mtype == TYPE_NON {
        assert outs == [Send(addr, RawPacket(req.token, Next(s.msgId), RESP_SERVICE_UNAVAILABLE, []))];
        RawAnswers(addr, req, Next(s.msgId), RESP_SERVICE_UNAVAILABLE, [], rfc);
      } else {
        assert outs == [];
      }
    } else {
      assert outs == [];
    }
  }

  // ---------------------------------------------------------------------
  // How a handler's result becomes a reply
  // ---------------------------------------------------------------------

  /** A `(code, dict)` tuple without an empty ACK is piggy-backed on the ACK. */
  lemma TupleReply(s: Server, addr: Addr, req: Request, codec: Codec, c: byte, f: map<string, Json>)
    requires s.msgId < MSG_ID_MOD && req.msgId < 65536
    ensures Handle(s, addr, req, HandlerRun(false, Ok(VSeq([VInt(c), VDict(f)]))), codec) ==
      (s, [Send(addr, PiggybackPacket(req.token, req.msgId, c, codec.dumps(JObj(f)), req.observe))])
  {
    var v := VSeq([VInt(c), VDict(f)]);
    assert Shape(req.code, v) == Ok((VInt(c), VDict(f)));
    assert CodeByte(VInt(c)) == Ok(c);
    assert Answer(s.msgId, req, false, VInt(c), VDict(f), codec) ==
      (s.msgId, Ok(PiggybackPacket(req.token, req.msgId, c, codec.dumps(JObj(f)), req.observe)));
    var h := Handle(s, addr, req, HandlerRun(false, Ok(v)), codec);
    assert h.1 == [Send(addr, PiggybackPacket(req.token, req.msgId, c, codec.dumps(JObj(f)), req.observe))];
    assert h.0 == s.(msgId := s.msgId);
  }

  /** A bare int is a code alone, sent on an empty-bodied ACK as its low
      byte, so `256` goes out as code 0. */
  lemma IntReply(s: Server, addr: Addr, req: Request, codec: Codec, c: int)
    requires s.msgId < MSG_ID_MOD && req.msgId < 65536
    ensures Handle(s, addr, req, HandlerRun(false, Ok(VInt(c))), codec) ==
      (s, [Send(addr, AckPacket(req.token, req.msgId, (c % 256) as byte))])
  {
    var b := (c % 256) as byte;
    assert Shape(req.code, VInt(c)) == Ok((VInt(c), VNone));
    assert CodeByte(VInt(c)) == Ok(b);
    assert Answer(s.msgId, req, false, VInt(c), VNone, codec) == (s.msgId, Ok(AckPacket(req.token, req.msgId, b)));
    var h := Handle(s, addr, req, HandlerRun(false, Ok(VInt(c))), codec);
    assert h.1 == [Send(addr, AckPacket(req.token, req.msgId, b))];
    assert h.0 == s.(msgId := s.msgId);
  }

  /** Any other value is data under 2.04 for POST and 2.05 otherwise. */
  lemma DataReply(s: Server, addr: Addr, req: Request, codec: Codec, f: map<string, Json>)
    requires s.msgId < MSG_ID_MOD && req.msgId < 65536
    ensures Handle(s, addr, req, HandlerRun(false, Ok(VDict(f))), codec) ==
      (s, [Send(addr, PiggybackPacket(req.token, req.msgId, if req.code == METHOD_POST then RESP_CHANGED else RESP_CONTENT,
                                      codec.dumps(JObj(f)), req.observe))])
  {
    var c: byte := if req.code == METHOD_POST then RESP_CHANGED else RESP_CONTENT;
    assert Shape(req.code, VDict(f)) == Ok((VInt(c), VDict(f)));
    assert Answer(s.msgId, req, false, VInt(c), VDict(f), codec) ==
      (s.msgId, Ok(PiggybackPacket(req.token, req.msgId, c, codec.dumps(JObj(f)), req.observe)));
    var h := Handle(s, addr, req, HandlerRun(false, Ok(VDict(f))), codec);
    assert h.1 == [Send(addr, PiggybackPacket(req.token, req.msgId, c, codec.dumps(JObj(f)), req.observe))];
    assert h.0 == s.(msgId := s.msgId);
  }

  /** After the handler's empty ACK on a CON, the result goes out as a
      separate NON under the next message id. */
  lemma SeparateReply(s: Server, addr: Addr, req: Request, codec: Codec, c: byte, f: map<string, Json>)
    requires s.msgId < MSG_ID_MOD && req.msgId < 65536 && req.mtype == TYPE_CON
    ensures Handle(s, addr, req, HandlerRun(true, Ok(VSeq([VInt(c), VDict(f)]))), codec) ==
      (s.(msgId := Next(s.msgId)),
       [Send(addr, AckPacket(req.token, req.msgId, CODE_EMPTY)),
        Send(addr, RawPacket(req.token, Next(s.msgId), c, codec.dumps(JObj(f))))])
  {
    var v := VSeq([VInt(c), VDict(f)]);
    var m := Next(s.msgId);
    assert SendAck(req, false) == (true, [AckPacket(req.token, req.msgId, CODE_EMPTY)]);
    assert Shape(req.code, v) == Ok((VInt(c), VDict(f)));
    assert Separate(req.token, m, VInt(c), VDict(f), codec) == Ok(RawPacket(req.token, m, c, codec.dumps(JObj(f))));
    assert Answer(s.msgId, req, true, VInt(c), VDict(f), codec) == (m, Ok(RawPacket(req.token, m, c, codec.dumps(JObj(f)))));
    var h := Handle(s, addr, req, HandlerRun(true, Ok(v)), codec);
    assert h.1 == [Send(addr, AckPacket(req.token, req.msgId, CODE_EMPTY))] + [Send(addr, RawPacket(req.token, m, c, codec.dumps(JObj(f))))];
    assert h.0 == s.(msgId := m);
    assert h.1 == [Send(addr, AckPacket(req.token, req.msgId, CODE_EMPTY)),
                   Send(addr, RawPacket(req.token, m, c, codec.dumps(JObj(f))))];
  }

  /** A handler that raises: a separate 5.00 with the error text after the
      empty ACK, ACK 5.00 for a CON without it, nothing for a NON. */
  lemma RaisedReply(s: Server, addr: Addr, req: Request, codec: Codec, sendsAck: bool, e: Exc)
    requires s.msgId < MSG_ID_MOD && req.msgId < 65536
    ensures var r := Handle(s, addr, req, HandlerRun(sendsAck, Raise(e)), codec);
      if sendsAck && req.mtype == TYPE_CON then
        r == (s.(msgId := Next(s.msgId)),
              [Send(addr, AckPacket(req.token, req.msgId, CODE_EMPTY)),
               Send(addr, RawPacket(req.token, Next(s.msgId), RESP_INTERNAL_ERR, codec.dumps(TextReply(ExcText(e)))))])
      else if req.mtype == TYPE_CON then
        r == (s, [Send(addr, AckPacket(req.token, req.msgId, RESP_INTERNAL_ERR))])
      else r == (s, [])
  {
    var h := Handle(s, addr, req, HandlerRun(sendsAck, Raise(e)), codec);
    var ack := if sendsAck then SendAck(req, false) else (false, []);
    var pre := if |ack.1| == 1 then [Send(addr, ack.1[0])] else [];
    var f := Failure(s.msgId, addr, req, ack.0, e, codec);
    assert h == (s.(msgId := f.0), pre + f.1);
    var text := codec.dumps(TextReply(ExcText(e)));
    if sendsAck && req.mtype == TYPE_CON {
      assert ack == (true, [AckPacket(req.token, req.msgId, CODE_EMPTY)]);
      assert f == (Next(s.msgId), [Send(addr, RawPacket(req.token, Next(s.msgId), RESP_INTERNAL_ERR, text))]);
      assert h.1 == [Send(addr, AckPacket(req.token, req.msgId, CODE_EMPTY)),
                     Send(addr, RawPacket(req.token, Next(s.msgId), RESP_INTERNAL_ERR, text))];
      assert h.0 == s.(msgId := Next(s.msgId));
    } else if req.mtype == TYPE_CON {
      assert ack.0 == false && pre == [];
      assert f == (s.msgId, [Send(addr, AckPacket(req.token, req.msgId, RESP_INTERNAL_ERR))]);
      assert h.1 == [Send(addr, AckPacket(req.token, req.msgId, RESP_INTERNAL_ERR))];
      assert h.0 == s.(msgId := s.msgId);
    } else {
      assert ack.0 == false && pre == [];
      assert f == (s.msgId, []);
      assert h.1 == [];
      assert h.0 == s.(msgId := s.msgId);

    }
  }

  /** A handler returning `None` leaves the reply to itself. */
  lemma NoneReply(s: Server, addr: Addr, req: Request, codec: Codec)
    requires s.msgId < MSG_ID_MOD && req.msgId < 65536
    ensures Handle(s, addr, req, HandlerRun(false, Ok(VNone)), codec) == (s, [])
  {
    var h := Handle(s, addr, req, HandlerRun(false, Ok(VNone)), codec);
    assert h.1 == [];
  }

  /** `send_ack` sends at most once per request. */
  lemma SendAckOnce(req: Request, ackSent: bool)
    requires req.msgId < 65536
    ensures SendAck(req, SendAck(req, ackSent).0).1 == []
  {
  }

  // ---------------------------------------------------------------------
  // Notifications and client requests
  // ---------------------------------------------------------------------

  /** Notification `k` goes to the `k`-th observer under the message id
      `k + 1` steps on. */
  lemma {:induction false} NotificationsShape(order: seq<Addr>, tokens: map<Addr, Bytes>, msgId: nat, obsSeq: nat, payload: Bytes)
    requires msgId < MSG_ID_MOD
    requires forall k :: 0 <= k < |order| ==> order[k] in tokens
    ensures Notifications(order, tokens, msgId, obsSeq, payload).0 == (msgId + |order|) % MSG_ID_MOD
    ensures SendsInOrder(Notifications(order, tokens, msgId, obsSeq, payload).1, order, tokens, msgId, obsSeq, payload)
    decreases |order|
  {
    if |order| > 0 {
      var m := Next(msgId);
      NotificationsShape(order[1..], tokens, m, obsSeq, payload);
      var rest := Notifications(order[1..], tokens, m, obsSeq, payload);
      var r := Notifications(order, tokens, msgId, obsSeq, payload);
      assert r.1 == [Send(order[0], NotificationPacket(tokens[order[0]], m, obsSeq, payload))] + rest.1;
      SendsCons(r.1, order, tokens, msgId, obsSeq, payload);
      assert r.0 == rest.0;
      ModShift(msgId, |order| - 1);
    }
  }

  /** A first notification to `order[0]` under the next id, followed by
      the notifications to the rest, is the notifications to `order`. */
  lemma SendsCons(outs: seq<Out>, order: seq<Addr>, tokens: map<Addr, Bytes>, msgId: nat, q: nat, body: Bytes)
    requires msgId < MSG_ID_MOD && |order| > 0 && |outs| > 0 && order[0] in tokens
    requires outs[0] == Send(order[0], NotificationPacket(tokens[order[0]], Next(msgId), q, body))
    requires SendsInOrder(outs[1..], order[1..], tokens, Next(msgId), q, body)
    ensures SendsInOrder(outs, order, tokens, msgId, q, body)
  {
    var m := Next(msgId);
    forall k | 0 < k < |order|
      ensures order[k] in tokens
      ensures outs[k] == Send(order[k], NotificationPacket(tokens[order[k]], (msgId + k + 1) % MSG_ID_MOD, q, body))
    {
      assert outs[k] == outs[1..][k - 1] && order[k] == order[1..][k - 1];
      ModShift(msgId, k);
      assert (m + (k - 1) + 1) % MSG_ID_MOD == (msgId + k + 1) % MSG_ID_MOD;
    }
  }

  lemma ModShift(m: nat, j: nat)
    requires m < MSG_ID_MOD
    ensures (Next(m) + j) % MSG_ID_MOD == (m + j + 1) % MSG_ID_MOD
  {
    if m + 1 == MSG_ID_MOD {
      assert Next(m) == 0;
      assert (m + j + 1) % MSG_ID_MOD == j % MSG_ID_MOD by {
        assert m + j + 1 == MSG_ID_MOD + j;
      }
    }
  }

  /** With observers, one `notify_observers` advances the sequence number
      once and sends each observer exactly one notification, in the table's
      iteration order, that reads back as an observing NON 2.05 with that
      observer's token and the JSON body. */
  lemma NotifyDelivers(s: Server, path: string, payload: Json, order: seq<Addr>, codec: Codec, rfc: bool)
    requires Valid(s) && path in s.observers && |s.observers[path]| > 0
    requires IterationOrder(order, s.observers[path])
    ensures var r := Notify(s, path, payload, order, codec);
      && r.0.obsSeq == (s.obsSeq + 1) % OBS_SEQ_MOD
      && |r.1| == |order|
      && r.0.msgId == (s.msgId + |order|) % MSG_ID_MOD

      && forall k :: 0 <= k < |order| ==>
           r.1[k].Send? && r.1[k].to == order[k]
           && Parse(r.1[k].bytes, rfc) ==
              Ok(Some(Request(TYPE_NON, RESP_CONTENT, (s.msgId + k + 1) % MSG_ID_MOD, s.observers[path][order[k]],
                              "/", map[], true, None, codec.dumps(payload))))
  {
    var tokens := s.observers[path];
    var q := (s.obsSeq + 1) % OBS_SEQ_MOD;
    var body := codec.dumps(payload);
    var r := Notify(s, path, payload, order, codec);
    NotifyShape(s, path, payload, order, codec);
    forall k | 0 <= k < |order|
      ensures r.1[k].Send? && r.1[k].to == order[k]
      ensures Parse(r.1[k].bytes, rfc) ==
        Ok(Some(Request(TYPE_NON, RESP_CONTENT, (s.msgId + k + 1) % MSG_ID_MOD, tokens[order[k]],
                        "/", map[], true, None, body)))
    {
      NotificationAt(r.1[k], order[k], tokens[order[k]], (s.msgId + k + 1) % MSG_ID_MOD, q, body, rfc);
    }
  }

  /** Every observer of the path is sent a notification, and no two
      notifications go to the same observer. */
  lemma NotifyEachOnce(s: Server, path: string, payload: Json, order: seq<Addr>, codec: Codec)
    requires Valid(s) && path in s.observers && |s.observers[path]| > 0
    requires IterationOrder(order, s.observers[path])
    ensures var r := Notify(s, path, payload, order, codec);
      && |r.1| == |s.observers[path]|
      && r.0.msgId == (s.msgId + |s.observers[path]|) % MSG_ID_MOD
      && (forall k :: 0 <= k < |r.1| ==> r.1[k].Send? && r.1[k].to in s.observers[path])
      && (forall a :: a in s.observers[path] ==> exists k :: 0 <= k < |r.1| && r.1[k].Send? && r.1[k].to == a)
      && (forall i, j :: 0 <= i < j < |r.1| ==> r.1[i].Send? && r.1[j].Send? && r.1[i].to != r.1[j].to)
  {
    var r := Notify(s, path, payload, order, codec);
    NotifyTargets(s, path, payload, order, codec);
    IterationOrderSize(order, s.observers[path]);
    SendsEachOnce(r.1, order, s.observers[path]);
  }

  /** The k-th notification goes to the k-th address of the order. */
  lemma NotifyTargets(s: Server, path: string, payload: Json, order: seq<Addr>, codec: Codec)
    requires Valid(s) && path in s.observers && |s.observers[path]| > 0
    requires Listed(order, s.observers[path])
    ensures var r := Notify(s, path, payload, order, codec);
      && |r.1| == |order|
      && r.0.msgId == (s.msgId + |order|) % MSG_ID_MOD
      && forall k :: 0 <= k < |order| ==> r.1[k].Send? && r.1[k].to == order[k]
  {
    NotifyShape(s, path, payload, order, codec);
  }

  /** Sends that follow an iteration order reach every key once. */
  lemma SendsEachOnce(outs: seq<Out>, order: seq<Addr>, tokens: map<Addr, Bytes>)
    requires IterationOrder(order, tokens) && |outs| == |order|
    requires forall k :: 0 <= k < |order| ==> outs[k].Send? && outs[k].to == order[k]
    ensures forall k :: 0 <= k < |outs| ==> outs[k].Send? && outs[k].to in tokens
    ensures forall a :: a in tokens ==> exists k :: 0 <= k < |outs| && outs[k].Send? && outs[k].to == a
    ensures forall i, j :: 0 <= i < j < |outs| ==> outs[i].Send? && outs[j].Send? && outs[i].to != outs[j].to
  {
    NoRepeatsDistinct(order);
    forall a | a in tokens ensures exists k :: 0 <= k < |outs| && outs[k].Send? && outs[k].to == a {
      var k :| 0 <= k < |order| && order[k] == a;
      assert outs[k].Send? && outs[k].to == a;
    }
  }

  lemma NotifyShape(s: Server, path: string, payload: Json, order: seq<Addr>, codec: Codec)
    requires Valid(s) && path in s.observers && |s.observers[path]| > 0
    requires Listed(order, s.observers[path])
    ensures var r := Notify(s, path, payload, order, codec);
      && r.0.obsSeq == (s.obsSeq + 1) % OBS_SEQ_MOD
      && |r.1| == |order|
      && r.0.msgId == (s.msgId + |order|) % MSG_ID_MOD
      && forall k :: 0 <= k < |order| ==>
           && order[k] in s.observers[path] && |s.observers[path][order[k]]| <= 15
           && r.1[k] == Send(order[k], NotificationPacket(s.observers[path][order[k]], (s.msgId + k + 1) % MSG_ID_MOD,
                                                          (s.obsSeq + 1) % OBS_SEQ_MOD, codec.dumps(payload)))
  {
    NotifySends(s, path, payload, order, codec);
    forall k | 0 <= k < |order|
      ensures order[k] in s.observers[path] && |s.observers[path][order[k]]| <= 15
    {
      assert order[k] in order;
    }
  }

  /** `outs` sends one notification to each address of `order`, in order,
      under consecutive message ids after `msgId`. */
  predicate SendsInOrder(outs: seq<Out>, order: seq<Addr>, tokens: map<Addr, Bytes>, msgId: nat, q: nat, body: Bytes)
  {
    && |outs| == |order|
    && forall k :: 0 <= k < |order| ==>
         order[k] in tokens && outs[k] == Send(order[k], NotificationPacket(tokens[order[k]], (msgId + k + 1) % MSG_ID_MOD, q, body))
  }

  /** The notifications in order, without the server's invariant. */
  lemma NotifySends(s: Server, path: string, payload: Json, order: seq<Addr>, codec: Codec)
    requires s.msgId < MSG_ID_MOD && path in s.observers && |s.observers[path]| > 0
    requires Listed(order, s.observers[path])
    ensures var r := Notify(s, path, payload, order, codec);
      && r.0.obsSeq == (s.obsSeq + 1) % OBS_SEQ_MOD
      && r.0.msgId == (s.msgId + |order|) % MSG_ID_MOD
      && SendsInOrder(r.1, order, s.observers[path], s.msgId, (s.obsSeq + 1) % OBS_SEQ_MOD, codec.dumps(payload))
  {
    var tokens := s.observers[path];
    var q := (s.obsSeq + 1) % OBS_SEQ_MOD;
    var body := codec.dumps(payload);
    var n := Notifications(order, tokens, s.msgId, q, body);
    NotifyUnfold(s, path, payload, order, codec);
    NotificationsShape(order, tokens, s.msgId, q, body);
  }

  /** Notifying keeps the server's invariant. */
  lemma NotifyValid(s: Server, path: string, payload: Json, order: seq<Addr>, codec: Codec)
    requires Valid(s)
    requires path in s.observers ==> Listed(order, s.observers[path])
    ensures Valid(Notify(s, path, payload, order, codec).0)
  {
  }

  lemma NotifyUnfold(s: Server, path: string, payload: Json, order: seq<Addr>, codec: Codec)
    requires s.msgId < MSG_ID_MOD && path in s.observers && |s.observers[path]| > 0
    requires Listed(order, s.observers[path])
    ensures forall k :: 0 <= k < |order| ==> order[k] in s.observers[path]
    ensures var r := Notify(s, path, payload, order, codec);
      var n := Notifications(order, s.observers[path], s.msgId, (s.obsSeq + 1) % OBS_SEQ_MOD, codec.dumps(payload));
      r.0.obsSeq == (s.obsSeq + 1) % OBS_SEQ_MOD && r.0.msgId == n.0 && r.1 == n.1
  {
    var tokens := s.observers[path];
    assert forall k :: 0 <= k < |order| ==> order[k] in tokens;
    var q := (s.obsSeq + 1) % OBS_SEQ_MOD;
    var n := Notifications(order, tokens, s.msgId, q, codec.dumps(payload));
    assert Notify(s, path, payload, order, codec) == (s.(obsSeq := q, msgId := n.0), n.1);
  }

  lemma NotificationAt(o: Out, to: Addr, token: Bytes, m: nat, q: nat, body: Bytes, rfc: bool)
    requires |token| <= 15 && m < 65536
    requires o == Send(to, NotificationPacket(token, m, q, body))
    ensures o.Send? && o.to == to
    ensures Parse(o.bytes, rfc) == Ok(Some(Request(TYPE_NON, RESP_CONTENT, m, token, "/", map[], true, None, body)))
  {
    NotificationReads(token, m, q, body, rfc);
  }

  /** `send_response` reads back as a NON 2.05 with the JSON body, sent
      under the id two steps on. */
  lemma SendResponseReads(s: Server, data: Json, addr: Addr, token: Bytes, codec: Codec, rfc: bool)
    requires Valid(s) && |token| <= 15
    ensures var r := SendResponse(s, data, addr, token, codec);
      && r.0.msgId == (s.msgId + 2) % MSG_ID_MOD
      && r.1 == [Send(addr, r.1[0].bytes)]
      && Parse(r.1[0].bytes, rfc) ==
         Ok(Some(Request(TYPE_NON, RESP_CONTENT, r.0.msgId, token, "/", map[], false, None, codec.dumps(data))))
  {
    var m := Next(Next(s.msgId));
    ModShift(s.msgId, 1);
    RawReads(token, m, RESP_CONTENT, codec.dumps(data), rfc);
  }

  /** A request `transmit` can encode is sent once to `(ip, port)` and reads
      back, with the matching parser, as the request it was meant to be. */
  lemma TransmitDelivers(s: Server, ip: string, port: int, path: string, body: Bytes, op: byte, confirmable: bool,
                         codec: Codec, fixed: bool)
    requires Valid(s) && IsByteText(path)
    requires Encodable(TransmitOptions(path), 0)
    requires !fixed ==> SafeAsWritten(TransmitOptions(path), 0)
    ensures var r := Transmit(s, ip, port, path, VBytes(body), op, confirmable, codec, fixed);
      && |r.1| == 1 && r.1[0].Send? && r.1[0].to == Addr(ip, port)
      && Parse(r.1[0].bytes, fixed) ==
         Ok(Some(Request(if confirmable then TYPE_CON else TYPE_NON, op, Next(s.msgId), [],
                         "/" + PyStr.Join(TransmitSegments(path), '/'), QueryMap(TransmitQueries(path)), false, None, body)))
  {
    var t := if confirmable then TYPE_CON else TYPE_NON;
    TransmitReads(t, op, Next(s.msgId), path, body, fixed);
    var pk := RequestPacket(t, op, Next(s.msgId), path, body, fixed);
    assert SeparateBody(VBytes(body), codec) == Ok(body);
    assert Transmit(s, ip, port, path, VBytes(body), op, confirmable, codec, fixed).1 == [Send(Addr(ip, port), pk.value)];
  }
}

=== FILE: coap_server.dfy ===
/** The robot's asynchronous CoAP server as a state machine.

    One call of `Receive` is one pass of the receive loop: a datagram is
    parsed, admitted under the worker budget or refused, and the reassembly
    table is swept when it is due. One call of `Work` is one worker running
    to completion: the acknowledgement check, Block1 reassembly, observer
    registration, route lookup, the handler and the response it leads to.
    The handler is not modelled; what it did (whether it asked for an empty
    acknowledgement, what it returned or raised) is a parameter of `Work`.

    Sockets, the clock and the JSON encoder are parameters too: datagrams
    come in and go out as values, `now` is the clock reading, and `Codec`
    says how dictionaries and strings become bytes.

    `fixed` selects the corrected behaviour where the source is wrong: the
    option reader extends the length nibble, the encoder writes nibble 14
    for 269 and above, and a non-final Block1 block is answered with 2.31
    Continue instead of failing on an undefined name.
 */
module CoapServer {
  import opened Wrappers
  import opened PyStr
  import opened Json
  import opened CoapWire
  import opened CoapPacket

  // ---------------------------------------------------------------------
  // State
  // ---------------------------------------------------------------------

  datatype Addr = Addr(ip: string, port: int)

  /** A registered route: the method names it accepts and its handler. */
  datatype Route = Route(methods: seq<string>, handler: nat)

  /** A Block1 transfer in progress: the bytes so far, when the last block
      came and the block number expected next. */
  datatype Partial = Partial(buf: Bytes, time: int, nextNum: int)

  /** Reassembly state is keyed by the peer and the request token. */
  datatype BlockKey = BlockKey(addr: Addr, token: Bytes)

  /** A request admitted under the budget whose worker has not run yet. */
  datatype Job = Job(addr: Addr, req: Request)

  datatype Server = Server(
    routes: map<string, Route>,
    partials: map<BlockKey, Partial>,
    /** Message ids the server's client side waits on, with whether the
        waiting future is already done. */
    pending: map<nat, bool>,
    observers: map<string, map<Addr, Bytes>>,
    obsSeq: nat,
    msgId: nat,
    lastCleanup: int,
    maxWorkers: int,
    active: int,
    jobs: seq<Job>)

  /** What a step hands to the outside world: a datagram, or the result
      given to a waiting future. */
  datatype Out = Send(to: Addr, bytes: Bytes) | Resolve(id: nat, code: byte)

  /** How the server turns a dictionary or a string into bytes
      (`ujson.dumps(...).encode('utf-8')` and `str.encode('utf-8')`). */
  datatype Codec = Codec(dumps: Json -> Bytes, utf8: string -> Bytes)

  /** A Python value as a handler returns it. */
  datatype Value =
    | VNone
    | VBytes(b: Bytes)
    | VStr(s: string)
    | VDict(fields: map<string, Json>)
    | VInt(i: int)
    | VSeq(items: seq<Value>)

  /** What a handler did: whether it called `send_ack`, and what it returned
      or raised. */
  datatype HandlerRun = HandlerRun(sendsAck: bool, result: Result<Value>)

  /** The receive buffer size of the loop. */
  const RECV_SIZE := 1500
  /** Seconds between sweeps of the reassembly table, and the age after
      which a transfer is dropped. */
  const CLEANUP_PERIOD := 10
  const PARTIAL_TTL := 15
  /** The message id counter wraps at 65535, not 65536. */
  const MSG_ID_MOD := 65535
  const OBS_SEQ_MOD := 0xFFFFFF

  predicate Valid(s: Server)
  {
    && 0 <= s.active == |s.jobs|
    && (s.active == 0 || s.active <= s.maxWorkers)
    && s.msgId < MSG_ID_MOD
    && (forall j :: 0 <= j < |s.jobs| ==> |s.jobs[j].req.token| <= 15 && s.jobs[j].req.msgId < 65536)
    && ShortTokens(s.observers)
  }

  /** Every observer's token fits the header's four-bit length. */
  predicate ShortTokens(obs: map<string, map<Addr, Bytes>>)
  {
    forall p :: p in obs ==> forall a :: a in obs[p] ==> |obs[p][a]| <= 15
  }

  /** A fresh server; the first message id is the random draw `msgId0`. */
  function Init(maxWorkers: int, msgId0: nat, now: int): (s: Server)
    requires msgId0 <= 60000
    ensures Valid(s) && s.active == 0 && s.jobs == []
    ensures s.routes == map[] && s.partials == map[] && s.observers == map[]
  {
    Server(map[], map[], map[], map[], 0, msgId0, now, maxWorkers, 0, [])
  }

  /** The next message id. */
  function Next(m: nat): (r: nat)
    ensures r < MSG_ID_MOD
    ensures m < MSG_ID_MOD - 1 ==> r == m + 1
    ensures m == MSG_ID_MOD - 1 ==> r == 0
  {
    (m + 1) % MSG_ID_MOD
  }

  // ---------------------------------------------------------------------
  // Routes
  // ---------------------------------------------------------------------

  /** The key a route is stored under: one leading slash, none trailing. */
  function CleanPath(path: string): (r: string)
    ensures |r| >= 1 && r[0] == '/'
    ensures |r| == 1 || (r[1] != '/' && r[|r| - 1] != '/')
  {
    var t := Strip(path, '/');
    StripEnds(path, '/');
    "/" + t
  }

  /** Neither end of a stripped string is the strip character. */
  lemma StripEnds(s: string, c: char)
    ensures var t := Strip(s, c); |t| == 0 || (t[0] != c && t[|t| - 1] != c)
  {
    var l := LStrip(s, c);
    var t := RStrip(l, c);
    if |t| > 0 {
      assert t <= l;
      assert t[0] == l[0];
    }
  }

  /** `route(path, methods)`: registers the handler under the cleaned path. */
  function Register(s: Server, path: string, methods: seq<string>, handler: nat): (r: Server)
    ensures r.routes == s.routes[CleanPath(path) := Route(methods, handler)]
    ensures r == s.(routes := r.routes)
  {
    s.(routes := s.routes[CleanPath(path) := Route(methods, handler)])
  }

  /** The method name of a request code, as the dispatcher looks it up. */
  function MethodName(code: byte): (r: Option<string>)
    ensures r.Some? <==> 1 <= code <= 4
  {
    if code == METHOD_GET then Some("GET")
    else if code == METHOD_POST then Some("POST")
    else if code == METHOD_PUT then Some("PUT")
    else if code == METHOD_DELETE then Some("DELETE")
    else None
  }

  predicate Allows(route: Route, code: byte)
  {
    MethodName(code).Some? && MethodName(code).value in route.methods
  }

  // ---------------------------------------------------------------------
  // The receive loop
  // ---------------------------------------------------------------------

  /** What `recvfrom(1500)` hands over of a datagram. */
  function Truncate(data: Bytes): (r: Bytes)
    ensures |r| <= RECV_SIZE && r <= data
    ensures |data| <= RECV_SIZE ==> r == data
  {
    if |data| <= RECV_SIZE then data else data[..RECV_SIZE]
  }

  /** `_cleanup_partials`: keeps exactly the transfers at most 15 seconds old. */
  function Sweep(partials: map<BlockKey, Partial>, now: int): (r: map<BlockKey, Partial>)
    ensures forall k :: k in r ==> k in partials && r[k] == partials[k]
  {
    map k | k in partials && !(now - partials[k].time > PARTIAL_TTL) :: partials[k]
  }

  /** The sweep check at the end of each pass of the loop. */
  function Tick(s: Server, now: int): (r: Server)
    ensures r.partials.Keys <= s.partials.Keys
    ensures r == s.(partials := r.partials, lastCleanup := r.lastCleanup)
  {
    if now - s.lastCleanup > CLEANUP_PERIOD then s.(partials := Sweep(s.partials, now), lastCleanup := now)
    else s
  }

  /** Admission: under the budget the request becomes a job and is counted;
      over it a CON gets ACK 5.03, a NON gets NON 5.03 and anything else
      nothing. */
  function Admit(s: Server, addr: Addr, req: Request): (r: (Server, seq<Out>))
    requires Valid(s) && |req.token| <= 15 && req.msgId < 65536
    ensures Valid(r.0)
    ensures r.0.routes == s.routes && r.0.partials == s.partials && r.0.observers == s.observers
  {
    if s.active < s.maxWorkers then
      (s.(active := s.active + 1, jobs := s.jobs + [Job(addr, req)]), [])
    else if req.mtype == TYPE_CON then
      (s, [Send(addr, AckPacket(req.token, req.msgId, RESP_SERVICE_UNAVAILABLE))])
    else if req.mtype == TYPE_NON then
      var m := Next(s.msgId);
      (s.(msgId := m), [Send(addr, RawPacket(req.token, m, RESP_SERVICE_UNAVAILABLE, []))])
    else (s, [])
  }

  /** One pass of `run`: a datagram that fails to parse is dropped before
      the sweep check; an invalid one skips admission. */
  function Receive(s: Server, addr: Addr, data: Bytes, now: int, fixed: bool): (r: (Server, seq<Out>))
    requires Valid(s)
    ensures Valid(r.0)
    ensures r.0.routes == s.routes && r.0.observers == s.observers
    ensures |r.0.jobs| <= |s.jobs| + 1
  {
    ReceiveParsed(s, addr, Parse(Truncate(data), fixed), now)
  }

  /** The same pass, given what the datagram parsed to. */
  function ReceiveParsed(s: Server, addr: Addr, parsed: Result<Option<Request>>, now: int): (r: (Server, seq<Out>))
    requires Valid(s)
    requires parsed.Ok? && parsed.value.Some? ==> |parsed.value.value.token| <= 15 && parsed.value.value.msgId < 65536
    ensures Valid(r.0)
    ensures r.0.routes == s.routes && r.0.observers == s.observers
    ensures |r.0.jobs| <= |s.jobs| + 1
  {
    match parsed
    case Raise(_) => (s, [])
    case Ok(None) => (Tick(s, now), [])
    case Ok(Some(req)) =>
      var a := Admit(s, addr, req);
      (Tick(a.0, now), a.1)
  }

  // ---------------------------------------------------------------------
  // Block1 reassembly
  // ---------------------------------------------------------------------

  /** The block number and the more-flag of a Block1 value. */
  function BlockNum(v: nat): nat { v / 16 }
  predicate BlockMore(v: nat) { v / 8 % 2 == 1 }

  datatype Reassembly =
    /** Answered with 4.08; the table is untouched. */
    | Incomplete
    /** A non-final block was appended; the transfer waits for the next. */
    | Continued(partials: map<BlockKey, Partial>)
    /** The final block completed the body. */
    | Completed(partials: map<BlockKey, Partial>, body: Bytes)

  /** Lines 244-270 of the server: the Block1 bookkeeping for one request. */
  function Reassemble(partials: map<BlockKey, Partial>, key: BlockKey, v: nat, payload: Bytes, now: int): (r: Reassembly)
    ensures r.Incomplete? <==>
      (if key in partials then BlockNum(v) != partials[key].nextNum else BlockNum(v) != 0)
    ensures r.Continued? ==>
      && BlockMore(v) && key in r.partials
      && r.partials[key].nextNum == BlockNum(v) + 1 && r.partials[key].time == now
      && r.partials[key].buf == (if key in partials then partials[key].buf else []) + payload
      && r.partials - {key} == partials - {key}
    ensures r.Completed? ==>
      && !BlockMore(v) && r.partials == partials - {key}
      && r.body == (if key in partials then partials[key].buf else []) + payload
  {
    if key !in partials && BlockNum(v) != 0 then Incomplete
    else
      var st := if key in partials then partials[key] else Partial([], now, 0);
      if BlockNum(v) != st.nextNum then Incomplete
      else if BlockMore(v) then Continued(partials[key := Partial(st.buf + payload, now, st.nextNum + 1)])
      else Completed(partials - {key}, st.buf + payload)
  }

  /** The 2.31 Continue acknowledgement of the corrected server: the Block1
      value echoed in a correctly encoded option. */
  function ContinuePacket(token: Bytes, msgId: nat, v: nat): (r: Result<Bytes>)
    requires msgId < 65536
    ensures r.Ok? <==> |MinimalBytes(v)| <= MAX_EXTENDED
  {
    var opts := [RawOption(OPT_BLOCK1, MinimalBytes(v))];
    if |MinimalBytes(v)| <= MAX_EXTENDED then
      Ok(HeaderBytes(TYPE_ACK, |token|, RESP_CONTINUE, msgId) + token + EncodeOptions(opts, 0, true))
    else Raise(ValueError("value out of range for two bytes"))
  }

  // ---------------------------------------------------------------------
  // Observers and notifications
  // ---------------------------------------------------------------------

  /** `_add_observer`: the peer observes `path` with `token`. */
  function AddObserver(obs: map<string, map<Addr, Bytes>>, path: string, addr: Addr, token: Bytes): (r: map<string, map<Addr, Bytes>>)
    ensures path in r && addr in r[path] && r[path][addr] == token
    ensures forall a :: a != addr ==> (a in r[path] <==> path in obs && a in obs[path])
    ensures forall a :: a != addr && a in r[path] ==> r[path][a] == obs[path][a]
    ensures forall p :: p != path ==> (p in r <==> p in obs) && (p in obs ==> r[p] == obs[p])
    ensures ShortTokens(obs) && |token| <= 15 ==> ShortTokens(r)
  {
    var cur := if path in obs then obs[path] else map[];
    obs[path := cur[addr := token]]
  }

  /** The notifications of one `notify_observers` pass: one per observer in
      iteration order, each after its own message id increment. */
  function Notifications(order: seq<Addr>, tokens: map<Addr, Bytes>, msgId: nat, obsSeq: nat, payload: Bytes): (r: (nat, seq<Out>))
    requires msgId < MSG_ID_MOD
    requires forall k :: 0 <= k < |order| ==> order[k] in tokens
    ensures r.0 < MSG_ID_MOD && |r.1| == |order|
    decreases |order|
  {
    if |order| == 0 then (msgId, [])
    else
      var m := Next(msgId);
      var rest := Notifications(order[1..], tokens, m, obsSeq, payload);
      (rest.0, [Send(order[0], NotificationPacket(tokens[order[0]], m, obsSeq, payload))] + rest.1)
  }

  /** `order` is how iterating the table `tokens` meets its keys: every
      key, each once. */
  predicate IterationOrder(order: seq<Addr>, tokens: map<Addr, Bytes>)
  {
    && Listed(order, tokens)
    && (forall a :: a in tokens ==> a in order)
    && NoRepeats(order)
  }

  /** Every address the order names has an entry in the table. */
  predicate Listed(order: seq<Addr>, tokens: map<Addr, Bytes>)
  {
    forall k :: 0 <= k < |order| ==> order[k] in tokens
  }

  /** No element of the list occurs twice. Stated one head at a time, so
      that the solver unfolds it only where a proof asks. */
  predicate NoRepeats<T(==)>(xs: seq<T>)
    decreases |xs|
  {
    |xs| == 0 || (xs[0] !in xs[1..] && NoRepeats(xs[1..]))
  }

  /** Any two places of a list without repeats hold different elements. */
  lemma {:induction false} NoRepeatsDistinct<T>(xs: seq<T>)
    requires NoRepeats(xs)
    ensures forall i, j :: 0 <= i < j < |xs| ==> xs[i] != xs[j]
    decreases |xs|
  {
    if |xs| > 0 {
      NoRepeatsDistinct(xs[1..]);
      forall i, j | 0 <= i < j < |xs| ensures xs[i] != xs[j] {
        if i == 0 {
          assert xs[j] == xs[1..][j - 1];
        } else {
          assert xs[i] == xs[1..][i - 1] && xs[j] == xs[1..][j - 1];
        }
      }
    }
  }

  /** A list that names each member of a set once is as long as the set. */
  lemma {:induction false} DistinctSize<T>(xs: seq<T>, s: set<T>)
    requires forall a :: a in xs <==> a in s
    requires NoRepeats(xs)
    ensures |xs| == |s|
    decreases |xs|
  {
    if |xs| > 0 {
      var rest := s - {xs[0]};
      forall a ensures a in xs[1..] <==> a in rest {
        if a in xs[1..] {
          var k :| 0 <= k < |xs[1..]| && xs[1..][k] == a;
          assert xs[k + 1] == a;
        }
        if a in rest {
          assert a in xs;
          var k :| 0 <= k < |xs| && xs[k] == a;
          assert xs[1..][k - 1] == a;
        }
      }
      DistinctSize(xs[1..], rest);
    }
  }

  /** An iteration order sends as many notifications as there are
      observers. */
  lemma IterationOrderSize(order: seq<Addr>, tokens: map<Addr, Bytes>)
    requires IterationOrder(order, tokens)
    ensures |order| == |tokens|
  {
    DistinctSize(order, tokens.Keys);
  }

  /** `notify_observers(path, payload)`: nothing happens without observers;
      otherwise the sequence number advances once (modulo 0xFFFFFF) and every
      observer gets a notification. `order` stands for the iteration order
      of the observer table (`IterationOrder`); the computation itself needs
      only that every address it names is in the table. */
  function Notify(s: Server, path: string, payload: Json, order: seq<Addr>, codec: Codec): (r: (Server, seq<Out>))
    requires s.msgId < MSG_ID_MOD
    requires path in s.observers ==> Listed(order, s.observers[path])
    ensures r.0 == s.(obsSeq := r.0.obsSeq, msgId := r.0.msgId)
    ensures r.0.msgId < MSG_ID_MOD
    ensures path !in s.observers || |s.observers[path]| == 0 ==> r == (s, [])
  {
    if path !in s.observers || |s.observers[path]| == 0 then (s, [])
    else
      var q := (s.obsSeq + 1) % OBS_SEQ_MOD;
      var n := Notifications(order, s.observers[path], s.msgId, q, codec.dumps(payload));
      (s.(obsSeq := q, msgId := n.0), n.1)
  }

  // ---------------------------------------------------------------------
  // Responses
  // ---------------------------------------------------------------------

  /** The status code a handler's value stands for, as MicroPython's
      `struct.pack('!BBH')` writes it: an integer is stored as its low byte
      (two's complement for a negative one) without a range check, and
      anything else is not converted. */
  function CodeByte(v: Value): (r: Result<byte>)
    ensures r.Ok? <==> v.VInt?
    ensures r.Raise? ==> r.exc.TypeError?
    ensures r.Ok? ==> (r.value as int - v.i) % 256 == 0
    ensures r.Ok? && 0 <= v.i < 256 ==> r.value == v.i
  {
    if !v.VInt? then Raise(TypeError("can't convert to int"))
    else Ok((v.i % 256) as byte)
  }

  /** The (code, data) pair a handler's result stands for: a tuple or list
      gives its first two items, an int is a code alone, anything else is
      data under 2.04 for POST and 2.05 otherwise. */
  function Shape(op: byte, v: Value): (r: Result<(Value, Value)>)
    requires !v.VNone?
    ensures v.VSeq? ==> (r.Ok? <==> |v.items| >= 2) && (r.Ok? ==> r.value == (v.items[0], v.items[1]))
    ensures v.VInt? ==> r == Ok((v, VNone))
    ensures !v.VSeq? && !v.VInt? ==> r == Ok((VInt(if op == METHOD_POST then RESP_CHANGED else RESP_CONTENT), v))
  {
    match v
    case VSeq(items) => if |items| >= 2 then Ok((items[0], items[1])) else Raise(IndexError)
    case VInt(_) => Ok((v, VNone))
    case _ => Ok((VInt(if op == METHOD_POST then RESP_CHANGED else RESP_CONTENT), v))
  }

  /** Python truthiness of a value. */
  predicate TruthyValue(v: Value)
  {
    match v
    case VNone => false
    case VBytes(b) => |b| > 0
    case VStr(s) => |s| > 0
    case VDict(f) => |f| > 0
    case VInt(i) => i != 0
    case VSeq(items) => |items| > 0
  }

  /** The body `_send_response_packet` writes after the marker: a dictionary
      is JSON, a string is encoded, bytes pass; anything else cannot be
      appended to bytes. */
  function PiggybackBody(d: Value, codec: Codec): (r: Result<Bytes>)
    ensures r.Ok? <==> d.VDict? || d.VStr? || d.VBytes?
  {
    match d
    case VDict(f) => Ok(codec.dumps(JObj(f)))
    case VStr(t) => Ok(codec.utf8(t))
    case VBytes(b) => Ok(b)
    case _ => Raise(TypeError("can't concat bytes"))
  }

  /** The body `_send_separate_response` and `transmit` write: `None`
      becomes empty, a dictionary is JSON, a string is encoded; any other
      falsy value is sent without a body and any other truthy one cannot be
      appended to bytes. */
  function SeparateBody(d: Value, codec: Codec): (r: Result<Bytes>)
    ensures r.Raise? <==> (d.VInt? || d.VSeq?) && TruthyValue(d)
    ensures (d.VNone? || d.VInt? || d.VSeq?) && r.Ok? ==> r.value == []
  {
    match d
    case VNone => Ok([])
    case VDict(f) => Ok(codec.dumps(JObj(f)))
    case VStr(t) => Ok(codec.utf8(t))
    case VBytes(b) => Ok(b)
    case _ => if TruthyValue(d) then Raise(TypeError("can't concat bytes")) else Ok([])
  }

  /** The datagram answering a handler's (code, data) pair, and the message
      id counter afterwards: a separate NON response when the empty ACK has
      gone out (its id drawn before anything can fail), else an ACK with the
      code alone when there is no data, else a piggy-backed ACK. */
  function Answer(msgId: nat, req: Request, ackSent: bool, code: Value, data: Value, codec: Codec): (r: (nat, Result<Bytes>))
    requires msgId < MSG_ID_MOD && req.msgId < 65536
    ensures r.0 < MSG_ID_MOD
    ensures r.0 == (if ackSent then Next(msgId) else msgId)
    ensures r.1.Ok? ==> CodeByte(code).Ok?
  {
    if ackSent then
      var m := Next(msgId);
      (m, Separate(req.token, m, code, data, codec))
    else
      match CodeByte(code)
      case Raise(e) => (msgId, Raise(e))
      case Ok(c) =>
        if data.VNone? then (msgId, Ok(AckPacket(req.token, req.msgId, c)))
        else match PiggybackBody(data, codec)
          case Raise(e) => (msgId, Raise(e))
          case Ok(body) => (msgId, Ok(PiggybackPacket(req.token, req.msgId, c, body, req.observe)))
  }

  /** `send_response_raw` after `_send_separate_response`'s conversion: a
      NON with the already drawn id `m`. */
  function Separate(token: Bytes, m: nat, code: Value, data: Value, codec: Codec): (r: Result<Bytes>)
    requires m < 65536
    ensures r.Ok? <==> CodeByte(code).Ok? && SeparateBody(data, codec).Ok?
    ensures r.Ok? ==> r.value == RawPacket(token, m, CodeByte(code).value, SeparateBody(data, codec).value)
  {
    var c :- CodeByte(code);
    var body :- SeparateBody(data, codec);
    Ok(RawPacket(token, m, c, body))
  }

  /** `CoAPRequest.send_ack`: the empty ACK goes out once, and only for a
      CON request. */
  function SendAck(req: Request, ackSent: bool): (r: (bool, seq<Bytes>))
    requires req.msgId < 65536
    ensures r.0 <==> ackSent || req.mtype == TYPE_CON
    ensures |r.1| == (if !ackSent && req.mtype == TYPE_CON then 1 else 0)
    ensures |r.1| == 1 ==> r.1[0] == AckPacket(req.token, req.msgId, CODE_EMPTY)
  {
    if !ackSent && req.mtype == TYPE_CON then (true, [AckPacket(req.token, req.msgId, CODE_EMPTY)])
    else (ackSent, [])
  }

  /** The reply after a handler failure: a separate 5.00 carrying
      `{'text': str(e)}` when the empty ACK has gone out, else ACK 5.00 for
      a CON and nothing for anything else. */
  function Failure(msgId: nat, addr: Addr, req: Request, ackSent: bool, e: Exc, codec: Codec): (r: (nat, seq<Out>))
    requires msgId < MSG_ID_MOD && req.msgId < 65536
    ensures r.0 == (if ackSent then Next(msgId) else msgId)
    ensures |r.1| == (if ackSent || req.mtype == TYPE_CON then 1 else 0)
  {
    if ackSent then
      var m := Next(msgId);
      (m, [Send(addr, RawPacket(req.token, m, RESP_INTERNAL_ERR, codec.dumps(TextReply(ExcText(e)))))])
    else if req.mtype == TYPE_CON then (msgId, [Send(addr, AckPacket(req.token, req.msgId, RESP_INTERNAL_ERR))])
    else (msgId, [])
  }

  /** The handler has run: the empty ACK it asked for, then the answer to
      its result, or the failure reply when it raised or its result cannot
      be sent. Only the message id counter changes. */
  function Handle(s: Server, addr: Addr, req: Request, run: HandlerRun, codec: Codec): (r: (Server, seq<Out>))
    requires s.msgId < MSG_ID_MOD && req.msgId < 65536
    ensures r.0 == s.(msgId := r.0.msgId) && r.0.msgId < MSG_ID_MOD
  {
    var ack := if run.sendsAck then SendAck(req, false) else (false, []);
    var pre := if |ack.1| == 1 then [Send(addr, ack.1[0])] else [];
    match run.result
    case Raise(e) =>
      var f := Failure(s.msgId, addr, req, ack.0, e, codec);
      (s.(msgId := f.0), pre + f.1)
    case Ok(v) =>
      if v.VNone? then (s, pre)
      else match Shape(req.code, v)
        case Raise(e) =>
          var f := Failure(s.msgId, addr, req, ack.0, e, codec);
          (s.(msgId := f.0), pre + f.1)
        case Ok(cd) =>
          var a := Answer(s.msgId, req, ack.0, cd.0, cd.1, codec);
          match a.1
          case Ok(b) => (s.(msgId := a.0), pre + [Send(addr, b)])
          case Raise(e) =>
            var f := Failure(a.0, addr, req, ack.0, e, codec);
            (s.(msgId := f.0), pre + f.1)
  }

  /** Lines 272-329: a GET that observes registers its peer first, then the
      route decides: 4.04 for an unknown path and 4.05 for a method the
      route does not take (both only to a CON), else the handler runs. */
  function Dispatch(s: Server, addr: Addr, req: Request, run: HandlerRun, codec: Codec): (r: (Server, seq<Out>))
    requires s.msgId < MSG_ID_MOD && req.msgId < 65536
    ensures r.0.observers == (if req.code == METHOD_GET && req.observe then AddObserver(s.observers, req.path, addr, req.token) else s.observers)
    ensures r.0 == s.(observers := r.0.observers, msgId := r.0.msgId) && r.0.msgId < MSG_ID_MOD
    ensures ShortTokens(s.observers) && |req.token| <= 15 ==> ShortTokens(r.0.observers)
  {
    var obs := if req.code == METHOD_GET && req.observe then AddObserver(s.observers, req.path, addr, req.token) else s.observers;
    var s1 := s.(observers := obs);
    if req.path !in s.routes then
      (s1, if req.mtype == TYPE_CON then [Send(addr, AckPacket(req.token, req.msgId, RESP_NOT_FOUND))] else [])
    else if !Allows(s.routes[req.path], req.code) then
      (s1, if req.mtype == TYPE_CON then [Send(addr, AckPacket(req.token, req.msgId, RESP_METHOD_NOT_ALLOWED))] else [])
    else Handle(s1, addr, req, run, codec)
  }

  /** `_process_request`: an ACK or RST answering one of the server's own
      requests completes that request's future and stops; a Block1 request
      goes through reassembly, and only a completed body reaches dispatch. */
  function Process(s: Server, job: Job, now: int, run: HandlerRun, codec: Codec, fixed: bool): (r: (Server, seq<Out>))
    requires s.msgId < MSG_ID_MOD && job.req.msgId < 65536
    ensures r.0.routes == s.routes && r.0.active == s.active && r.0.jobs == s.jobs && r.0.maxWorkers == s.maxWorkers
    ensures ShortTokens(s.observers) && |job.req.token| <= 15 ==> ShortTokens(r.0.observers)
    ensures r.0.msgId < MSG_ID_MOD
  {
    var req := job.req;
    var addr := job.addr;
    if (req.mtype == TYPE_ACK || req.mtype == TYPE_RST) && req.msgId in s.pending then
      (s.(pending := s.pending - {req.msgId}), if !s.pending[req.msgId] then [Resolve(req.msgId, req.code)] else [])
    else if req.block1.Some? then
      match Reassemble(s.partials, BlockKey(addr, req.token), req.block1.value, req.payload, now)
      case Incomplete => (s, [Send(addr, AckPacket(req.token, req.msgId, RESP_ENTITY_INCOMPLETE))])
      case Continued(p) =>
        if !fixed then (s.(partials := p), [])
        else (match ContinuePacket(req.token, req.msgId, req.block1.value)
          case Ok(b) => (s.(partials := p), [Send(addr, b)])
          case Raise(_) => (s.(partials := p), []))
      case Completed(p, body) => Dispatch(s.(partials := p), addr, req.(payload := body), run, codec)
    else Dispatch(s, addr, req, run, codec)
  }

  /** One worker runs to completion: job `i` leaves the queue, is processed
      and its slot in the budget is released. */
  function Work(s: Server, i: nat, now: int, run: HandlerRun, codec: Codec, fixed: bool): (r: (Server, seq<Out>))
    requires Valid(s) && i < |s.jobs|
    ensures Valid(r.0)
    ensures r.0.active == s.active - 1 && r.0.jobs == s.jobs[..i] + s.jobs[i + 1..]
    ensures r.0.routes == s.routes
  {
    var job := s.jobs[i];
    var rest := s.jobs[..i] + s.jobs[i + 1..];
    assert forall j :: 0 <= j < |rest| ==> rest[j] in s.jobs;
    Process(s.(jobs := rest, active := s.active - 1), job, now, run, codec, fixed)
  }

  /** `CoAPRequest.json`: an empty body, a body that does not decode and a
      body that decodes to a falsy value all read as `{}`. */
  function RequestJson(payload: Bytes, loads: Bytes -> Result<Json>): (r: Json)
    ensures Truthy(r) || r == JObj(map[])
    ensures |payload| == 0 ==> r == JObj(map[])
  {
    if |payload| == 0 then JObj(map[])
    else match loads(payload)
      case Raise(_) => JObj(map[])
      case Ok(j) => if Truthy(j) then j else JObj(map[])
  }

  /** `send_response(data, context)`: a NON 2.05 with the JSON of `data`;
      the message id is advanced here and again in `send_response_raw`. */
  function SendResponse(s: Server, data: Json, addr: Addr, token: Bytes, codec: Codec): (r: (Server, seq<Out>))
    requires Valid(s)
    ensures Valid(r.0) && r.0 == s.(msgId := r.0.msgId)
    ensures r.0.msgId == Next(Next(s.msgId))
  {
    var m := Next(Next(s.msgId));
    (s.(msgId := m), [Send(addr, RawPacket(token, m, RESP_CONTENT, codec.dumps(data)))])
  }

  /** `transmit`: a request to `(ip, port)` with the path and query as
      options. The message id advances first; a payload that cannot be
      appended or an option the encoder cannot write drops the datagram. */
  function Transmit(s: Server, ip: string, port: int, path: string, payload: Value, op: byte, confirmable: bool,
                    codec: Codec, fixed: bool): (r: (Server, seq<Out>))
    requires Valid(s) && IsByteText(path)
    ensures Valid(r.0) && r.0 == s.(msgId := Next(s.msgId))
    ensures |r.1| <= 1
  {
    var m := Next(s.msgId);
    var t := if confirmable then TYPE_CON else TYPE_NON;
    match SeparateBody(payload, codec)
    case Raise(_) => (s.(msgId := m), [])
    case Ok(body) =>
      match RequestPacket(t, op, m, path, body, fixed)
      case Ok(b) => (s.(msgId := m), [Send(Addr(ip, port), b)])
      case Raise(_) => (s.(msgId := m), [])
  }
}

=== FILE: coap_server_props.dfy ===
/** Properties of the CoAP server state machine: the worker budget, the
    sweep, Block1 reassembly, route keys and the replies the dispatcher
    sends.
 */
module ServerProperties {
  import opened Wrappers
  import opened PyStr
  import opened Json
  import opened CoapWire
  import opened CoapPacket
  import opened CoapServer

  // ---------------------------------------------------------------------
  // Worker budget
  // ---------------------------------------------------------------------

  /** A valid request under the budget is queued and counted, and nothing is
      sent. */
  lemma AdmitUnderBudget(s: Server, addr: Addr, req: Request)
    requires Valid(s) && |req.token| <= 15 && req.msgId < 65536
    requires s.active < s.maxWorkers
    ensures Admit(s, addr, req) == (s.(active := s.active + 1, jobs := s.jobs + [Job(addr, req)]), [])
  {
  }

  /** Over the budget no job is queued; a CON is refused with ACK 5.03
      echoing its id, a NON with a NON 5.03 under a fresh id, and anything
      else silently. */
  lemma RefuseOverBudget(s: Server, addr: Addr, req: Request)
    requires Valid(s) && |req.token| <= 15 && req.msgId < 65536
    requires s.active >= s.maxWorkers
    ensures Admit(s, addr, req).0.jobs == s.jobs
    ensures req.mtype == TYPE_CON ==>
      Admit(s, addr, req).1 == [Send(addr, AckPacket(req.token, req.msgId, RESP_SERVICE_UNAVAILABLE))]
    ensures req.mtype == TYPE_NON ==>
      Admit(s, addr, req).1 == [Send(addr, RawPacket(req.token, Next(s.msgId), RESP_SERVICE_UNAVAILABLE, []))]
    ensures req.mtype != TYPE_CON && req.mtype != TYPE_NON ==> Admit(s, addr, req).1 == []
  {
  }

  /** The same datagram received `n` times in a row with no worker running. */
  function ReceiveTimes(s: Server, addr: Addr, data: Bytes, now: int, fixed: bool, n: nat): (r: Server)
    requires Valid(s)
    ensures Valid(r)
  {
    ParsedTimes(s, addr, Parse(Truncate(data), fixed), now, n)
  }

  /** `n` passes of the loop over the same parse result. */
  function ParsedTimes(s: Server, addr: Addr, parsed: Result<Option<Request>>, now: int, n: nat): (r: Server)
    requires Valid(s)
    requires parsed.Ok? && parsed.value.Some? ==> |parsed.value.value.token| <= 15 && parsed.value.value.msgId < 65536
    ensures Valid(r)
    decreases n
  {
    if n == 0 then s else ParsedTimes(ReceiveParsed(s, addr, parsed, now).0, addr, parsed, now, n - 1)
  }

  /** `ReceiveTimes` is `Receive` repeated: each of the `n` passes starts
      where the one before ended. */
  lemma ReceiveTimesStep(s: Server, addr: Addr, data: Bytes, now: int, fixed: bool, n: nat)
    requires Valid(s) && n > 0
    ensures ReceiveTimes(s, addr, data, now, fixed, n) ==
      ReceiveTimes(Receive(s, addr, data, now, fixed).0, addr, data, now, fixed, n - 1)
  {
  }

  /** Receiving a valid request only adds its job when there is room. */
  lemma ReceiveValid(s: Server, addr: Addr, data: Bytes, now: int, fixed: bool, req: Request)
    requires Valid(s) && Parse(Truncate(data), fixed) == Ok(Some(req))
    ensures Receive(s, addr, data, now, fixed).0.jobs ==
      (if s.active < s.maxWorkers then s.jobs + [Job(addr, req)] else s.jobs)
    ensures Receive(s, addr, data, now, fixed).0.maxWorkers == s.maxWorkers
  {
    assert Receive(s, addr, data, now, fixed).0 == Tick(Admit(s, addr, req).0, now);
  }

  /** From an idle server, `n` valid requests within the budget are all
      admitted. */
  lemma FillBudget(s: Server, addr: Addr, data: Bytes, now: int, fixed: bool, req: Request, n: nat)
    requires Valid(s) && Parse(Truncate(data), fixed) == Ok(Some(req))
    requires s.active + n <= s.maxWorkers
    ensures ReceiveTimes(s, addr, data, now, fixed, n).active == s.active + n
    ensures ReceiveTimes(s, addr, data, now, fixed, n).maxWorkers == s.maxWorkers
  {
    assert ReceiveTimes(s, addr, data, now, fixed, n) == ParsedTimes(s, addr, Ok(Some(req)), now, n);
    ParsedFill(s, addr, req, now, n);
  }

  /** `FillBudget` over the parse result, by induction on `n`. */
  lemma {:induction false} ParsedFill(s: Server, addr: Addr, req: Request, now: int, n: nat)
    requires Valid(s) && |req.token| <= 15 && req.msgId < 65536
    requires s.active + n <= s.maxWorkers
    ensures ParsedTimes(s, addr, Ok(Some(req)), now, n).active == s.active + n
    ensures ParsedTimes(s, addr, Ok(Some(req)), now, n).maxWorkers == s.maxWorkers
    decreases n
  {
    if n > 0 {
      var s1 := ReceiveParsed(s, addr, Ok(Some(req)), now).0;
      assert s1 == Tick(Admit(s, addr, req).0, now);
      assert s1.active == s.active + 1 && s1.maxWorkers == s.maxWorkers;
      ParsedFill(s1, addr, req, now, n - 1);
    }
  }

  /** With a budget of `n` workers and none finishing, the request after
      the first `n` confirmable ones is refused with ACK 5.03. */
  lemma BudgetPlusOneRefused(n: nat, msgId0: nat, addr: Addr, data: Bytes, now: int, fixed: bool, req: Request)
    requires msgId0 <= 60000 && Parse(Truncate(data), fixed) == Ok(Some(req)) && req.mtype == TYPE_CON
    ensures var s := ReceiveTimes(Init(n, msgId0, now), addr, data, now, fixed, n);
      && s.active == n
      && Receive(s, addr, data, now, fixed).1 == [Send(addr, AckPacket(req.token, req.msgId, RESP_SERVICE_UNAVAILABLE))]
      && Receive(s, addr, data, now, fixed).0.active == n
  {
    var s := ReceiveTimes(Init(n, msgId0, now), addr, data, now, fixed, n);
    FillBudget(Init(n, msgId0, now), addr, data, now, fixed, req, n);
    ReceiveValid(s, addr, data, now, fixed, req);
  }

  // ---------------------------------------------------------------------
  // Sweeping the reassembly table
  // ---------------------------------------------------------------------

  /** The sweep keeps a transfer exactly when it is at most 15 seconds old. */
  lemma SweepKeeps(partials: map<BlockKey, Partial>, now: int, k: BlockKey)
    ensures k in Sweep(partials, now) <==> k in partials && now - partials[k].time <= PARTIAL_TTL
  {
  }

  /** Sweeping twice at the same time removes nothing more. */
  lemma SweepIdempotent(partials: map<BlockKey, Partial>, now: int)
    ensures Sweep(Sweep(partials, now), now) == Sweep(partials, now)
  {
  }

  /** The table is swept, and the sweep time reset, exactly when more than
      ten seconds have passed since the last sweep. */
  lemma TickWhenDue(s: Server, now: int)
    ensures now - s.lastCleanup > CLEANUP_PERIOD ==>
      Tick(s, now) == s.(partials := Sweep(s.partials, now), lastCleanup := now)
    ensures now - s.lastCleanup <= CLEANUP_PERIOD ==> Tick(s, now) == s
  {
  }

  // ---------------------------------------------------------------------
  // Block1 reassembly
  // ---------------------------------------------------------------------

  /** The concatenation of a list of blocks. */
  function Concat(ps: seq<Bytes>): Bytes
  {
    if |ps| == 0 then [] else ps[0] + Concat(ps[1..])
  }

  /** Concatenation grows at the back one block at a time. */
  lemma {:induction false} ConcatSnoc(ps: seq<Bytes>)
    requires |ps| > 0
    ensures Concat(ps) == Concat(ps[..|ps| - 1]) + ps[|ps| - 1]
    decreases |ps|
  {
    var n := |ps|;
    if n == 1 {
      assert ps[..0] == [];
    } else {
      ConcatSnoc(ps[1..]);
      assert ps[1..][..n - 2] == ps[..n - 1][1..];
      assert ps[1..][n - 2] == ps[n - 1];
    }
  }

  /** The Block1 value of block `i` of `n`: its number and, except on the
      last block, the more-flag. */
  function BlockValue(i: nat, n: nat): (v: nat)
    ensures BlockNum(v) == i
    ensures BlockMore(v) <==> i + 1 < n
  {
    i * 16 + (if i + 1 < n then 8 else 0)
  }

  /** Blocks `i..` of `ps` fed one after another while each is accepted; the
      result of the last one. */
  function FeedFrom(partials: map<BlockKey, Partial>, key: BlockKey, ps: seq<Bytes>, i: nat, now: int): Reassembly
    requires i < |ps|
    decreases |ps| - i
  {
    match Reassemble(partials, key, BlockValue(i, |ps|), ps[i], now)
    case Continued(p) => if i + 1 < |ps| then FeedFrom(p, key, ps, i + 1, now) else Continued(p)
    case r => r
  }

  /** Blocks numbered from 0 and sent in order reassemble to the
      concatenation of their payloads, and the transfer leaves the table as
      it found it. */
  lemma {:induction false} ReassembleInOrder(partials: map<BlockKey, Partial>, key: BlockKey, ps: seq<Bytes>, now: int)
    requires key !in partials && |ps| > 0
    ensures FeedFrom(partials, key, ps, 0, now) == Completed(partials, Concat(ps))
  {
    ReassembleFrom(partials, key, ps, 0, now);
  }

  lemma {:induction false} ReassembleFrom(partials: map<BlockKey, Partial>, key: BlockKey, ps: seq<Bytes>, i: nat, now: int)
    requires i < |ps|
    requires i == 0 ==> key !in partials
    requires i > 0 ==> key in partials && partials[key].nextNum == i && partials[key].buf == Concat(ps[..i])
    ensures FeedFrom(partials, key, ps, i, now) == Completed(partials - {key}, Concat(ps))
    decreases |ps| - i
  {
    assert ps[..i + 1][..i] == ps[..i];
    ConcatSnoc(ps[..i + 1]);
    if i == 0 {
      assert Concat(ps[..0]) == [];
    }
    var r := Reassemble(partials, key, BlockValue(i, |ps|), ps[i], now);
    if i + 1 < |ps| {
      var p := r.partials;
      ReassembleFrom(p, key, ps, i + 1, now);
      assert p - {key} == partials - {key};
    } else {
      assert ps[..i + 1] == ps;
    }
  }

  /** A block whose number does not match the transfer is answered with
      ACK 4.08 alone, the state is untouched and the handler does not run. */
  lemma OutOfOrderBlock(s: Server, job: Job, now: int, run: HandlerRun, codec: Codec, fixed: bool)
    requires s.msgId < MSG_ID_MOD && job.req.msgId < 65536
    requires !((job.req.mtype == TYPE_ACK || job.req.mtype == TYPE_RST) && job.req.msgId in s.pending)
    requires job.req.block1.Some?
    requires var key := BlockKey(job.addr, job.req.token);
      if key in s.partials then BlockNum(job.req.block1.value) != s.partials[key].nextNum
      else BlockNum(job.req.block1.value) != 0
    ensures Process(s, job, now, run, codec, fixed) ==
      (s, [Send(job.addr, AckPacket(job.req.token, job.req.msgId, RESP_ENTITY_INCOMPLETE))])
  {
  }

  /** A non-final block that is accepted updates the transfer; the server
      as written then fails on the undefined Continue code and sends
      nothing, while the corrected server acknowledges with 2.31. */
  lemma ContinuedBlock(s: Server, job: Job, now: int, run: HandlerRun, codec: Codec, fixed: bool)
    requires s.msgId < MSG_ID_MOD && job.req.msgId < 65536 && |job.req.token| <= 15
    requires !((job.req.mtype == TYPE_ACK || job.req.mtype == TYPE_RST) && job.req.msgId in s.pending)
    requires job.req.block1.Some? && |MinimalBytes(job.req.block1.value)| <= 12
    requires Reassemble(s.partials, BlockKey(job.addr, job.req.token), job.req.block1.value, job.req.payload, now).Continued?
    ensures var p := Reassemble(s.partials, BlockKey(job.addr, job.req.token), job.req.block1.value, job.req.payload, now).partials;
      Process(s, job, now, run, codec, fixed) ==
      (s.(partials := p),
       if fixed then [Send(job.addr, BlockAckPacket(job.req.token, job.req.msgId, RESP_CONTINUE, job.req.block1.value))] else [])
  {
    if fixed {
      ContinueIsBlockAck(job.req.token, job.req.msgId, job.req.block1.value);
    }
  }

  /** For a Block1 value of at most 12 bytes the corrected Continue reply
      has the same bytes as the source's block acknowledgement builder. */
  lemma ContinueIsBlockAck(token: Bytes, msgId: nat, v: nat)
    requires msgId < 65536 && |MinimalBytes(v)| <= 12
    ensures ContinuePacket(token, msgId, v) == Ok(BlockAckPacket(token, msgId, RESP_CONTINUE, v))
  {
    var b := MinimalBytes(v);
    BlockOptionBytes(b);
    var h := HeaderBytes(TYPE_ACK, |token|, RESP_CONTINUE, msgId);
    assert h + token + ([13 * 16 + |b|, 14] + b) == h + token + [13 * 16 + |b|, 14] + b;
  }

  /** A Block1 option of at most 12 bytes written first in the list. */
  lemma BlockOptionBytes(b: Bytes)
    requires |b| <= 12
    ensures EncodeOptions([RawOption(OPT_BLOCK1, b)], 0, true) == [13 * 16 + |b|, 14] + b
  {
    var opts := [RawOption(OPT_BLOCK1, b)];
    assert opts[1..] == [];
    assert Extension(27) == [14] && Extension(|b|) == [] && Nibble(27) == 13 && Nibble(|b|) == |b|;
    assert EncodeOptHeadRfc(27, |b|) == [13 * 16 + |b|, 14];
  }

  // ---------------------------------------------------------------------
  // Routes
  // ---------------------------------------------------------------------

  lemma LStripNoLead(s: string, c: char)
    requires |s| == 0 || s[0] != c
    ensures LStrip(s, c) == s
  {
  }

  lemma RStripNoTrail(s: string, c: char)
    requires |s| == 0 || s[|s| - 1] != c
    ensures RStrip(s, c) == s
  {
  }

  /** Cleaning a cleaned path changes nothing, so registering `/a/` and
      `a` names the same route. */
  lemma CleanPathIdempotent(path: string)
    ensures CleanPath(CleanPath(path)) == CleanPath(path)
  {
    var t := Strip(path, '/');
    StripEnds(path, '/');
    var u := "/" + t;
    assert u[1..] == t;
    LStripNoLead(t, '/');
    assert LStrip(u, '/') == LStrip(t, '/');
    RStripNoTrail(t, '/');
  }

  /** After `route(path, methods)`, a request for the cleaned path finds
      the route, and every other registration is as before. */
  lemma RegisterThenLookup(s: Server, path: string, methods: seq<string>, handler: nat, other: string)
    ensures CleanPath(path) in Register(s, path, methods, handler).routes
    ensures Register(s, path, methods, handler).routes[CleanPath(path)] == Route(methods, handler)
    ensures other != CleanPath(path) ==>
      (other in Register(s, path, methods, handler).routes <==> other in s.routes)
  {
  }

  // ---------------------------------------------------------------------
  // Dispatch
  // ---------------------------------------------------------------------

  /** An unknown path is answered with ACK 4.04 for a CON and not at all
      otherwise; the handler does not run. */
  lemma UnknownPath(s: Server, addr: Addr, req: Request, run: HandlerRun, codec: Codec)
    requires s.msgId < MSG_ID_MOD && req.msgId < 65536 && req.path !in s.routes
    ensures Dispatch(s, addr, req, run, codec).1 ==
      (if req.mtype == TYPE_CON then [Send(addr, AckPacket(req.token, req.msgId, RESP_NOT_FOUND))] else [])
    ensures Dispatch(s, addr, req, run, codec).0.msgId == s.msgId
  {
  }

  /** A method the route does not list is answered with ACK 4.05 for a CON
      and not at all otherwise. */
  lemma MethodNotAllowed(s: Server, addr: Addr, req: Request, run: HandlerRun, codec: Codec)
    requires s.msgId < MSG_ID_MOD && req.msgId < 65536
    requires req.path in s.routes && !Allows(s.routes[req.path], req.code)
    ensures Dispatch(s, addr, req, run, codec).1 ==
      (if req.mtype == TYPE_CON then [Send(addr, AckPacket(req.token, req.msgId, RESP_METHOD_NOT_ALLOWED))] else [])
  {
  }

  /** An observing GET registers its peer even when no route matches. */
  lemma ObserveRegistersFirst(s: Server, addr: Addr, req: Request, run: HandlerRun, codec: Codec)
    requires s.msgId < MSG_ID_MOD && req.msgId < 65536
    requires req.code == METHOD_GET && req.observe
    ensures var o := Dispatch(s, addr, req, run, codec).0.observers;
      req.path in o && addr in o[req.path] && o[req.path][addr] == req.token
  {
  }
}

=== FILE: coap_wire.dfy ===
/** The CoAP message format as the robot's server reads and writes it
    (section 3 of RFC 7252): the four-byte header, the token, the
    delta-coded option list and the payload after the 0xFF marker.

    URI text is modelled one character per byte; UTF-8 decoding is not part
    of this model.
 */
module CoapWire {
  import opened Wrappers
  import opened PyStr


  // Message types
  const TYPE_CON: nat := 0
  const TYPE_NON: nat := 1
  const TYPE_ACK: nat := 2
  const TYPE_RST: nat := 3

  // Request methods
  const METHOD_GET: byte := 1
  const METHOD_POST: byte := 2
  const METHOD_PUT: byte := 3
  const METHOD_DELETE: byte := 4

  // Response codes, class * 32 + detail
  const CODE_EMPTY: byte := 0
  const RESP_CHANGED: byte := 68              // 2.04
  const RESP_CONTENT: byte := 69              // 2.05
  const RESP_BAD_REQ: byte := 128             // 4.00
  const RESP_NOT_FOUND: byte := 132           // 4.04
  const RESP_METHOD_NOT_ALLOWED: byte := 133  // 4.05
  const RESP_ENTITY_INCOMPLETE: byte := 136   // 4.08
  const RESP_INTERNAL_ERR: byte := 160        // 5.00
  const RESP_SERVICE_UNAVAILABLE: byte := 163 // 5.03
  /** 2.31 Continue (section 2.9.1 of RFC 7959); the server's source refers
      to it by a name it never defines, so only the corrected model uses it. */
  const RESP_CONTINUE: byte := 95

  // Option numbers
  const OPT_OBSERVE := 6
  const OPT_URI_PATH := 11
  const OPT_CONTENT_FORMAT := 12
  const OPT_URI_QUERY := 15
  const OPT_BLOCK1 := 27

  const PAYLOAD_MARKER: byte := 0xFF

  // ---------------------------------------------------------------------
  // Text and integers on the wire
  // ---------------------------------------------------------------------

  /** Bytes read as text, one character per byte. */
  function Text(b: Bytes): (s: string)
    ensures |s| == |b| && forall k :: 0 <= k < |b| ==> s[k] as int == b[k]
  {
    seq(|b|, k requires 0 <= k < |b| => b[k] as char)
  }

  /** Text every character of which is a byte (Latin-1). */
  predicate IsByteText(s: string)
  {
    forall c :: c in s ==> c as int < 256
  }

  /** Text written as bytes, one byte per character. */
  function Encode(s: string): (b: Bytes)
    requires IsByteText(s)
    ensures Text(b) == s
  {
    seq(|s|, k requires 0 <= k < |s| => assert s[k] in s; ByteOf(s[k]))
  }

  function ByteOf(c: char): byte
    requires c as int < 256
  {
    c as int
  }

  /** Unsigned big-endian value of a byte string (the Block1 loop). */
  function BigEndian(b: Bytes): nat
  {
    if |b| == 0 then 0 else BigEndian(b[..|b| - 1]) * 256 + b[|b| - 1]
  }

  /** `struct.pack('!H', v)`. */
  function Be16(v: nat): (r: Bytes)
    requires v < 65536
    ensures |r| == 2 && r[0] as int * 256 + r[1] as int == v
  {
    [v / 256, v % 256]
  }

  /** The minimal big-endian bytes of a value, `[0]` for zero, as the block
      acknowledgement builder writes them. */
  function MinimalBytes(v: nat): (r: Bytes)
    ensures |r| >= 1 && BigEndian(r) == v
    decreases v
  {
    if v < 256 then [v]
    else
      var hi := MinimalBytes(v / 256);
      assert (hi + [v % 256])[..|hi|] == hi;
      hi + [v % 256]
  }

  lemma {:induction false} MinimalBytesLength(v: nat, n: nat)
    requires v < Pow256(n) && n >= 1
    ensures |MinimalBytes(v)| <= n
    decreases v
  {
    if v >= 256 {
      MinimalBytesLength(v / 256, n - 1);
    }
  }

  function Pow256(n: nat): (r: nat)
    ensures r >= 1
  {
    if n == 0 then 1 else 256 * Pow256(n - 1)
  }

  // ---------------------------------------------------------------------
  // Header
  // ---------------------------------------------------------------------

  datatype Header = Header(mtype: nat, tokenLength: nat, code: byte, msgId: nat, token: Bytes)

  /** The header and token of a packet of at least four bytes; `None` when the
      version field is not 1. The token is whatever of the next
      `tokenLength` bytes exists. */
  function ParseHeader(p: Bytes): Option<Header>
    requires |p| >= 4
  {
    if p[0] / 64 != 1 then None
    else
      var tkl := p[0] % 16;
      Some(Header(p[0] / 16 % 4, tkl, p[1], p[2] as int * 256 + p[3] as int, p[4..if 4 + tkl <= |p| then 4 + tkl else |p|]))
  }

  /** The four header bytes the server writes: version 1, the type, the low
      nibble of the token length, the code and the 16-bit message id. */
  function HeaderBytes(mtype: nat, tokenLength: nat, code: byte, msgId: nat): (r: Bytes)
    requires mtype < 4 && msgId < 65536
    ensures |r| == 4
  {
    var h: int := 64 + mtype * 16 + tokenLength % 16;
    [h, code] + Be16(msgId)
  }

  // ---------------------------------------------------------------------
  // Option heads
  // ---------------------------------------------------------------------

  /** An option head at the front of the remaining bytes: the delta, the
      length and how many bytes the head itself takes. */
  datatype OptHead = OptHead(delta: int, length: nat, size: nat)

  /** The server's reading of one option head. A delta nibble of 13 or 14 is
      extended by one or two bytes; the length nibble is taken literally, so
      13, 14 and 15 are lengths and no extension byte is read for them, and a
      delta nibble of 15 is a delta of 15. A missing extension byte raises. */
  function ReadOptHead(q: Bytes): (r: Result<OptHead>)
    requires |q| > 0
    ensures r.Ok? ==> 0 < r.value.size <= |q| && r.value.length == q[0] % 16
    ensures r.Raise? <==> (q[0] / 16 == 13 && |q| < 2) || (q[0] / 16 == 14 && |q| < 3)
  {
    var dn := q[0] / 16;
    if dn == 13 then
      if 2 <= |q| then Ok(OptHead(q[1] as int + 13, q[0] % 16, 2)) else Raise(IndexError)
    else if dn == 14 then
      if 3 <= |q| then Ok(OptHead(q[1] as int * 256 + q[2] as int + 269, q[0] % 16, 3))
      else Raise(ValueError("buffer too small"))
    else Ok(OptHead(dn, q[0] % 16, 1))
  }

  /** One extended field read at `j` as section 3.1 of RFC 7252 defines it:
      nibbles 13 and 14 take one or two more bytes, 15 is reserved. */
  function ReadExtended(q: Bytes, nibble: nat, j: nat): (r: Result<(nat, nat)>)
    requires j <= |q| && nibble < 16
    ensures r.Ok? ==> j <= r.value.1 <= |q|
    ensures nibble == 15 ==> r.Raise?
  {
    if nibble == 13 then
      if j + 1 <= |q| then Ok((q[j] as int + 13, j + 1)) else Raise(IndexError)
    else if nibble == 14 then
      if j + 2 <= |q| then Ok((q[j] as int * 256 + q[j + 1] as int + 269, j + 2))
      else Raise(ValueError("buffer too small"))
    else if nibble == 15 then Raise(ValueError("reserved option nibble"))
    else Ok((nibble, j))
  }

  /** The corrected option head reader: both the delta and the length are
      extended. */
  function ReadOptHeadRfc(q: Bytes): (r: Result<OptHead>)
    requires |q| > 0
    ensures r.Ok? ==> 0 < r.value.size <= |q|
  {
    var d :- ReadExtended(q, q[0] / 16, 1);
    var l :- ReadExtended(q, q[0] % 16, d.1);
    Ok(OptHead(d.0, l.0, l.1))
  }

  function ReadHead(q: Bytes, rfc: bool): (r: Result<OptHead>)
    requires |q| > 0
    ensures r.Ok? ==> 0 < r.value.size <= |q|
  {
    if rfc then ReadOptHeadRfc(q) else ReadOptHead(q)
  }

  /** Largest delta or length two extension bytes can carry. */
  const MAX_EXTENDED := 65535 + 269

  /** The extension bytes of one field: one byte for 13..268, two for 269 and up. */
  function Extension(v: nat): (r: Bytes)
    requires v <= MAX_EXTENDED
  {
    if v >= 269 then Be16(v - 269) else if v >= 13 then [v - 13] else []
  }

  /** `_encode_opt_head` as written: the nibble is 13 for every value from 13
      up, even when two extension bytes follow. */
  function EncodeOptHead(delta: nat, length: nat): (r: Bytes)
    requires delta <= MAX_EXTENDED && length <= MAX_EXTENDED
    ensures |r| >= 1 && r[0] / 16 <= 13 && r[0] % 16 <= 13
  {
    var d := if delta >= 13 then 13 else delta;
    var l := if length >= 13 then 13 else length;
    [d * 16 + l] + Extension(delta) + Extension(length)
  }

  function Nibble(v: nat): (n: nat)
    ensures n <= 14
  {
    if v >= 269 then 14 else if v >= 13 then 13 else v
  }

  /** The corrected head encoder: nibble 14 announces two extension bytes. */
  function EncodeOptHeadRfc(delta: nat, length: nat): (r: Bytes)
    requires delta <= MAX_EXTENDED && length <= MAX_EXTENDED
    ensures |r| >= 1 && r[0] != PAYLOAD_MARKER
  {
    [Nibble(delta) * 16 + Nibble(length)] + Extension(delta) + Extension(length)
  }

  function EncodeHead(delta: nat, length: nat, rfc: bool): (r: Bytes)
    requires delta <= MAX_EXTENDED && length <= MAX_EXTENDED
    ensures |r| >= 1 && r[0] != PAYLOAD_MARKER
  {
    if rfc then EncodeOptHeadRfc(delta, length) else EncodeOptHead(delta, length)
  }

  /** Where the as-written pair agrees: the server's reader gives back the
      delta and length the encoder wrote, whatever follows the head, exactly
      when the delta is at most 268 and the length at most 12. */
  lemma OptHeadRoundTrip(delta: nat, length: nat, rest: Bytes)
    requires delta <= MAX_EXTENDED && length <= MAX_EXTENDED
    ensures (ReadOptHead(EncodeOptHead(delta, length) + rest) ==
      Ok(OptHead(delta, length, |EncodeOptHead(delta, length)|))) <==> delta <= 268 && length <= 12
  {
    var h := EncodeOptHead(delta, length);
    var q := h + rest;
    assert q[0] == h[0];
    if delta >= 13 {
      assert q[1] == h[1];
    }
  }

  /** Counterexample: the as-written encoder loses a delta of 269. It writes
      nibble 13, and the reader adds the first extension byte to 13. */
  lemma OptHeadDeltaLost()
    ensures EncodeOptHead(269, 0) == [0xD0, 0, 0]
    ensures ReadOptHead(EncodeOptHead(269, 0)) == Ok(OptHead(13, 0, 2))
  {
  }

  /** Counterexample: a length of 13 is written as nibble 13 plus one byte,
      and the reader takes the nibble itself as the length. */
  lemma OptHeadLengthLost()
    ensures EncodeOptHead(0, 13) == [0x0D, 0]
    ensures ReadOptHead(EncodeOptHead(0, 13)) == Ok(OptHead(0, 13, 1))
  {
  }

  lemma ExtensionRoundTrip(v: nat, q: Bytes, j: nat)
    requires v <= MAX_EXTENDED
    requires j + |Extension(v)| <= |q| && q[j..j + |Extension(v)|] == Extension(v)
    ensures ReadExtended(q, Nibble(v), j) == Ok((v, j + |Extension(v)|))
  {
    var e := Extension(v);
    if v >= 269 {
      assert q[j] == e[0] && q[j + 1] == e[1];
    } else if v >= 13 {
      assert q[j] == e[0];
    }
  }

  /** The corrected pair round-trips every delta and length the two
      extension bytes can hold, whatever follows the head. */
  lemma OptHeadRfcRoundTrip(delta: nat, length: nat, rest: Bytes)
    requires delta <= MAX_EXTENDED && length <= MAX_EXTENDED
    ensures ReadOptHeadRfc(EncodeOptHeadRfc(delta, length) + rest) ==
      Ok(OptHead(delta, length, |EncodeOptHeadRfc(delta, length)|))
  {
    var ed := Extension(delta);
    var el := Extension(length);
    var b0: byte := Nibble(delta) * 16 + Nibble(length);
    var q := EncodeOptHeadRfc(delta, length) + rest;
    assert q == [b0] + ed + el + rest;
    assert q[0] / 16 == Nibble(delta) && q[0] % 16 == Nibble(length);
    assert q[1..1 + |ed|] == ed;
    assert q[1 + |ed|..1 + |ed| + |el|] == el;
    ExtensionRoundTrip(delta, q, 1);
    ExtensionRoundTrip(length, q, 1 + |ed|);
  }

  lemma HeadRoundTrip(delta: nat, length: nat, rest: Bytes, rfc: bool)
    requires delta <= MAX_EXTENDED && length <= MAX_EXTENDED
    requires rfc || (delta <= 268 && length <= 12)
    ensures ReadHead(EncodeHead(delta, length, rfc) + rest, rfc) ==
      Ok(OptHead(delta, length, |EncodeHead(delta, length, rfc)|))
  {
    if rfc {
      OptHeadRfcRoundTrip(delta, length, rest);
    } else {
      OptHeadRoundTrip(delta, length, rest);
    }
  }

  // ---------------------------------------------------------------------
  // Option lists
  // ---------------------------------------------------------------------

  datatype RawOption = RawOption(number: int, value: Bytes)

  /** The option loop over the bytes after the token: option numbers are the
      running sum of the deltas, each value is the next `length` bytes (cut
      short at the end of the packet), and the loop stops at the end or at a
      0xFF byte. Returns the options and the bytes where it stopped. */
  function ScanOptions(q: Bytes, num: int, rfc: bool): (r: Result<(seq<RawOption>, Bytes)>)
    ensures r.Ok? ==> |r.value.1| <= |q|
    ensures r.Ok? ==> |r.value.1| == 0 || r.value.1[0] == PAYLOAD_MARKER
    decreases |q|
  {
    if |q| == 0 || q[0] == PAYLOAD_MARKER then Ok(([], q))
    else
      match ReadHead(q, rfc)
      case Raise(e) => Raise(e)
      case Ok(h) =>
        var stop := if h.size + h.length <= |q| then h.size + h.length else |q|;
        match ScanOptions(q[stop..], num + h.delta, rfc)
        case Raise(e) => Raise(e)
        case Ok(rest) =>
          Ok(([RawOption(num + h.delta, q[h.size..stop])] + rest.0, rest.1))
  }

  /** One step of the option loop over an option whose value is complete. */
  lemma ScanCons(q: Bytes, num: int, rfc: bool, h: OptHead, next: int, more: Bytes, rest: (seq<RawOption>, Bytes))
    requires |q| > 0 && q[0] != PAYLOAD_MARKER
    requires ReadHead(q, rfc) == Ok(h) && h.size + h.length <= |q|
    requires next == num + h.delta && q[h.size + h.length..] == more
    requires ScanOptions(more, next, rfc) == Ok(rest)
    ensures ScanOptions(q, num, rfc) ==
      Ok(([RawOption(next, q[h.size..h.size + h.length])] + rest.0, rest.1))
  {
  }

  /** Options in ascending order whose gaps and values suit the encoder. */
  predicate Encodable(opts: seq<RawOption>, last: int)
  {
    |opts| == 0 ||
    (last <= opts[0].number <= last + MAX_EXTENDED && |opts[0].value| <= MAX_EXTENDED
     && Encodable(opts[1..], opts[0].number))
  }

  /** Options the as-written encoder and decoder agree on: gaps up to 268
      and values of at most 12 bytes. */
  predicate SafeAsWritten(opts: seq<RawOption>, last: int)
  {
    |opts| == 0 ||
    (last <= opts[0].number <= last + 268 && |opts[0].value| <= 12
     && SafeAsWritten(opts[1..], opts[0].number))
  }

  lemma {:induction false} SafeIsEncodable(opts: seq<RawOption>, last: int)
    requires SafeAsWritten(opts, last)
    ensures Encodable(opts, last)
    decreases |opts|
  {
    if |opts| > 0 {
      SafeIsEncodable(opts[1..], opts[0].number);
    }
  }

  /** One option's bytes: its head, carrying the delta from the previous
      option number, then its value. */
  function EncodeOption(o: RawOption, last: int, rfc: bool): Bytes
    requires last <= o.number <= last + MAX_EXTENDED && |o.value| <= MAX_EXTENDED
  {
    EncodeHead(o.number - last, |o.value|, rfc) + o.value
  }

  /** The option bytes of a list. */
  function EncodeOptions(opts: seq<RawOption>, last: int, rfc: bool): Bytes
    requires Encodable(opts, last)
  {
    if |opts| == 0 then []
    else EncodeOption(opts[0], last, rfc) + EncodeOptions(opts[1..], opts[0].number, rfc)
  }

  lemma EncodeOptionsCons(opts: seq<RawOption>, last: int, tail: Bytes, rfc: bool)
    requires |opts| > 0 && Encodable(opts, last)
    ensures EncodeOptions(opts, last, rfc) + tail ==
      EncodeOption(opts[0], last, rfc) + (EncodeOptions(opts[1..], opts[0].number, rfc) + tail)
  {
  }

  /** A head, a value and what follows, cut apart again. */
  lemma Pieces(q: Bytes, e: Bytes, v: Bytes, more: Bytes)
    requires q == e + (v + more)
    ensures q[|e|..|e| + |v|] == v && q[|e| + |v|..] == more
  {
  }

  /** The option loop reads back one option whose head reads back, given
      what follows it reads back. */
  lemma ScanReadsHead(q: Bytes, num: int, next: int, e: Bytes, v: Bytes, more: Bytes, rfc: bool, rest: (seq<RawOption>, Bytes))
    requires |e| > 0 && e[0] != PAYLOAD_MARKER && q == e + (v + more)
    requires ReadHead(q, rfc) == Ok(OptHead(next - num, |v|, |e|))
    requires ScanOptions(more, next, rfc) == Ok(rest)
    ensures ScanOptions(q, num, rfc) == Ok(([RawOption(next, v)] + rest.0, rest.1))
  {
    Pieces(q, e, v, more);
    ScanCons(q, num, rfc, OptHead(next - num, |v|, |e|), next, more, rest);
  }

  /** An encoded option is its head, its value and what follows, and the
      head reads back. */
  lemma EncodedHeadReads(o: RawOption, last: int, more: Bytes, rfc: bool)
    requires last <= o.number <= last + MAX_EXTENDED && |o.value| <= MAX_EXTENDED
    requires rfc || (o.number - last <= 268 && |o.value| <= 12)
    ensures var e := EncodeHead(o.number - last, |o.value|, rfc);
      var q := EncodeOption(o, last, rfc) + more;
      && q == e + (o.value + more)
      && ReadHead(q, rfc) == Ok(OptHead(o.number - last, |o.value|, |e|))
  {
    HeadRoundTrip(o.number - last, |o.value|, o.value + more, rfc);
  }

  /** The option loop reads back one encoded option, given what follows it
      reads back. */
  lemma ScanEncodedOption(o: RawOption, last: int, more: Bytes, rfc: bool, rest: (seq<RawOption>, Bytes))
    requires last <= o.number <= last + MAX_EXTENDED && |o.value| <= MAX_EXTENDED
    requires rfc || (o.number - last <= 268 && |o.value| <= 12)
    requires ScanOptions(more, o.number, rfc) == Ok(rest)
    ensures ScanOptions(EncodeOption(o, last, rfc) + more, last, rfc) == Ok(([o] + rest.0, rest.1))
  {
    EncodedHeadReads(o, last, more, rfc);
    ScanReadsHead(EncodeOption(o, last, rfc) + more, last, o.number,
      EncodeHead(o.number - last, |o.value|, rfc), o.value, more, rfc, rest);
  }

  /** Decoding what the corrected encoder wrote returns the options in order
      and stops at what follows them, for every encodable list. */
  lemma {:induction false} ScanEncodeRoundTripRfc(opts: seq<RawOption>, last: int, tail: Bytes)
    requires Encodable(opts, last)
    requires |tail| == 0 || tail[0] == PAYLOAD_MARKER
    ensures ScanOptions(EncodeOptions(opts, last, true) + tail, last, true) == Ok((opts, tail))
    decreases |opts|
  {
    if |opts| > 0 {
      var more := EncodeOptions(opts[1..], opts[0].number, true) + tail;
      ScanEncodeRoundTripRfc(opts[1..], opts[0].number, tail);
      ScanEncodedOption(opts[0], last, more, true, (opts[1..], tail));
      EncodeOptionsCons(opts, last, tail, true);
      assert [opts[0]] + opts[1..] == opts;
    } else {
      assert EncodeOptions(opts, last, true) + tail == tail;
    }
  }

  /** The same round trip for the server's own encoder and decoder, on the
      lists they agree on: gaps up to 268 and values up to 12 bytes. */
  lemma {:induction false} ScanEncodeRoundTrip(opts: seq<RawOption>, last: int, tail: Bytes)
    requires Encodable(opts, last) && SafeAsWritten(opts, last)
    requires |tail| == 0 || tail[0] == PAYLOAD_MARKER
    ensures ScanOptions(EncodeOptions(opts, last, false) + tail, last, false) == Ok((opts, tail))
    decreases |opts|
  {
    if |opts| > 0 {
      var more := EncodeOptions(opts[1..], opts[0].number, false) + tail;
      ScanEncodeRoundTrip(opts[1..], opts[0].number, tail);
      ScanEncodedOption(opts[0], last, more, false, (opts[1..], tail));
      EncodeOptionsCons(opts, last, tail, false);
      assert [opts[0]] + opts[1..] == opts;
    } else {
      assert EncodeOptions(opts, last, false) + tail == tail;
    }
  }
}

=== FILE: display_task.dfy ===
/** The message loop of the OLED display task (`tasks/display_task.py`):
    the drawing window, its clamping, and the placement and wrapping of
    `print_at_xy` text. The SSD1306 driver is a list of the drawing calls
    it receives. Messages arrive as decoded JSON values (`HandleJson`);
    `Message` is what the loop reads from one that has every key it asks
    for, with values of the types it uses (`Encode`).
 */
module DisplayTask {
  import opened Wrappers
  import opened Arith
  import opened Json

  /** The driver's font is eight pixels wide and eight high. */
  const CHAR_SIZE := 8

  /** A call on the display driver. */
  datatype Draw =
    | FillRect(x: int, y: int, w: int, h: int)
    | Text(s: string, x: int, y: int)
    | Line(x1: int, y1: int, x2: int, y2: int)
    | Ellipse(x0: int, y0: int, major: int, minor: int, fill: bool)
    | Show

  datatype Ack = ACK | NACK

  /** The value of `set_window`: the string `'reset'` or a dict whose
      missing keys take their defaults. */
  datatype WindowArg = Reset | Fields(x: Option<int>, y: Option<int>, w: Option<int>, h: Option<int>)

  /** The drawing command of a message: the first of the keys the loop
      tests, in the order it tests them. The `'indent'` key of
      `print_at_xy` is never read. */
  datatype Command =
    | ClearRect(cx: int, cy: int, cw: int, ch: int)
    | PrintAtXy(px: int, py: int, text: string, warp: bool)
    | DrawLine(x1: int, y1: int, x2: int, y2: int)
    | DrawEllipse(ex: int, ey: int, major: int, minor: int, fill: bool)
    | PrintText
    | NoCommand

  datatype Message = Message(setWindow: Option<WindowArg>, command: Command)

  function Min(a: int, b: int): int
  {
    if a < b then a else b
  }

  function Max(a: int, b: int): int
  {
    if a < b then b else a
  }

  function Get(o: Option<int>, default: int): int
  {
    if o.Some? then o.value else default
  }

  /** The window the task starts with: `[x, y, w, h, right, bottom]`
      covering the whole screen. */
  function FullWindow(width: int, height: int): seq<int>
  {
    [0, 0, width, height, width, height]
  }

  /** `window_to_screen`: the window's origin moved by `(x, y)` but not past
      its right and bottom edges, followed by those edges. A window without
      the edge entries raises `IndexError`. */
  function WindowToScreen(w: seq<int>, x: int, y: int): (r: Result<(int, int, int, int)>)
    ensures r.Ok? <==> |w| >= 6
    ensures r.Raise? ==> r.exc == IndexError
    ensures r.Ok? ==> r.value.2 == w[4] && r.value.3 == w[5]
    ensures r.Ok? ==> r.value.0 <= r.value.2 && r.value.1 <= r.value.3
    ensures r.Ok? && w[0] + x <= w[4] ==> r.value.0 == w[0] + x
    ensures r.Ok? && w[1] + y <= w[5] ==> r.value.1 == w[1] + y
  {
    if |w| < 6 then Raise(IndexError)
    else Ok((Min(w[0] + x, w[4]), Min(w[1] + y, w[5]), w[4], w[5]))
  }

  /** The `set_window` branch. As written `'reset'` makes a four-entry
      window, without the edges that everything after it indexes; with
      `fixed` it is the full window of six entries. A dict writes the six
      entries in place, and raises `IndexError` on a shorter window. */
  function SetWindow(w: seq<int>, arg: WindowArg, width: int, height: int, fixed: bool): (r: Result<seq<int>>)
    ensures r.Ok? <==> arg.Reset? || |w| >= 6
    ensures r.Raise? ==> r.exc == IndexError
    ensures r.Ok? && arg.Reset? ==> |r.value| == if fixed then 6 else 4
    ensures r.Ok? && arg.Fields? ==> |r.value| == |w|
  {
    match arg
    case Reset => Ok(if fixed then FullWindow(width, height) else [0, 0, width, height])
    case Fields(ax, ay, aw, ah) =>
      if |w| < 6 then Raise(IndexError)
      else
        var x := Max(Get(ax, 0), 0);
        var y := Max(Get(ay, 0), 0);
        var ww := Get(aw, width);
        var hh := Get(ah, height);
        Ok(w[0 := x][1 := y][2 := ww][3 := hh][4 := Min(x + ww, width)][5 := Min(y + hh, height)])
  }

  /** A set window starts inside the screen's top-left corner and ends
      within its right and bottom edges, at most `w`/`h` past its origin;
      its entries beyond the sixth are untouched. */
  lemma SetWindowClamps(w: seq<int>, ax: Option<int>, ay: Option<int>, aw: Option<int>, ah: Option<int>, width: int, height: int, fixed: bool)
    requires |w| >= 6
    ensures SetWindow(w, Fields(ax, ay, aw, ah), width, height, fixed).Ok?
    ensures var r := SetWindow(w, Fields(ax, ay, aw, ah), width, height, fixed).value;
      && |r| == |w| && r[6..] == w[6..]
      && r[0] >= 0 && r[1] >= 0
      && r[4] <= width && r[5] <= height
      && r[4] <= r[0] + r[2] && r[5] <= r[1] + r[3]
      && (ax.Some? && ax.value >= 0 ==> r[0] == ax.value)
      && (ay.Some? && ay.value >= 0 ==> r[1] == ay.value)
      && r[2] == Get(aw, width) && r[3] == Get(ah, height)
  {
  }

  /** With `fixed`, every `set_window` leaves a six-entry window. */
  lemma SetWindowKeepsShape(w: seq<int>, arg: WindowArg, width: int, height: int)
    requires |w| == 6
    ensures SetWindow(w, arg, width, height, true).Ok?
    ensures |SetWindow(w, arg, width, height, true).value| == 6
  {
  }

  // ---------------------------------------------------------------------
  // Text placement
  // ---------------------------------------------------------------------

  /** The `while text:` loop of `print_at_xy`: a line of as many characters
      as fit between `x0` and `x1`, while at least one does and a full row
      is left above `y1`; with `warp` the rest goes on the next row,
      shifted right by `indent`, otherwise the loop stops. */
  function Wrap(text: string, x0: int, y0: int, x1: int, y1: int, indent: int, warp: bool): (r: seq<Draw>)
    ensures !warp ==> |r| <= 1
    ensures |r| <= |text|
    decreases |text|
  {
    if text == "" then []
    else
      var n := FloorDiv(x1 - x0, CHAR_SIZE);
      if n < 1 || y1 - y0 < CHAR_SIZE then []
      else
        var k := Min(n, |text|);
        [Text(text[..k], x0, y0)] + (if warp then Wrap(text[k..], x0 + indent, y0 + CHAR_SIZE, x1, y1, indent, warp) else [])
  }

  /** The text a list of drawing calls puts on the screen, in order. */
  function Written(ds: seq<Draw>): string
  {
    if ds == [] then "" else (if ds[0].Text? then ds[0].s else "") + Written(ds[1..])
  }

  /** Every line drawn is a text of at most `(x1 - x0) // 8` characters
      starting at column `x0` or to its right, on row `y0 + 8k` with the
      whole row above `y1`; without `warp` there is at most one line. */
  lemma {:induction false} WrapBounds(text: string, x0: int, y0: int, x1: int, y1: int, indent: int, warp: bool)
    requires indent >= 0
    ensures !warp ==> |Wrap(text, x0, y0, x1, y1, indent, warp)| <= 1
    ensures forall k :: 0 <= k < |Wrap(text, x0, y0, x1, y1, indent, warp)| ==>
      Wrap(text, x0, y0, x1, y1, indent, warp)[k].Text?
      && 1 <= |Wrap(text, x0, y0, x1, y1, indent, warp)[k].s| <= FloorDiv(x1 - x0, CHAR_SIZE)
      && Wrap(text, x0, y0, x1, y1, indent, warp)[k].x >= x0
      && Wrap(text, x0, y0, x1, y1, indent, warp)[k].y == y0 + CHAR_SIZE * k
      && Wrap(text, x0, y0, x1, y1, indent, warp)[k].y + CHAR_SIZE <= y1
    decreases |text|
  {
    if text != "" {
      var n := FloorDiv(x1 - x0, CHAR_SIZE);
      if n >= 1 && y1 - y0 >= CHAR_SIZE && warp {
        var k := Min(n, |text|);
        WrapBounds(text[k..], x0 + indent, y0 + CHAR_SIZE, x1, y1, indent, warp);
        DivAntitoneNumerator(x1 - x0 - indent, x1 - x0, CHAR_SIZE);
      }
    }
  }

  /** A smaller numerator never gives a larger quotient. */
  lemma DivAntitoneNumerator(a: int, b: int, d: int)
    requires a <= b && d > 0
    ensures a / d <= b / d
  {
    if a / d > b / d {
      MulMono(b / d + 1, a / d, d);
      assert false;
    }
  }

  /** What is drawn is the text's beginning, in order. */
  lemma {:induction false} WrapPrefix(text: string, x0: int, y0: int, x1: int, y1: int, indent: int, warp: bool)
    ensures Written(Wrap(text, x0, y0, x1, y1, indent, warp)) <= text
    decreases |text|
  {
    var r := Wrap(text, x0, y0, x1, y1, indent, warp);
    if text != "" {
      var n := FloorDiv(x1 - x0, CHAR_SIZE);
      if n >= 1 && y1 - y0 >= CHAR_SIZE {
        var k := Min(n, |text|);
        var rest := if warp then Wrap(text[k..], x0 + indent, y0 + CHAR_SIZE, x1, y1, indent, warp) else [];
        assert r[1..] == rest;
        if warp {
          WrapPrefix(text[k..], x0 + indent, y0 + CHAR_SIZE, x1, y1, indent, warp);
        }
        assert text == text[..k] + text[k..];
      }
    }
  }

  /** With `warp`, no indent and room for all of it — `(x1 - x0) // 8`
      characters on each of `(y1 - y0) // 8` rows — the whole text is
      drawn. */
  lemma {:induction false} WrapAll(text: string, x0: int, y0: int, x1: int, y1: int)
    requires |text| <= FloorDiv(x1 - x0, CHAR_SIZE) * FloorDiv(y1 - y0, CHAR_SIZE)
    requires FloorDiv(x1 - x0, CHAR_SIZE) >= 1
    ensures Written(Wrap(text, x0, y0, x1, y1, 0, true)) == text
    decreases |text|
  {
    if text != "" {
      var n := FloorDiv(x1 - x0, CHAR_SIZE);
      var rows := FloorDiv(y1 - y0, CHAR_SIZE);
      assert rows >= 1 by {
        if rows < 1 {
          MulMono(rows, 0, n);
          assert false;
        }
      }
      assert y1 - y0 >= CHAR_SIZE;
      var k := Min(n, |text|);
      assert FloorDiv(y1 - (y0 + CHAR_SIZE), CHAR_SIZE) == rows - 1 by {
        DivModUnique(y1 - (y0 + CHAR_SIZE), CHAR_SIZE, rows - 1, (y1 - y0) % CHAR_SIZE);
      }
      assert |text[k..]| <= n * (rows - 1) by {
        Distrib(rows, -1, n);
        assert n * rows == rows * n;
      }
      WrapAll(text[k..], x0, y0 + CHAR_SIZE, x1, y1);
      var r := Wrap(text, x0, y0, x1, y1, 0, true);
      assert r[1..] == Wrap(text[k..], x0, y0 + CHAR_SIZE, x1, y1, 0, true);
      assert text == text[..k] + text[k..];
    }
  }

  // ---------------------------------------------------------------------
  // One message
  // ---------------------------------------------------------------------

  /** What one message leaves behind: the window, the drawing calls and
      the acknowledgement published on `display_report`. */
  datatype Outcome = Outcome(window: seq<int>, draws: seq<Draw>, ack: Ack)

  function At(w: seq<int>, i: nat): (r: Result<int>)
  {
    if i < |w| then Ok(w[i]) else Raise(IndexError)
  }

  /** One pass of the loop. A `print_at_xy` outside the window's size is
      refused with `NACK` and draws nothing; otherwise its text starts at
      the window's origin moved by `(x, y)` and wrapped lines shift right by
      `x`. Every other command is drawn and acknowledged with `ACK` after
      `show()`. An exception ends the task. */
  function Handle(w: seq<int>, width: int, height: int, m: Message, fixed: bool): (r: Result<Outcome>)
    ensures r.Ok? && r.value.ack == NACK ==> r.value.draws == [] && m.command.PrintAtXy?
    ensures r.Ok? && r.value.ack == ACK ==> |r.value.draws| > 0 && r.value.draws[|r.value.draws| - 1] == Show
  {
    var w1 :- if m.setWindow.Some? then SetWindow(w, m.setWindow.value, width, height, fixed) else Ok(w);
    Perform(w1, m.command)
  }

  /** The command of a message, on the window as `set_window` left it. */
  function Perform(w1: seq<int>, c: Command): (r: Result<Outcome>)
    ensures r.Ok? ==> r.value.window == w1
    ensures r.Ok? && r.value.ack == NACK ==> r.value.draws == [] && c.PrintAtXy?
    ensures r.Ok? && r.value.ack == ACK ==> |r.value.draws| > 0 && r.value.draws[|r.value.draws| - 1] == Show
  {
    match c
    case PrintAtXy(x, y, text, warp) =>
      var ww :- At(w1, 2);
      var wh :- At(w1, 3);
      if !(0 <= x < ww && 0 <= y < wh) then Ok(Outcome(w1, [], NACK))
      else
        var corners :- WindowToScreen(w1, x, y);
        var (x0, y0, x1, y1) := corners;
        Ok(Outcome(w1, Wrap(text, x0, y0, x1, y1, x, warp) + [Show], ACK))
    case ClearRect(cx, cy, cw, ch) => Ok(Outcome(w1, [FillRect(cx, cy, cw, ch), Show], ACK))
    case DrawLine(x1, y1, x2, y2) => Ok(Outcome(w1, [Line(x1, y1, x2, y2), Show], ACK))
    case DrawEllipse(ex, ey, major, minor, fill) => Ok(Outcome(w1, [Ellipse(ex, ey, major, minor, fill), Show], ACK))
    case PrintText => Ok(Outcome(w1, [Show], ACK))
    case NoCommand => Ok(Outcome(w1, [Show], ACK))
  }

  /** A `print_at_xy` outside the window's width or height is refused:
      `NACK`, nothing drawn, not even `show()`. */
  lemma PrintOutsideRefused(w: seq<int>, width: int, height: int, sw: Option<WindowArg>, x: int, y: int, text: string, warp: bool)
    requires |w| == 6
    ensures var r := Handle(w, width, height, Message(sw, PrintAtXy(x, y, text, warp)), true);
      r.Ok? && (r.value.ack == NACK <==> !(0 <= x < r.value.window[2] && 0 <= y < r.value.window[3]))
    ensures var r := Handle(w, width, height, Message(sw, PrintAtXy(x, y, text, warp)), true);
      r.Ok? && r.value.ack == NACK ==> r.value.draws == []
  {
    if sw.Some? {
      SetWindowKeepsShape(w, sw.value, width, height);
    }
  }

  /** With `fixed`, the window always has its six entries, so no message
      raises: each one is answered by exactly one acknowledgement, and the
      drawing calls of an accepted one end with `show()`. */
  lemma FixedNeverRaises(w: seq<int>, width: int, height: int, m: Message)
    requires |w| == 6
    ensures Handle(w, width, height, m, true).Ok?
    ensures |Handle(w, width, height, m, true).value.window| == 6
    ensures Handle(w, width, height, m, true).value.ack == ACK ==>
      |Handle(w, width, height, m, true).value.draws| > 0 && Handle(w, width, height, m, true).value.draws[|Handle(w, width, height, m, true).value.draws| - 1] == Show
  {
    if m.setWindow.Some? {
      SetWindowKeepsShape(w, m.setWindow.value, width, height);
    }
  }

  /** As written, once `'reset'` has made the window four entries long, a
      later `set_window` dict or an accepted `print_at_xy` raises
      `IndexError`, which ends the task. */
  lemma ResetBreaksWindow(w: seq<int>, width: int, height: int, m: Message)
    requires Handle(w, width, height, Message(Some(Reset), NoCommand), false).Ok?
    requires (m.setWindow.Some? && m.setWindow.value.Fields?)
      || (m.setWindow.None? && m.command.PrintAtXy? && 0 <= m.command.px < width && 0 <= m.command.py < height)
    ensures |Handle(w, width, height, Message(Some(Reset), NoCommand), false).value.window| == 4
    ensures Handle(Handle(w, width, height, Message(Some(Reset), NoCommand), false).value.window, width, height, m, false) == Raise(IndexError)
  {
  }

  /** The loop over a run of messages: the acknowledgements published, and
      the exception that ended the task, if one did. */
  function Run(w: seq<int>, width: int, height: int, ms: seq<Message>, fixed: bool): (r: (seq<Ack>, Option<Exc>))
    ensures |r.0| <= |ms|
    decreases |ms|
  {
    if ms == [] then ([], None)
    else
      match Handle(w, width, height, ms[0], fixed)
      case Raise(e) => ([], Some(e))
      case Ok(o) =>
        var (acks, e) := Run(o.window, width, height, ms[1..], fixed);
        ([o.ack] + acks, e)
  }

  /** With `fixed`, the task answers every message, starting from its full
      window. */
  lemma {:induction false} FixedAnswersAll(w: seq<int>, width: int, height: int, ms: seq<Message>)
    requires |w| == 6
    ensures Run(w, width, height, ms, true).1 == None
    ensures |Run(w, width, height, ms, true).0| == |ms|
    decreases |ms|
  {
    if ms != [] {
      FixedNeverRaises(w, width, height, ms[0]);
      FixedAnswersAll(Handle(w, width, height, ms[0], true).value.window, width, height, ms[1..]);
    }
  }

  /** As written, a reset followed by a window change stops the task after
      one acknowledgement, whatever comes next. */
  lemma ResetStopsTask(width: int, height: int, arg: WindowArg, c: Command, rest: seq<Message>)
    requires arg.Fields?
    ensures Run(FullWindow(width, height), width, height,
      [Message(Some(Reset), NoCommand), Message(Some(arg), c)] + rest, false) == ([ACK], Some(IndexError))
  {
    var ms := [Message(Some(Reset), NoCommand), Message(Some(arg), c)] + rest;
    assert ms[0] == Message(Some(Reset), NoCommand);
    assert ms[1..][0] == Message(Some(arg), c);
    var w4 := [0, 0, width, height];
    assert Handle(FullWindow(width, height), width, height, ms[0], false) == Ok(Outcome(w4, [Show], ACK));
    assert Handle(w4, width, height, ms[1..][0], false) == Raise(IndexError);
    assert Run(w4, width, height, ms[1..], false) == ([], Some(IndexError));
    assert [ACK] + [] == [ACK];
  }

  // ---------------------------------------------------------------------
  // Messages as they arrive
  // ---------------------------------------------------------------------

  /** A coordinate or size handed to `max`, `min`, `+` or the driver: an
      integer, or a boolean as 0 or 1; anything else raises `TypeError`. */
  function IntArg(j: Json): (r: Result<int>)
    ensures r.Ok? <==> j.JInt? || j.JBool?
    ensures r.Raise? ==> r.exc.TypeError?
    ensures j.JInt? ==> r == Ok(j.i)
    ensures j.JBool? ==> r == Ok(if j.b then 1 else 0)
  {
    match j
    case JInt(i) => Ok(i)
    case JBool(b) => Ok(if b then 1 else 0)
    case _ => Raise(TypeError("unsupported types"))
  }

  /** Whole-number arguments, converted in order. */
  function IntArgs(vs: seq<Json>): (r: Result<seq<int>>)
    ensures r.Ok? <==> forall i :: 0 <= i < |vs| ==> IntArg(vs[i]).Ok?
    ensures r.Raise? ==> r.exc.TypeError?
    ensures r.Ok? ==> |r.value| == |vs| && forall i :: 0 <= i < |vs| ==> r.value[i] == IntArg(vs[i]).value
  {
    if vs == [] then Ok([])
    else
      var n :- IntArg(vs[0]);
      var rest :- IntArgs(vs[1..]);
      Ok([n] + rest)
  }

  /** `p[k]` for each key, in order: every argument of a driver call is
      looked up before the call. */
  function Args(p: Json, keys: seq<string>): (r: Result<seq<Json>>)
    ensures r.Ok? <==> forall i :: 0 <= i < |keys| ==> p.JObj? && keys[i] in p.fields
    ensures r.Raise? && p.JObj? ==> r.exc.KeyError?
    ensures r.Raise? && !p.JObj? ==> r.exc.TypeError?
    ensures r.Ok? ==> |r.value| == |keys| && forall i :: 0 <= i < |keys| ==> r.value[i] == p.fields[keys[i]]
  {
    if keys == [] then Ok([])
    else
      var v :- Index(p, keys[0]);
      var rest :- Args(p, keys[1..]);
      Ok([v] + rest)
  }

  /** The first key missing from a dict is the one reported. */
  lemma {:induction false} ArgsFirstMissing(f: map<string, Json>, keys: seq<string>, k: nat)
    requires k < |keys| && keys[k] !in f
    requires forall i :: 0 <= i < k ==> keys[i] in f
    ensures Args(JObj(f), keys) == Raise(KeyError(keys[k]))
  {
    if k > 0 {
      ArgsFirstMissing(f, keys[1..], k - 1);
    }
  }

  /** A key of a `set_window` dict: absent, or a whole number. */
  function OptionalInt(fields: map<string, Json>, key: string): (r: Result<Option<int>>)
    ensures key !in fields ==> r == Ok(None)
    ensures key in fields ==> (r.Ok? <==> IntArg(fields[key]).Ok?)
    ensures key in fields && r.Ok? ==> r.value == Some(IntArg(fields[key]).value)
  {
    if key !in fields then Ok(None)
    else
      var n :- IntArg(fields[key]);
      Ok(Some(n))
  }

  /** The value of `set_window`: the string `'reset'`, or something read
      with `get`, which only a dict has. */
  function WindowArgOf(v: Json): (r: Result<WindowArg>)
    ensures v == JStr("reset") ==> r == Ok(Reset)
    ensures !v.JObj? && v != JStr("reset") ==> r == Raise(AttributeError("get"))
    ensures v.JObj? ==> (r.Ok? <==>
      && OptionalInt(v.fields, "x").Ok? && OptionalInt(v.fields, "y").Ok?
      && OptionalInt(v.fields, "w").Ok? && OptionalInt(v.fields, "h").Ok?)
    ensures r.Raise? && v.JObj? ==> r.exc.TypeError?
  {
    if v == JStr("reset") then Ok(Reset)
    else if !v.JObj? then Raise(AttributeError("get"))
    else
      var x :- OptionalInt(v.fields, "x");
      var y :- OptionalInt(v.fields, "y");
      var w :- OptionalInt(v.fields, "w");
      var h :- OptionalInt(v.fields, "h");
      Ok(Fields(x, y, w, h))
  }

  /** The text loop on a text that may not be a string: an empty or false
      value draws nothing; any other non-string raises `TypeError` once the
      first line has room, as it cannot be sliced into a line of text. */
  function WrapJson(text: Json, x0: int, y0: int, x1: int, y1: int, indent: int, warp: bool): (r: Result<seq<Draw>>)
    ensures text.JStr? ==> r == Ok(Wrap(text.s, x0, y0, x1, y1, indent, warp))
    ensures !text.JStr? ==> (r.Raise? <==> Truthy(text) && FloorDiv(x1 - x0, CHAR_SIZE) >= 1 && y1 - y0 >= CHAR_SIZE)
    ensures !text.JStr? && r.Ok? ==> r.value == []
    ensures r.Raise? ==> r.exc.TypeError?
  {
    if text.JStr? then Ok(Wrap(text.s, x0, y0, x1, y1, indent, warp))
    else if !Truthy(text) || FloorDiv(x1 - x0, CHAR_SIZE) < 1 || y1 - y0 < CHAR_SIZE then Ok([])
    else Raise(TypeError("object isn't a string"))
  }

  /** The `print_at_xy` branch on the value under its key. The range test
      is a chained comparison joined by `and`: it stops at the first part
      that fails, so a NACK may come before `y` is read at all. */
  function PrintJson(w: seq<int>, p: Json): (r: Result<Outcome>)
    ensures r.Ok? ==> r.value.window == w
    ensures r.Ok? && r.value.ack == NACK ==> r.value.draws == []
    ensures r.Ok? && r.value.ack == ACK ==> |r.value.draws| > 0 && r.value.draws[|r.value.draws| - 1] == Show
  {
    var xv :- Index(p, "x");
    var x :- IntArg(xv);
    if x < 0 then Ok(Outcome(w, [], NACK))
    else
      var ww :- At(w, 2);
      if x >= ww then Ok(Outcome(w, [], NACK))
      else
        var yv :- Index(p, "y");
        var y :- IntArg(yv);
        if y < 0 then Ok(Outcome(w, [], NACK))
        else
          var wh :- At(w, 3);
          if y >= wh then Ok(Outcome(w, [], NACK))
          else
            var text :- Index(p, "text");
            var warp :- Index(p, "warp");
            var corners :- WindowToScreen(w, x, y);
            var (x0, y0, x1, y1) := corners;
            var lines :- WrapJson(text, x0, y0, x1, y1, x, Truthy(warp));
            Ok(Outcome(w, lines + [Show], ACK))
  }

  const CLEAR_KEYS := ["x", "y", "w", "h"]
  const LINE_KEYS := ["x1", "y1", "x2", "y2"]
  const ELLIPSE_KEYS := ["x0", "y0", "major", "minor", "fill"]

  /** The command keys, in the order the loop tests them. */
  function CommandJson(w: seq<int>, message: Json): (r: Result<Outcome>)
    ensures r.Ok? ==> r.value.window == w
    ensures r.Ok? && r.value.ack == ACK ==> |r.value.draws| > 0 && r.value.draws[|r.value.draws| - 1] == Show
  {
    var clear :- Contains(message, "clear_rect");
    if clear then
      var p :- Index(message, "clear_rect");
      var vs :- Args(p, CLEAR_KEYS);
      var ns :- IntArgs(vs);
      Ok(Outcome(w, [FillRect(ns[0], ns[1], ns[2], ns[3]), Show], ACK))
    else
      if Contains(message, "print_at_xy").value then
        var p :- Index(message, "print_at_xy");
        PrintJson(w, p)
      else if Contains(message, "draw_line").value then
        var p :- Index(message, "draw_line");
        var vs :- Args(p, LINE_KEYS);
        var ns :- IntArgs(vs);
        Ok(Outcome(w, [Line(ns[0], ns[1], ns[2], ns[3]), Show], ACK))
      else if Contains(message, "draw_ellipse").value then
        var p :- Index(message, "draw_ellipse");
        var vs :- Args(p, ELLIPSE_KEYS);
        var ns :- IntArgs(vs[..4]);
        Ok(Outcome(w, [Ellipse(ns[0], ns[1], ns[2], ns[3], Truthy(vs[4])), Show], ACK))
      else
        Ok(Outcome(w, [Show], ACK))
  }

  /** One pass of the loop over a message as it comes off the bus: the
      window first, then the command. A message that is not a dict, list
      or string cannot be searched for keys (`TypeError`); a list or string
      that holds a key cannot be indexed by it (`TypeError`); a missing key
      raises `KeyError` and a `set_window` that is neither `'reset'` nor a
      dict `AttributeError`. Each of these ends the task. */
  function HandleJson(w: seq<int>, width: int, height: int, message: Json, fixed: bool): (r: Result<Outcome>)
    ensures !(message.JObj? || message.JList? || message.JStr?) ==> r.Raise? && r.exc.TypeError?
    ensures r.Ok? && r.value.ack == ACK ==> |r.value.draws| > 0 && r.value.draws[|r.value.draws| - 1] == Show
    ensures r.Ok? && r.value.ack == NACK ==> r.value.draws == []
  {
    var hasWindow :- Contains(message, "set_window");
    var w1 :- if hasWindow then
        var v :- Index(message, "set_window");
        var arg :- WindowArgOf(v);
        SetWindow(w, arg, width, height, fixed)
      else Ok(w);
    CommandJson(w1, message)
  }

  /** The loop over messages as they come off the bus. */
  function RunJson(w: seq<int>, width: int, height: int, msgs: seq<Json>, fixed: bool): (r: (seq<Ack>, Option<Exc>))
    ensures |r.0| <= |msgs|
    ensures r.1.None? <==> |r.0| == |msgs|
    decreases |msgs|
  {
    if msgs == [] then ([], None)
    else
      match HandleJson(w, width, height, msgs[0], fixed)
      case Raise(e) => ([], Some(e))
      case Ok(o) =>
        var (acks, e) := RunJson(o.window, width, height, msgs[1..], fixed);
        ([o.ack] + acks, e)
  }

  // ---------------------------------------------------------------------
  // Well-formed messages
  // ---------------------------------------------------------------------

  /** The optional keys of a `set_window` dict. */
  function OptionalField(key: string, o: Option<int>): map<string, Json>
  {
    if o.Some? then map[key := JInt(o.value)] else map[]
  }

  function EncodeWindow(a: WindowArg): Json
  {
    match a
    case Reset => JStr("reset")
    case Fields(x, y, w, h) =>
      JObj(OptionalField("x", x) + OptionalField("y", y) + OptionalField("w", w) + OptionalField("h", h))
  }

  /** The message keys of a command, as the module's docstring shows them
      (the unread `indent` and `print` payloads left empty). */
  function EncodeCommand(c: Command): map<string, Json>
  {
    match c
    case ClearRect(x, y, w, h) =>
      map["clear_rect" := JObj(map["x" := JInt(x), "y" := JInt(y), "w" := JInt(w), "h" := JInt(h)])]
    case PrintAtXy(x, y, text, warp) =>
      map["print_at_xy" := JObj(map["x" := JInt(x), "y" := JInt(y), "text" := JStr(text), "warp" := JBool(warp)])]
    case DrawLine(x1, y1, x2, y2) =>
      map["draw_line" := JObj(map["x1" := JInt(x1), "y1" := JInt(y1), "x2" := JInt(x2), "y2" := JInt(y2)])]
    case DrawEllipse(x0, y0, major, minor, fill) =>
      map["draw_ellipse" := JObj(map["x0" := JInt(x0), "y0" := JInt(y0), "major" := JInt(major),
        "minor" := JInt(minor), "fill" := JBool(fill)])]
    case PrintText => map["print" := JObj(map[])]
    case NoCommand => map[]
  }

  /** The dict a publisher sends for a message. */
  function Encode(m: Message): Json
  {
    var window := if m.setWindow.Some? then map["set_window" := EncodeWindow(m.setWindow.value)] else map[];
    JObj(window + EncodeCommand(m.command))
  }

  /** `set_window` values read back as they were written. */
  lemma WindowArgRoundTrip(a: WindowArg)
    ensures WindowArgOf(EncodeWindow(a)) == Ok(a)
  {
    match a
    case Reset =>
    case Fields(x, y, w, h) =>
      var f := OptionalField("x", x) + OptionalField("y", y) + OptionalField("w", w) + OptionalField("h", h);
      assert x.Some? ==> "x" in f && f["x"] == JInt(x.value);
      assert x.None? ==> "x" !in f;
      assert y.Some? ==> "y" in f && f["y"] == JInt(y.value);
      assert y.None? ==> "y" !in f;
      assert w.Some? ==> "w" in f && f["w"] == JInt(w.value);
      assert w.None? ==> "w" !in f;
      assert h.Some? ==> "h" in f && f["h"] == JInt(h.value);
      assert h.None? ==> "h" !in f;
  }

  /** The keys a message may carry besides its command. */
  predicate OnlyWindowKey(extra: map<string, Json>)
  {
    forall k :: k in extra ==> k == "set_window"
  }

  lemma ClearEncoded(w1: seq<int>, extra: map<string, Json>, x: int, y: int, ww: int, hh: int)
    requires OnlyWindowKey(extra)
    ensures CommandJson(w1, JObj(extra + EncodeCommand(ClearRect(x, y, ww, hh)))) == Perform(w1, ClearRect(x, y, ww, hh))
  {
    var f := extra + EncodeCommand(ClearRect(x, y, ww, hh));
    assert "clear_rect" in f;
  }

  lemma PrintEncoded(w1: seq<int>, extra: map<string, Json>, x: int, y: int, text: string, warp: bool)
    requires OnlyWindowKey(extra) && |w1| >= 4
    ensures CommandJson(w1, JObj(extra + EncodeCommand(PrintAtXy(x, y, text, warp)))) == Perform(w1, PrintAtXy(x, y, text, warp))
  {
    var f := extra + EncodeCommand(PrintAtXy(x, y, text, warp));
    assert "clear_rect" !in f && "print_at_xy" in f;
  }

  lemma LineEncoded(w1: seq<int>, extra: map<string, Json>, x1: int, y1: int, x2: int, y2: int)
    requires OnlyWindowKey(extra)
    ensures CommandJson(w1, JObj(extra + EncodeCommand(DrawLine(x1, y1, x2, y2)))) == Perform(w1, DrawLine(x1, y1, x2, y2))
  {
    var f := extra + EncodeCommand(DrawLine(x1, y1, x2, y2));
    assert "clear_rect" !in f && "print_at_xy" !in f && "draw_line" in f;
  }

  lemma EllipseEncoded(w1: seq<int>, extra: map<string, Json>, x0: int, y0: int, major: int, minor: int, fill: bool)
    requires OnlyWindowKey(extra)
    ensures CommandJson(w1, JObj(extra + EncodeCommand(DrawEllipse(x0, y0, major, minor, fill))))
      == Perform(w1, DrawEllipse(x0, y0, major, minor, fill))
  {
    var f := extra + EncodeCommand(DrawEllipse(x0, y0, major, minor, fill));
    assert "clear_rect" !in f && "print_at_xy" !in f && "draw_line" !in f && "draw_ellipse" in f;
    EllipseArgs(f["draw_ellipse"], x0, y0, major, minor, fill);
  }

  /** The encoded ellipse's arguments read back as its numbers and flag. */
  lemma EllipseArgs(p: Json, x0: int, y0: int, major: int, minor: int, fill: bool)
    requires p == JObj(map["x0" := JInt(x0), "y0" := JInt(y0), "major" := JInt(major),
                           "minor" := JInt(minor), "fill" := JBool(fill)])
    ensures Args(p, ELLIPSE_KEYS).Ok?
    ensures var vs := Args(p, ELLIPSE_KEYS).value;
      IntArgs(vs[..4]) == Ok([x0, y0, major, minor]) && Truthy(vs[4]) == fill
  {
    var vs := Args(p, ELLIPSE_KEYS).value;
    assert vs == [JInt(x0), JInt(y0), JInt(major), JInt(minor), JBool(fill)];
    var head := vs[..4];
    assert head == [JInt(x0), JInt(y0), JInt(major), JInt(minor)];
    var ns := IntArgs(head).value;
    assert ns[0] == x0 && ns[1] == y0 && ns[2] == major && ns[3] == minor;
    assert ns == [x0, y0, major, minor];
  }

  lemma OtherEncoded(w1: seq<int>, extra: map<string, Json>, c: Command)
    requires OnlyWindowKey(extra) && (c.PrintText? || c.NoCommand?)
    ensures CommandJson(w1, JObj(extra + EncodeCommand(c))) == Perform(w1, c)
  {
    var f := extra + EncodeCommand(c);
    assert "clear_rect" !in f && "print_at_xy" !in f && "draw_line" !in f && "draw_ellipse" !in f;
  }

  /** The command of a well-formed message is performed as the typed
      model says, once the window has its size entries. */
  lemma CommandEncoded(w1: seq<int>, extra: map<string, Json>, c: Command)
    requires OnlyWindowKey(extra) && |w1| >= 4
    ensures CommandJson(w1, JObj(extra + EncodeCommand(c))) == Perform(w1, c)
  {
    match c
    case ClearRect(x, y, ww, hh) => ClearEncoded(w1, extra, x, y, ww, hh);
    case PrintAtXy(x, y, text, warp) => PrintEncoded(w1, extra, x, y, text, warp);
    case DrawLine(x1, y1, x2, y2) => LineEncoded(w1, extra, x1, y1, x2, y2);
    case DrawEllipse(x0, y0, major, minor, fill) => EllipseEncoded(w1, extra, x0, y0, major, minor, fill);
    case PrintText => OtherEncoded(w1, extra, c);
    case NoCommand => OtherEncoded(w1, extra, c);
  }

  /** A well-formed message is handled as the typed model says, once the
      window has its size entries. */
  lemma HandleEncoded(w: seq<int>, width: int, height: int, m: Message, fixed: bool)
    requires |w| >= 4
    ensures HandleJson(w, width, height, Encode(m), fixed) == Handle(w, width, height, m, fixed)
  {
    var extra := if m.setWindow.Some? then map["set_window" := EncodeWindow(m.setWindow.value)] else map[];
    var f := extra + EncodeCommand(m.command);
    assert Encode(m) == JObj(f);
    if m.setWindow.Some? {
      assert "set_window" in f && f["set_window"] == EncodeWindow(m.setWindow.value);
      WindowArgRoundTrip(m.setWindow.value);
    } else {
      assert "set_window" !in f;
    }
    var w1r := if m.setWindow.Some? then SetWindow(w, m.setWindow.value, width, height, fixed) else Ok(w);
    if w1r.Ok? {
      CommandEncoded(w1r.value, extra, m.command);
    }
  }

  /** The window keeps its size entries from one message to the next. */
  lemma HandleKeepsSize(w: seq<int>, width: int, height: int, m: Message, fixed: bool)
    requires |w| >= 4
    ensures Handle(w, width, height, m, fixed).Ok? ==> |Handle(w, width, height, m, fixed).value.window| >= 4
  {
  }

  function EncodeAll(ms: seq<Message>): (r: seq<Json>)
    ensures |r| == |ms|
  {
    seq(|ms|, i requires 0 <= i < |ms| => Encode(ms[i]))
  }

  /** Over well-formed messages the task runs as the typed model says. */
  lemma {:induction false} RunEncoded(w: seq<int>, width: int, height: int, ms: seq<Message>, fixed: bool)
    requires |w| >= 4
    ensures RunJson(w, width, height, EncodeAll(ms), fixed) == Run(w, width, height, ms, fixed)
    decreases |ms|
  {
    if ms != [] {
      HandleEncoded(w, width, height, ms[0], fixed);
      HandleKeepsSize(w, width, height, ms[0], fixed);
      assert EncodeAll(ms)[0] == Encode(ms[0]);
      assert EncodeAll(ms)[1..] == EncodeAll(ms[1..]);
      match Handle(w, width, height, ms[0], fixed)
      case Raise(e) =>
      case Ok(o) =>
        RunEncoded(o.window, width, height, ms[1..], fixed);
    }
  }

  /** With the reset corrected, the task answers every well-formed
      message, starting from its full window. */
  lemma FixedAnswersWellFormed(w: seq<int>, width: int, height: int, ms: seq<Message>)
    requires |w| == 6
    ensures RunJson(w, width, height, EncodeAll(ms), true).1 == None
    ensures |RunJson(w, width, height, EncodeAll(ms), true).0| == |ms|
  {
    RunEncoded(w, width, height, ms, true);
    FixedAnswersAll(w, width, height, ms);
  }

  /** A drawing command whose dict lacks one of its keys raises `KeyError`
      naming the first one missing, which ends the task. */
  lemma MissingKeyRaises(w: seq<int>, width: int, height: int, command: string, f: map<string, Json>, k: nat)
    requires command == "clear_rect" || command == "draw_line" || command == "draw_ellipse"
    requires var keys := if command == "clear_rect" then CLEAR_KEYS else if command == "draw_line" then LINE_KEYS else ELLIPSE_KEYS;
      k < |keys| && keys[k] !in f && forall i :: 0 <= i < k ==> keys[i] in f
    ensures var keys := if command == "clear_rect" then CLEAR_KEYS else if command == "draw_line" then LINE_KEYS else ELLIPSE_KEYS;
      HandleJson(w, width, height, JObj(map[command := JObj(f)]), false) == Raise(KeyError(keys[k]))
  {
    var keys := if command == "clear_rect" then CLEAR_KEYS else if command == "draw_line" then LINE_KEYS else ELLIPSE_KEYS;
    ArgsFirstMissing(f, keys, k);
    var m := map[command := JObj(f)];
    assert "set_window" !in m;
    if command == "draw_line" {
      assert "clear_rect" !in m && "print_at_xy" !in m;
    } else if command == "draw_ellipse" {
      assert "clear_rect" !in m && "print_at_xy" !in m && "draw_line" !in m;
    }
  }

  /** A `print_at_xy` inside the window without its `text` or `warp`
      raises `KeyError`. */
  lemma PrintMissingTextRaises(width: int, height: int, x: int, y: int, f: map<string, Json>)
    requires 0 <= x < width && 0 <= y < height
    requires "text" !in f || "warp" !in f
    ensures var p := f["x" := JInt(x)]["y" := JInt(y)];
      var r := HandleJson(FullWindow(width, height), width, height, JObj(map["print_at_xy" := JObj(p)]), false);
      r.Raise? && r.exc.KeyError?
  {
    var m := map["print_at_xy" := JObj(f["x" := JInt(x)]["y" := JInt(y)])];
    assert "set_window" !in m && "clear_rect" !in m;
  }

  /** A `set_window` that is neither `'reset'` nor a dict has no `get`. */
  lemma WindowNotDictRaises(w: seq<int>, width: int, height: int, v: Json, fixed: bool)
    requires !v.JObj? && v != JStr("reset")
    ensures HandleJson(w, width, height, JObj(map["set_window" := v]), fixed) == Raise(AttributeError("get"))
  {
  }
}

=== FILE: http_query.dfy ===
/** The request line and the query string as both HTTP servers of the
    firmware read them. A request line is split at whitespace into its
    three words. A query string is split at
    `&`, each pair split at its first `=`, pairs without `=` dropped, and a
    later pair overriding an earlier one with the same key. The asynchronous
    server also percent-decodes keys and values (`_unquote`, with `+` read
    as a space, as in HTML form encoding); the older example server does not.
 */
module HttpQuery {
  import opened Wrappers
  import opened PyStr

  // ---------------------------------------------------------------------
  // Request lines
  // ---------------------------------------------------------------------

  /** `method, full_path, _ = line.split()`: the line must hold exactly
      three words; fewer or more make the unpacking raise `ValueError`. */
  function RequestLine(line: string): (r: Result<(string, string)>)
    ensures r.Ok? <==> |Words(line)| == 3
    ensures r.Raise? ==> r.exc.ValueError?
    ensures r.Ok? ==> IsWord(r.value.0) && IsWord(r.value.1)
  {
    var w := Words(line);
    if |w| < 3 then Raise(ValueError("need more than " + DecimalText(|w|) + " values to unpack"))
    else if |w| > 3 then Raise(ValueError("too many values to unpack (expected 3)"))
    else Ok((w[0], w[1]))
  }

  // ---------------------------------------------------------------------
  // Percent-decoding
  // ---------------------------------------------------------------------

  /** One piece after a `%`: `chr(int(item[:2], 16)) + item[2:]`, or the
      `%` put back in front of the piece when either call raises. */
  function DecodeItem(item: string): string
  {
    var head := if |item| < 2 then item else item[..2];
    var tail := if |item| < 2 then "" else item[2..];
    match ParseInt(head, 16)
    case Ok(v) => if 0 <= v < 256 then [v as char] + tail else "%" + item
    case Raise(_) => "%" + item
  }

  function DecodeItems(items: seq<string>): string
  {
    if |items| == 0 then "" else DecodeItem(items[0]) + DecodeItems(items[1..])
  }

  /** `_unquote(s)`: `+` becomes a space first; then every `%` starts a
      piece that `DecodeItem` decodes. */
  function Unquote(s: string): (r: string)
    ensures '%' !in s ==> r == ReplaceChar(s, '+', ' ')
  {
    var t := ReplaceChar(s, '+', ' ');
    var parts := Split(t, '%');
    if |parts| == 1 then t else parts[0] + DecodeItems(parts[1..])
  }

  const HEX_DIGITS := "0123456789ABCDEF"

  /** The two upper-case hex digits of a character below 256. */
  function Hex2(c: char): string
    requires c as int < 256
  {
    [HEX_DIGITS[c as int / 16], HEX_DIGITS[c as int % 16]]
  }

  predicate IsLatin1(s: string)
  {
    forall k :: 0 <= k < |s| ==> s[k] as int < 256
  }

  /** Every character written as `%XX`: the reference encoding that
      `Unquote` inverts. */
  function PercentEncode(s: string): string
    requires IsLatin1(s)
  {
    if |s| == 0 then "" else "%" + Hex2(s[0]) + PercentEncode(s[1..])
  }

  // ---------------------------------------------------------------------
  // Query strings
  // ---------------------------------------------------------------------

  /** A pair as the loop keeps it: split at the first `=`, decoded when
      `decode` is set; `None` for a pair without `=`. */
  function Pair(p: string, decode: bool): (r: Option<(string, string)>)
    ensures r.None? <==> '=' !in p
  {
    match Partition(p, '=')
    case None => None
    case Some((k, v)) => if decode then Some((Unquote(k), Unquote(v))) else Some((k, v))
  }

  /** Every piece of the query read as a pair. */
  function Pairs(parts: seq<string>, decode: bool): (r: seq<Option<(string, string)>>)
    ensures |r| == |parts| && forall i :: 0 <= i < |parts| ==> r[i] == Pair(parts[i], decode)
  {
    seq(|parts|, i requires 0 <= i < |parts| => Pair(parts[i], decode))
  }

  predicate HasKey(kv: Option<(string, string)>, k: string)
  {
    kv.Some? && kv.value.0 == k
  }

  /** The dictionary the loop builds, pair by pair. */
  function Collect(kvs: seq<Option<(string, string)>>): map<string, string>
  {
    if |kvs| == 0 then map[]
    else
      var m := Collect(kvs[..|kvs| - 1]);
      match kvs[|kvs| - 1]
      case None => m
      case Some((k, v)) => m[k := v]
  }

  /** Each pair adds at most one key. */
  lemma {:induction false} CollectSize(kvs: seq<Option<(string, string)>>)
    ensures |Collect(kvs)| <= |kvs|
  {
    if |kvs| > 0 {
      CollectSize(kvs[..|kvs| - 1]);
    }
  }

  /** The pair that defines key `k`: the last one with that key. */
  predicate DefinedBy(kvs: seq<Option<(string, string)>>, k: string, i: int)
  {
    0 <= i < |kvs| && HasKey(kvs[i], k)
    && forall j :: i < j < |kvs| ==> !HasKey(kvs[j], k)
  }

  /** The query part after the `?`, split at every `&`. */
  function ParseQuery(q: string, decode: bool): (r: map<string, string>)
    ensures |r| <= |Split(q, '&')|
  {
    CollectSize(Pairs(Split(q, '&'), decode));
    Collect(Pairs(Split(q, '&'), decode))
  }

  /** `(path, query)`: without `?` the whole text and no parameters;
      otherwise the text up to the first `?` and the parsed rest. */
  function SplitPath(full: string, decode: bool): (r: (string, map<string, string>))
    ensures '?' !in full ==> r == (full, map[])
    ensures '?' in full ==> ('?' !in r.0
      && exists q :: full == r.0 + "?" + q && r.1 == ParseQuery(q, decode))
  {
    match Partition(full, '?')
    case None => (full, map[])
    case Some((p, q)) => (p, ParseQuery(q, decode))
  }
}

=== FILE: http_query_props.dfy ===
/** What the query parsers promise: `Unquote` inverts percent-encoding, and
    the parsed dictionary holds exactly the keys of the pairs with `=`, each
    with the value of its last pair.
 */
module HttpQueryProperties {
  import opened Wrappers
  import opened PyStr
  import opened HttpQuery

  /** A key is in the dictionary iff some pair with `=` has it, and its value
      is that of the last such pair. */
  lemma {:induction false} CollectMeaning(kvs: seq<Option<(string, string)>>)
    ensures forall k :: k in Collect(kvs) <==> exists i :: 0 <= i < |kvs| && HasKey(kvs[i], k)
    ensures forall k :: k in Collect(kvs) ==> exists i :: DefinedBy(kvs, k, i) && Collect(kvs)[k] == kvs[i].value.1
  {
    if |kvs| > 0 {
      var init := kvs[..|kvs| - 1];
      var last := kvs[|kvs| - 1];
      CollectMeaning(init);
      var m := Collect(init);
      var r := Collect(kvs);
      assert forall i :: 0 <= i < |init| ==> init[i] == kvs[i];
      forall k | k in r
        ensures exists i :: DefinedBy(kvs, k, i) && r[k] == kvs[i].value.1
      {
        if HasKey(last, k) {
          assert DefinedBy(kvs, k, |kvs| - 1);
        } else {
          assert k in m && r[k] == m[k];
          var i :| DefinedBy(init, k, i) && m[k] == init[i].value.1;
          assert DefinedBy(kvs, k, i);
        }
      }
      forall k | exists i :: 0 <= i < |kvs| && HasKey(kvs[i], k)
        ensures k in r
      {
        var i :| 0 <= i < |kvs| && HasKey(kvs[i], k);
        if i < |init| {
          assert HasKey(init[i], k);
        }
      }
    }
  }

  /** The query dictionary in terms of the pieces of the query string. */
  lemma QueryMeaning(q: string, decode: bool)
    ensures forall k :: k in ParseQuery(q, decode) <==>
      exists i :: 0 <= i < |Split(q, '&')| && HasKey(Pair(Split(q, '&')[i], decode), k)
    ensures forall k :: k in ParseQuery(q, decode) ==>
      exists i :: DefinedBy(Pairs(Split(q, '&'), decode), k, i)
        && ParseQuery(q, decode)[k] == Pair(Split(q, '&')[i], decode).value.1
  {
    var parts := Split(q, '&');
    var kvs := Pairs(parts, decode);
    CollectMeaning(kvs);
    forall k ensures k in ParseQuery(q, decode) <==>
      exists i :: 0 <= i < |parts| && HasKey(Pair(parts[i], decode), k)
    {
      if k in ParseQuery(q, decode) {
        var i :| 0 <= i < |kvs| && HasKey(kvs[i], k);
        assert kvs[i] == Pair(parts[i], decode);
      }
      if exists i :: 0 <= i < |parts| && HasKey(Pair(parts[i], decode), k) {
        var i :| 0 <= i < |parts| && HasKey(Pair(parts[i], decode), k);
        assert kvs[i] == Pair(parts[i], decode);
      }
    }
    forall k | k in ParseQuery(q, decode) ensures
      exists i :: DefinedBy(kvs, k, i) && ParseQuery(q, decode)[k] == Pair(parts[i], decode).value.1
    {
      var i :| DefinedBy(kvs, k, i) && Collect(kvs)[k] == kvs[i].value.1;
      assert kvs[i] == Pair(parts[i], decode);
    }
  }

  /** One key of the dictionary: the last pair that names it gives its
      value. */
  lemma QueryValueAt(q: string, decode: bool, k: string)
    requires k in ParseQuery(q, decode)
    ensures exists i ::
      && DefinedBy(Pairs(Split(q, '&'), decode), k, i)
      && ParseQuery(q, decode)[k] == Pair(Split(q, '&')[i], decode).value.1
  {
    QueryMeaning(q, decode);
  }

  /** Two hex digits read with base 16. */
  lemma ParseHexPair(a: char, b: char)
    requires IsDigitOf(a, 16) && IsDigitOf(b, 16)
    ensures ParseInt([a, b], 16) == Ok(DigitValue(a).value * 16 + DigitValue(b).value)
  {
    var t := [a, b];
    assert TrimSpace(t) == t;
    assert forall k :: 0 <= k < |t| ==> IsDigitOf(t[k], 16);
    assert t[..1] == [a];
    assert DigitsValue([a], 16) == DigitValue(a).value by {
      assert [a][..0] == [];
    }
    RunValueDigits(t, 16);
  }

  /** `%` followed by two hex digits decodes to the character they name. */
  lemma DecodeHexItem(item: string)
    requires |item| >= 2 && IsDigitOf(item[0], 16) && IsDigitOf(item[1], 16)
    ensures DecodeItem(item) == [(DigitValue(item[0]).value * 16 + DigitValue(item[1]).value) as char] + item[2..]
  {
    ParseHexPair(item[0], item[1]);
    assert item[..2] == [item[0], item[1]];
  }

  /** `TrimSpace` keeps a first character that is not whitespace. */
  lemma {:induction false} TrimKeepsHead(s: string)
    requires |s| > 0 && !IsSpace(s[0])
    ensures |TrimSpace(s)| > 0 && TrimSpace(s)[0] == s[0]
    decreases |s|
  {
    if IsSpace(s[|s| - 1]) {
      assert |s| > 1;
      TrimKeepsHead(s[..|s| - 1]);
    }
  }

  /** A `%` not followed by a number is kept literally. */
  lemma DecodeNonHex(item: string)
    requires |item| > 0 && !IsDigitOf(item[0], 16) && !IsSpace(item[0]) && item[0] != '-' && item[0] != '+' && item[0] != '_'
    ensures DecodeItem(item) == "%" + item
  {
    var head := if |item| < 2 then item else item[..2];
    assert head[0] == item[0];
    ParseIntRejects(head, 16);
  }

  /** `int(s, base)` raises when the text starts with a character that is
      neither whitespace, a sign, an underscore nor a digit. */
  lemma ParseIntRejects(s: string, base: nat)
    requires 2 <= base <= 36
    requires |s| > 0 && !IsDigitOf(s[0], base) && !IsSpace(s[0]) && s[0] != '-' && s[0] != '+' && s[0] != '_'
    ensures ParseInt(s, base).Raise?
  {
    TrimKeepsHead(s);
    assert !DigitRun(TrimSpace(s), base);
  }

  /** An underscore after `%` is skipped by MicroPython's `int()`, so `%_X`
      decodes like `%0X`. */
  lemma DecodeUnderscoreItem(item: string)
    requires |item| >= 2 && item[0] == '_' && IsDigitOf(item[1], 16)
    ensures DecodeItem(item) == [DigitValue(item[1]).value as char] + item[2..]
  {
    var head := item[..2];
    assert TrimSpace(head) == head;
    assert DigitRun(head, 16);
    assert head[..1] == "_" && head[..1][..0] == "";
    assert RunValue("_", 16) == 0 by {
      assert RunValue("_", 16) == RunValue("_"[..0], 16);
    }
    assert RunValue(head, 16) == RunValue(head[..1], 16) * 16 + DigitValue(item[1]).value;
    assert RunValue(head, 16) == DigitValue(item[1]).value;
    assert head[0] != '-' && head[0] != '+';
    assert ParseInt(head, 16) == Ok(DigitValue(item[1]).value);
  }

  /** `_unquote("%_4")` is the character with code 4. */
  lemma UnquoteUnderscore()
    ensures Unquote("%_4") == [4 as char]
  {
    assert ReplaceChar("%_4", '+', ' ') == "%_4";
    assert Split("%_4", '%') == ["", "_4"];
    DecodeUnderscoreItem("_4");
    assert DecodeItems(["_4"]) == DecodeItem("_4") + DecodeItems([]);
  }

  /** A single hex digit at the end of the text is decoded too. */
  lemma DecodeLastHex(item: string)
    requires |item| == 1 && IsDigitOf(item[0], 16)
    ensures DecodeItem(item) == [DigitValue(item[0]).value as char]
  {
    assert TrimSpace(item) == item;
    assert forall k :: 0 <= k < |item| ==> IsDigitOf(item[k], 16);
    assert item[..0] == [];
    assert DigitsValue(item, 16) == DigitValue(item[0]).value;
    RunValueDigits(item, 16);
    assert ParseInt(item, 16) == Ok(DigitValue(item[0]).value);
  }

  lemma HexDigitValue(d: nat)
    requires d < 16
    ensures IsDigitOf(HEX_DIGITS[d], 16) && DigitValue(HEX_DIGITS[d]).value == d
  {
    if d == 0 {} else if d == 1 {} else if d == 2 {} else if d == 3 {}
    else if d == 4 {} else if d == 5 {} else if d == 6 {} else if d == 7 {}
    else if d == 8 {} else if d == 9 {} else if d == 10 {} else if d == 11 {}
    else if d == 12 {} else if d == 13 {} else if d == 14 {} else {}
  }

  /** The `%XX` of a character decodes back to it. */
  lemma DecodeHex2(c: char)
    requires c as int < 256
    ensures DecodeItem(Hex2(c)) == [c]
    ensures '%' !in Hex2(c) && '+' !in Hex2(c)
  {
    HexDigitValue(c as int / 16);
    HexDigitValue(c as int % 16);
    DecodeHexItem(Hex2(c));
    assert Hex2(c)[2..] == "";
  }

  /** The pieces of an encoding, one per character. */
  function Pieces(s: string): (r: seq<string>)
    requires IsLatin1(s)
    ensures |r| == |s|
  {
    if |s| == 0 then [] else [Hex2(s[0])] + Pieces(s[1..])
  }

  lemma {:induction false} EncodingPlusFree(s: string)
    requires IsLatin1(s)
    ensures '+' !in PercentEncode(s)
  {
    if |s| > 0 {
      DecodeHex2(s[0]);
      EncodingPlusFree(s[1..]);
    }
  }

  lemma {:induction false} SplitPieces(s: string)
    requires IsLatin1(s) && |s| > 0
    ensures Split(Hex2(s[0]) + PercentEncode(s[1..]), '%') == Pieces(s)
  {
    var h := Hex2(s[0]);
    assert h[0] != '%' && h[1] != '%' by { DecodeHex2(s[0]); }
    if |s| == 1 {
      assert h + PercentEncode(s[1..]) == h;
      assert Find(h, '%') == |h|;
    } else {
      var rest := s[1..];
      Latin1Tail(s);
      var tail := Hex2(rest[0]) + PercentEncode(rest[1..]);
      AppendAssoc("%", Hex2(rest[0]), PercentEncode(rest[1..]));
      assert PercentEncode(rest) == "%" + tail;
      SplitAfterPair(h, tail);
      assert Split(tail, '%') == Pieces(rest) by { SplitPieces(rest); }
    }
  }
  /** Two characters other than `%`, then `%`: the first piece is those two. */
  lemma SplitAfterPair(h: string, tail: string)
    requires |h| == 2 && h[0] != '%' && h[1] != '%'
    ensures Split(h + ("%" + tail), '%') == [h] + Split(tail, '%')
  {
    var x := h + ("%" + tail);
    assert x[2] == '%';
    SplitAt(x, '%', 2);
    assert x[..2] == h;
    assert x[3..] == tail;
  }


  lemma {:induction false} DecodePieces(s: string)
    requires IsLatin1(s)
    ensures DecodeItems(Pieces(s)) == s
  {
    if |s| > 0 {
      DecodeHex2(s[0]);
      DecodePieces(s[1..]);
      assert Pieces(s)[1..] == Pieces(s[1..]);
    }
  }

  /** Replacing a character that does not occur changes nothing. */
  lemma ReplaceAbsent(s: string, a: char, b: char)
    requires a !in s
    ensures ReplaceChar(s, a, b) == s
  {
    assert forall k :: 0 <= k < |s| ==> ReplaceChar(s, a, b)[k] == s[k];
  }

  /** The first `%XX` of an encoding and the rest. */
  lemma EncodeHead(s: string)
    requires IsLatin1(s) && |s| > 0
    ensures PercentEncode(s)[0] == '%'
    ensures PercentEncode(s)[1..] == Hex2(s[0]) + PercentEncode(s[1..])
  {
    Latin1Tail(s);
    var h, rest := Hex2(s[0]), PercentEncode(s[1..]);
    AppendAssoc("%", h, rest);
    var x := h + rest;
    ConsSlice('%', x);
  }

  /** Concatenation regroups. */
  lemma AppendAssoc<T>(a: seq<T>, b: seq<T>, c: seq<T>)
    ensures (a + b) + c == a + (b + c)
  {
  }

  /** A sequence with one element in front gives that element and the rest back. */
  lemma ConsSlice<T>(c: T, x: seq<T>)
    ensures ([c] + x)[0] == c && ([c] + x)[1..] == x
  {
  }

  /** Dropping the first character keeps a text Latin-1. */
  lemma Latin1Tail(s: string)
    requires IsLatin1(s) && |s| > 0
    ensures IsLatin1(s[1..])
  {
    forall k | 0 <= k < |s| - 1 ensures s[1..][k] as int < 256 {
      assert s[1..][k] == s[k + 1];
    }
  }

  /** An encoding splits at `%` into an empty head and one piece per character. */
  lemma SplitEncoded(s: string)
    requires IsLatin1(s) && |s| > 0
    ensures Split(PercentEncode(s), '%') == [""] + Pieces(s)
  {
    var e := PercentEncode(s);
    var tail := Hex2(s[0]) + PercentEncode(s[1..]);
    assert Split(e, '%') == [""] + Split(tail, '%') by {
      EncodeHead(s);
      SplitAt(e, '%', 0);
      assert e[..0] == "";
    }
    assert Split(tail, '%') == Pieces(s) by { SplitPieces(s); }
  }

  /** `_unquote` inverts percent-encoding of every character below 256. */
  lemma UnquoteEncoded(s: string)
    requires IsLatin1(s)
    ensures Unquote(PercentEncode(s)) == s
  {
    var e := PercentEncode(s);
    EncodingPlusFree(s);
    ReplaceAbsent(e, '+', ' ');
    if |s| > 0 {
      SplitEncoded(s);
      DecodePieces(s);
      assert ([""] + Pieces(s))[1..] == Pieces(s);
    }
  }

  // ---------------------------------------------------------------------
  // Request lines
  // ---------------------------------------------------------------------

  /** A request line of three words separated by single spaces, ending in
      any whitespace such as `\r\n`, gives back its method and target. */
  lemma RequestLineReads(verb: string, target: string, version: string, tail: string)
    requires IsWord(verb) && IsWord(target) && IsWord(version) && AllSpace(tail)
    ensures RequestLine(verb + " " + target + " " + version + tail) == Ok((verb, target))
  {
    WordsJoin([verb, target, version], tail);
    assert Join([verb, target, version], ' ') == verb + " " + target + " " + version by {
      assert [verb, target, version][1..] == [target, version];
      assert [target, version][1..] == [version];
      assert Join([version], ' ') == version;
      assert Join([target, version], ' ') == target + " " + version;
    }
  }

  /** The empty line of a client that connects and closes, and a bare
      `\r\n`, hold no words, so the unpacking raises. */
  lemma EmptyLineRefused()
    ensures RequestLine("").Raise? && RequestLine("").exc.ValueError?
    ensures RequestLine("\r\n").Raise? && RequestLine("\r\n").exc.ValueError?
  {
  }
}

=== FILE: json.dfy ===
/** JSON values as the firmware's handlers see them after `ujson.loads`.
    The byte-level codec itself is not modelled: where bytes are turned into
    values or back, the codec is a parameter of the operation.
 */
module Json {
  import opened Wrappers

  datatype Json =
    | JNull
    | JBool(b: bool)
    | JInt(i: int)
    | JReal(r: real)
    | JStr(s: string)
    | JList(items: seq<Json>)
    | JObj(fields: map<string, Json>)

  /** Python truthiness of the decoded value. */
  predicate Truthy(j: Json)
  {
    match j
    case JNull => false
    case JBool(b) => b
    case JInt(i) => i != 0
    case JReal(r) => r != 0.0
    case JStr(s) => |s| > 0
    case JList(items) => |items| > 0
    case JObj(fields) => |fields| > 0
  }

  /** `{'text': t}`, the body shape most handlers answer with. */
  function TextReply(t: string): Json
  {
    JObj(map["text" := JStr(t)])
  }

  /** `d[key]` on a decoded value: only an object with the key answers. */
  function Index(j: Json, key: string): (r: Result<Json>)
    ensures r.Ok? <==> j.JObj? && key in j.fields
    ensures r.Ok? ==> r.value == j.fields[key]
  {
    match j
    case JObj(fields) => if key in fields then Ok(fields[key]) else Raise(KeyError(key))
    case _ => Raise(TypeError("object is not subscriptable"))
  }

  /** `d.get(key, default)` on an object. */
  function GetOr(fields: map<string, Json>, key: string, default: Json): (r: Json)
    ensures key in fields ==> r == fields[key]
    ensures key !in fields ==> r == default
  {
    if key in fields then fields[key] else default
  }

  /** `key in s` on a string: whether `key` occurs in it. */
  predicate Occurs(key: string, s: string)
    decreases |s|
  {
    |key| <= |s| && (s[..|key|] == key || (|s| > 0 && Occurs(key, s[1..])))
  }

  /** `key in j`: a dict tests its keys, a list its items and a string its
      substrings; other values are not iterable. */
  function Contains(j: Json, key: string): (r: Result<bool>)
    ensures r.Ok? <==> j.JObj? || j.JList? || j.JStr?
    ensures r.Raise? ==> r.exc.TypeError?
    ensures j.JObj? ==> r == Ok(key in j.fields)
    ensures j.JList? ==> r == Ok(JStr(key) in j.items)
  {
    match j
    case JObj(fields) => Ok(key in fields)
    case JList(items) => Ok(JStr(key) in items)
    case JStr(t) => Ok(Occurs(key, t))
    case _ => Raise(TypeError("argument of type is not iterable"))
  }
}

=== FILE: leds_task.dfy ===
/** The on-board LED task (`tasks/leds_task.py`): each message is a
    decoded JSON value whose `led_list` holds records, each setting one of
    the three NeoPixels to a colour given as a name, a 24-bit integer or a
    list of channels. The strip is the list of its three colours; `write()`
    and the bus are not modelled.
 */
module LedsTask {
  import opened Wrappers
  import opened Arith
  import opened PyStr
  import opened Json
  import NeoPixel

  /** The task drives a strip of three pixels. */
  const LED_COUNT := 3

  type Color = seq<int>

  const BLACK: Color := [0, 0, 0]

  /** The `'color'` entry of a record: absent, a string, an integer, or
      anything else (a tuple or list), which is passed on as it is. */
  datatype ColorArg = Missing | Str(s: string) | IntColor(i: int) | Tuple(c: Color)

  /** One entry of `message['led_list']`. */
  datatype Record = Record(ledId: int, color: ColorArg)

  /** `(c & 0xFF0000) >> 16, (c & 0xFF00) >> 8, c & 0xFF` on a Python
      integer (two's complement, so negative numbers too). */
  function Unpack(c: int): (r: Color)
    ensures |r| == 3 && forall k :: 0 <= k < 3 ==> 0 <= r[k] <= 255
  {
    [Field(c, 16, 8), Field(c, 8, 8), Field(c, 0, 8)]
  }

  /** `r << 16 | g << 8 | b` for three channel bytes. */
  function Pack(r: int, g: int, b: int): (c: int)
    ensures 0 <= r < 256 && 0 <= g < 256 && 0 <= b < 256 ==> 0 <= c < 16777216
  {
    r * 65536 + g * 256 + b
  }

  lemma Pow2Bytes()
    ensures Pow2(8) == 256 && Pow2(16) == 65536 && Pow2(24) == 16777216 && Pow2(0) == 1
  {
    assert Pow2(8) == 256;
    assert Pow2(16) == 256 * 256 by { Pow2Add(8, 8); }
    assert Pow2(24) == 65536 * 256 by { Pow2Add(16, 8); }
  }

  /** Unpacking a 24-bit colour and packing the channels again gives it
      back. */
  lemma PackUnpack(c: int)
    requires 0 <= c < 16777216
    ensures Pack(Unpack(c)[0], Unpack(c)[1], Unpack(c)[2]) == c
  {
    Pow2Bytes();
    Pow2Add(8, 8);
    Decompose(c, 8, 8);
    assert c / 65536 < 256;
    assert Field(c, 16, 8) == c / 65536;
    assert Pow2(0) == 1 && Field(c, 0, 8) == c % 256;
  }

  /** Packing three bytes and unpacking gives the three bytes back; the
      packed value is a 24-bit colour. */
  lemma UnpackPack(r: int, g: int, b: int)
    requires 0 <= r < 256 && 0 <= g < 256 && 0 <= b < 256
    ensures 0 <= Pack(r, g, b) < 16777216
    ensures Unpack(Pack(r, g, b)) == [r, g, b]
  {
    Pow2Bytes();
    var c := Pack(r, g, b);
    Recompose(c, r, g, b, 8, 8);
    assert Pow2(8 + 8) == 65536;
    assert c / 65536 == r;
    DivModUnique(r, 256, 0, r);
    assert Field(c, 16, 8) == r;
    DivModUnique(c, 1, c, 0);
    assert Field(c, 0, 8) == b;
  }

  /** The colour a record sets: a missing entry and an unknown name are
      black, a known name is looked up in the same table as the NeoPixel
      display's, an integer is unpacked, and anything else is passed on. */
  function ColorValue(a: ColorArg): (r: Color)
    ensures a.Missing? ==> r == BLACK
    ensures a.Str? && a.s !in NeoPixel.RGB_COLORS ==> r == BLACK
    ensures a.Tuple? ==> r == a.c
    ensures a.IntColor? ==> |r| == 3 && forall k :: 0 <= k < 3 ==> 0 <= r[k] <= 255
  {
    match a
    case Missing => BLACK
    case Str(s) => if s in NeoPixel.RGB_COLORS then NeoPixel.RGB_COLORS[s] else BLACK
    case IntColor(c) => Unpack(c)
    case Tuple(c) => c
  }

  /** An integer colour is the packed form of the channels it yields. */
  lemma IntColorMeaning(c: int)
    requires 0 <= c < 16777216
    ensures Pack(ColorValue(IntColor(c))[0], ColorValue(IntColor(c))[1], ColorValue(IntColor(c))[2]) == c
  {
    PackUnpack(c);
  }

  /** `leds[int(rec['led_id'])] = color`: Python indexing, so `-3 .. 2`;
      any other index raises `IndexError`. */
  function SetLed(leds: seq<Color>, rec: Record): (r: Result<seq<Color>>)
    requires |leds| == LED_COUNT
    ensures r.Ok? <==> -LED_COUNT <= rec.ledId < LED_COUNT
    ensures r.Raise? ==> r.exc == IndexError
    ensures r.Ok? ==> |r.value| == LED_COUNT
  {
    match PyIndex(LED_COUNT, rec.ledId)
    case None => Raise(IndexError)
    case Some(i) => Ok(leds[i := ColorValue(rec.color)])
  }

  /** A record sets only the LED it names, to its colour. */
  lemma SetLedOnly(leds: seq<Color>, rec: Record, p: nat)
    requires |leds| == LED_COUNT && 0 <= rec.ledId < LED_COUNT && p < LED_COUNT
    ensures SetLed(leds, rec).value[p] == if p == rec.ledId then ColorValue(rec.color) else leds[p]
  {
  }

  /** The records of one message, in order; the first bad index stops the
      loop with `IndexError`, which ends the task. */
  function Apply(leds: seq<Color>, recs: seq<Record>): (r: Result<seq<Color>>)
    requires |leds| == LED_COUNT
    ensures r.Ok? ==> |r.value| == LED_COUNT
    decreases |recs|
  {
    if recs == [] then Ok(leds)
    else
      var l1 :- SetLed(leds, recs[0]);
      Apply(l1, recs[1..])
  }

  /** The pixel a record addresses, in `0 .. 2`. */
  function Target(rec: Record): Option<nat>
  {
    PyIndex(LED_COUNT, rec.ledId)
  }

  /** The colour of the last record that addresses pixel `p`, if any. */
  function LastFor(recs: seq<Record>, p: nat): Option<Color>
    decreases |recs|
  {
    if recs == [] then None
    else if Target(recs[|recs| - 1]) == Some(p) then Some(ColorValue(recs[|recs| - 1].color))
    else LastFor(recs[..|recs| - 1], p)
  }

  lemma {:induction false} ApplySnoc(leds: seq<Color>, recs: seq<Record>, rec: Record)
    requires |leds| == LED_COUNT
    ensures Apply(leds, recs + [rec]) == (match Apply(leds, recs)
      case Raise(e) => Raise(e)
      case Ok(l) => SetLed(l, rec))
    decreases |recs|
  {
    if recs == [] {
      assert [rec][1..] == [];
    } else {
      assert (recs + [rec])[1..] == recs[1..] + [rec];
      match SetLed(leds, recs[0])
      case Raise(_) =>
      case Ok(l1) => ApplySnoc(l1, recs[1..], rec);
    }
  }

  /** A message whose records all name a pixel succeeds, and leaves each
      pixel with the colour of the last record naming it, or as it was. */
  lemma {:induction false} ApplyLastWins(leds: seq<Color>, recs: seq<Record>, p: nat)
    requires |leds| == LED_COUNT && p < LED_COUNT
    requires forall k :: 0 <= k < |recs| ==> -LED_COUNT <= recs[k].ledId < LED_COUNT
    ensures Apply(leds, recs).Ok?
    ensures Apply(leds, recs).value[p] == if LastFor(recs, p).Some? then LastFor(recs, p).value else leds[p]
    decreases |recs|
  {
    if recs != [] {
      var init := recs[..|recs| - 1];
      var last := recs[|recs| - 1];
      assert recs == init + [last];
      ApplyLastWins(leds, init, p);
      ApplySnoc(leds, init, last);
    }
  }

  /** A record with a bad index raises, whatever the records before it. */
  lemma ApplyBadIndex(leds: seq<Color>, recs: seq<Record>, rec: Record)
    requires |leds| == LED_COUNT
    requires forall k :: 0 <= k < |recs| ==> -LED_COUNT <= recs[k].ledId < LED_COUNT
    requires !(-LED_COUNT <= rec.ledId < LED_COUNT)
    ensures Apply(leds, recs + [rec]) == Raise(IndexError)
  {
    if recs != [] {
      ApplyLastWins(leds, recs, 0);
    }
    ApplySnoc(leds, recs, rec);
  }

  // ---------------------------------------------------------------------
  // Messages as decoded values
  // ---------------------------------------------------------------------

  /** A channel value in a colour list: an integer, or a boolean, which
      Python counts as 0 or 1. */
  function IntItem(j: Json): Option<int>
  {
    match j
    case JInt(i) => Some(i)
    case JBool(b) => Some(if b then 1 else 0)
    case _ => None
  }

  /** `int(x)` on a decoded value: an integer as it is, a boolean as 0 or
      1, a float truncated toward zero, a string read as a decimal
      literal; `None`, a list and a dict raise `TypeError`. */
  function IntOf(j: Json): (r: Result<int>)
    ensures j.JInt? ==> r == Ok(j.i)
    ensures j.JBool? ==> r == Ok(if j.b then 1 else 0)
    ensures j.JReal? && j.r >= 0.0 ==> r.Ok? && r.value as real <= j.r < r.value as real + 1.0
    ensures j.JReal? && j.r < 0.0 ==> r.Ok? && r.value as real - 1.0 < j.r <= r.value as real
    ensures j.JStr? ==> r == ParseInt(j.s, 10)
    ensures j.JNull? || j.JList? || j.JObj? ==> r.Raise? && r.exc.TypeError?
  {
    match j
    case JInt(i) => Ok(i)
    case JBool(b) => Ok(if b then 1 else 0)
    case JReal(x) => Ok(if x >= 0.0 then x.Floor else -((-x).Floor))
    case JStr(s) => ParseInt(s, 10)
    case _ => Raise(TypeError("can't convert to int"))
  }

  /** A colour list the strip can store: every channel an integer. */
  predicate IntList(items: seq<Json>)
  {
    forall k :: 0 <= k < |items| ==> IntItem(items[k]).Some?
  }

  /** `rec.get('color', (0, 0, 0))` and the tests on it: a missing entry,
      a string, an integer (a boolean is one) and a list of integers are
      the colours the strip takes; anything else (`None`, a float, a dict,
      a list holding other values) has no meaning here and is `None`. */
  function ColorArgOf(fields: map<string, Json>): (r: Option<ColorArg>)
    ensures "color" !in fields ==> r == Some(Missing)
    ensures "color" in fields && fields["color"].JStr? ==> r == Some(Str(fields["color"].s))
    ensures "color" in fields && fields["color"].JInt? ==> r == Some(IntColor(fields["color"].i))
    ensures "color" in fields && fields["color"].JList? ==> (r.Some? <==> IntList(fields["color"].items))
    ensures "color" in fields && fields["color"].JList? && r.Some? ==>
      r.value.Tuple? && |r.value.c| == |fields["color"].items|
      && forall k :: 0 <= k < |r.value.c| ==> Some(r.value.c[k]) == IntItem(fields["color"].items[k])
    ensures "color" in fields && (fields["color"].JNull? || fields["color"].JReal? || fields["color"].JObj?) ==> r.None?
  {
    if "color" !in fields then Some(Missing)
    else match fields["color"]
      case JStr(t) => Some(Str(t))
      case JInt(i) => Some(IntColor(i))
      case JBool(b) => Some(IntColor(if b then 1 else 0))
      case JList(items) =>
        if IntList(items) then Some(Tuple(seq(|items|, k requires 0 <= k < |items| => IntItem(items[k]).value)))
        else None
      case _ => None
  }

  /** Raised by `.get` on a record that is not a dict. */
  const NO_GET := AttributeError("get")
  /** Raised when the strip is handed a colour it cannot store. */
  const NO_STORE := TypeError("colour is not a sequence of integers")

  /** One record of the loop: `rec.get` needs a dict; then `rec['led_id']`
      must be present and `int()` must accept it; then the colour is
      stored, which needs a colour the strip takes. */
  function RecordOf(rec: Json): (r: Result<Record>)
    ensures !rec.JObj? ==> r == Raise(NO_GET)
    ensures rec.JObj? && "led_id" !in rec.fields ==> r == Raise(KeyError("led_id"))
    ensures rec.JObj? && "led_id" in rec.fields && IntOf(rec.fields["led_id"]).Raise? ==>
      r == Raise(IntOf(rec.fields["led_id"]).exc)
    ensures r.Ok? <==> rec.JObj? && "led_id" in rec.fields && IntOf(rec.fields["led_id"]).Ok? && ColorArgOf(rec.fields).Some?
    ensures r.Ok? ==> r.value == Record(IntOf(rec.fields["led_id"]).value, ColorArgOf(rec.fields).value)
  {
    match rec
    case JObj(fields) =>
      var color := ColorArgOf(fields);
      if "led_id" !in fields then Raise(KeyError("led_id"))
      else
        var id :- IntOf(fields["led_id"]);
        if color.None? then Raise(NO_STORE) else Ok(Record(id, color.value))
    case _ => Raise(NO_GET)
  }

  /** `for rec in message['led_list']`: the message must be a dict with
      the key. A list is iterated item by item. A dict or a string yields
      strings, which have no `get`, so a non-empty one raises at the first
      record and an empty one yields nothing. Anything else is not
      iterable. */
  function LedList(message: Json): (r: Result<seq<Json>>)
    ensures !message.JObj? ==> r.Raise? && r.exc.TypeError?
    ensures message.JObj? && "led_list" !in message.fields ==> r == Raise(KeyError("led_list"))
    ensures message.JObj? && "led_list" in message.fields && message.fields["led_list"].JList? ==>
      r == Ok(message.fields["led_list"].items)
  {
    var l :- Index(message, "led_list");
    match l
    case JList(items) => Ok(items)
    case JObj(f) => if |f| == 0 then Ok([]) else Raise(NO_GET)
    case JStr(t) => if |t| == 0 then Ok([]) else Raise(NO_GET)
    case _ => Raise(TypeError("object isn't iterable"))
  }

  /** A record the loop gets through: a dict whose `led_id` `int()` turns
      into an index of the strip, with a colour the strip takes. */
  predicate RecordAccepted(rec: Json)
  {
    && rec.JObj? && "led_id" in rec.fields && IntOf(rec.fields["led_id"]).Ok?
    && -LED_COUNT <= IntOf(rec.fields["led_id"]).value < LED_COUNT
    && ColorArgOf(rec.fields).Some?
  }

  /** A message the task acknowledges: a dict whose `led_list` is a list
      of accepted records, or an empty dict or string. */
  predicate Accepted(message: Json)
  {
    && message.JObj? && "led_list" in message.fields
    && match message.fields["led_list"]
       case JList(items) => forall k :: 0 <= k < |items| ==> RecordAccepted(items[k])
       case JObj(f) => |f| == 0
       case JStr(t) => |t| == 0
       case _ => false
  }

  /** The loop over the records of one message; the first record that
      fails raises, which ends the task. */
  function ApplyJson(leds: seq<Color>, recs: seq<Json>): (r: Result<seq<Color>>)
    requires |leds| == LED_COUNT
    ensures r.Ok? <==> forall k :: 0 <= k < |recs| ==> RecordAccepted(recs[k])
    ensures r.Ok? ==> |r.value| == LED_COUNT
    decreases |recs|
  {
    if recs == [] then Ok(leds)
    else
      var rec :- RecordOf(recs[0]);
      var l1 :- SetLed(leds, rec);
      var r := ApplyJson(l1, recs[1..]);
      assert r.Ok? <==> forall k :: 1 <= k < |recs| ==> RecordAccepted(recs[k]) by {
        assert forall k :: 1 <= k < |recs| ==> recs[k] == recs[1..][k - 1];
      }
      r
  }

  /** The records a message's accepted records decode to. */
  function Decoded(recs: seq<Json>): (r: seq<Record>)
    requires forall k :: 0 <= k < |recs| ==> RecordAccepted(recs[k])
    ensures |r| == |recs|
  {
    seq(|recs|, k requires 0 <= k < |recs| && RecordAccepted(recs[k]) => RecordOf(recs[k]).value)
  }

  /** Once every record is accepted, the loop is `Apply` over the records
      they decode to, each naming a pixel. */
  lemma {:induction false} ApplyJsonDecoded(leds: seq<Color>, recs: seq<Json>)
    requires |leds| == LED_COUNT
    requires forall k :: 0 <= k < |recs| ==> RecordAccepted(recs[k])
    ensures forall k :: 0 <= k < |recs| ==> -LED_COUNT <= Decoded(recs)[k].ledId < LED_COUNT
    ensures ApplyJson(leds, recs) == Apply(leds, Decoded(recs))
    decreases |recs|
  {
    if recs != [] {
      var l1 := SetLed(leds, RecordOf(recs[0]).value).value;
      assert Decoded(recs)[1..] == Decoded(recs[1..]);
      ApplyJsonDecoded(l1, recs[1..]);
    }
  }

  /** One message: the records applied, then one `ACK` on `leds_report`. */
  function Handle(leds: seq<Color>, message: Json): (r: Result<(seq<Color>, seq<string>)>)
    requires |leds| == LED_COUNT
    ensures r.Ok? <==> Accepted(message)
    ensures r.Ok? ==> r.value.1 == ["ACK"] && |r.value.0| == LED_COUNT
  {
    var recs :- LedList(message);
    var l :- ApplyJson(leds, recs);
    Ok((l, ["ACK"]))
  }

  /** An accepted message whose `led_list` is a list leaves each pixel
      with the colour of the last record naming it, or as it was. */
  lemma HandleLastWins(leds: seq<Color>, message: Json, p: nat)
    requires |leds| == LED_COUNT && p < LED_COUNT
    requires Accepted(message) && message.fields["led_list"].JList?
    ensures var recs := Decoded(message.fields["led_list"].items);
      Handle(leds, message).value.0[p] == if LastFor(recs, p).Some? then LastFor(recs, p).value else leds[p]
  {
    var items := message.fields["led_list"].items;
    ApplyJsonDecoded(leds, items);
    ApplyLastWins(leds, Decoded(items), p);
  }

  /** The message the module's docstring describes, with its records
      under `leds_commands`, stops the task with `KeyError('led_list')`. */
  lemma DocumentedKeyRefused(leds: seq<Color>, recs: Json)
    requires |leds| == LED_COUNT
    ensures Handle(leds, JObj(map["leds_commands" := recs])) == Raise(KeyError("led_list"))
  {
  }

  /** The message the REST client sends, `{'led_list': [{'led_id': 0,
      'color': 'red'}, {'led_id': 1, 'color': 'green'}]}`, turns pixel 0
      red and pixel 1 green and is acknowledged. */
  lemma ClientMessage(leds: seq<Color>)
    requires |leds| == LED_COUNT
    ensures var r0 := JObj(map["led_id" := JInt(0), "color" := JStr("red")]);
      var r1 := JObj(map["led_id" := JInt(1), "color" := JStr("green")]);
      Handle(leds, JObj(map["led_list" := JList([r0, r1])])) == Ok(([[255, 0, 0], [0, 128, 0], leds[2]], ["ACK"]))
  {
    var r0 := JObj(map["led_id" := JInt(0), "color" := JStr("red")]);
    var r1 := JObj(map["led_id" := JInt(1), "color" := JStr("green")]);
    assert RecordOf(r0) == Ok(Record(0, Str("red")));
    assert RecordOf(r1) == Ok(Record(1, Str("green")));
    assert ColorValue(Str("red")) == [255, 0, 0];
    assert ColorValue(Str("green")) == [0, 128, 0];
    var m := JObj(map["led_list" := JList([r0, r1])]);
    assert LedList(m) == Ok([r0, r1]);
    var l1 := leds[0 := [255, 0, 0]];
    assert SetLed(leds, Record(0, Str("red"))) == Ok(l1);
    assert SetLed(l1, Record(1, Str("green"))) == Ok(l1[1 := [0, 128, 0]]);
    assert [r0, r1][1..] == [r1];
    assert ApplyJson(l1, [r1]) == Ok(l1[1 := [0, 128, 0]]);
    assert ApplyJson(leds, [r0, r1]) == Ok(l1[1 := [0, 128, 0]]);
    assert l1[1 := [0, 128, 0]] == [[255, 0, 0], [0, 128, 0], leds[2]];
    assert Handle(leds, m) == Ok((l1[1 := [0, 128, 0]], ["ACK"]));
  }

  /** The loop over a run of messages: the acknowledgements published and
      the exception that ended the task, if one did. */
  function Run(leds: seq<Color>, msgs: seq<Json>): (r: (seq<string>, Option<Exc>))
    requires |leds| == LED_COUNT
    ensures |r.0| <= |msgs|
    ensures forall k :: 0 <= k < |r.0| ==> r.0[k] == "ACK"
    decreases |msgs|
  {
    if msgs == [] then ([], None)
    else
      match Handle(leds, msgs[0])
      case Raise(e) => ([], Some(e))
      case Ok((l, acks)) =>
        var (rest, e) := Run(l, msgs[1..]);
        (acks + rest, e)
  }

  /** One `ACK` per message, in order, up to the first message the task
      does not accept; that one ends the task with its exception, and the
      task runs through the whole list exactly when it accepts every
      message. */
  lemma {:induction false} RunMeaning(leds: seq<Color>, msgs: seq<Json>)
    requires |leds| == LED_COUNT
    ensures var (acks, e) := Run(leds, msgs);
      && |acks| <= |msgs| && acks == seq(|acks|, _ => "ACK")
      && (forall m :: 0 <= m < |acks| ==> Accepted(msgs[m]))
      && (e.None? <==> |acks| == |msgs|)
      && (e.Some? ==> !Accepted(msgs[|acks|]) && Handle(leds, msgs[0]).Raise? == (|acks| == 0))
    decreases |msgs|
  {
    if msgs != [] {
      match Handle(leds, msgs[0])
      case Raise(_) =>
      case Ok((l, acks)) =>
        RunMeaning(l, msgs[1..]);
        var rest := Run(l, msgs[1..]).0;
        assert Run(leds, msgs).0 == ["ACK"] + rest;
        assert forall m :: 1 <= m < |msgs| ==> msgs[m] == msgs[1..][m - 1];
    }
  }

  /** Exactly one `ACK` per message while the task accepts every one. */
  lemma OneAckPerMessage(leds: seq<Color>, msgs: seq<Json>)
    requires |leds| == LED_COUNT
    requires forall m :: 0 <= m < |msgs| ==> Accepted(msgs[m])
    ensures Run(leds, msgs).1 == None
    ensures Run(leds, msgs).0 == seq(|msgs|, _ => "ACK")
  {
    RunMeaning(leds, msgs);
  }
}

=== FILE: messagebus.dfy ===
/** The in-process publish/subscribe bus of `utils/messagebus.py`.

    A `Queue` is a FIFO with an optional capacity. The bus singleton is one
    value `Bus`: the subscriber list of every topic plus the table of live
    subscriber objects, each identified by a reference (Python compares
    subscribers by identity). Awaiting is abstracted: a wait either sees an
    item arrive or does not, and which one happens is a parameter.
 */
module MessageBus {
  import opened Wrappers
  import opened Json

  /** What a subscriber receives: `(topic, sender_id, message)`. */
  datatype Msg = Msg(topic: string, sender: Json, message: Json)

  /** `Queue(maxsize)`: `maxsize <= 0` means unbounded. */
  datatype Queue<T> = Queue(maxsize: int, items: seq<T>)

  /** `full()`. */
  predicate Full<T>(q: Queue<T>)
  {
    q.maxsize > 0 && |q.items| >= q.maxsize
  }

  /** `empty()`. */
  predicate Empty<T>(q: Queue<T>)
  {
    |q.items| == 0
  }

  /** `put_nowait(item)`: appends at the tail, or raises `QueueFull` and
      leaves the queue as it was. */
  function PutNowait<T>(q: Queue<T>, x: T): (r: Result<Queue<T>>)
    ensures r.Ok? <==> !Full(q)
    ensures r.Ok? ==> r.value.maxsize == q.maxsize && r.value.items == q.items + [x]
    ensures r.Raise? ==> r.exc == QueueFull
    ensures r.Ok? && q.maxsize > 0 && |q.items| <= q.maxsize ==> |r.value.items| <= q.maxsize
  {
    if Full(q) then Raise(QueueFull) else Ok(Queue(q.maxsize, q.items + [x]))
  }

  /** `get_nowait()`: the oldest item and the rest, or `asyncio.QueueEmpty`. */
  function GetNowait<T>(q: Queue<T>): (r: Result<(T, Queue<T>)>)
    ensures r.Ok? <==> !Empty(q)
    ensures r.Ok? ==> r.value.0 == q.items[0] && r.value.1 == Queue(q.maxsize, q.items[1..])
    ensures r.Raise? ==> r.exc == AsyncioQueueEmpty
  {
    if Empty(q) then Raise(AsyncioQueueEmpty) else Ok((q.items[0], Queue(q.maxsize, q.items[1..])))
  }

  /** `await put(item)`: `None` while the queue is full and the coroutine
      waits; otherwise the item is appended. */
  function Put<T>(q: Queue<T>, x: T): (r: Option<Queue<T>>)
    ensures r.Some? <==> !Full(q)
    ensures r.Some? ==> Ok(r.value) == PutNowait(q, x)
  {
    if Full(q) then None else Some(Queue(q.maxsize, q.items + [x]))
  }

  /** The `timeout` argument of `get`: `None`, `0`, or anything else. */
  datatype Wait = Forever | NoWait | Within

  /** `await get(timeout)`. `arrival` is the item another task puts while
      this one waits on an empty queue, if one comes in time. `None` means
      the coroutine is still waiting. A zero timeout does not wait and
      raises the bare `QueueEmpty`; a timed wait that sees nothing raises
      `QueueEmpty("Queue get timed out")`. */
  function Get<T>(q: Queue<T>, wait: Wait, arrival: Option<T>): (r: Option<Result<(T, Queue<T>)>>)
    ensures !Empty(q) ==> r == Some(Ok((q.items[0], Queue(q.maxsize, q.items[1..]))))
    ensures Empty(q) && wait == NoWait ==> r == Some(Raise(QueueEmpty("")))
    ensures Empty(q) && wait != NoWait && arrival.Some? ==> r == Some(Ok((arrival.value, q)))
    ensures Empty(q) && wait == Within && arrival.None? ==> r == Some(Raise(QueueEmpty("Queue get timed out")))
    ensures r.None? <==> Empty(q) && wait == Forever && arrival.None?
  {
    if !Empty(q) then Some(Ok((q.items[0], Queue(q.maxsize, q.items[1..]))))
    else if wait == NoWait then Some(Raise(QueueEmpty("")))
    else match arrival
      case Some(x) => Some(Ok((x, q)))
      case None =>
        if wait == Within then Some(Raise(QueueEmpty("Queue get timed out")))
        else assert wait == Forever; None
  }

  // ---------------------------------------------------------------------
  // Subscribers, topics and the bus
  // ---------------------------------------------------------------------

  /** The identity of a subscriber object. */
  type SubRef = nat

  /** A `Subscriber`: its id and its queue, `None` once closed. */
  datatype Sub = Sub(id: string, queue: Option<Queue<Msg>>)

  /** The bus singleton: each topic's subscriber list, and the subscriber
      objects the lists refer to. */
  datatype Bus = Bus(topics: map<string, seq<SubRef>>, subs: map<SubRef, Sub>)

  predicate NoDup(l: seq<SubRef>)
  {
    forall i, j :: 0 <= i < j < |l| ==> l[i] != l[j]
  }

  /** Every listed subscriber is a live object. */
  predicate Refs(b: Bus)
  {
    forall t, k :: t in b.topics && 0 <= k < |b.topics[t]| ==> b.topics[t][k] in b.subs
  }

  /** The bus invariant: lists are duplicate-free and name only open
      subscribers. */
  predicate Valid(b: Bus)
  {
    && Refs(b)
    && (forall t :: t in b.topics ==> NoDup(b.topics[t]))
    && (forall t, k :: t in b.topics && 0 <= k < |b.topics[t]| ==> b.subs[b.topics[t][k]].queue.Some?)
  }

  /** The subscribers of `t`, none for an unknown topic. */
  function Subscribers(b: Bus, t: string): seq<SubRef>
  {
    if t in b.topics then b.topics[t] else []
  }

  /** `Topic.add_subscriber`: appends unless already present. */
  function AddSub(l: seq<SubRef>, r: SubRef): (res: seq<SubRef>)
    ensures r in res
    ensures forall x :: x in res <==> x in l || x == r
    ensures NoDup(l) ==> NoDup(res)
  {
    if r in l then l else l + [r]
  }

  /** `Topic.remove_subscriber`: `list.remove`, the first occurrence, with
      the `ValueError` of an absent one swallowed. */
  function RemoveSub(l: seq<SubRef>, r: SubRef): (res: seq<SubRef>)
    ensures r !in l ==> res == l
    ensures r in l ==> |res| == |l| - 1
    ensures forall x :: x != r ==> (x in res <==> x in l)
    ensures NoDup(l) ==> r !in res && NoDup(res)
  {
    if |l| == 0 then []
    else if l[0] == r then l[1..]
    else
      assert NoDup(l) ==> l[0] !in l[1..] && NoDup(l[1..]) by {
        if NoDup(l) {
          forall i | 0 <= i < |l[1..]| ensures l[1..][i] != l[0] {
            assert l[1..][i] == l[i + 1];
          }
        }
      }
      [l[0]] + RemoveSub(l[1..], r)
  }

  /** `get_topic(name)`: `setdefault`, so the existing list is kept and an
      unknown name gets an empty one; no topic is ever removed. */
  function GetTopic(b: Bus, name: string): (r: Bus)
    ensures r.subs == b.subs
    ensures r.topics.Keys == b.topics.Keys + {name}
    ensures forall t :: t in b.topics ==> r.topics[t] == b.topics[t]
    ensures r.topics[name] == Subscribers(b, name)
  {
    if name in b.topics then b else b.(topics := b.topics[name := []])
  }

  /** `subscribe(sub, topic)`. */
  function Subscribe(b: Bus, r: SubRef, t: string): (res: Bus)
    ensures res.subs == b.subs && res.topics.Keys == b.topics.Keys + {t}
    ensures forall u :: u in b.topics && u != t ==> res.topics[u] == b.topics[u]
    ensures res.topics[t] == AddSub(Subscribers(b, t), r)
  {
    var g := GetTopic(b, t);
    g.(topics := g.topics[t := AddSub(g.topics[t], r)])
  }

  /** `Subscriber(topics=...)` subscribing to each of a set of names: the
      order does not matter, every named list gets `r` once. */
  function SubscribeAll(b: Bus, r: SubRef, names: set<string>): (res: Bus)
    ensures res.subs == b.subs && res.topics.Keys == b.topics.Keys + names
    ensures forall u :: u in res.topics ==>
      res.topics[u] == if u in names then AddSub(Subscribers(b, u), r) else b.topics[u]
  {
    b.(topics := map u | u in b.topics.Keys + names :: if u in names then AddSub(Subscribers(b, u), r) else b.topics[u])
  }

  /** `unsubscribe(sub, topic)`: a no-op for an unknown topic. */
  function Unsubscribe(b: Bus, r: SubRef, t: string): (res: Bus)
    ensures t !in b.topics ==> res == b
    ensures res.subs == b.subs && res.topics.Keys == b.topics.Keys
    ensures forall u :: u in b.topics ==> res.topics[u] == if u == t then RemoveSub(b.topics[u], r) else b.topics[u]
  {
    if t in b.topics then b.(topics := b.topics[t := RemoveSub(b.topics[t], r)]) else b
  }

  /** `unsubscribe_all(sub)`. */
  function UnsubscribeAll(b: Bus, r: SubRef): (res: Bus)
    ensures res.subs == b.subs && res.topics.Keys == b.topics.Keys
    ensures forall u :: u in b.topics ==> res.topics[u] == RemoveSub(b.topics[u], r)
  {
    b.(topics := map u | u in b.topics :: RemoveSub(b.topics[u], r))
  }

  /** A subscriber after `_push(m)` succeeded. */
  function Pushed(s: Sub, m: Msg): Sub
  {
    match s.queue
    case None => s
    case Some(q) => s.(queue := Some(Queue(q.maxsize, q.items + [m])))
  }

  /** `_push` cannot succeed: closed, or its queue is full. */
  predicate Blocked(s: Sub)
  {
    s.queue.None? || Full(s.queue.value)
  }

  /** `Topic.publish`'s loop: pushes to each listed subscriber in turn; the
      first push that raises ends it, and earlier pushes stay done. */
  function PushAll(subs: map<SubRef, Sub>, refs: seq<SubRef>, m: Msg): (r: (map<SubRef, Sub>, Option<Exc>))
    requires forall k :: 0 <= k < |refs| ==> refs[k] in subs
    ensures r.0.Keys == subs.Keys
    ensures forall x :: x in subs && x !in refs ==> r.0[x] == subs[x]
    decreases |refs|
  {
    if |refs| == 0 then (subs, None)
    else
      var s := subs[refs[0]];
      match s.queue
      case None => (subs, Some(AttributeError("'NoneType' object has no attribute 'put_nowait'")))
      case Some(q) =>
        match PutNowait(q, m)
        case Raise(e) => (subs, Some(e))
        case Ok(q2) => PushAll(subs[refs[0] := s.(queue := Some(q2))], refs[1..], m)
  }

  /** `publish(topic, sender_id, message)`: creates the topic if needed and
      pushes `(topic, sender_id, message)` to its subscribers. The error, if
      any, is the exception that escaped part-way. */
  function Publish(b: Bus, t: string, sender: Json, message: Json): (r: (Bus, Option<Exc>))
    requires Refs(b)
    ensures r.0.topics == GetTopic(b, t).topics
    ensures r.0.subs.Keys == b.subs.Keys
    ensures forall x :: x in b.subs && x !in Subscribers(b, t) ==> r.0.subs[x] == b.subs[x]
  {
    var g := GetTopic(b, t);
    var p := PushAll(g.subs, g.topics[t], Msg(t, sender, message));
    (g.(subs := p.0), p.1)
  }

  /** Whether a decoded value can be a dictionary key: lists and
      dictionaries cannot. */
  predicate Hashable(j: Json)
  {
    !j.JList? && !j.JObj?
  }

  /** The position of the first item that cannot name a topic, or `|items|`. */
  function FirstUnhashable(items: seq<Json>): (i: nat)
    ensures i <= |items|
    ensures forall k :: 0 <= k < i ==> Hashable(items[k])
    ensures i < |items| ==> !Hashable(items[i])
    decreases |items|
  {
    if |items| == 0 || !Hashable(items[0]) then 0 else 1 + FirstUnhashable(items[1..])
  }

  const UNHASHABLE := TypeError("unhashable type")
  const NOT_ITERABLE := TypeError("object isn't iterable")

  /** What `Subscriber(topics=...)` subscribes to, and the exception that
      stops it part-way, if any. A falsy value names nothing and a string
      itself; a list or dictionary is iterated and each item handed to
      `setdefault` in turn. A list or dictionary item is unhashable and
      raises `TypeError` after the items before it were subscribed. A
      number, boolean or `None` item becomes a topic key that no string
      names; the bus here holds string-named topics only, so such an item
      leaves no trace in the model. Any other truthy value is not
      iterable. */
  function TopicNames(topics: Json): (r: (set<string>, Option<Exc>))
    ensures !Truthy(topics) ==> r == ({}, None)
    ensures topics.JStr? && |topics.s| > 0 ==> r == ({topics.s}, None)
    ensures topics.JObj? && Truthy(topics) ==> r == (topics.fields.Keys, None)
    ensures topics.JList? ==> forall t :: t in r.0 <==>
      exists k :: 0 <= k < FirstUnhashable(topics.items) && topics.items[k] == JStr(t)
    ensures topics.JList? ==> (r.1.Some? <==> exists k :: 0 <= k < |topics.items| && !Hashable(topics.items[k]))
    ensures Truthy(topics) && (topics.JInt? || topics.JReal? || topics.JBool?) ==> r == ({}, Some(NOT_ITERABLE))
    ensures r.1.Some? ==> r.1.value.TypeError?
  {
    if !Truthy(topics) then ({}, None)
    else match topics
      case JStr(s) => ({s}, None)
      case JList(items) =>
        var n := FirstUnhashable(items);
        (set k | 0 <= k < n && items[k].JStr? :: items[k].s, if n < |items| then Some(UNHASHABLE) else None)
      case JObj(fields) => (fields.Keys, None)
      case _ => ({}, Some(NOT_ITERABLE))
  }

  /** `Subscriber(subscriber_id, topics, queue)`: the new object `r`, with
      its own queue or a fresh unbounded one, subscribed to its topics. The
      exception, if any, escapes the constructor, and the subscriptions made
      before it stay on the bus. */
  function NewSubscriber(b: Bus, r: SubRef, id: string, topics: Json, queue: Option<Queue<Msg>>): (res: (Bus, Option<Exc>))
    requires r !in b.subs
    ensures res.1 == TopicNames(topics).1
    ensures r in res.0.subs && res.0.subs[r].queue.Some?
    ensures queue.None? ==> res.0.subs[r].queue == Some(Queue(0, []))
    ensures res.0.subs == b.subs[r := res.0.subs[r]]
    ensures res.0.topics.Keys == b.topics.Keys + TopicNames(topics).0
  {
    var (names, err) := TopicNames(topics);
    var q := match queue case Some(q) => q case None => Queue(0, []);
    (SubscribeAll(b.(subs := b.subs[r := Sub(id, Some(q))]), r, names), err)
  }

  /** `Subscriber.get_nowait()`: `None` on an empty queue instead of raising. */
  function SubGetNowait(b: Bus, r: SubRef): (res: Result<(Option<Msg>, Bus)>)
    requires r in b.subs
    ensures res.Ok? <==> b.subs[r].queue.Some?
    ensures res.Ok? && Empty(b.subs[r].queue.value) ==> res.value == (None, b)
    ensures res.Ok? && !Empty(b.subs[r].queue.value) ==>
      && res.value.0 == Some(b.subs[r].queue.value.items[0])
      && res.value.1.topics == b.topics
      && res.value.1.subs == b.subs[r := b.subs[r].(queue := Some(GetNowait(b.subs[r].queue.value).value.1))]
  {
    var s := b.subs[r];
    match s.queue
    case None => Raise(AttributeError("'NoneType' object has no attribute 'empty'"))
    case Some(q) =>
      if Empty(q) then Ok((None, b))
      else
        var (m, rest) := GetNowait(q).value;
        Ok((Some(m), b.(subs := b.subs[r := s.(queue := Some(rest))])))
  }

  /** `await Subscriber.get(timeout)`. */
  function SubGet(b: Bus, r: SubRef, wait: Wait, arrival: Option<Msg>): (res: Option<Result<(Msg, Bus)>>)
    requires r in b.subs
    ensures b.subs[r].queue.None? ==> res.Some? && res.value.Raise?
    ensures b.subs[r].queue.Some? ==>
      match Get(b.subs[r].queue.value, wait, arrival)
      case None => res.None?
      case Some(Raise(e)) => res == Some(Raise(e))
      case Some(Ok((m, q))) => res == Some(Ok((m, b.(subs := b.subs[r := b.subs[r].(queue := Some(q))]))))
  {
    var s := b.subs[r];
    match s.queue
    case None => Some(Raise(AttributeError("'NoneType' object has no attribute 'get'")))
    case Some(q) =>
      match Get(q, wait, arrival)
      case None => None
      case Some(Raise(e)) => Some(Raise(e))
      case Some(Ok((m, q2))) => Some(Ok((m, b.(subs := b.subs[r := s.(queue := Some(q2))]))))
  }

  /** `Subscriber.close()`: unsubscribes everywhere and drops the queue. */
  function Close(b: Bus, r: SubRef): (res: Bus)
    requires r in b.subs
    ensures res.topics.Keys == b.topics.Keys && res.subs.Keys == b.subs.Keys
    ensures forall u :: u in b.topics && NoDup(b.topics[u]) ==> r !in res.topics[u]
    ensures res.subs[r].queue.None? && res.subs[r].id == b.subs[r].id
    ensures forall x :: x in b.subs && x != r ==> res.subs[x] == b.subs[x]
  {
    var u := UnsubscribeAll(b, r);
    u.(subs := u.subs[r := b.subs[r].(queue := None)])
  }

  /** A `Publisher`; `attached` is false once `close()` dropped its bus. */
  datatype Publisher = Publisher(id: string, attached: bool)

  /** `Publisher.publish(topic, message)`: sends under its own id. */
  function PublisherPublish(b: Bus, p: Publisher, t: string, message: Json): (r: (Bus, Option<Exc>))
    requires Refs(b)
    ensures p.attached ==> r == Publish(b, t, JStr(p.id), message)
    ensures !p.attached ==> r.0 == b && r.1.Some?
  {
    if p.attached then Publish(b, t, JStr(p.id), message)
    else (b, Some(AttributeError("'NoneType' object has no attribute 'publish'")))
  }

  /** `Publisher.event(topic)`: a publish without a message. */
  function Event(b: Bus, p: Publisher, t: string): (r: (Bus, Option<Exc>))
    requires Refs(b)
    ensures r == PublisherPublish(b, p, t, JNull)
  {
    PublisherPublish(b, p, t, JNull)
  }
}

=== FILE: messagebus_props.dfy ===
/** Properties of the message bus: FIFO order and capacity of a queue,
    duplicate-free topics, fan-out publish, unsubscribe and close.
 */
module BusProperties {
  import opened Wrappers
  import opened Json
  import opened MessageBus

  // ---------------------------------------------------------------------
  // Queue
  // ---------------------------------------------------------------------

  /** Taking items with `get_nowait` until it raises. */
  function Drain<T>(q: Queue<T>): seq<T>
    decreases |q.items|
  {
    match GetNowait(q)
    case Raise(_) => []
    case Ok((x, rest)) => [x] + Drain(rest)
  }

  /** Putting items one after the other with `put_nowait`. */
  function PutAll<T>(q: Queue<T>, xs: seq<T>): Result<Queue<T>>
    decreases |xs|
  {
    if |xs| == 0 then Ok(q)
    else match PutNowait(q, xs[0])
      case Raise(e) => Raise(e)
      case Ok(q2) => PutAll(q2, xs[1..])
  }

  /** `get_nowait` hands the items out oldest first. */
  lemma {:induction false} DrainInOrder<T>(q: Queue<T>)
    ensures Drain(q) == q.items
    decreases |q.items|
  {
    if |q.items| > 0 {
      DrainInOrder(Queue(q.maxsize, q.items[1..]));
      assert q.items == [q.items[0]] + q.items[1..];
    }
  }

  /** An unbounded queue takes every put, and takes them out in the order
      they were put, after what it already held. */
  lemma {:induction false} Fifo<T>(q: Queue<T>, xs: seq<T>)
    requires q.maxsize <= 0
    ensures PutAll(q, xs) == Ok(Queue(q.maxsize, q.items + xs))
    ensures Drain(PutAll(q, xs).value) == q.items + xs
    decreases |xs|
  {
    if |xs| > 0 {
      var q1 := Queue(q.maxsize, q.items + [xs[0]]);
      assert PutNowait(q, xs[0]) == Ok(q1);
      Fifo(q1, xs[1..]);
      assert q.items + [xs[0]] + xs[1..] == q.items + xs;
      assert PutAll(q, xs) == PutAll(q1, xs[1..]);
    } else {
      assert q.items + xs == q.items;
    }
    DrainInOrder(Queue(q.maxsize, q.items + xs));
  }

  /** A bounded queue never holds more than `maxsize` items: putting more
      than the room left raises `QueueFull`. */
  lemma {:induction false} BoundedRejects<T>(q: Queue<T>, xs: seq<T>)
    requires q.maxsize > 0 && |q.items| <= q.maxsize
    ensures PutAll(q, xs).Ok? <==> |q.items| + |xs| <= q.maxsize
    ensures PutAll(q, xs).Raise? ==> PutAll(q, xs).exc == QueueFull
    ensures PutAll(q, xs).Ok? ==> PutAll(q, xs).value.items == q.items + xs
    decreases |xs|
  {
    if |xs| > 0 && !Full(q) {
      BoundedRejects(Queue(q.maxsize, q.items + [xs[0]]), xs[1..]);
      assert q.items + [xs[0]] + xs[1..] == q.items + xs;
    }
  }

  // ---------------------------------------------------------------------
  // Topics
  // ---------------------------------------------------------------------

  /** Adding a subscriber twice is adding it once. */
  lemma AddIdempotent(l: seq<SubRef>, r: SubRef)
    ensures AddSub(AddSub(l, r), r) == AddSub(l, r)
    ensures r !in l ==> AddSub(l, r) == l + [r]
  {
  }

  /** Removing what was just added to a list without it restores the list. */
  lemma {:induction false} RemoveAdded(l: seq<SubRef>, r: SubRef)
    requires r !in l
    ensures RemoveSub(AddSub(l, r), r) == l
  {
    RemoveAppended(l, r);
  }

  lemma {:induction false} RemoveAppended(l: seq<SubRef>, r: SubRef)
    requires r !in l
    ensures RemoveSub(l + [r], r) == l
    decreases |l|
  {
    if |l| > 0 {
      assert (l + [r])[1..] == l[1..] + [r];
      RemoveAppended(l[1..], r);
      assert l == [l[0]] + l[1..];
    }
  }

  /** The position of the first occurrence of `r`. */
  function IndexOf(l: seq<SubRef>, r: SubRef): (i: nat)
    requires r in l
    ensures i < |l| && l[i] == r && r !in l[..i]
  {
    if l[0] == r then 0 else 1 + IndexOf(l[1..], r)
  }

  /** Removing deletes the first occurrence and keeps the others in order. */
  lemma {:induction false} RemoveDeletesFirst(l: seq<SubRef>, r: SubRef)
    requires r in l
    ensures RemoveSub(l, r) == l[..IndexOf(l, r)] + l[IndexOf(l, r) + 1..]
    decreases |l|
  {
    if l[0] != r {
      RemoveDeletesFirst(l[1..], r);
      var t := l[1..];
      var i := IndexOf(t, r);
      assert IndexOf(l, r) == i + 1;
      calc {
        RemoveSub(l, r);
        [l[0]] + RemoveSub(t, r);
        [l[0]] + (t[..i] + t[i + 1..]);
        ([l[0]] + t[..i]) + t[i + 1..];
        { assert [l[0]] + t[..i] == l[..i + 1]; assert t[i + 1..] == l[i + 2..]; }
        l[..i + 1] + l[i + 2..];
      }
    }
  }

  /** Subscribing twice is subscribing once. */
  lemma SubscribeIdempotent(b: Bus, r: SubRef, t: string)
    ensures Subscribe(Subscribe(b, r, t), r, t) == Subscribe(b, r, t)
  {
    var s1 := Subscribe(b, r, t);
    AddIdempotent(Subscribers(b, t), r);
    assert Subscribe(s1, r, t).topics == s1.topics;
  }

  /** Subscribing to each name of a list in turn, as `Subscriber.__init__`
      does, gives the same bus as subscribing to the set of the names. */
  function SubscribeEach(b: Bus, r: SubRef, names: seq<string>): Bus
    decreases |names|
  {
    if |names| == 0 then b else SubscribeEach(Subscribe(b, r, names[0]), r, names[1..])
  }

  lemma {:induction false} SubscribeEachIsAll(b: Bus, r: SubRef, names: seq<string>)
    ensures SubscribeEach(b, r, names) == SubscribeAll(b, r, Names(names))
    decreases |names|
  {
    if |names| == 0 {
      assert SubscribeAll(b, r, Names(names)).topics == b.topics;
    } else {
      SubscribeEachIsAll(Subscribe(b, r, names[0]), r, names[1..]);
      NamesCons(names);
      SubscribeAllCons(b, r, names[0], Names(names[1..]));
    }
  }

  function Names(names: seq<string>): set<string>
  {
    set k | 0 <= k < |names| :: names[k]
  }

  lemma NamesCons(names: seq<string>)
    requires |names| > 0
    ensures Names(names) == Names(names[1..]) + {names[0]}
  {
    forall x | x in Names(names) ensures x in Names(names[1..]) + {names[0]} {
      var k :| 0 <= k < |names| && names[k] == x;
      if k > 0 { assert names[1..][k - 1] == x; }
    }
    forall x | x in Names(names[1..]) ensures x in Names(names) {
      var k :| 0 <= k < |names[1..]| && names[1..][k] == x;
      assert names[k + 1] == x;
    }
  }

  lemma SubscribeAllCons(b: Bus, r: SubRef, t: string, rest: set<string>)
    ensures SubscribeAll(Subscribe(b, r, t), r, rest) == SubscribeAll(b, r, rest + {t})
  {
    var b1 := Subscribe(b, r, t);
    var l := SubscribeAll(b1, r, rest);
    var g := SubscribeAll(b, r, rest + {t});
    assert l.topics.Keys == g.topics.Keys;
    forall u | u in g.topics ensures l.topics[u] == g.topics[u] {
      SubscribeAllConsAt(b, r, t, rest, u);
    }
    SameMap(l.topics, g.topics);
    assert l.subs == g.subs;
  }

  /** Two maps with the same keys and the same values are equal. */
  lemma SameMap<K, V>(m1: map<K, V>, m2: map<K, V>)
    requires m1.Keys == m2.Keys
    requires forall k :: k in m2 ==> m1[k] == m2[k]
    ensures m1 == m2
  {
  }

  lemma SubscribeAllConsAt(b: Bus, r: SubRef, t: string, rest: set<string>, u: string)
    requires u in b.topics || u in rest || u == t
    ensures SubscribeAll(Subscribe(b, r, t), r, rest).topics[u] == SubscribeAll(b, r, rest + {t}).topics[u]
  {
    var b1 := Subscribe(b, r, t);
    if u == t {
      assert Subscribers(b1, u) == AddSub(Subscribers(b, u), r);
      AddIdempotent(Subscribers(b, u), r);
    } else {
      assert Subscribers(b1, u) == Subscribers(b, u);
    }
  }

  // ---------------------------------------------------------------------
  // Publish
  // ---------------------------------------------------------------------

  /** The position of the first listed subscriber a push to would raise,
      or the length of the list when there is none. */
  function FirstBlocked(subs: map<SubRef, Sub>, refs: seq<SubRef>): (n: nat)
    requires forall k :: 0 <= k < |refs| ==> refs[k] in subs
    ensures n <= |refs|
    ensures forall k :: 0 <= k < n ==> !Blocked(subs[refs[k]])
    ensures n < |refs| ==> Blocked(subs[refs[n]])
    decreases |refs|
  {
    if |refs| == 0 || Blocked(subs[refs[0]]) then 0
    else 1 + FirstBlocked(subs, refs[1..])
  }

  /** `after` is `before` with `m` pushed to exactly the subscribers in
      `to`. */
  predicate Delivered(before: map<SubRef, Sub>, after: map<SubRef, Sub>, to: seq<SubRef>, m: Msg)
  {
    && after.Keys == before.Keys
    && forall x :: x in before ==> after[x] == if x in to then Pushed(before[x], m) else before[x]
  }

  /** The fan-out loop pushes the message to every listed subscriber before
      the first blocked one, in list order, and to nobody else; it reports
      an error exactly when it met a blocked subscriber. */
  lemma {:induction false} PushAllEffect(subs: map<SubRef, Sub>, refs: seq<SubRef>, m: Msg)
    requires forall k :: 0 <= k < |refs| ==> refs[k] in subs
    requires NoDup(refs)
    ensures var r := PushAll(subs, refs, m);
      var n := FirstBlocked(subs, refs);
      && (r.1.None? <==> n == |refs|)
      && (n < |refs| && subs[refs[n]].queue.Some? ==> r.1 == Some(QueueFull))
      && Delivered(subs, r.0, refs[..n], m)
    decreases |refs|
  {
    if |refs| > 0 && !Blocked(subs[refs[0]]) {
      var subs1 := subs[refs[0] := Pushed(subs[refs[0]], m)];
      NoDupTail(refs);
      PushAllStep(subs, refs, m);
      PushAllEffect(subs1, refs[1..], m);
      FirstBlockedUpdate(subs, refs, m);
      var r1 := PushAll(subs1, refs[1..], m);
      var n1 := FirstBlocked(subs1, refs[1..]);
      var n := FirstBlocked(subs, refs);
      assert PushAll(subs, refs, m) == r1 && n == n1 + 1;
      DeliveredCons(subs, r1.0, refs, n, m);
      if n < |refs| {
        assert refs[1..][n1] == refs[n] && refs[n] != refs[0];
        assert subs1[refs[n]] == subs[refs[n]];
      }
    } else if |refs| > 0 {
      assert FirstBlocked(subs, refs) == 0 && refs[..0] == [];
      assert PushAll(subs, refs, m).0 == subs;
    }
  }

  lemma NoDupTail(refs: seq<SubRef>)
    requires |refs| > 0 && NoDup(refs)
    ensures NoDup(refs[1..]) && refs[0] !in refs[1..]
  {
    forall i, j | 0 <= i < j < |refs[1..]| ensures refs[1..][i] != refs[1..][j] {
      assert refs[1..][i] == refs[i + 1] && refs[1..][j] == refs[j + 1];
    }
  }

  lemma PushAllStep(subs: map<SubRef, Sub>, refs: seq<SubRef>, m: Msg)
    requires |refs| > 0 && forall k :: 0 <= k < |refs| ==> refs[k] in subs
    requires !Blocked(subs[refs[0]])
    ensures forall k :: 0 <= k < |refs[1..]| ==> refs[1..][k] in subs[refs[0] := Pushed(subs[refs[0]], m)]
    ensures PushAll(subs, refs, m) == PushAll(subs[refs[0] := Pushed(subs[refs[0]], m)], refs[1..], m)
  {
  }

  lemma DeliveredCons(subs: map<SubRef, Sub>, after: map<SubRef, Sub>, refs: seq<SubRef>, n: nat, m: Msg)
    requires 0 < n <= |refs| && refs[0] in subs && refs[0] !in refs[1..]
    requires Delivered(subs[refs[0] := Pushed(subs[refs[0]], m)], after, refs[1..][..n - 1], m)
    ensures Delivered(subs, after, refs[..n], m)
  {
    assert refs[..n] == [refs[0]] + refs[1..][..n - 1];
    assert refs[0] !in refs[1..][..n - 1];
  }

  /** Pushing to the head of the list does not change where the rest of the
      list is first blocked. */
  lemma FirstBlockedUpdate(subs: map<SubRef, Sub>, refs: seq<SubRef>, m: Msg)
    requires |refs| > 0 && forall k :: 0 <= k < |refs| ==> refs[k] in subs
    requires forall k :: 1 <= k < |refs| ==> refs[k] != refs[0]
    requires !Blocked(subs[refs[0]])
    ensures FirstBlocked(subs, refs) == 1 + FirstBlocked(subs[refs[0] := Pushed(subs[refs[0]], m)], refs[1..])
  {
    var subs1 := subs[refs[0] := Pushed(subs[refs[0]], m)];
    FirstBlockedSame(subs, subs1, refs[1..]);
  }

  lemma {:induction false} FirstBlockedSame(a: map<SubRef, Sub>, b: map<SubRef, Sub>, refs: seq<SubRef>)
    requires forall k :: 0 <= k < |refs| ==> refs[k] in a && refs[k] in b && a[refs[k]] == b[refs[k]]
    ensures FirstBlocked(a, refs) == FirstBlocked(b, refs)
    decreases |refs|
  {
    if |refs| > 0 {
      FirstBlockedSame(a, b, refs[1..]);
    }
  }

  /** `publish(t, s, m)` on a valid bus: `(t, s, m)` reaches, in list order,
      every subscriber of `t` up to the first full queue and nobody else;
      no other queue changes, and only a full queue makes it raise. */
  lemma PublishDelivers(b: Bus, t: string, sender: Json, message: Json)
    requires Valid(b)
    ensures var r := Publish(b, t, sender, message);
      var refs := Subscribers(b, t);
      var n := FirstBlocked(b.subs, refs);
      && r.0.topics == GetTopic(b, t).topics
      && (r.1.None? <==> n == |refs|)
      && (r.1.Some? ==> r.1 == Some(QueueFull))
      && Delivered(b.subs, r.0.subs, refs[..n], Msg(t, sender, message))
  {
    var refs := Subscribers(b, t);
    assert forall k :: 0 <= k < |refs| ==> refs[k] in b.subs;
    PushAllEffect(b.subs, refs, Msg(t, sender, message));
  }

  /** When no subscriber of `t` has a bounded queue, every one of them gets
      the message once and the publish does not raise. */
  lemma PublishUnbounded(b: Bus, t: string, sender: Json, message: Json)
    requires Valid(b)
    requires forall k :: 0 <= k < |Subscribers(b, t)| ==> b.subs[Subscribers(b, t)[k]].queue.value.maxsize <= 0
    ensures var r := Publish(b, t, sender, message);
      && r.1.None?
      && Delivered(b.subs, r.0.subs, Subscribers(b, t), Msg(t, sender, message))
  {
    var refs := Subscribers(b, t);
    PublishDelivers(b, t, sender, message);
    NothingBlocked(b.subs, refs);
    assert refs[..|refs|] == refs;
  }

  lemma {:induction false} NothingBlocked(subs: map<SubRef, Sub>, refs: seq<SubRef>)
    requires forall k :: 0 <= k < |refs| ==> refs[k] in subs && subs[refs[k]].queue.Some? && subs[refs[k]].queue.value.maxsize <= 0
    ensures FirstBlocked(subs, refs) == |refs|
    decreases |refs|
  {
    if |refs| > 0 {
      NothingBlocked(subs, refs[1..]);
    }
  }

  /** Publishing to a topic nobody subscribes to delivers nothing; it only
      creates the topic. */
  lemma PublishToNobody(b: Bus, t: string, sender: Json, message: Json)
    requires Refs(b) && |Subscribers(b, t)| == 0
    ensures Publish(b, t, sender, message) == (GetTopic(b, t), None)
  {
  }

  /** The bus stays valid through a publish. */
  lemma PublishValid(b: Bus, t: string, sender: Json, message: Json)
    requires Valid(b)
    ensures Valid(Publish(b, t, sender, message).0)
  {
    PublishDelivers(b, t, sender, message);
  }

  // ---------------------------------------------------------------------
  // Subscribing, unsubscribing and closing
  // ---------------------------------------------------------------------

  /** A non-empty string `topics` subscribes the new subscriber to exactly
      that topic. */
  lemma StringTopicSubscribesOne(b: Bus, r: SubRef, id: string, t: string, queue: Option<Queue<Msg>>)
    requires r !in b.subs && |t| > 0 && Refs(b)
    ensures var res := NewSubscriber(b, r, id, JStr(t), queue);
      && res.1.None?
      && r in res.0.topics[t]
      && forall u :: u in res.0.topics && u != t ==> r !in res.0.topics[u]
  {
    forall u | u in b.topics ensures r !in b.topics[u] {
      assert forall k :: 0 <= k < |b.topics[u]| ==> b.topics[u][k] in b.subs;
    }
  }

  /** `unsubscribe_all(r)` on a valid bus takes `r` off every topic and
      leaves every other membership as it was. */
  lemma UnsubscribeAllEffect(b: Bus, r: SubRef)
    requires Valid(b)
    ensures var res := UnsubscribeAll(b, r);
      && (forall u :: u in res.topics ==> r !in res.topics[u])
      && forall u, x :: u in b.topics && x != r ==> (x in res.topics[u] <==> x in b.topics[u])
  {
  }

  /** The bus stays valid through subscribe, unsubscribe, `unsubscribe_all`
      and creating a subscriber. */
  lemma SubscribeValid(b: Bus, r: SubRef, t: string)
    requires Valid(b) && r in b.subs && b.subs[r].queue.Some?
    ensures Valid(Subscribe(b, r, t))
  {
    var s := Subscribe(b, r, t);
    forall u, k | u in s.topics && 0 <= k < |s.topics[u]|
      ensures s.topics[u][k] in s.subs && s.subs[s.topics[u][k]].queue.Some?
    {
      var x := s.topics[u][k];
      assert x in s.topics[u];
      if x != r {
        assert x in Subscribers(b, u);
        var j :| 0 <= j < |Subscribers(b, u)| && Subscribers(b, u)[j] == x;
      }
    }
  }

  lemma UnsubscribeValid(b: Bus, r: SubRef, t: string)
    requires Valid(b)
    ensures Valid(Unsubscribe(b, r, t))
  {
    var un := Unsubscribe(b, r, t);
    forall u, k | u in un.topics && 0 <= k < |un.topics[u]|
      ensures un.topics[u][k] in un.subs && un.subs[un.topics[u][k]].queue.Some?
    {
      var x := un.topics[u][k];
      assert x in un.topics[u];
      var j :| 0 <= j < |b.topics[u]| && b.topics[u][j] == x;
    }
  }

  lemma UnsubscribeAllValid(b: Bus, r: SubRef)
    requires Valid(b)
    ensures Valid(UnsubscribeAll(b, r))
  {
    var ua := UnsubscribeAll(b, r);
    forall u, k | u in ua.topics && 0 <= k < |ua.topics[u]|
      ensures ua.topics[u][k] in ua.subs && ua.subs[ua.topics[u][k]].queue.Some?
    {
      var x := ua.topics[u][k];
      assert x in ua.topics[u];
      var j :| 0 <= j < |b.topics[u]| && b.topics[u][j] == x;
    }
  }

  lemma NewSubscriberValid(b: Bus, r: SubRef, id: string, topics: Json, queue: Option<Queue<Msg>>)
    requires Valid(b) && r !in b.subs
    ensures Valid(NewSubscriber(b, r, id, topics, queue).0)
  {
    var names := TopicNames(topics).0;
    var q := match queue case Some(q) => q case None => Queue(0, []);
    var b1 := b.(subs := b.subs[r := Sub(id, Some(q))]);
    var s := NewSubscriber(b, r, id, topics, queue).0;
    assert s == SubscribeAll(b1, r, names);
    forall u, k | u in s.topics && 0 <= k < |s.topics[u]|
      ensures s.topics[u][k] in s.subs && s.subs[s.topics[u][k]].queue.Some?
    {
      var x := s.topics[u][k];
      assert x in s.topics[u];
      if x != r {
        assert x in Subscribers(b1, u);
        var j :| 0 <= j < |Subscribers(b1, u)| && Subscribers(b1, u)[j] == x;
      }
    }
  }

  /** Closing leaves `r` on no topic with no queue, changes nobody else,
      keeps the bus valid, and a second close changes nothing. */
  lemma CloseEffect(b: Bus, r: SubRef)
    requires Valid(b) && r in b.subs
    ensures var c := Close(b, r);
      && Valid(c)
      && (forall u :: u in c.topics ==> r !in c.topics[u])
      && (forall u, x :: u in b.topics && x != r ==> (x in c.topics[u] <==> x in b.topics[u]))
      && Close(c, r) == c
  {
    var c := Close(b, r);
    UnsubscribeAllEffect(b, r);
    forall u, k | u in c.topics && 0 <= k < |c.topics[u]|
      ensures c.topics[u][k] in c.subs && c.subs[c.topics[u][k]].queue.Some?
    {
      var x := c.topics[u][k];
      assert x in c.topics[u];
      var j :| 0 <= j < |b.topics[u]| && b.topics[u][j] == x;
    }
    var cc := Close(c, r);
    assert cc.topics == c.topics;
    assert cc.subs == c.subs;
  }

  /** A subscriber that was on no topic, subscribed and then closed, leaves
      every topic list as it was (the topics it named now exist). */
  lemma SubscribeThenClose(b: Bus, r: SubRef, names: set<string>)
    requires r in b.subs
    requires forall u :: u in b.topics ==> r !in b.topics[u]
    ensures var c := Close(SubscribeAll(b, r, names), r);
      && c.topics.Keys == b.topics.Keys + names
      && forall u :: u in c.topics ==> c.topics[u] == Subscribers(b, u)
  {
    var s := SubscribeAll(b, r, names);
    var c := Close(s, r);
    assert c.topics == UnsubscribeAll(s, r).topics;
    forall u | u in c.topics ensures c.topics[u] == Subscribers(b, u) {
      assert c.topics[u] == RemoveSub(s.topics[u], r);
      if u in names {
        assert s.topics[u] == AddSub(Subscribers(b, u), r);
        RemoveAdded(Subscribers(b, u), r);
      } else {
        assert s.topics[u] == b.topics[u] && r !in b.topics[u];
      }
    }
  }

  /** `Subscriber.get_nowait` on an empty queue answers `None` and changes
      nothing, where the queue's own `get_nowait` raises. */
  lemma SubGetNowaitEmpty(b: Bus, r: SubRef)
    requires r in b.subs && b.subs[r].queue.Some? && Empty(b.subs[r].queue.value)
    ensures SubGetNowait(b, r) == Ok((None, b))
    ensures GetNowait(b.subs[r].queue.value) == Raise(AsyncioQueueEmpty)
  {
  }
}

=== FILE: mmc5983.dfy ===
/** The MMC5983 magnetometer (`devices/magnetometer/mmc5983.py`): the
    18-bit samples assembled from a seven-byte register read, their
    re-orientation onto the board's axes, and the min/max calibration. The
    I2C read is a parameter (its bytes, or `None` when it failed); the
    sampling clock is the list of reads made before the time ran out; the
    floating-point scaling of `read_mag_xyz` and the register writes of
    `reset`/`enable_continuous` are not modelled.
 */
module Mmc5983 {
  import opened Wrappers
  import opened Arith
  import opened Json
  import opened PyStr
  import Calibration

  /** A sample: the three axis values. */
  datatype Sample = Sample(x: int, y: int, z: int)

  function Axis(s: Sample, k: nat): int
    requires k < 3
  {
    if k == 0 then s.x else if k == 1 then s.y else s.z
  }

  /** `(hi << 8 | lo) << 2 | (extra >> shift) & 0x03` for register bytes:
      the or-ed parts occupy disjoint bits, so each `|` adds. */
  function Assemble(hi: byte, lo: byte, extra: byte, shift: nat): (v: int)
  {
    (hi * 256 + lo) * 4 + Field(extra, shift, 2)
  }

  /** An assembled value is an 18-bit number. */
  lemma AssembleRange(hi: byte, lo: byte, extra: byte, shift: nat)
    ensures 0 <= Assemble(hi, lo, extra, shift) < 262144
  {
    assert Pow2(2) == 4;
    assert (hi * 256 + lo) * 4 <= 65535 * 4;
  }

  /** The 18-bit value determines its parts: the two register bytes and the
      two low bits; and any 18-bit value is assembled from its parts. */
  lemma AssembleInverse(hi: byte, lo: byte, extra: byte, shift: nat)
    ensures Assemble(hi, lo, extra, shift) / 1024 == hi
    ensures (Assemble(hi, lo, extra, shift) / 4) % 256 == lo
    ensures Assemble(hi, lo, extra, shift) % 4 == Field(extra, shift, 2)
  {
    assert Pow2(2) == 4;
    var v := Assemble(hi, lo, extra, shift);
    var f := Field(extra, shift, 2);
    assert v == hi * 1024 + lo * 4 + f;
    RecomposeBy(v, hi, lo, f, 4, 256);
  }

  // ---------------------------------------------------------------------
  // Reading a sample
  // ---------------------------------------------------------------------

  /** The three axes of a seven-byte read, in register order: bytes 0-1,
      2-3 and 4-5, with bits 7-6, 5-4 and 3-2 of byte 6 below them. */
  function RawAxes(d: seq<byte>): (r: Sample)
    requires |d| >= 7
    ensures forall k :: 0 <= k < 3 ==> 0 <= Axis(r, k) < 262144
  {
    AssembleRange(d[0], d[1], d[6], 6);
    AssembleRange(d[2], d[3], d[6], 4);
    AssembleRange(d[4], d[5], d[6], 2);
    Sample(Assemble(d[0], d[1], d[6], 6), Assemble(d[2], d[3], d[6], 4), Assemble(d[4], d[5], d[6], 2))
  }

  predicate Is18Bit(s: Sample)
  {
    0 <= s.x < 262144 && 0 <= s.y < 262144 && 0 <= s.z < 262144
  }

  /** The register bytes that hold a sample, the unused low bits of byte 6
      left clear. */
  function Encode(s: Sample): (d: seq<byte>)
    requires Is18Bit(s)
    ensures |d| == 7
  {
    [s.x / 1024, (s.x / 4) % 256, s.y / 1024, (s.y / 4) % 256, s.z / 1024, (s.z / 4) % 256,
     (s.x % 4) * 64 + (s.y % 4) * 16 + (s.z % 4) * 4]
  }

  /** The two low bits of each axis, packed into byte 6, read back from
      their own positions. */
  lemma LowBits(a: int, b: int, c: int)
    requires 0 <= a < 4 && 0 <= b < 4 && 0 <= c < 4
    ensures Field(a * 64 + b * 16 + c * 4, 6, 2) == a
    ensures Field(a * 64 + b * 16 + c * 4, 4, 2) == b
    ensures Field(a * 64 + b * 16 + c * 4, 2, 2) == c
  {
    var v := a * 64 + b * 16 + c * 4;
    assert Pow2(2) == 4 && Pow2(4) == 16 && Pow2(6) == 64 && Pow2(8) == 256;
    Recompose(v, 0, a, b * 16 + c * 4, 6, 2);
    Recompose(v, a, b, c * 4, 4, 2);
    Recompose(v, a * 4 + b, c, 0, 2, 2);
  }

  /** Every 18-bit sample is what some read yields: the bytes `Encode`
      gives assemble back into it. */
  lemma RawAxesEncode(s: Sample)
    requires Is18Bit(s)
    ensures RawAxes(Encode(s)) == s
  {
    var d := Encode(s);
    LowBits(s.x % 4, s.y % 4, s.z % 4);
    forall v | 0 <= v < 262144
      ensures (v / 1024 * 256 + (v / 4) % 256) * 4 + v % 4 == v
    {
      DecomposeBy(v, 4, 256);
    }
  }

  /** A read is determined by its sample up to the two unused low bits of
      byte 6: encoding the sample gives back bytes 0-5 and the rest of
      byte 6. */
  lemma EncodeRawAxes(d: seq<byte>)
    requires |d| >= 7
    ensures Is18Bit(RawAxes(d))
    ensures Encode(RawAxes(d))[..6] == d[..6]
    ensures Encode(RawAxes(d))[6] == d[6] - d[6] % 4
  {
    var s := RawAxes(d);
    AssembleInverse(d[0], d[1], d[6], 6);
    AssembleInverse(d[2], d[3], d[6], 4);
    AssembleInverse(d[4], d[5], d[6], 2);
    SplitByte(d[6]);
    var e := Encode(s);
    assert e[0] == d[0] && e[1] == d[1] && e[2] == d[2] && e[3] == d[3] && e[4] == d[4] && e[5] == d[5];
  }

  /** A byte is its three upper two-bit fields and its two low bits. */
  lemma SplitByte(v: byte)
    ensures v == Field(v, 6, 2) * 64 + Field(v, 4, 2) * 16 + Field(v, 2, 2) * 4 + v % 4
  {
    assert Pow2(2) == 4 && Pow2(4) == 16 && Pow2(6) == 64 && Pow2(8) == 256;
    Decompose(v, 4, 2);
    Decompose(v, 2, 2);
    DivDiv(v, 16, 4);
    assert v / 64 == Field(v, 6, 2);
    assert v / 16 == Field(v, 6, 2) * 4 + Field(v, 4, 2);
  }

  /** The default board orientation: `((2, 1), (1, -1), (0, -1))`. */
  const DEFAULT_ORIENTATION: seq<(int, int)> := [(2, 1), (1, -1), (0, -1)]

  /** Output axis `i` is `raw[o[i][0]] * o[i][1]`, with Python's indexing
      of the three raw axes. */
  function Orient(raw: Sample, o: seq<(int, int)>): (r: Option<Sample>)
  {
    if |o| < 3 then None
    else
      match (PyIndex(3, o[0].0), PyIndex(3, o[1].0), PyIndex(3, o[2].0))
      case (Some(i), Some(j), Some(k)) => Some(Sample(Axis(raw, i) * o[0].1, Axis(raw, j) * o[1].1, Axis(raw, k) * o[2].1))
      case _ => None
  }

  /** `read_mag_xyz_raw`: a failed (`None`) or empty read gives `None`; so
      does any exception inside, a short read or a bad orientation. */
  function ReadRaw(data: Option<seq<byte>>, o: seq<(int, int)>): (r: Option<Sample>)
    ensures data.None? || |data.value| < 7 ==> r.None?
  {
    if data.None? || |data.value| == 0 then None
    else if |data.value| < 7 then None
    else Orient(RawAxes(data.value), o)
  }

  /** With the default orientation a full read gives `(z, -y, -x)` of the
      register axes — `(r2, -r1, -r0)`; only a failed or short read gives
      `None`. */
  lemma DefaultOrientation(data: Option<seq<byte>>)
    ensures ReadRaw(data, DEFAULT_ORIENTATION).None? <==> data.None? || |data.value| < 7
    ensures data.Some? && |data.value| >= 7 ==>
      var r := RawAxes(data.value);
      ReadRaw(data, DEFAULT_ORIENTATION) == Some(Sample(r.z, -r.y, -r.x))
  {
  }

  // ---------------------------------------------------------------------
  // Calibration
  // ---------------------------------------------------------------------

  /** `sys.maxsize` on a 32-bit port: the start of the min/max search. */
  const MAXSIZE := 2147483647

  /** The reads made before the calibration time ran out: a sample, or
      `None` for a failed read. */
  type Reads = seq<Option<Sample>>

  predicate InRange(s: Sample)
  {
    -MAXSIZE < s.x < MAXSIZE && -MAXSIZE < s.y < MAXSIZE && -MAXSIZE < s.z < MAXSIZE
  }

  /** Some read among the first `n` succeeded with value `v` on axis `k`. */
  predicate Seen(rs: Reads, n: nat, k: nat, v: int)
    requires n <= |rs| && k < 3
  {
    exists i :: 0 <= i < n && rs[i].Some? && Axis(rs[i].value, k) == v
  }

  /** No successful read among the first `n` is below `v` on axis `k`. */
  predicate Below(rs: Reads, n: nat, k: nat, v: int)
    requires n <= |rs| && k < 3
  {
    forall i :: 0 <= i < n && rs[i].Some? ==> v <= Axis(rs[i].value, k)
  }

  /** No successful read among the first `n` is above `v` on axis `k`. */
  predicate Above(rs: Reads, n: nat, k: nat, v: int)
    requires n <= |rs| && k < 3
  {
    forall i :: 0 <= i < n && rs[i].Some? ==> Axis(rs[i].value, k) <= v
  }

  predicate AnyRead(rs: Reads, n: nat)
    requires n <= |rs|
  {
    exists i :: 0 <= i < n && rs[i].Some?
  }

  /** `lo` and `hi` are the smallest and largest value of axis `k` among
      the successful reads of the first `n`, or the start values when there
      were none. */
  predicate Extremes(rs: Reads, n: nat, k: nat, lo: int, hi: int)
    requires n <= |rs| && k < 3
  {
    && Below(rs, n, k, lo) && Above(rs, n, k, hi)
    && (AnyRead(rs, n) ==> Seen(rs, n, k, lo) && Seen(rs, n, k, hi))
    && (!AnyRead(rs, n) ==> lo == MAXSIZE && hi == -MAXSIZE)
  }

  /** One more read keeps the extremes. */
  lemma ExtendExtremes(rs: Reads, n: nat, k: nat, lo: int, hi: int)
    requires n < |rs| && k < 3 && Extremes(rs, n, k, lo, hi)
    requires rs[n].Some? ==> InRange(rs[n].value)
    ensures rs[n].Some? ==> Extremes(rs, n + 1, k, Min(lo, Axis(rs[n].value, k)), Max(hi, Axis(rs[n].value, k)))
    ensures rs[n].None? ==> Extremes(rs, n + 1, k, lo, hi)
  {
    if AnyRead(rs, n) {
      var i :| 0 <= i < n && rs[i].Some?;
      assert AnyRead(rs, n + 1) by { assert 0 <= i < n + 1 && rs[i].Some?; }
    }
    if rs[n].Some? {
      var v := Axis(rs[n].value, k);
      assert AnyRead(rs, n + 1) by { assert 0 <= n < n + 1 && rs[n].Some?; }
      assert Seen(rs, n + 1, k, v) by { assert 0 <= n < n + 1 && rs[n].Some? && Axis(rs[n].value, k) == v; }
      if AnyRead(rs, n) {
        var i :| 0 <= i < n && rs[i].Some? && Axis(rs[i].value, k) == lo;
        var j :| 0 <= j < n && rs[j].Some? && Axis(rs[j].value, k) == hi;
        assert Seen(rs, n + 1, k, lo) by { assert 0 <= i < n + 1; }
        assert Seen(rs, n + 1, k, hi) by { assert 0 <= j < n + 1; }
      }
    } else {
      if AnyRead(rs, n) {
        var i :| 0 <= i < n && rs[i].Some? && Axis(rs[i].value, k) == lo;
        var j :| 0 <= j < n && rs[j].Some? && Axis(rs[j].value, k) == hi;
        assert Seen(rs, n + 1, k, lo) by { assert 0 <= i < n + 1; }
        assert Seen(rs, n + 1, k, hi) by { assert 0 <= j < n + 1; }
      } else {
        assert !AnyRead(rs, n + 1);
      }
    }
  }

  /** Two successful reads differ on axis `k`: the sensor was turned about
      it. */
  predicate Moves(rs: Reads, k: nat)
    requires k < 3
  {
    exists i, j :: 0 <= i < |rs| && 0 <= j < |rs| && rs[i].Some? && rs[j].Some? && Axis(rs[i].value, k) != Axis(rs[j].value, k)
  }

  /** The calibration as the store keeps it: `[[scale, offset], ...]`. */
  function CalibJson(c: seq<(real, real)>): Json
  {
    JList(seq(|c|, k requires 0 <= k < |c| => JList([JReal(c[k].0), JReal(c[k].1)])))
  }

  const CALIBRATION_KEY := "MMC5983"

  /** `calibrate`: the smallest and largest value of each axis over the
      successful reads, starting from `sys.maxsize` and `-sys.maxsize`.
      When every axis spread, entries 0, 1 and 2 of the calibration list
      become `[100 / (max - min), (max + min) / 2]` in turn, and the list is
      stored under `'MMC5983'`; otherwise nothing changes and the answer is
      `False`. The list may be longer than three (its tail is kept) or
      shorter: then the entries it has are assigned and the first missing
      one raises `IndexError`. `shared` says the list is the store's own
      `'MMC5983'` entry, as it is for a driver built without a (non-empty)
      `calib`: `get` hands back the stored list itself, so the assignments
      made before the `IndexError` are already in the store. A list of the
      caller's own leaves the store untouched on that path. Saving the file
      afterwards is not modelled. */
  method Calibrate(store: Calibration.Store, calib: seq<(real, real)>, shared: bool, rs: Reads)
    returns (r: Result<bool>, lo: seq<int>, hi: seq<int>, calib': seq<(real, real)>, store': Calibration.Store)
    requires forall i :: 0 <= i < |rs| && rs[i].Some? ==> InRange(rs[i].value)
    requires shared ==> store.data.JObj? && CALIBRATION_KEY in store.data.fields && store.data.fields[CALIBRATION_KEY] == CalibJson(calib)
    ensures |lo| == 3 && |hi| == 3
    ensures forall k :: 0 <= k < 3 ==> Extremes(rs, |rs|, k, lo[k], hi[k])
    ensures r == Ok(false) <==> !(Moves(rs, 0) && Moves(rs, 1) && Moves(rs, 2))
    ensures r == Ok(false) ==> calib' == calib && store' == store
    ensures r != Ok(false) ==> forall k :: 0 <= k < 3 ==> hi[k] > lo[k]
    ensures r != Ok(false) ==> |calib'| == |calib| && forall k :: 0 <= k < |calib| ==>
      calib'[k] == if k < 3 then (100.0 / (hi[k] - lo[k]) as real, (hi[k] + lo[k]) as real / 2.0) else calib[k]
    ensures r != Ok(false) && |calib| < 3 ==> r == Raise(IndexError)
    ensures r != Ok(false) && |calib| < 3 && !shared ==> store' == store
    ensures r != Ok(false) && |calib| < 3 && shared ==> Calibration.Set(store, CALIBRATION_KEY, CalibJson(calib')) == Ok(store')
    ensures r == Ok(false) || r.Raise? ==> store'.path == store.path
    ensures r != Ok(false) && |calib| >= 3 ==> (r == Ok(true) <==> store.data.JObj?)
    ensures r != Ok(false) && |calib| >= 3 && r.Raise? ==> r.exc.TypeError? && store' == store
    ensures r.Ok? && r.value ==> Calibration.Set(store, CALIBRATION_KEY, CalibJson(calib')) == Ok(store')
  {
    lo, hi := Extrema(rs);
    forall k | 0 <= k < 3
      ensures Moves(rs, k) <==> hi[k] > lo[k]
    {
      SpreadMeaning(rs, k, lo[k], hi[k]);
    }
    if hi[0] > lo[0] && hi[1] > lo[1] && hi[2] > lo[2] {
      calib' := seq(|calib|, k requires 0 <= k < |calib| =>
        if k < 3 then (100.0 / (hi[k] - lo[k]) as real, (hi[k] + lo[k]) as real / 2.0) else calib[k]);
      if |calib| < 3 {
        r, store' := Raise(IndexError), store;
        if shared {
          store' := store.(data := JObj(store.data.fields[CALIBRATION_KEY := CalibJson(calib')]));
        }
      } else {
        var st := Calibration.Set(store, CALIBRATION_KEY, CalibJson(calib'));
        if st.Raise? {
          r, store' := Raise(st.exc), store;
        } else {
          r, store' := Ok(true), st.value;
        }
      }
    } else {
      r, calib', store' := Ok(false), calib, store;
    }
  }

  /** The scan of `calibrate`'s loop: per axis, the smallest and largest
      value over the successful reads. */
  method Extrema(rs: Reads) returns (lo: seq<int>, hi: seq<int>)
    requires forall i :: 0 <= i < |rs| && rs[i].Some? ==> InRange(rs[i].value)
    ensures |lo| == 3 && |hi| == 3
    ensures forall k :: 0 <= k < 3 ==> Extremes(rs, |rs|, k, lo[k], hi[k])
  {
    lo := [MAXSIZE, MAXSIZE, MAXSIZE];
    hi := [-MAXSIZE, -MAXSIZE, -MAXSIZE];
    var n := 0;
    while n < |rs|
      invariant 0 <= n <= |rs| && |lo| == 3 && |hi| == 3
      invariant forall k :: 0 <= k < 3 ==> Extremes(rs, n, k, lo[k], hi[k])
    {
      forall k | 0 <= k < 3 {
        ExtendExtremes(rs, n, k, lo[k], hi[k]);
      }
      if rs[n].Some? {
        var s := rs[n].value;
        lo := seq(3, k requires 0 <= k < 3 => Min(lo[k], Axis(s, k)));
        hi := seq(3, k requires 0 <= k < 3 => Max(hi[k], Axis(s, k)));
      }
      n := n + 1;
    }
  }

  function Min(a: int, b: int): int
  {
    if a < b then a else b
  }

  function Max(a: int, b: int): int
  {
    if a < b then b else a
  }

  /** The extremes spread exactly when two reads differ on the axis. */
  lemma SpreadMeaning(rs: Reads, k: nat, lo: int, hi: int)
    requires k < 3
    requires forall i :: 0 <= i < |rs| && rs[i].Some? ==> InRange(rs[i].value)
    requires Extremes(rs, |rs|, k, lo, hi)
    ensures Moves(rs, k) <==> hi > lo
  {
    if hi > lo {
      assert AnyRead(rs, |rs|);
      var i :| 0 <= i < |rs| && rs[i].Some? && Axis(rs[i].value, k) == lo;
      var j :| 0 <= j < |rs| && rs[j].Some? && Axis(rs[j].value, k) == hi;
      assert Axis(rs[i].value, k) != Axis(rs[j].value, k);
    }
    if Moves(rs, k) {
      var i, j :| 0 <= i < |rs| && 0 <= j < |rs| && rs[i].Some? && rs[j].Some? && Axis(rs[i].value, k) != Axis(rs[j].value, k);
      assert lo <= Axis(rs[i].value, k) <= hi;
      assert lo <= Axis(rs[j].value, k) <= hi;
    }
  }
}

=== FILE: motors.dfy ===
/** The DC motor drivers: `Motor` of the Super:Bit board
    (`mbit_ext/superbit_extension_board.py`) and its copy in
    `devices/motors/dc_motor.py`. A motor owns two PCA9685 channels; its
    throttle is turned into one `set_led_pwm` call per channel.
 */
module Motors {
  import opened Wrappers
  import opened PyStr
  import opened Pca9685

  const MOTOR_CHANNELS := [8, 9, 10, 11, 12, 13, 14, 15]

  /** What `self.pwm_controller` holds: a PCA9685 driver the caller gave,
      or the module's `_I3C_OBJ`, which is a `machine.I2C` bus and has no
      `set_led_pwm`. */
  datatype Driver = PwmDriver | I2cBus

  datatype Motor = Motor(channelA: int, channelB: int, driver: Driver)

  /** Where the PWM controller comes from. On the Super:Bit board a motor
      without one takes the module's I2C object, and fails without that;
      the copy in `dc_motor.py` names a global it never defines. */
  datatype Controller = Given | ModuleObject(present: bool)

  /** The channel pair `[8..15][2k : 2k + 2]`, swapped when `revers`. */
  function Channels(motorId: int, revers: bool): (r: Result<(int, int)>)
    ensures r.Raise? ==> r.exc == IndexError
    ensures r.Ok? ==> (
      && r.value.0 in MOTOR_CHANNELS && r.value.1 in MOTOR_CHANNELS
      && r.value.0 != r.value.1 && r.value.0 / 2 == r.value.1 / 2
      && (r.value.0 < r.value.1 <==> !revers))
  {
    var cs := Slice(MOTOR_CHANNELS, motorId * 2, motorId * 2 + 2);
    if |cs| < 2 then Raise(IndexError)
    else if revers then Ok((cs[1], cs[0])) else Ok((cs[0], cs[1]))
  }

  /** `Motor.__init__` on the Super:Bit board. */
  function NewMotor(motorId: int, revers: bool, c: Controller): (r: Result<Motor>)
    ensures r.Ok? <==> Channels(motorId, revers).Ok? && c != ModuleObject(false)
    ensures r.Ok? ==> (
      && Channels(motorId, revers).value == (r.value.channelA, r.value.channelB)
      && (r.value.driver.I2cBus? <==> c.ModuleObject?))
  {
    var (a, b) :- Channels(motorId, revers);
    if c == ModuleObject(false) then Raise(ValueError("Missing i2c object"))
    else Ok(Motor(a, b, if c.ModuleObject? then I2cBus else PwmDriver))
  }

  /** `Motor.__init__` in `dc_motor.py`: without a controller the test of
      `_I3C_OBJ` raises `NameError`, as the module defines no such name. */
  function NewDcMotor(motorId: int, revers: bool, c: Controller): (r: Result<Motor>)
    ensures r.Ok? <==> Channels(motorId, revers).Ok? && c == Given
    ensures r.Ok? ==> (
      && Channels(motorId, revers).value == (r.value.channelA, r.value.channelB)
      && r.value.driver == PwmDriver)
  {
    var (a, b) :- Channels(motorId, revers);
    if c.ModuleObject? then Raise(NameError("_I3C_OBJ"))
    else Ok(Motor(a, b, PwmDriver))
  }

  /** Motor `k` in `0..3` drives channels `8 + 2k` and `9 + 2k`, swapped
      when `revers`; ids past the end, and `-1`, have no channels. */
  lemma ChannelMap(motorId: int, revers: bool)
    ensures 0 <= motorId < 4 ==> (Channels(motorId, revers) ==
      Ok(if revers then (9 + 2 * motorId, 8 + 2 * motorId) else (8 + 2 * motorId, 9 + 2 * motorId)))
    ensures (motorId >= 4 || motorId == -1) ==> Channels(motorId, revers) == Raise(IndexError)
  {
  }

  /** Python's negative slice bounds make ids `-4..-2` aliases of `0..2`. */
  lemma NegativeIdsAlias(motorId: int, revers: bool)
    requires -4 <= motorId <= -2
    ensures Channels(motorId, revers) == Channels(motorId + 4, revers)
  {
  }

  /** Both constructors agree when the controller is given; without one the
      board's version takes the module object or raises `ValueError`, and
      the copy always raises `NameError`. */
  lemma ConstructorsAgree(motorId: int, revers: bool, c: Controller)
    ensures c == Given ==> NewDcMotor(motorId, revers, c) == NewMotor(motorId, revers, c)
    ensures Channels(motorId, revers).Ok? && c.ModuleObject? ==>
      NewDcMotor(motorId, revers, c) == Raise(NameError("_I3C_OBJ"))
      && (NewMotor(motorId, revers, c).Ok? <==> c.present)
  {
  }

  // ---------------------------------------------------------------------
  // Throttle
  // ---------------------------------------------------------------------

  /** What `set_throttle` is called with: a number, `None` or a string. */
  datatype Throttle = Number(t: real) | NoThrottle | Text(s: string)

  /** One `set_led_pwm(led_id, on_tick, off_tick)` call. */
  datatype PwmCall = PwmCall(channel: int, on: real, off: real)

  function Clamp(x: real): (r: real)
    ensures -4095.0 <= r <= 4095.0
  {
    if x < -4095.0 then -4095.0 else if x > 4095.0 then 4095.0 else x
  }

  /** `throttle * 4095` with `None` raises `TypeError`; a string repeats
      itself, and then `max(…, -4095)` cannot compare it with a number. */
  function Scaled(t: Throttle): (r: Result<real>)
    ensures r.Ok? <==> t.Number?
  {
    match t
    case Number(x) => Ok(Clamp(x * 4095.0))
    case NoThrottle => Raise(TypeError("unsupported types for __mul__: 'NoneType', 'int'"))
    case Text(_) => Raise(TypeError("unsupported types for __lt__: 'str', 'int'"))
  }

  /** The brake the `None`/`'break'` branch asks for: both channels at
      `(0, 1024)`. */
  function Brake(m: Motor): seq<PwmCall>
  {
    [PwmCall(m.channelA, 0.0, 1024.0), PwmCall(m.channelB, 0.0, 1024.0)]
  }

  /** The sign dispatch once the tick is known: backwards drives B,
      forwards drives A, zero stops both. */
  function Drive(m: Motor, x: real, off: real): seq<PwmCall>
  {
    if x < 0.0 then [PwmCall(m.channelA, 0.0, 0.0), PwmCall(m.channelB, 0.0, -off)]
    else if x > 0.0 then [PwmCall(m.channelA, 0.0, off), PwmCall(m.channelB, 0.0, 0.0)]
    else [PwmCall(m.channelA, 0.0, 0.0), PwmCall(m.channelB, 0.0, 0.0)]
  }

  /** The calls made through the motor's controller: a bus fails on the
      first, as `machine.I2C` has no attribute `set_led_pwm`. */
  function Through(m: Motor, calls: seq<PwmCall>): (r: Result<seq<PwmCall>>)
    ensures r.Ok? <==> m.driver.PwmDriver?
    ensures r.Raise? ==> r.exc == AttributeError("set_led_pwm")
    ensures r.Ok? ==> r.value == calls
  {
    if m.driver.I2cBus? then Raise(AttributeError("set_led_pwm")) else Ok(calls)
  }

  /** `set_throttle` on the Super:Bit board. As written the tick is
      computed before the brake test, so `None` and `'break'` raise and the
      brake is never applied; with `fixed` the test comes first. The copy
      in `dc_motor.py` has no brake test and behaves as the unfixed one. */
  function SetThrottle(m: Motor, t: Throttle, fixed: bool): (r: Result<seq<PwmCall>>)
    ensures r.Ok? <==> m.driver.PwmDriver? && (t.Number? || (fixed && (t.NoThrottle? || t == Text("break"))))
    ensures r.Ok? ==> |r.value| == 2 && r.value[0].channel == m.channelA && r.value[1].channel == m.channelB
  {
    if fixed && (t.NoThrottle? || t == Text("break")) then Through(m, Brake(m))
    else
      var off :- Scaled(t);
      Through(m, Drive(m, t.t, off))
  }

  /** `set_throttle` in `dc_motor.py`: the same dispatch without a brake
      test. */
  function DcSetThrottle(m: Motor, t: Throttle): (r: Result<seq<PwmCall>>)
    ensures r.Ok? <==> m.driver.PwmDriver? && t.Number?
    ensures r.Ok? ==> |r.value| == 2 && r.value[0].channel == m.channelA && r.value[1].channel == m.channelB
  {
    var off :- Scaled(t);
    if t.t < 0.0 then Through(m, [PwmCall(m.channelA, 0.0, 0.0), PwmCall(m.channelB, 0.0, -off)])
    else if t.t > 0.0 then Through(m, [PwmCall(m.channelA, 0.0, off), PwmCall(m.channelB, 0.0, 0.0)])
    else Through(m, [PwmCall(m.channelA, 0.0, 0.0), PwmCall(m.channelB, 0.0, 0.0)])
  }

  /** The copy behaves as the board's driver as written, for every input. */
  lemma DcMatchesBoard(m: Motor, t: Throttle)
    ensures DcSetThrottle(m, t) == SetThrottle(m, t, false)
  {
  }

  /** Every number gives one call per channel with `on == 0` and an
      `off` tick in `[0, 4095]`, at most one of them non-zero: the tick is
      `|throttle| * 4095` capped at 4095, on A going forwards and on B going
      backwards. */
  lemma ThrottleDispatch(m: Motor, x: real, fixed: bool)
    ensures SetThrottle(m, Number(x), fixed).Ok? <==> m.driver.PwmDriver?
    ensures m.driver.PwmDriver? ==> var cs := SetThrottle(m, Number(x), fixed).value;
      && |cs| == 2 && cs[0].channel == m.channelA && cs[1].channel == m.channelB
      && cs[0].on == 0.0 && cs[1].on == 0.0
      && 0.0 <= cs[0].off <= 4095.0 && 0.0 <= cs[1].off <= 4095.0
      && (cs[0].off == 0.0 || cs[1].off == 0.0)
      && (x > 0.0 ==> cs[0].off == Clamp(x * 4095.0) && cs[1].off == 0.0)
      && (x < 0.0 ==> cs[0].off == 0.0 && cs[1].off == -Clamp(x * 4095.0))
      && (x == 0.0 ==> cs[0].off == 0.0 && cs[1].off == 0.0)
  {
    if x > 0.0 {
      assert x * 4095.0 > 0.0;
    } else if x < 0.0 {
      assert x * 4095.0 < 0.0;
    }
  }

  /** Hence `set_led_pwm` never refuses what a numeric throttle asks for:
      each call writes its four registers. */
  lemma ThrottleNeverRefused(m: Motor, x: real, fixed: bool, k: nat)
    requires k < 2 && m.driver.PwmDriver?
    ensures SetThrottle(m, Number(x), fixed).Ok?
    ensures var c := SetThrottle(m, Number(x), fixed).value[k];
      SetLedPwm(c.channel, c.on, c.off).1.None?
  {
    ThrottleDispatch(m, x, fixed);
    var c := SetThrottle(m, Number(x), fixed).value[k];
    RoundInRange(c.on);
    RoundInRange(c.off);
    assert Round(c.on) == 0;
    LedPwmReadsBack(c.channel, c.on, c.off);
  }

  /** As written, the brake requests raise `TypeError`. */
  lemma BrakeUnreachable(m: Motor)
    ensures SetThrottle(m, NoThrottle, false).Raise? && SetThrottle(m, NoThrottle, false).exc.TypeError?
    ensures SetThrottle(m, Text("break"), false).Raise? && SetThrottle(m, Text("break"), false).exc.TypeError?
  {
  }

  /** With the test first, `None` and `'break'` brake both channels, and
      numbers are treated as before. */
  lemma BrakeFixed(m: Motor, x: real)
    ensures SetThrottle(m, NoThrottle, true) == Through(m, Brake(m))
    ensures SetThrottle(m, Text("break"), true) == Through(m, Brake(m))
    ensures SetThrottle(m, Number(x), true) == SetThrottle(m, Number(x), false)
  {
  }

  /** A Super:Bit motor built without a controller holds the module's I2C
      bus: it is created, but every throttle then raises, a number with
      `AttributeError` on the first `set_led_pwm` call. */
  lemma ModuleBusMotorRaises(motorId: int, revers: bool, t: Throttle, fixed: bool)
    requires Channels(motorId, revers).Ok?
    ensures NewMotor(motorId, revers, ModuleObject(true)).Ok?
    ensures var m := NewMotor(motorId, revers, ModuleObject(true)).value;
      && SetThrottle(m, t, fixed).Raise?
      && (t.Number? ==> SetThrottle(m, t, fixed).exc == AttributeError("set_led_pwm"))
  {
  }
}

=== FILE: neopixel.dfy ===
/** The NeoPixel grid of `devices/display/neopixel_display.py`: the map
    from grid coordinates to the strip index, the colour names, and the
    pixel, rectangle and clear operations. The `neopixel` driver itself is
    not part of this model: the strip is the list of colours written to it,
    and reading past its end raises `IndexError` as the driver's buffer
    does. `write()` (the transfer to the LEDs), `scroll_text` and `symbol`
    (font data and delays) are not modelled.
 */
module NeoPixel {
  import opened Wrappers
  import opened Arith

  /** A colour as the display passes it on: a tuple of channel values. */
  type Color = seq<int>

  /** What the colour arguments accept: a tuple or list, a name, or
      anything else. */
  datatype ColorCode = Components(c: Color) | Name(name: string) | OtherCode

  const RGB_COLORS: map<string, Color> := map[
    "black" := [0, 0, 0],
    "white" := [255, 255, 255],
    "red" := [255, 0, 0],
    "lime" := [0, 255, 0],
    "blue" := [0, 0, 255],
    "yellow" := [255, 255, 0],
    "cyan" := [0, 255, 255],
    "magenta" := [255, 0, 255],
    "silver" := [192, 192, 192],
    "gray" := [128, 128, 128],
    "maroon" := [128, 0, 0],
    "olive" := [128, 128, 0],
    "green" := [0, 128, 0],
    "purple" := [128, 0, 128],
    "teal" := [0, 128, 128],
    "navy" := [0, 0, 128]
  ]

  /** The four-channel table, with `gray`'s blue channel as written. */
  const RGBW_COLORS: map<string, Color> := map[
    "black" := [0, 0, 0, 0],
    "white" := [255, 255, 255, 255],
    "red" := [255, 0, 0, 0],
    "lime" := [0, 255, 0, 0],
    "blue" := [0, 0, 255, 0],
    "yellow" := [255, 255, 0, 0],
    "cyan" := [0, 255, 255, 0],
    "magenta" := [255, 0, 255, 0],
    "silver" := [192, 192, 192, 0],
    "gray" := [128, 128, 12, 0],
    "maroon" := [128, 0, 0, 0],
    "olive" := [128, 128, 0, 0],
    "green" := [0, 128, 0, 0],
    "purple" := [128, 0, 128, 0],
    "teal" := [0, 128, 128, 0],
    "navy" := [0, 0, 128, 0]
  ]

  /** The four-channel table in use: as written, or with `gray` made the
      three-channel gray plus an unlit white channel. */
  function RgbwTable(fixed: bool): map<string, Color>
  {
    if fixed then RGBW_COLORS["gray" := [128, 128, 128, 0]] else RGBW_COLORS
  }

  /** The named colour for `bpp` channels, if the table has it. */
  function NamedColor(bpp: int, name: string, fixed: bool): (r: Option<Color>)
    ensures r.Some? ==> bpp == 3 || bpp == 4
  {
    if bpp == 3 && name in RGB_COLORS then Some(RGB_COLORS[name])
    else if bpp == 4 && name in RgbwTable(fixed) then Some(RgbwTable(fixed)[name])
    else None
  }

  /** `_color_codes_to_rgb`: tuples and lists pass through, names are
      looked up in the table for the display's channel count, and anything
      else raises `ValueError`. */
  function ColorCodes(bpp: int, code: ColorCode, fixed: bool): (r: Result<Color>)
    ensures code.Components? ==> r == Ok(code.c)
    ensures code.OtherCode? ==> r == Raise(ValueError(""))
    ensures code.Name? ==> (r.Ok? <==> NamedColor(bpp, code.name, fixed).Some?)
  {
    match code
    case Components(c) => Ok(c)
    case Name(n) =>
      (match NamedColor(bpp, n, fixed)
       case Some(c) => Ok(c)
       case None => Raise(ValueError("")))
    case OtherCode => Raise(ValueError(""))
  }

  /** A name is known exactly for three or four channels and a name of the
      three-channel table; its colour has one byte per channel. */
  lemma NamedColorShape(bpp: int, name: string, fixed: bool)
    ensures NamedColor(bpp, name, fixed).Some? <==> (bpp == 3 || bpp == 4) && name in RGB_COLORS
    ensures NamedColor(bpp, name, fixed).Some? ==> |NamedColor(bpp, name, fixed).value| == bpp
    ensures NamedColor(bpp, name, fixed).Some? ==>
      forall k :: 0 <= k < bpp ==> 0 <= NamedColor(bpp, name, fixed).value[k] <= 255
  {
    if bpp == 4 && name in RGB_COLORS && (fixed || name != "gray") {
      TablesAgree(name, fixed);
    }
  }

  /** Both tables know the same names, and each four-channel colour is the
      three-channel one plus a white channel lit only for `white`: so for
      every name but `gray` in the table as written, and for all of them in
      the corrected one. */
  lemma TablesAgree(name: string, fixed: bool)
    requires name in RGB_COLORS
    requires fixed || name != "gray"
    ensures name in RgbwTable(fixed)
    ensures RgbwTable(fixed)[name] == RGB_COLORS[name] + [if name == "white" then 255 else 0]
  {
  }

  /** As written, four-channel `gray` has blue 12 where three-channel
      `gray` has 128. */
  lemma GrayMismatch()
    ensures "gray" in RGB_COLORS && "gray" in RgbwTable(false)
    ensures RgbwTable(false)["gray"][..3] != RGB_COLORS["gray"]
    ensures RgbwTable(false)["gray"][2] == 12
  {
    assert RgbwTable(false)["gray"][2] != RGB_COLORS["gray"][2];
  }

  // ---------------------------------------------------------------------
  // The grid
  // ---------------------------------------------------------------------

  /** A display: bytes per pixel, the grid's size, the wiring order and
      the strip's colours. */
  datatype Display = Display(bpp: int, columns: int, rows: int, order: string, pixels: seq<Color>)

  /** The strip holds one colour per cell; the driver's channel order has
      four entries, so it takes at most four bytes per pixel. */
  predicate Valid(d: Display)
  {
    0 <= d.columns && 0 <= d.rows && 1 <= d.bpp <= 4 && |d.pixels| == d.columns * d.rows
  }

  predicate InGrid(d: Display, x: int, y: int)
  {
    0 <= x < d.columns && 0 <= y < d.rows
  }

  /** The 'TTD_LTR' wiring: columns are chained from the right, each run
      top to bottom. */
  function Idx(d: Display, x: int, y: int): int
  {
    d.columns * d.rows - y - x * d.rows - 1
  }

  /** `_to_index`: only the 'TTD_LTR' order is known; others give `None`. */
  function ToIndex(d: Display, x: int, y: int): (r: Option<int>)
  {
    if d.order == "TTD_LTR" then Some(Idx(d, x, y)) else None
  }

  /** The cell a strip index belongs to. */
  function Cell(d: Display, k: int): (int, int)
    requires d.rows > 0
  {
    (d.columns - 1 - k / d.rows, d.rows - 1 - k % d.rows)
  }

  /** Every cell of the grid has an index on the strip, and the cell can be
      recovered from it. */
  lemma IndexOfCell(d: Display, x: int, y: int)
    requires Valid(d) && InGrid(d, x, y)
    ensures 0 <= Idx(d, x, y) < d.columns * d.rows
    ensures Cell(d, Idx(d, x, y)) == (x, y)
  {
    var c, n := d.columns, d.rows;
    var k := Idx(d, x, y);
    assert k == (c - 1 - x) * n + (n - 1 - y) by {
      Distrib(c - 1, -x, n);
      Distrib(c, -1, n);
    }
    MulMono(0, c - 1 - x, n);
    MulMono(c - 1 - x, c - 1, n);
    Distrib(c, -1, n);
    DivModUnique(k, n, c - 1 - x, n - 1 - y);
  }

  /** Every strip index belongs to a cell of the grid, and that cell maps
      back to it: together with `IndexOfCell`, the wiring is a bijection
      between the grid and `[0, columns * rows)`. */
  lemma CellOfIndex(d: Display, k: int)
    requires Valid(d) && 0 <= k < d.columns * d.rows
    ensures d.rows > 0
    ensures InGrid(d, Cell(d, k).0, Cell(d, k).1)
    ensures Idx(d, Cell(d, k).0, Cell(d, k).1) == k
  {
    var c, n := d.columns, d.rows;
    assert n > 0;
    var q, m := k / n, k % n;
    assert k == q * n + m;
    assert 0 <= q;
    if q >= c {
      MulMono(c, q, n);
      assert false;
    }
    var (x, y) := Cell(d, k);
    assert Idx(d, x, y) == (c - 1 - x) * n + (n - 1 - y) by {
      Distrib(c - 1, -x, n);
      Distrib(c, -1, n);
    }
  }

  /** Distinct cells have distinct indices. */
  lemma IndexInjective(d: Display, x: int, y: int, x2: int, y2: int)
    requires Valid(d) && InGrid(d, x, y) && InGrid(d, x2, y2)
    requires Idx(d, x, y) == Idx(d, x2, y2)
    ensures x == x2 && y == y2
  {
    IndexOfCell(d, x, y);
    IndexOfCell(d, x2, y2);
  }

  // ---------------------------------------------------------------------
  // Pixels
  // ---------------------------------------------------------------------

  /** The colour of an in-grid cell. */
  function Pixel(d: Display, x: int, y: int): Color
    requires Valid(d) && InGrid(d, x, y)
  {
    IndexOfCell(d, x, y);
    d.pixels[Idx(d, x, y)]
  }

  /** `self._neopixel[None]` for an unknown wiring order. */
  const NONE_INDEX := TypeError("unsupported types for __mul__: 'NoneType', 'int'")

  /** `set_pixel`: an in-grid cell takes the converted colour; anything
      outside the grid is ignored, colour and all. */
  function SetPixel(d: Display, x: int, y: int, code: ColorCode, fixed: bool): (r: Result<Display>)
    requires Valid(d)
    ensures r.Ok? ==> Valid(r.value) && r.value.(pixels := d.pixels) == d
  {
    if !InGrid(d, x, y) then Ok(d)
    else
      var c :- ColorCodes(d.bpp, code, fixed);
      match ToIndex(d, x, y)
      case None => Raise(NONE_INDEX)
      case Some(k) =>
        IndexOfCell(d, x, y);
        Ok(d.(pixels := d.pixels[k := c]))
  }

  /** `get_pixel`: `None` outside the grid. As written an in-grid cell
      reads strip pixel `index * bytes_per_pixel`, which the driver scales
      by the byte count once more; with `fixed` it reads pixel `index`. */
  function GetPixel(d: Display, x: int, y: int, fixed: bool): (r: Result<Option<Color>>)
    requires Valid(d)
    ensures r.Ok? && r.value.Some? ==> InGrid(d, x, y)
  {
    if !InGrid(d, x, y) then Ok(None)
    else
      match ToIndex(d, x, y)
      case None => Raise(NONE_INDEX)
      case Some(k) =>
        IndexOfCell(d, x, y);
        var i := if fixed then k else k * d.bpp;
        if i < |d.pixels| then Ok(Some(d.pixels[i])) else Raise(IndexError)
  }

  /** Outside the grid `set_pixel` changes nothing and `get_pixel` gives
      `None`, whatever the colour and the wiring. */
  lemma OutsideGrid(d: Display, x: int, y: int, code: ColorCode, fixed: bool)
    requires Valid(d) && !InGrid(d, x, y)
    ensures SetPixel(d, x, y, code, fixed) == Ok(d)
    ensures GetPixel(d, x, y, fixed) == Ok(None)
  {
  }

  /** An in-grid `set_pixel` with the known wiring and a valid colour
      changes that cell and no other. */
  lemma SetPixelMeaning(d: Display, x: int, y: int, code: ColorCode, fixed: bool)
    requires Valid(d) && InGrid(d, x, y) && d.order == "TTD_LTR"
    requires ColorCodes(d.bpp, code, fixed).Ok?
    ensures SetPixel(d, x, y, code, fixed).Ok?
    ensures Pixel(SetPixel(d, x, y, code, fixed).value, x, y) == ColorCodes(d.bpp, code, fixed).value
    ensures forall a, b :: InGrid(d, a, b) && (a, b) != (x, y) ==>
      Pixel(SetPixel(d, x, y, code, fixed).value, a, b) == Pixel(d, a, b)
  {
    var d1 := SetPixel(d, x, y, code, fixed).value;
    IndexOfCell(d, x, y);
    assert d1.pixels == d.pixels[Idx(d, x, y) := ColorCodes(d.bpp, code, fixed).value];
    forall a, b | InGrid(d, a, b) && (a, b) != (x, y)
      ensures Pixel(d1, a, b) == Pixel(d, a, b)
    {
      IndexOfCell(d, a, b);
      if Idx(d, a, b) == Idx(d, x, y) {
        IndexInjective(d, a, b, x, y);
      }
    }
  }

  /** With the read fixed, `get_pixel` returns what `set_pixel` wrote. */
  lemma GetAfterSet(d: Display, x: int, y: int, code: ColorCode)
    requires Valid(d) && InGrid(d, x, y) && d.order == "TTD_LTR"
    requires ColorCodes(d.bpp, code, true).Ok?
    ensures SetPixel(d, x, y, code, true).Ok?
    ensures GetPixel(SetPixel(d, x, y, code, true).value, x, y, true) == Ok(Some(ColorCodes(d.bpp, code, true).value))
  {
    SetPixelMeaning(d, x, y, code, true);
  }

  /** As written, only the cell at strip index 0 reads back what was
      written; any other cell reads the untouched pixel `index * bpp`, or
      raises `IndexError` past the end of the strip, once pixels are wider
      than one byte. */
  lemma GetAfterSetAsWritten(d: Display, x: int, y: int, code: ColorCode)
    requires Valid(d) && InGrid(d, x, y) && d.order == "TTD_LTR"
    requires ColorCodes(d.bpp, code, false).Ok?
    ensures SetPixel(d, x, y, code, false).Ok?
    ensures Idx(d, x, y) == 0 ==>
      GetPixel(SetPixel(d, x, y, code, false).value, x, y, false) == Ok(Some(ColorCodes(d.bpp, code, false).value))
    ensures Idx(d, x, y) > 0 && d.bpp > 1 ==>
      GetPixel(SetPixel(d, x, y, code, false).value, x, y, false) ==
        (if Idx(d, x, y) * d.bpp < |d.pixels| then Ok(Some(d.pixels[Idx(d, x, y) * d.bpp])) else Raise(IndexError))
  {
    var k := Idx(d, x, y);
    IndexOfCell(d, x, y);
    if k > 0 && d.bpp > 1 {
      MulAtLeast(d.bpp, k);
      assert k * d.bpp == d.bpp * k;
      assert k * d.bpp != k by {
        assert d.bpp * k == k + (d.bpp - 1) * k;
        MulAtLeast(d.bpp - 1, k);
      }
    }
  }

  // ---------------------------------------------------------------------
  // Rectangles
  // ---------------------------------------------------------------------

  function Min(a: int, b: int): int
  {
    if a < b then a else b
  }

  /** The inner loop of `set_rect` for column `i`: cells `j .. jEnd - 1`,
      taking `row[j - y]`; a row shorter than the first one raises
      `IndexError`. The first failure stops the loop, and the cells written
      before it stay written. */
  function SetCols(d: Display, row: seq<ColorCode>, i: int, y: int, j: int, jEnd: int, fixed: bool): (r: (Display, Option<Exc>))
    requires Valid(d) && y <= j
    ensures Valid(r.0) && r.0.(pixels := d.pixels) == d
    decreases jEnd - j
  {
    if j >= jEnd then (d, None)
    else if j - y >= |row| then (d, Some(IndexError))
    else
      match SetPixel(d, i, j, row[j - y], fixed)
      case Raise(e) => (d, Some(e))
      case Ok(d1) => SetCols(d1, row, i, y, j + 1, jEnd, fixed)
  }

  /** The outer loop of `set_rect`: columns `i ..` up to the grid's width
      or the rectangle's, each over the first row's length. */
  function SetRows(d: Display, rect: seq<seq<ColorCode>>, x: int, y: int, i: int, fixed: bool): (r: (Display, Option<Exc>))
    requires Valid(d) && x <= i
    ensures Valid(r.0) && r.0.(pixels := d.pixels) == d
    decreases d.columns - i
  {
    if i >= Min(d.columns, x + |rect|) then (d, None)
    else
      var (d1, e) := SetCols(d, rect[i - x], i, y, y, Min(d.rows, y + |rect[0]|), fixed);
      if e.Some? then (d1, e) else SetRows(d1, rect, x, y, i + 1, fixed)
  }

  /** `set_rect(rect_array, x, y)`. */
  function SetRect(d: Display, rect: seq<seq<ColorCode>>, x: int, y: int, fixed: bool): (r: (Display, Option<Exc>))
    requires Valid(d)
    ensures Valid(r.0) && r.0.(pixels := d.pixels) == d
  {
    SetRows(d, rect, x, y, x, fixed)
  }

  /** Every entry of the rectangle is a colour the display accepts. */
  predicate ValidCodes(d: Display, rect: seq<seq<ColorCode>>, fixed: bool)
  {
    forall a, b :: 0 <= a < |rect| && 0 <= b < |rect[a]| ==> ColorCodes(d.bpp, rect[a][b], fixed).Ok?
  }

  /** The rectangle's rows are all as long as its first. */
  predicate Rectangular(rect: seq<seq<ColorCode>>)
  {
    forall a :: 0 <= a < |rect| ==> |rect[a]| == |rect[0]|
  }

  /** The colour a code stands for, once known valid. */
  function ColorOf(d: Display, code: ColorCode, fixed: bool): Color
    requires ColorCodes(d.bpp, code, fixed).Ok?
  {
    ColorCodes(d.bpp, code, fixed).value
  }

  lemma {:induction false} SetColsMeaning(d: Display, row: seq<ColorCode>, i: int, y: int, j: int, jEnd: int, fixed: bool)
    requires Valid(d) && d.order == "TTD_LTR" && y <= j && jEnd <= d.rows && jEnd - y <= |row|
    requires forall b :: 0 <= b < |row| ==> ColorCodes(d.bpp, row[b], fixed).Ok?
    ensures SetCols(d, row, i, y, j, jEnd, fixed).1 == None
    ensures forall a, b :: InGrid(d, a, b) ==>
      Pixel(SetCols(d, row, i, y, j, jEnd, fixed).0, a, b) ==
        if a == i && j <= b < jEnd then ColorOf(d, row[b - y], fixed) else Pixel(d, a, b)
    decreases jEnd - j
  {
    if j < jEnd {
      assert 0 <= j - y < |row|;
      if InGrid(d, i, j) {
        SetPixelMeaning(d, i, j, row[j - y], fixed);
      } else {
        OutsideGrid(d, i, j, row[j - y], fixed);
      }
      var d1 := SetPixel(d, i, j, row[j - y], fixed).value;
      SetColsMeaning(d1, row, i, y, j + 1, jEnd, fixed);
    }
  }

  lemma {:induction false} SetRowsMeaning(d: Display, rect: seq<seq<ColorCode>>, x: int, y: int, i: int, fixed: bool)
    requires Valid(d) && d.order == "TTD_LTR" && x <= i
    requires Rectangular(rect) && ValidCodes(d, rect, fixed)
    ensures SetRows(d, rect, x, y, i, fixed).1 == None
    ensures forall a, b :: InGrid(d, a, b) ==>
      Pixel(SetRows(d, rect, x, y, i, fixed).0, a, b) ==
        if i <= a < x + |rect| && y <= b < y + |rect[0]| then ColorOf(d, rect[a - x][b - y], fixed) else Pixel(d, a, b)
    decreases d.columns - i
  {
    if i < Min(d.columns, x + |rect|) {
      var row := rect[i - x];
      var jEnd := Min(d.rows, y + |rect[0]|);
      if y <= jEnd {
        SetColsMeaning(d, row, i, y, y, jEnd, fixed);
      }
      var d1 := SetCols(d, row, i, y, y, jEnd, fixed).0;
      SetRowsMeaning(d1, rect, x, y, i + 1, fixed);
    }
  }

  /** `set_rect` on a rectangular array of valid colours writes
      `rect[i - x][j - y]` to every in-grid cell `(i, j)` the rectangle
      covers, and leaves every other cell alone. */
  lemma SetRectMeaning(d: Display, rect: seq<seq<ColorCode>>, x: int, y: int, fixed: bool)
    requires Valid(d) && d.order == "TTD_LTR"
    requires Rectangular(rect) && ValidCodes(d, rect, fixed)
    ensures SetRect(d, rect, x, y, fixed).1 == None
    ensures forall a, b :: InGrid(d, a, b) ==>
      Pixel(SetRect(d, rect, x, y, fixed).0, a, b) ==
        if x <= a < x + |rect| && y <= b < y + |rect[0]| then ColorOf(d, rect[a - x][b - y], fixed) else Pixel(d, a, b)
  {
    SetRowsMeaning(d, rect, x, y, x, fixed);
  }

  // ---------------------------------------------------------------------
  // Clear and transpose
  // ---------------------------------------------------------------------

  /** `clear`: every pixel of the strip becomes `'black'` (the transfer to
      the LEDs is not modelled). Only a display of three or four bytes per
      pixel has a `'black'`. */
  method Clear(d: Display, fixed: bool) returns (r: Result<Display>)
    requires Valid(d)
    ensures r.Ok? <==> |d.pixels| == 0 || d.bpp == 3 || d.bpp == 4
    ensures r.Raise? ==> r.exc == ValueError("")
    ensures r.Ok? ==> Valid(r.value) && r.value.(pixels := d.pixels) == d
    ensures r.Ok? ==> forall k :: 0 <= k < |d.pixels| ==> r.value.pixels[k] == seq(d.bpp, _ => 0)
  {
    var px := d.pixels;
    var i := 0;
    while i < |px|
      invariant 0 <= i <= |px| == |d.pixels|
      invariant i > 0 ==> d.bpp == 3 || d.bpp == 4
      invariant forall k :: 0 <= k < i ==> px[k] == seq(d.bpp, _ => 0)
    {
      var black := ColorCodes(d.bpp, Name("black"), fixed);
      NamedColorShape(d.bpp, "black", fixed);
      if black.Raise? {
        return Raise(black.exc);
      }
      assert black.value == seq(d.bpp, _ => 0);
      px := px[i := black.value];
      i := i + 1;
    }
    return Ok(d.(pixels := px));
  }

  /** The transpose of a rectangular array: row `i` holds column `i`. */
  function Transposed<T>(rect: seq<seq<T>>): seq<seq<T>>
    requires |rect| > 0 && Rows(rect, |rect[0]|)
  {
    seq(|rect[0]|, i requires 0 <= i < |rect[0]| => seq(|rect|, j requires 0 <= j < |rect| => rect[j][i]))
  }

  /** Every row has length `n`. */
  predicate Rows<T>(rect: seq<seq<T>>, n: int)
  {
    forall j :: 0 <= j < |rect| ==> |rect[j]| == n
  }

  /** `_transpose`: for a rectangular array it builds the transpose; an
      empty array has no first row and raises `IndexError`, as does any row
      shorter than the first. */
  method Transpose<T>(rect: seq<seq<T>>) returns (r: Result<seq<seq<T>>>)
    ensures r.Raise? <==> |rect| == 0 || exists j :: 0 <= j < |rect| && |rect[j]| < |rect[0]|
    ensures r.Raise? ==> r.exc == IndexError
    ensures r.Ok? ==> |r.value| == |rect[0]|
    ensures r.Ok? ==> forall i :: 0 <= i < |rect[0]| ==> (|r.value[i]| == |rect|
      && forall j :: 0 <= j < |rect| ==> r.value[i][j] == rect[j][i])
  {
    if |rect| == 0 {
      return Raise(IndexError);
    }
    var ret: seq<seq<T>> := [];
    var c := |rect|;
    var n := |rect[0]|;
    var i := 0;
    while i < n
      invariant 0 <= i <= n && |ret| == i
      invariant forall j :: 0 <= j < c ==> |rect[j]| >= i
      invariant forall a :: 0 <= a < i ==> |ret[a]| == c && forall j :: 0 <= j < c ==> ret[a][j] == rect[j][a]
    {
      var line: seq<T> := [];
      var j := 0;
      while j < c
        invariant 0 <= j <= c && |line| == j
        invariant forall b :: 0 <= b < j ==> |rect[b]| > i && line[b] == rect[b][i]
      {
        if i >= |rect[j]| {
          return Raise(IndexError);
        }
        line := line + [rect[j][i]];
        j := j + 1;
      }
      ret := ret + [line];
      i := i + 1;
    }
    return Ok(ret);
  }

  /** Transposing twice gives the array back, for a rectangular array with
      non-empty rows (an array of empty rows transposes to `[]`, which has
      no first row). */
  lemma TransposeInvolution<T>(rect: seq<seq<T>>)
    requires |rect| > 0 && |rect[0]| > 0 && Rows(rect, |rect[0]|)
    ensures Rows(Transposed(rect), |rect|)
    ensures Transposed(Transposed(rect)) == rect
  {
    var t := Transposed(rect);
    assert |t| == |rect[0]| && forall i :: 0 <= i < |t| ==> |t[i]| == |rect|;
    var tt := Transposed(t);
    assert |tt| == |rect|;
    forall j | 0 <= j < |rect|
      ensures tt[j] == rect[j]
    {
      assert |tt[j]| == |rect[j]|;
    }
  }
}

=== FILE: pca9685.dfy ===
/** The PCA9685 PWM controller of the Super:Bit extension board
    (`mbit_ext/superbit_extension_board.py`): the bit-field helpers
    `set_bit_to` and `get_bit`, the prescale computation, the composition of
    the MODE1 and MODE2 registers, and the register writes of `set_led_pwm`.
    The I2C bus is a list of the register writes that would be sent; delays
    and the warning `print`s are not modelled.
 */
module Pca9685 {
  import opened Wrappers
  import opened Arith

  // ---------------------------------------------------------------------
  // Bit fields
  // ---------------------------------------------------------------------

  /** `set_bit_to(value, bit_value, bit_position, bits)`: `None` leaves the
      value alone; otherwise the field is cleared and `bit_value & mask`
      written into it. */
  function SetBitTo(v: int, b: Option<int>, pos: nat, bits: nat): int
  {
    match b
    case None => v
    case Some(x) => v - Field(v, pos, bits) * Pow2(pos) + (x % Pow2(bits)) * Pow2(pos)
  }

  /** `set_bit_to` writes `bit_value & mask` into the field and keeps the
      bits above and below it. */
  lemma SetBitToMeaning(v: int, x: int, pos: nat, bits: nat)
    ensures Field(SetBitTo(v, Some(x), pos, bits), pos, bits) == x % Pow2(bits)
    ensures SetBitTo(v, Some(x), pos, bits) / Pow2(pos + bits) == v / Pow2(pos + bits)
    ensures SetBitTo(v, Some(x), pos, bits) % Pow2(pos) == v % Pow2(pos)
  {
    Decompose(v, pos, bits);
    var r := SetBitTo(v, Some(x), pos, bits);
    assert r == (v / Pow2(pos + bits)) * Pow2(pos + bits) + (x % Pow2(bits)) * Pow2(pos) + v % Pow2(pos);
    Recompose(r, v / Pow2(pos + bits), x % Pow2(bits), v % Pow2(pos), pos, bits);
  }

  /** Every bit outside the field keeps its value. */
  lemma SetBitToKeeps(v: int, x: int, pos: nat, bits: nat, q: nat)
    requires q < pos || q >= pos + bits
    ensures Field(SetBitTo(v, Some(x), pos, bits), q, 1) == Field(v, q, 1)
  {
    var r := SetBitTo(v, Some(x), pos, bits);
    SetBitToMeaning(v, x, pos, bits);
    if q < pos {
      BitBelow(r, pos, q);
      BitBelow(v, pos, q);
    } else {
      BitAbove(r, pos + bits, q);
      BitAbove(v, pos + bits, q);
    }
  }

  /** What `get_bit` reads: an integer, or a `bytes`/`bytearray` whose first
      element is taken. */
  datatype RegValue = IntValue(i: int) | BytesValue(b: seq<byte>)

  /** `get_bit`; an empty byte string raises `IndexError`. */
  function GetBit(v: RegValue, pos: nat, bits: nat): (r: Result<nat>)
    ensures v.IntValue? ==> r == Ok(Field(v.i, pos, bits))
    ensures v.BytesValue? ==> (r.Ok? <==> |v.b| > 0)
    ensures v.BytesValue? && |v.b| > 0 ==> r == Ok(Field(v.b[0] as int, pos, bits))
  {
    match v
    case IntValue(i) => Ok(Field(i, pos, bits))
    case BytesValue(b) => if |b| == 0 then Raise(IndexError) else Ok(Field(b[0] as int, pos, bits))
  }

  /** `get_bit(set_bit_to(v, b, p, n), p, n) == b & mask`. */
  lemma GetSetBit(v: int, x: int, pos: nat, bits: nat)
    ensures GetBit(IntValue(SetBitTo(v, Some(x), pos, bits)), pos, bits) == Ok(x % Pow2(bits))
  {
    SetBitToMeaning(v, x, pos, bits);
  }

  /** Writing a field inside the low eight bits keeps a byte a byte. */
  lemma ByteStays(v: int, x: int, pos: nat, bits: nat)
    requires 0 <= v < 256 && pos + bits <= 8
    ensures 0 <= SetBitTo(v, Some(x), pos, bits) < 256
  {
    var r := SetBitTo(v, Some(x), pos, bits);
    var top := Pow2(pos + bits);
    var up := Pow2(8 - pos - bits);
    SetBitToMeaning(v, x, pos, bits);
    assert Pow2(8) == 256;
    assert top * up == 256 by { Pow2Add(pos + bits, 8 - pos - bits); }
    DivDiv(v, top, up);
    DivDiv(r, top, up);
    assert v / 256 == 0;
    assert r / 256 == 0;
    assert r >= 0 by {
      Decompose(v, pos, bits);
      assert v / top >= 0;
      assert r == (v / top) * top + (x % Pow2(bits)) * Pow2(pos) + v % Pow2(pos);
      MulMono(0, v / top, top);
      MulMono(0, x % Pow2(bits), Pow2(pos));
    }
  }

  // ---------------------------------------------------------------------
  // The PWM frequency
  // ---------------------------------------------------------------------

  const DEFAULT_CLOCK := 25_000_000
  const DEFAULT_FREQ := 50

  /** `prescale(freq)`: `clock // (4096 * freq) - 1`, kept when it lies in
      `[3, 255]` and clamped into that range otherwise; a zero frequency
      divides by zero. */
  function Prescale(clock: int, freq: int): (r: Result<int>)
    ensures r.Ok? <==> freq != 0
    ensures r.Raise? ==> r.exc == ZeroDivisionError
    ensures r.Ok? ==> 3 <= r.value <= 255
    ensures r.Ok? && 3 <= FloorDiv(clock, 4096 * freq) - 1 <= 255 ==> r.value == FloorDiv(clock, 4096 * freq) - 1
  {
    if freq == 0 then Raise(ZeroDivisionError)
    else
      var p := FloorDiv(clock, 4096 * freq) - 1;
      if 3 <= p <= 255 then Ok(p)
      else Ok(if p > 255 then 255 else if p < 3 then 3 else p)
  }

  /** The board's defaults give prescale 121 (about 50 Hz). */
  lemma DefaultPrescale()
    ensures Prescale(DEFAULT_CLOCK, DEFAULT_FREQ) == Ok(121)
  {
    assert FloorDiv(DEFAULT_CLOCK, 4096 * DEFAULT_FREQ) == 122;
  }

  /** A higher frequency never asks for a larger prescale. */
  lemma PrescaleMonotone(clock: int, f1: int, f2: int)
    requires clock >= 0 && 0 < f1 <= f2
    ensures Prescale(clock, f2).value <= Prescale(clock, f1).value
  {
    DivAntitone(clock, 4096 * f1, 4096 * f2);
  }

  // ---------------------------------------------------------------------
  // Mode registers
  // ---------------------------------------------------------------------

  /** `bytes([x])`: a byte, or MicroPython's `ValueError` outside
      `0..255`. */
  function ToByte(x: int): (r: Result<int>)
    ensures r.Ok? <==> 0 <= x < 256
    ensures r.Ok? ==> r.value == x
  {
    if 0 <= x < 256 then Ok(x) else Raise(ValueError("bytes value out of range"))
  }

  /** One-bit fields applied in order, each `(value, position)`. */
  function SetFields(v: int, fs: seq<(Option<int>, nat)>): int
  {
    if |fs| == 0 then v
    else SetBitTo(SetFields(v, fs[..|fs| - 1]), fs[|fs| - 1].0, fs[|fs| - 1].1, 1)
  }

  /** The value the last field at position `q` that is not `None` writes. */
  function LastAt(fs: seq<(Option<int>, nat)>, q: nat): Option<int>
  {
    if |fs| == 0 then None
    else if fs[|fs| - 1].1 == q && fs[|fs| - 1].0.Some? then fs[|fs| - 1].0
    else LastAt(fs[..|fs| - 1], q)
  }

  /** Each bit ends with the last value written to it, or its old value. */
  lemma {:induction false} SetFieldsBit(v: int, fs: seq<(Option<int>, nat)>, q: nat)
    ensures LastAt(fs, q).Some? ==> Field(SetFields(v, fs), q, 1) == LastAt(fs, q).value % 2
    ensures LastAt(fs, q).None? ==> Field(SetFields(v, fs), q, 1) == Field(v, q, 1)
  {
    if |fs| > 0 {
      var init := fs[..|fs| - 1];
      var (b, p) := fs[|fs| - 1];
      var u := SetFields(v, init);
      SetFieldsBit(v, init, q);
      match b
      case None =>
      case Some(x) =>
        if p == q {
          SetBitToMeaning(u, x, p, 1);
        } else {
          SetBitToKeeps(u, x, p, 1, q);
        }
    }
  }

  /** Fields below bit 8 keep a byte a byte. */
  lemma {:induction false} SetFieldsByte(v: int, fs: seq<(Option<int>, nat)>)
    requires 0 <= v < 256
    requires forall k :: 0 <= k < |fs| ==> fs[k].1 < 8
    ensures 0 <= SetFields(v, fs) < 256
  {
    if |fs| > 0 {
      SetFieldsByte(v, fs[..|fs| - 1]);
      var b := fs[|fs| - 1].0;
      if b.Some? {
        ByteStays(SetFields(v, fs[..|fs| - 1]), b.value, fs[|fs| - 1].1, 1);
      }
    }
  }

  /** The named arguments of `set_mode1`, from bit 7 down to bit 0. */
  datatype Mode1Args = Mode1Args(
    restart: Option<int>, extClock: Option<int>, ai: Option<int>, sleep: Option<int>,
    sub1: Option<int>, sub2: Option<int>, sub3: Option<int>, allcall: Option<int>)

  function Mode1Fields(a: Mode1Args): seq<(Option<int>, nat)>
  {
    [(a.restart, 7), (a.extClock, 6), (a.ai, 5), (a.sleep, 4),
     (a.sub1, 3), (a.sub2, 2), (a.sub3, 1), (a.allcall, 0)]
  }

  /** `set_mode1`: from the cached MODE1 (0 before the first write), the
      fields given, or `raw_val` when it is given; the register is written
      with `bytes([mode1])`, so a value outside a byte raises and the cache
      is left as it was. */
  function SetMode1(cache: Option<int>, raw: Option<int>, a: Mode1Args): (r: Result<int>)
  {
    var mode1 := match cache case None => 0 case Some(m) => m;
    var v := match raw case Some(x) => x case None => SetFields(mode1, Mode1Fields(a));
    ToByte(v)
  }

  /** A MODE1 field that is given sets its bit to its lowest bit, one that
      is `None` keeps the cached bit, and a valid cache always gives a byte. */
  lemma Mode1Bits(cache: Option<int>, a: Mode1Args, i: nat)
    requires i < 8
    requires cache.Some? ==> 0 <= cache.value < 256
    ensures SetMode1(cache, None, a).Ok?
    ensures Mode1Fields(a)[i].0.Some? ==>
      Field(SetMode1(cache, None, a).value, 7 - i, 1) == Mode1Fields(a)[i].0.value % 2
    ensures Mode1Fields(a)[i].0.None? ==>
      Field(SetMode1(cache, None, a).value, 7 - i, 1) == Field(if cache.Some? then cache.value else 0, 7 - i, 1)
  {
    var m := if cache.Some? then cache.value else 0;
    var fs := Mode1Fields(a);
    SetFieldsByte(m, fs);
    SetFieldsBit(m, fs, 7 - i);
    assert LastAt(fs, 7 - i) == fs[i].0 by { LastAtDistinct(fs, i); }
  }

  /** With distinct positions the field at a position is the last one there. */
  lemma {:induction false} LastAtDistinct(fs: seq<(Option<int>, nat)>, i: nat)
    requires i < |fs|
    requires forall j, k :: 0 <= j < k < |fs| ==> fs[j].1 != fs[k].1
    ensures LastAt(fs, fs[i].1) == fs[i].0
  {
    var init := fs[..|fs| - 1];
    if i < |fs| - 1 {
      assert init[i] == fs[i];
      assert fs[|fs| - 1].1 != fs[i].1;
      LastAtDistinct(init, i);
    } else {
      LastAtAbsent(init, fs[i].1);
    }
  }

  lemma {:induction false} LastAtAbsent(fs: seq<(Option<int>, nat)>, q: nat)
    requires forall k :: 0 <= k < |fs| ==> fs[k].1 != q
    ensures LastAt(fs, q).None?
  {
    if |fs| > 0 {
      LastAtAbsent(fs[..|fs| - 1], q);
    }
  }

  /** `raw_val` overrides every field. */
  lemma Mode1Raw(cache: Option<int>, raw: int, a: Mode1Args)
    ensures SetMode1(cache, Some(raw), a) == ToByte(raw)
  {
  }

  /** `set_mode2`: from the cached MODE2 (0x04 before the first write), the
      one-bit fields at bits 4, 3 and 2 and the two-bit `outne` at bit 0. */
  function SetMode2(cache: Option<int>, invert: Option<int>, och: Option<int>, outdrv: Option<int>, outne: Option<int>): Result<int>
  {
    var mode2 := match cache case None => 0x04 case Some(m) => m;
    var v := SetBitTo(SetBitTo(SetBitTo(SetBitTo(mode2, invert, 4, 1), och, 3, 1), outdrv, 2, 1), outne, 0, 2);
    ToByte(v)
  }

  /** `get_mode2` reads back what `set_mode2` wrote, field by field. */
  lemma Mode2ReadsBack(cache: Option<int>, invert: int, och: int, outdrv: int, outne: int)
    requires cache.Some? ==> 0 <= cache.value < 256
    ensures SetMode2(cache, Some(invert), Some(och), Some(outdrv), Some(outne)).Ok?
    ensures var m := SetMode2(cache, Some(invert), Some(och), Some(outdrv), Some(outne)).value;
      && Field(m, 4, 1) == invert % 2 && Field(m, 3, 1) == och % 2
      && Field(m, 2, 1) == outdrv % 2 && Field(m, 0, 2) == outne % 4
  {
    var m0 := if cache.Some? then cache.value else 0x04;
    var m1 := SetBitTo(m0, Some(invert), 4, 1);
    var m2 := SetBitTo(m1, Some(och), 3, 1);
    var m3 := SetBitTo(m2, Some(outdrv), 2, 1);
    var m4 := SetBitTo(m3, Some(outne), 0, 2);
    ByteStays(m0, invert, 4, 1);
    ByteStays(m1, och, 3, 1);
    ByteStays(m2, outdrv, 2, 1);
    ByteStays(m3, outne, 0, 2);
    SetBitToMeaning(m0, invert, 4, 1);
    SetBitToMeaning(m1, och, 3, 1);
    SetBitToMeaning(m2, outdrv, 2, 1);
    SetBitToMeaning(m3, outne, 0, 2);
    SetBitToKeeps(m1, och, 3, 1, 4);
    SetBitToKeeps(m2, outdrv, 2, 1, 4);
    SetBitToKeeps(m2, outdrv, 2, 1, 3);
    SetBitToKeeps(m3, outne, 0, 2, 4);
    SetBitToKeeps(m3, outne, 0, 2, 3);
    SetBitToKeeps(m3, outne, 0, 2, 2);
    assert Pow2(1) == 2 && Pow2(2) == 4;
  }

  // ---------------------------------------------------------------------
  // PWM registers
  // ---------------------------------------------------------------------

  /** Python's `round` on a float: to the nearest integer, ties to even. */
  function Round(x: real): (r: int)
    ensures (r as real) - x <= 0.5 && x - (r as real) <= 0.5
    ensures (r as real) - x == 0.5 || x - (r as real) == 0.5 ==> r % 2 == 0
  {
    var f := x.Floor;
    var d := x - f as real;
    if d < 0.5 then f else if d > 0.5 then f + 1 else if f % 2 == 0 then f else f + 1
  }

  /** A tick already in `[0, 4095]` rounds to a tick in that range. */
  lemma RoundInRange(x: real)
    requires 0.0 <= x <= 4095.0
    ensures 0 <= Round(x) <= 4095
  {
  }

  /** One register write: `(register, value)`. */
  datatype Write = Write(reg: int, value: int)

  /** Writes in order until a value is not a byte: what was written, and the
      error that stopped the rest. */
  function WriteBytes(ws: seq<Write>): (r: (seq<Write>, Option<Exc>))
    ensures r.0 <= ws
    ensures r.1.None? <==> r.0 == ws
    ensures forall k :: 0 <= k < |r.0| ==> 0 <= r.0[k].value < 256
    ensures r.1.Some? ==> |r.0| < |ws| && !(0 <= ws[|r.0|].value < 256) && r.1 == Some(ToByte(ws[|r.0|].value).exc)
  {
    if |ws| == 0 then ([], None)
    else if !(0 <= ws[0].value < 256) then ([], Some(ToByte(ws[0].value).exc))
    else
      var (done, e) := WriteBytes(ws[1..]);
      assert e.None? ==> [ws[0]] + done == ws;
      ([ws[0]] + done, e)
  }

  const LED0_ON_L := 6

  /** `set_led_pwm(led_id, on_tick, off_tick)`: both ticks rounded; a sum
      above 4095 raises before anything is written; otherwise the low and
      high byte of `on` and then of `off` go to registers `4 * led_id + 6`
      to `+ 9`, one write each, stopping at a byte that `bytes()` refuses. */
  function SetLedPwm(id: int, on: real, off: real): (r: (seq<Write>, Option<Exc>))
    ensures Round(on) + Round(off) > 4095 <==> r == ([], Some(ValueError("")))
  {
    var a := Round(on);
    var b := Round(off);
    if a + b > 4095 then ([], Some(ValueError("")))
    else
      var base := id * 4 + LED0_ON_L;
      WriteBytes([Write(base, a % 256), Write(base + 1, a / 256), Write(base + 2, b % 256), Write(base + 3, b / 256)])
  }

  /** With both ticks non-negative and their sum at most 4095, all four
      registers are written and hold the ticks as low and high bytes. */
  lemma LedPwmReadsBack(id: int, on: real, off: real)
    requires 0 <= Round(on) && 0 <= Round(off) && Round(on) + Round(off) <= 4095
    ensures SetLedPwm(id, on, off).1.None?
    ensures var w := SetLedPwm(id, on, off).0;
      && |w| == 4
      && (forall k :: 0 <= k < 4 ==> w[k].reg == 4 * id + 6 + k)
      && w[0].value + 256 * w[1].value == Round(on)
      && w[2].value + 256 * w[3].value == Round(off)
  {
    var a := Round(on);
    var b := Round(off);
    var base := id * 4 + LED0_ON_L;
    var ws := [Write(base, a % 256), Write(base + 1, a / 256), Write(base + 2, b % 256), Write(base + 3, b / 256)];
    assert a / 256 < 256 && b / 256 < 256;
    assert forall k :: 0 <= k < 4 ==> 0 <= ws[k].value < 256;
    WriteAllBytes(ws);
  }

  lemma {:induction false} WriteAllBytes(ws: seq<Write>)
    requires forall k :: 0 <= k < |ws| ==> 0 <= ws[k].value < 256
    ensures WriteBytes(ws) == (ws, None)
  {
    if |ws| > 0 {
      WriteAllBytes(ws[1..]);
      assert [ws[0]] + ws[1..] == ws;
    }
  }

  /** A negative `on` tick is written as its low byte, and then `bytes()`
      refuses the high byte, so the channel is left half written. */
  lemma NegativeTickHalfWrites(id: int, on: real, off: real)
    requires Round(on) < 0 && Round(on) + Round(off) <= 4095
    ensures |SetLedPwm(id, on, off).0| == 1 && SetLedPwm(id, on, off).1.Some?
  {
    var a := Round(on);
    var b := Round(off);
    var base := id * 4 + LED0_ON_L;
    var ws := [Write(base, a % 256), Write(base + 1, a / 256), Write(base + 2, b % 256), Write(base + 3, b / 256)];
    assert a / 256 < 0;
    assert ws[1..][0].value < 0;
    assert WriteBytes(ws[1..]).0 == [];
  }
}

=== FILE: pystr.dfy ===
/** The few Python `str` and `int` built-ins the firmware leans on, with
    MicroPython's ASCII-only character classes. Each is defined once here and
    used by the parsers of the other modules.
 */
module PyStr {
  import opened Wrappers

  /** Position of the first `c` in `s`, or `|s|` when there is none. */
  function Find(s: string, c: char): (i: nat)
    ensures i <= |s|
    ensures forall k :: 0 <= k < i ==> s[k] != c
    ensures i < |s| ==> s[i] == c
    ensures i == |s| <==> c !in s
  {
    if |s| == 0 then 0
    else if s[0] == c then 0
    else 1 + Find(s[1..], c)
  }

  /** `s.split(c)`: every piece between separators, empty pieces included. */
  function Split(s: string, c: char): (parts: seq<string>)
    ensures |parts| >= 1
    ensures forall k :: 0 <= k < |parts| ==> c !in parts[k]
    ensures forall k :: 0 <= k < |parts| ==> forall ch :: ch in parts[k] ==> ch in s
    decreases |s|
  {
    var i := Find(s, c);
    if i == |s| then [s] else [s[..i]] + Split(s[i + 1..], c)
  }

  /** `Split` when the first separator sits at `i`. */
  lemma SplitAt(s: string, c: char, i: nat)
    requires i < |s| && s[i] == c && forall k :: 0 <= k < i ==> s[k] != c
    ensures Split(s, c) == [s[..i]] + Split(s[i + 1..], c)
  {
    assert Find(s, c) == i;
  }

  /** `c.join(parts)`. */
  function Join(parts: seq<string>, c: char): string
  {
    if |parts| == 0 then ""
    else if |parts| == 1 then parts[0]
    else parts[0] + [c] + Join(parts[1..], c)
  }

  /** Joining the pieces of a split gives the string back. */
  lemma {:induction false} JoinSplit(s: string, c: char)
    ensures Join(Split(s, c), c) == s
    decreases |s|
  {
    var i := Find(s, c);
    if i < |s| {
      var rest := Split(s[i + 1..], c);
      JoinSplit(s[i + 1..], c);
      assert Split(s, c) == [s[..i]] + rest;
      assert Join([s[..i]] + rest, c) == s[..i] + [c] + Join(rest, c) by {
        assert ([s[..i]] + rest)[1..] == rest;
      }
      assert s == s[..i] + [c] + s[i + 1..];
    }
  }

  /** `s.split(c, 1)` when `c` occurs: the text before and after the first `c`. */
  function Partition(s: string, c: char): (r: Option<(string, string)>)
    ensures r.None? <==> c !in s
    ensures r.Some? ==> s == r.value.0 + [c] + r.value.1 && c !in r.value.0
  {
    var i := Find(s, c);
    if i == |s| then None
    else
      assert s == s[..i] + [c] + s[i + 1..];
      Some((s[..i], s[i + 1..]))
  }

  /** `s.rsplit(c, 1)` when `c` occurs: the text before and after the last `c`. */
  function RPartition(s: string, c: char): (r: Option<(string, string)>)
    ensures r.None? <==> c !in s
    ensures r.Some? ==> s == r.value.0 + [c] + r.value.1 && c !in r.value.1
  {
    if |s| == 0 then None
    else if s[|s| - 1] == c then
      assert s == s[..|s| - 1] + [c] + "";
      Some((s[..|s| - 1], ""))
    else
      match RPartition(s[..|s| - 1], c)
      case None =>
        assert s == s[..|s| - 1] + [s[|s| - 1]];
        None
      case Some((a, b)) =>
        assert s == s[..|s| - 1] + [s[|s| - 1]];
        Some((a, b + [s[|s| - 1]]))
  }

  /** `s.lstrip(c)` for a single strip character. */
  function LStrip(s: string, c: char): (r: string)
    ensures |r| == 0 || r[0] != c
    ensures exists k :: 0 <= k <= |s| && r == s[k..] && forall j :: 0 <= j < k ==> s[j] == c
  {
    if |s| > 0 && s[0] == c then
      var r := LStrip(s[1..], c);
      ghost var k :| 0 <= k <= |s[1..]| && r == s[1..][k..] && forall j :: 0 <= j < k ==> s[1..][j] == c;
      assert r == s[k + 1..];
      r
    else
      assert s == s[0..];
      s
  }

  /** `s.rstrip(c)` for a single strip character. */
  function RStrip(s: string, c: char): (r: string)
    ensures |r| == 0 || r[|r| - 1] != c
    ensures r <= s
    ensures forall ch :: ch in r ==> ch in s
  {
    if |s| > 0 && s[|s| - 1] == c then RStrip(s[..|s| - 1], c) else s
  }

  /** `s.strip(c)`. */
  function Strip(s: string, c: char): (r: string)
    ensures forall ch :: ch in r ==> ch in s
  {
    RStrip(LStrip(s, c), c)
  }

  /** `s.replace(pat, rep)`: occurrences are found left to right and do not overlap. */
  function Replace(s: string, pat: string, rep: string): string
    requires |pat| > 0
    decreases |s|
  {
    if |s| < |pat| then s
    else if s[..|pat|] == pat then rep + Replace(s[|pat|..], pat, rep)
    else [s[0]] + Replace(s[1..], pat, rep)
  }

  /** `s.replace(a, b)` for one-character `a` and `b`. */
  function ReplaceChar(s: string, a: char, b: char): (r: string)
    ensures |r| == |s|
    ensures forall k :: 0 <= k < |s| ==> r[k] == (if s[k] == a then b else s[k])
  {
    if |s| == 0 then "" else [if s[0] == a then b else s[0]] + ReplaceChar(s[1..], a, b)
  }

  /** `pat in s` for a two-character pattern. */
  predicate ContainsPair(s: string, a: char, b: char)
  {
    exists k :: 0 <= k < |s| - 1 && s[k] == a && s[k + 1] == b
  }

  /** A string that does not start with `..` keeps its first character under
      the removal of `..`. */
  lemma {:induction false} RemoveDotDotHead(s: string)
    requires |s| > 0 && !(|s| >= 2 && s[0] == '.' && s[1] == '.')
    ensures |Replace(s, "..", "")| > 0 && Replace(s, "..", "")[0] == s[0]
  {
  }

  /** Removing every `..` left to right leaves no `..` behind. */
  lemma {:induction false} RemoveDotDotComplete(s: string)
    ensures !ContainsPair(Replace(s, "..", ""), '.', '.')
    decreases |s|
  {
    if |s| < 2 {
    } else if s[..2] == ".." {
      RemoveDotDotComplete(s[2..]);
    } else {
      var t := s[1..];
      var rt := Replace(t, "..", "");
      RemoveDotDotComplete(t);
      assert Replace(s, "..", "") == [s[0]] + rt;
      if s[0] == '.' {
        assert t[0] != '.';
        RemoveDotDotHead(t);
      }
      var r := [s[0]] + rt;
      forall k | 0 <= k < |r| - 1
        ensures !(r[k] == '.' && r[k + 1] == '.')
      {
        if k > 0 {
          assert r[k] == rt[k - 1] && r[k + 1] == rt[k];
        }
      }
    }
  }

  predicate IsAsciiDigit(c: char)
  {
    '0' <= c <= '9'
  }

  /** MicroPython's `str.isdigit()`: non-empty and every character an ASCII digit. */
  predicate IsDigits(s: string)
  {
    |s| > 0 && forall k :: 0 <= k < |s| ==> IsAsciiDigit(s[k])
  }

  /** MicroPython's whitespace class, as `str.strip()` and `int()` use it. */
  predicate IsSpace(c: char)
  {
    c == ' ' || c == '\t' || c == '\n' || c == '\r' || c == 11 as char || c == 12 as char
  }

  function ToUpper(c: char): char
  {
    if 'a' <= c <= 'z' then (c as int - 32) as char else c
  }

  function ToLower(c: char): char
  {
    if 'A' <= c <= 'Z' then (c as int + 32) as char else c
  }

  /** `s.upper()` on ASCII letters. */
  function Upper(s: string): (r: string)
    ensures |r| == |s| && forall k :: 0 <= k < |s| ==> r[k] == ToUpper(s[k])
  {
    if |s| == 0 then "" else [ToUpper(s[0])] + Upper(s[1..])
  }

  /** `s.lower()` on ASCII letters. */
  function Lower(s: string): (r: string)
    ensures |r| == |s| && forall k :: 0 <= k < |s| ==> r[k] == ToLower(s[k])
  {
    if |s| == 0 then "" else [ToLower(s[0])] + Lower(s[1..])
  }

  /** The value of an alphanumeric character as a digit of any base up to 36. */
  function DigitValue(c: char): Option<nat>
  {
    if '0' <= c <= '9' then Some(c as int - '0' as int)
    else if 'a' <= c <= 'z' then Some(c as int - 'a' as int + 10)
    else if 'A' <= c <= 'Z' then Some(c as int - 'A' as int + 10)
    else None
  }

  predicate IsDigitOf(c: char, base: nat)
  {
    DigitValue(c).Some? && DigitValue(c).value < base
  }

  /** The value of a string of digits of `base`, most significant first. */
  predicate AllDigitsOf(s: string, base: nat)
  {
    forall k :: 0 <= k < |s| ==> IsDigitOf(s[k], base)
  }

  function DigitsValue(s: string, base: nat): nat
    requires AllDigitsOf(s, base)
  {
    if |s| == 0 then 0
    else
      assert IsDigitOf(s[|s| - 1], base);
      DigitsValue(s[..|s| - 1], base) * base + DigitValue(s[|s| - 1]).value
  }

  function TrimSpace(s: string): string
    decreases |s|
  {
    if |s| > 0 && IsSpace(s[0]) then TrimSpace(s[1..])
    else if |s| > 0 && IsSpace(s[|s| - 1]) then TrimSpace(s[..|s| - 1])
    else s
  }

  /** The characters `int()` accepts in its digit run: digits of `base`,
      and `_`, which MicroPython's parser skips wherever it stands. */
  predicate DigitRun(s: string, base: nat)
  {
    forall k :: 0 <= k < |s| ==> s[k] == '_' || IsDigitOf(s[k], base)
  }

  /** The value of a digit run, most significant first, every `_`
      skipped. */
  function RunValue(s: string, base: nat): nat
    requires DigitRun(s, base)
  {
    if |s| == 0 then 0
    else
      assert s[|s| - 1] == '_' || IsDigitOf(s[|s| - 1], base);
      if s[|s| - 1] == '_' then RunValue(s[..|s| - 1], base)
      else RunValue(s[..|s| - 1], base) * base + DigitValue(s[|s| - 1]).value
  }

  /** Without underscores a run is read as plain digits. */
  lemma {:induction false} RunValueDigits(s: string, base: nat)
    requires AllDigitsOf(s, base)
    ensures DigitRun(s, base) && RunValue(s, base) == DigitsValue(s, base)
  {
    if |s| > 0 {
      var init := s[..|s| - 1];
      assert AllDigitsOf(init, base) by {
        forall k | 0 <= k < |init| ensures IsDigitOf(init[k], base) {
          assert init[k] == s[k];
        }
      }
      RunValueDigits(init, base);
    }
  }

  /** MicroPython's `int(s, base)`: leading whitespace, an optional sign,
      then a non-empty run of digits of `base` and underscores, then
      trailing whitespace; anything else raises `ValueError`. The
      underscores are skipped wherever they stand, so `"1_0"` is 10,
      `"_4"` in base 16 is 4 and a lone `"_"` is 0. The base prefixes
      (`0x`, `0o`, `0b`) are not modelled: base 16 is only read here on
      texts of at most two characters, where `"0x"` leaves no digits and
      raises either way. */
  function ParseInt(s: string, base: nat): (r: Result<int>)
    requires 2 <= base <= 36
    ensures r.Ok? ==> |TrimSpace(s)| > 0
    ensures r.Raise? ==> r.exc.ValueError?
  {
    var t := TrimSpace(s);
    var neg := |t| > 0 && t[0] == '-';
    var digits := if |t| > 0 && (t[0] == '-' || t[0] == '+') then t[1..] else t;
    if |digits| > 0 && DigitRun(digits, base) then
      var v: int := RunValue(digits, base);
      Ok(if neg then -v else v)
    else Raise(ValueError("invalid literal for int()"))
  }

  /** Skipping an underscore between `a` and `b`. */
  lemma {:induction false} RunSkip(a: string, b: string, base: nat)
    requires DigitRun(a, base) && DigitRun(b, base)
    ensures DigitRun(a + "_" + b, base) && DigitRun(a + b, base)
    ensures RunValue(a + "_" + b, base) == RunValue(a + b, base)
    decreases |b|
  {
    var t, u := a + "_" + b, a + b;
    assert DigitRun(t, base) by {
      forall k | 0 <= k < |t| ensures t[k] == '_' || IsDigitOf(t[k], base) {
        if k < |a| { assert t[k] == a[k]; } else if k > |a| { assert t[k] == b[k - |a| - 1]; }
      }
    }
    assert DigitRun(u, base) by {
      forall k | 0 <= k < |u| ensures u[k] == '_' || IsDigitOf(u[k], base) {
        if k < |a| { assert u[k] == a[k]; } else { assert u[k] == b[k - |a|]; }
      }
    }
    if |b| == 0 {
      assert t[..|t| - 1] == a && u == a;
    } else {
      var init := b[..|b| - 1];
      assert DigitRun(init, base) by {
        forall k | 0 <= k < |init| ensures init[k] == '_' || IsDigitOf(init[k], base) {
          assert init[k] == b[k];
        }
      }
      RunSkip(a, init, base);
      assert t[..|t| - 1] == a + "_" + init && t[|t| - 1] == b[|b| - 1];
      assert u[..|u| - 1] == a + init && u[|u| - 1] == b[|b| - 1];
    }
  }

  /** An underscore between two runs of digits changes nothing:
      `int(a + "_" + b, base) == int(a + b, base)`. */
  lemma ParseIntSeparator(a: string, b: string, base: nat)
    requires 2 <= base <= 36
    requires |a| > 0 && |b| > 0 && AllDigitsOf(a, base) && AllDigitsOf(b, base)
    ensures ParseInt(a + "_" + b, base).Ok?
    ensures ParseInt(a + "_" + b, base) == ParseInt(a + b, base)
  {
    var t, u := a + "_" + b, a + b;
    RunValueDigits(a, base);
    RunValueDigits(b, base);
    RunSkip(a, b, base);
    assert IsDigitOf(t[0], base) && IsDigitOf(t[|t| - 1], base);
    assert IsDigitOf(u[0], base) && IsDigitOf(u[|u| - 1], base);
    assert TrimSpace(t) == t && TrimSpace(u) == u;
  }

  /** A plain decimal string parses to its value. */
  lemma {:induction false} ParseIntDecimal(s: string)
    requires IsDigits(s)
    ensures forall k :: 0 <= k < |s| ==> IsDigitOf(s[k], 10)
    ensures ParseInt(s, 10) == Ok(DigitsValue(s, 10))
  {
    assert forall k :: 0 <= k < |s| ==> IsDigitOf(s[k], 10);
    RunValueDigits(s, 10);
    assert TrimSpace(s) == s;
  }

  /** Python's index normalisation for `xs[i]` on a sequence of length `n`. */
  function PyIndex(n: nat, i: int): (r: Option<nat>)
    ensures r.Some? <==> -(n as int) <= i < n
    ensures r.Some? ==> r.value < n && (r.value == i || r.value == i + n)
  {
    if 0 <= i < n then Some(i) else if -(n as int) <= i < 0 then Some(i + n) else None
  }

  /** Python's clamping of a slice bound `i` for a sequence of length `n`. */
  function SliceBound(n: nat, i: int): (r: nat)
    ensures r <= n
  {
    if i < 0 then (if i + n < 0 then 0 else i + n) else if i > n then n else i
  }

  /** Python's `xs[i:j]`. */
  function Slice<T>(xs: seq<T>, i: int, j: int): (r: seq<T>)
    ensures |r| <= |xs|
  {
    var a := SliceBound(|xs|, i);
    var b := SliceBound(|xs|, j);
    if a < b then xs[a..b] else []
  }

  function DigitChar(d: nat): char
    requires d < 10
  {
    ('0' as int + d) as char
  }

  /** The decimal digits of `n`, most significant first, without leading zeros. */
  function Digits(n: nat): (r: string)
    ensures |r| > 0 && forall k :: 0 <= k < |r| ==> IsAsciiDigit(r[k])
  {
    if n < 10 then [DigitChar(n)] else Digits(n / 10) + [DigitChar(n % 10)]
  }

  /** `str(n)` for an integer. */
  function DecimalText(n: int): (r: string)
    ensures |r| > 0
  {
    if n < 0 then "-" + Digits(-n) else Digits(n)
  }

  lemma {:induction false} DigitsValueOf(n: nat)
    ensures AllDigitsOf(Digits(n), 10)
    ensures DigitsValue(Digits(n), 10) == n
  {
    var d := Digits(n);
    assert forall k :: 0 <= k < |d| ==> IsDigitOf(d[k], 10);
    if n >= 10 {
      DigitsValueOf(n / 10);
      assert d[..|d| - 1] == Digits(n / 10);
    }
  }

  /** `int(str(n)) == n`. */
  lemma DecimalRoundTrip(n: int)
    ensures ParseInt(DecimalText(n), 10) == Ok(n)
  {
    var m: nat := if n < 0 then -n else n;
    var d := Digits(m);
    DigitsValueOf(m);
    RunValueDigits(d, 10);
    var t := DecimalText(n);
    assert !IsSpace(t[0]) && !IsSpace(t[|t| - 1]);
    assert TrimSpace(t) == t;
    if n < 0 {
      assert t[0] == '-' && t[1..] == d;
    } else {
      assert t == d && t[0] != '-' && t[0] != '+';
    }
  }

  // ---------------------------------------------------------------------
  // Splitting at whitespace
  // ---------------------------------------------------------------------

  /** A word of `str.split()`: non-empty, without whitespace. */
  predicate IsWord(w: string)
  {
    |w| > 0 && forall k :: 0 <= k < |w| ==> !IsSpace(w[k])
  }

  predicate AllSpace(t: string)
  {
    forall k :: 0 <= k < |t| ==> IsSpace(t[k])
  }

  /** Length of the run of non-space characters `s` starts with. */
  function WordEnd(s: string): (n: nat)
    ensures n <= |s|
    ensures forall k :: 0 <= k < n ==> !IsSpace(s[k])
    ensures n < |s| ==> IsSpace(s[n])
  {
    if |s| == 0 || IsSpace(s[0]) then 0 else 1 + WordEnd(s[1..])
  }

  /** `s.split()` without a separator: the maximal runs of non-space
      characters, in order; leading, trailing and repeated whitespace
      yields no empty word. */
  function Words(s: string): (r: seq<string>)
    ensures forall k :: 0 <= k < |r| ==> IsWord(r[k])
    ensures AllSpace(s) ==> r == []
    decreases |s|
  {
    if |s| == 0 then []
    else if IsSpace(s[0]) then Words(s[1..])
    else
      var n := WordEnd(s);
      [s[..n]] + Words(s[n..])
  }

  /** Whitespace in front changes no word. */
  lemma {:induction false} WordsAfterSpace(t: string, rest: string)
    requires AllSpace(t)
    ensures Words(t + rest) == Words(rest)
    decreases |t|
  {
    if |t| > 0 {
      assert (t + rest)[1..] == t[1..] + rest;
      WordsAfterSpace(t[1..], rest);
    } else {
      assert t + rest == rest;
    }
  }

  lemma {:induction false} WordEndOf(w: string, rest: string)
    requires forall k :: 0 <= k < |w| ==> !IsSpace(w[k])
    requires |rest| == 0 || IsSpace(rest[0])
    ensures WordEnd(w + rest) == |w|
    decreases |w|
  {
    if |w| > 0 {
      assert (w + rest)[1..] == w[1..] + rest;
      WordEndOf(w[1..], rest);
    } else {
      assert w + rest == rest;
    }
  }

  /** A word followed by whitespace or nothing is the first word. */
  lemma WordsCons(w: string, rest: string)
    requires IsWord(w) && (|rest| == 0 || IsSpace(rest[0]))
    ensures Words(w + rest) == [w] + Words(rest)
  {
    WordEndOf(w, rest);
    assert (w + rest)[..|w|] == w && (w + rest)[|w|..] == rest;
  }

  /** Splitting words joined by single spaces, with any whitespace after
      them, gives the words back. */
  lemma {:induction false} WordsJoin(ws: seq<string>, tail: string)
    requires forall k :: 0 <= k < |ws| ==> IsWord(ws[k])
    requires AllSpace(tail)
    ensures Words(Join(ws, ' ') + tail) == ws
    decreases |ws|
  {
    if |ws| == 0 {
      assert Join(ws, ' ') + tail == tail;
    } else if |ws| == 1 {
      WordsCons(ws[0], tail);
      assert Join(ws, ' ') + tail == ws[0] + tail;
      assert ws == [ws[0]];
    } else {
      var rest := Join(ws[1..], ' ') + tail;
      assert Join(ws, ' ') + tail == ws[0] + ([' '] + rest);
      WordsCons(ws[0], [' '] + rest);
      WordsAfterSpace([' '], rest);
      WordsJoin(ws[1..], tail);
      assert ws == [ws[0]] + ws[1..];
    }
  }
}

=== FILE: restful_server.dfy ===
/** The example REST server of the client tooling
    (`restful_api_client/restful_server.py`): its path and query parsing,
    the header loop that finds `Content-Length`, the body it turns into the
    payload it echoes, the chain of `if`s that picks the answer, and the
    text `send_response` writes. The socket is a list of the steps the
    handler takes on it; `json.loads`, `json.dumps` and `bytes.decode` are
    parameters or left symbolic.
 */
module RestfulServer {
  import opened Wrappers
  import opened Json
  import opened PyStr
  import opened HttpQuery
  import HttpQueryProperties

  // ---------------------------------------------------------------------
  // Paths and queries
  // ---------------------------------------------------------------------

  /** `parse_path`: the same split as the asynchronous server's, without
      percent-decoding. */
  function ParsePath(full: string): (r: (string, map<string, string>))
    ensures r.0 <= full && '?' !in r.0
    ensures '?' !in full ==> r == (full, map[])
  {
    SplitPath(full, false)
  }

  /** `k` is the text before the first `=` of a piece of `parts`. */
  predicate RawKey(parts: seq<string>, k: string)
  {
    exists i :: 0 <= i < |parts| && '=' in parts[i] && Partition(parts[i], '=').value.0 == k
  }

  /** `(k, v)` is the split of the last piece whose key is `k`. */
  predicate RawEntry(parts: seq<string>, k: string, v: string)
  {
    exists i :: 0 <= i < |parts| && '=' in parts[i] && Partition(parts[i], '=').value == (k, v)
  }

  /** `parse_query`: a key is exactly the text before the first `=` of some
      `&`-piece, taken literally, and its value the text after that `=` in
      one such piece, the last one. */
  lemma RawQueryMeaning(q: string)
    ensures forall k :: k in ParseQuery(q, false) <==> RawKey(Split(q, '&'), k)
    ensures forall k :: k in ParseQuery(q, false) ==> RawEntry(Split(q, '&'), k, ParseQuery(q, false)[k])
  {
    RawQueryKeys(q);
    RawQueryEntries(q);
  }

  /** The keys half of `RawQueryMeaning`. */
  lemma RawQueryKeys(q: string)
    ensures forall k :: k in ParseQuery(q, false) <==> RawKey(Split(q, '&'), k)
  {
    var parts := Split(q, '&');
    var m := ParseQuery(q, false);
    HttpQueryProperties.QueryMeaning(q, false);
    forall k ensures k in m <==> RawKey(parts, k)
    {
      if k in m {
        var i :| 0 <= i < |parts| && HasKey(Pair(parts[i], false), k);
        RawPair(parts[i]);
      }
      if RawKey(parts, k) {
        var i :| 0 <= i < |parts| && '=' in parts[i] && Partition(parts[i], '=').value.0 == k;
        RawPair(parts[i]);
      }
    }
  }

  /** Without decoding, a piece's pair is its split at the first `=`. */
  lemma RawPair(piece: string)
    ensures Pair(piece, false).Some? <==> '=' in piece
    ensures '=' in piece ==> Partition(piece, '=').Some? && Pair(piece, false).value == Partition(piece, '=').value
  {
  }

  /** The values half of `RawQueryMeaning`. */
  lemma RawQueryEntries(q: string)
    ensures forall k :: k in ParseQuery(q, false) ==> RawEntry(Split(q, '&'), k, ParseQuery(q, false)[k])
  {
    forall k | k in ParseQuery(q, false) ensures RawEntry(Split(q, '&'), k, ParseQuery(q, false)[k])
    {
      EntryOf(q, k);
    }
  }

  /** One key's value comes from the last piece that defines it. */
  lemma EntryOf(q: string, k: string)
    requires k in ParseQuery(q, false)
    ensures RawEntry(Split(q, '&'), k, ParseQuery(q, false)[k])
  {
    var parts := Split(q, '&');
    HttpQueryProperties.QueryValueAt(q, false, k);
    var i :| DefinedBy(Pairs(parts, false), k, i) && ParseQuery(q, false)[k] == Pair(parts[i], false).value.1;
    PairEntry(parts, k, i);
  }

  /** The piece that defines a key holds it and its value. */
  lemma PairEntry(parts: seq<string>, k: string, i: int)
    requires DefinedBy(Pairs(parts, false), k, i)
    ensures 0 <= i < |parts| && RawEntry(parts, k, Pair(parts[i], false).value.1)
  {
    assert Pairs(parts, false)[i] == Pair(parts[i], false);
    RawPair(parts[i]);
  }

  // ---------------------------------------------------------------------
  // Headers
  // ---------------------------------------------------------------------

  const CONTENT_LENGTH := "content-length"

  /** `header.lower().startswith(b"content-length")`, letter by letter. */
  predicate IsLengthHeader(h: string)
  {
    |h| >= |CONTENT_LENGTH| && forall k :: 0 <= k < |CONTENT_LENGTH| ==> ToLower(h[k]) == CONTENT_LENGTH[k]
  }

  /** `int(header.decode().split(":")[1].strip())`: the text between the
      first and the second `:`; a header without `:` raises `IndexError`. */
  function LengthValue(h: string): (r: Result<int>)
    ensures ':' !in h ==> r == Raise(IndexError)
  {
    var parts := Split(h, ':');
    if |parts| < 2 then
      assert ':' !in h ==> Find(h, ':') == |h|;
      Raise(IndexError)
    else ParseInt(TrimSpace(parts[1]), 10)
  }

  /** The header loop of `handle_client` over the lines before the blank
      one: `content_length` starts at 0 and the last length header wins. */
  function HeaderLength(headers: seq<string>, current: int): (r: Result<int>)
    ensures (forall k :: 0 <= k < |headers| ==> !IsLengthHeader(headers[k])) ==> r == Ok(current)
  {
    if |headers| == 0 then Ok(current)
    else if IsLengthHeader(headers[0]) then
      match LengthValue(headers[0])
      case Raise(e) => Raise(e)
      case Ok(n) => HeaderLength(headers[1..], n)
    else HeaderLength(headers[1..], current)
  }

  /** How the header loop ends: at the blank line with the content length,
      with the exception a length header raised, or never. */
  datatype HeadersEnd = Blank(length: int) | Failed(exc: Exc) | Endless

  /** The header loop over the stream. `lines` are what `readline()`
      returns before the end of the stream, each non-empty; after them it
      returns `b""` on every call. As written the loop leaves only at
      `b"\r\n"`, so a stream that ends first keeps it spinning; the
      corrected loop (`fixed`) also leaves at `b""`. */
  function ReadHeaders(lines: seq<string>, current: int, fixed: bool): (r: HeadersEnd)
    requires forall k :: 0 <= k < |lines| ==> |lines[k]| > 0
    ensures r.Endless? ==> !fixed && forall k :: 0 <= k < |lines| ==> lines[k] != "\r\n"
    decreases |lines|
  {
    if |lines| == 0 then (if fixed then Blank(current) else Endless)
    else if lines[0] == "\r\n" then Blank(current)
    else if IsLengthHeader(lines[0]) then
      match LengthValue(lines[0])
      case Raise(e) => Failed(e)
      case Ok(n) => ReadHeaders(lines[1..], n, fixed)
    else ReadHeaders(lines[1..], current, fixed)
  }

  /** The position of the first blank line, or `|lines|` when there is none. */
  function BlankAt(lines: seq<string>): (b: nat)
    ensures b <= |lines|
    ensures forall k :: 0 <= k < b ==> lines[k] != "\r\n"
    ensures b < |lines| ==> lines[b] == "\r\n"
    decreases |lines|
  {
    if |lines| == 0 || lines[0] == "\r\n" then 0 else 1 + BlankAt(lines[1..])
  }

  /** The loop reads the headers before the first blank line as
      `HeaderLength` does. With a blank line it ends there; without one the
      corrected loop ends at the end of the stream, while the loop as
      written only ever ends by raising. */
  lemma {:induction false} ReadHeadersMeaning(lines: seq<string>, current: int, fixed: bool)
    requires forall k :: 0 <= k < |lines| ==> |lines[k]| > 0
    ensures var h := HeaderLength(lines[..BlankAt(lines)], current);
      ReadHeaders(lines, current, fixed) ==
        if h.Raise? then Failed(h.exc)
        else if BlankAt(lines) < |lines| || fixed then Blank(h.value)
        else Endless
    decreases |lines|
  {
    if |lines| > 0 && lines[0] != "\r\n" {
      var b := BlankAt(lines);
      assert lines[..b][1..] == lines[1..][..BlankAt(lines[1..])];
      assert lines[..b][0] == lines[0];
      if IsLengthHeader(lines[0]) && LengthValue(lines[0]).Ok? {
        ReadHeadersMeaning(lines[1..], LengthValue(lines[0]).value, fixed);
      } else if !IsLengthHeader(lines[0]) {
        ReadHeadersMeaning(lines[1..], current, fixed);
      }
    }
  }

  /** As written, a client that closes the connection before the blank
      line leaves the loop spinning on `b""` unless a length header raises;
      the corrected loop always ends. */
  lemma EofNeverEnds(lines: seq<string>, current: int)
    requires forall k :: 0 <= k < |lines| ==> |lines[k]| > 0
    requires forall k :: 0 <= k < |lines| ==> lines[k] != "\r\n"
    requires HeaderLength(lines, current).Ok?
    ensures ReadHeaders(lines, current, false) == Endless
    ensures ReadHeaders(lines, current, true) == Blank(HeaderLength(lines, current).value)
  {
    ReadHeadersMeaning(lines, current, false);
    ReadHeadersMeaning(lines, current, true);
    assert lines[..BlankAt(lines)] == lines;
  }

  /** The corrected loop ends on every stream: at the blank line or at
      the end of the stream, with the length read so far, or by raising. */
  lemma FixedHeadersEnd(lines: seq<string>, current: int)
    requires forall k :: 0 <= k < |lines| ==> |lines[k]| > 0
    ensures ReadHeaders(lines, current, true) != Endless
  {
    ReadHeadersMeaning(lines, current, true);
  }

  /** Counterexample: one `Host` line and then the end of the stream. */
  lemma HostThenEof()
    ensures ReadHeaders(["Host: x\r\n"], 0, false) == Endless
    ensures ReadHeaders(["Host: x\r\n"], 0, true) == Blank(0)
  {
    assert !IsLengthHeader("Host: x\r\n") by { assert ToLower('H') != CONTENT_LENGTH[0]; }
  }

  // ---------------------------------------------------------------------
  // The body
  // ---------------------------------------------------------------------

  /** `data`: `None` for an empty body; otherwise what `json.loads` gives,
      or, when it raises, `{"error": str(e), "raw": body.decode()}`. The
      `decode` of a body that is not text raises out of the handler. */
  function BodyData(body: Bytes, loads: Bytes -> Result<Json>, decode: Bytes -> Result<string>): (r: Result<Json>)
    ensures |body| == 0 ==> r == Ok(JNull)
    ensures |body| > 0 && loads(body).Ok? ==> r == loads(body)
    ensures |body| > 0 && loads(body).Raise? ==>
      (r.Ok? <==> decode(body).Ok?)
      && (r.Ok? ==> r.value == JObj(map["error" := JStr(ExcText(loads(body).exc)), "raw" := JStr(decode(body).value)]))
  {
    if |body| == 0 then Ok(JNull)
    else
      match loads(body)
      case Ok(j) => Ok(j)
      case Raise(e) =>
        match decode(body)
        case Ok(t) => Ok(JObj(map["error" := JStr(ExcText(e)), "raw" := JStr(t)]))
        case Raise(e2) => Raise(e2)
  }

  // ---------------------------------------------------------------------
  // Routing
  // ---------------------------------------------------------------------

  /** What the handler does to the connection, in order. */
  datatype Step =
    | SendJson(status: int, body: Json)
    | SendText(status: int, text: string)
    | WriteText(text: string)
    | CloseWriter
    | PublishEvent(topic: string)
    | ACloseWriter

  predicate IsReply(s: Step)
  {
    s.SendJson? || s.SendText?
  }

  /** The query dictionary as the JSON value it is echoed as. */
  function QueryJson(q: map<string, string>): (r: Json)
    ensures r.JObj? && r.fields.Keys == q.Keys
    ensures forall k :: k in q ==> r.fields[k] == JStr(q[k])
  {
    JObj(map k | k in q :: JStr(q[k]))
  }

  function HelloReply(q: map<string, string>): Json
  {
    JObj(map["message" := JStr("Hello from MicroPython"), "query" := QueryJson(q)])
  }

  function EchoReply(verb: string, data: Json, q: map<string, string>): Json
  {
    JObj(map["method" := JStr(verb), "received_payload" := data, "query" := QueryJson(q)])
  }

  const QUIT_STEPS := [WriteText("Shutting down...\r\n"), CloseWriter, PublishEvent("quit")]

  /** The routing of `handle_client` once `data` is known. As written,
      `/hello` answers and then, since the `/quit` test opens a new `if`
      chain, also reaches its final `else` and sends a 404. With `fixed` the
      tests form one chain. */
  function Route(verb: string, fullPath: string, data: Json, fixed: bool): (r: seq<Step>)
    ensures |r| > 0
    ensures r[|r| - 1] == PublishEvent("quit") <==> verb == "GET" && ParsePath(fullPath).0 == "/quit"
    ensures r[|r| - 1] != PublishEvent("quit") ==> r[|r| - 1] == ACloseWriter
  {
    var (path, q) := ParsePath(fullPath);
    var hello := if verb == "GET" && path == "/hello" then [SendJson(200, HelloReply(q))] else [];
    if fixed && |hello| > 0 then hello + [ACloseWriter]
    else if verb == "GET" && path == "/quit" then hello + QUIT_STEPS
    else if verb == "POST" && path == "/data" then hello + [SendJson(200, EchoReply("POST", data, q)), ACloseWriter]
    else if verb == "PUT" && path == "/update" then hello + [SendJson(200, EchoReply("PUT", data, q)), ACloseWriter]
    else hello + [SendText(404, "Not found"), ACloseWriter]
  }

  /** `handle_client` from its request line on: a line that does not split
      into three words makes the unpacking raise `ValueError`, which escapes
      the handler before anything is written, so the writer is never
      closed; otherwise the request is routed. */
  function HandleClient(line: string, data: Json, fixed: bool): (r: Result<seq<Step>>)
    ensures r.Raise? <==> |Words(line)| != 3
    ensures r.Raise? ==> r.exc.ValueError?
    ensures r.Ok? ==> |r.value| > 0
  {
    var (verb, fullPath) :- RequestLine(line);
    Ok(Route(verb, fullPath, data, fixed))
  }

  /** A well-formed request line reaches the routing with its method and
      target. */
  lemma HandleClientLine(verb: string, target: string, data: Json, fixed: bool)
    requires IsWord(verb) && IsWord(target)
    ensures HandleClient(verb + " " + target + " HTTP/1.1\r\n", data, fixed) == Ok(Route(verb, target, data, fixed))
  {
    var line := verb + " " + target + " HTTP/1.1\r\n";
    assert IsWord("HTTP/1.1") && AllSpace("\r\n");
    assert line == verb + " " + target + " " + "HTTP/1.1" + "\r\n";
    HttpQueryProperties.RequestLineReads(verb, target, "HTTP/1.1", "\r\n");
  }

  /** The empty line of a client that connects and closes escapes the
      handler as `ValueError`: nothing is written and the writer stays open. */
  lemma ClosedClientEscapes(data: Json, fixed: bool)
    ensures HandleClient("", data, fixed) == Raise(ValueError("need more than 0 values to unpack"))
  {
    assert Words("") == [];
    assert DecimalText(0) == "0";
  }

  function CountReplies(steps: seq<Step>): nat
  {
    if |steps| == 0 then 0 else (if IsReply(steps[0]) then 1 else 0) + CountReplies(steps[1..])
  }

  lemma {:induction false} CountRepliesAppend(a: seq<Step>, b: seq<Step>)
    ensures CountReplies(a + b) == CountReplies(a) + CountReplies(b)
  {
    if |a| > 0 {
      assert (a + b)[0] == a[0];
      assert (a + b)[1..] == a[1..] + b;
      CountRepliesAppend(a[1..], b);
    } else {
      assert a + b == b;
    }
  }

  /** As written, `GET /hello` answers twice: the greeting, then a 404. */
  lemma HelloAnswersTwice(query: string, data: Json)
    requires '?' !in query
    ensures var q := ParsePath("/hello?" + query).1;
      Route("GET", "/hello?" + query, data, false)
        == [SendJson(200, HelloReply(q)), SendText(404, "Not found"), ACloseWriter]
  {
    var full := "/hello?" + query;
    assert full[6] == '?';
    assert Partition(full, '?').value.0 == "/hello" by {
      assert Find(full, '?') == 6;
    }
  }

  /** As written, every request but `GET /quit` gets one answer, and
      `GET /hello` gets two. */
  lemma AsWrittenReplies(verb: string, fullPath: string, data: Json)
    ensures !(verb == "GET" && ParsePath(fullPath).0 == "/quit") ==>
      CountReplies(Route(verb, fullPath, data, false))
        == if verb == "GET" && ParsePath(fullPath).0 == "/hello" then 2 else 1
  {
    var r := Route(verb, fullPath, data, false);
    if !(verb == "GET" && ParsePath(fullPath).0 == "/quit") {
      var n := if verb == "GET" && ParsePath(fullPath).0 == "/hello" then 1 else 0;
      assert |r| == n + 2 && IsReply(r[n]) && !IsReply(r[n + 1]);
      ReplyThenClose(r[n], r[n + 1]);
      CountRepliesAppend(r[..n], r[n..]);
      assert r == r[..n] + r[n..];
      assert r[n..] == [r[n], r[n + 1]];
      if n == 1 {
        assert r[..n] == [r[0]] && IsReply(r[0]);
        assert [r[0]][1..] == [];
      }
    }
  }

  /** With the chain fixed, every request gets exactly one answer, except
      `GET /quit`, which writes the shutdown text, closes and publishes
      `quit` without an answer. */
  lemma OneReplyEach(verb: string, fullPath: string, data: Json)
    ensures verb == "GET" && ParsePath(fullPath).0 == "/quit" ==> Route(verb, fullPath, data, true) == QUIT_STEPS
    ensures !(verb == "GET" && ParsePath(fullPath).0 == "/quit") ==>
      CountReplies(Route(verb, fullPath, data, true)) == 1
      && Route(verb, fullPath, data, true)[|Route(verb, fullPath, data, true)| - 1] == ACloseWriter
  {
    var r := Route(verb, fullPath, data, true);
    if !(verb == "GET" && ParsePath(fullPath).0 == "/quit") {
      assert |r| == 2 && IsReply(r[0]) && !IsReply(r[1]);
      ReplyThenClose(r[0], r[1]);
      assert r == [r[0], r[1]];
    }
  }

  lemma ReplyThenClose(a: Step, b: Step)
    requires IsReply(a) && !IsReply(b)
    ensures CountReplies([a, b]) == 1
  {
    assert [a, b][1..] == [b];
    assert [b][1..] == [];
    assert CountReplies([b]) == 0;
  }

  // ---------------------------------------------------------------------
  // Responses
  // ---------------------------------------------------------------------

  /** `status_msg`: every status but 200 is called "Not Found". */
  function StatusText(status: int): (r: string)
    ensures r == "OK" <==> status == 200
  {
    if status == 200 then "OK" else "Not Found"
  }

  const CRLF := "\r\n"

  function StatusLine(status: int): string
  {
    "HTTP/1.0 " + DecimalText(status) + " " + StatusText(status)
  }

  /** The three header lines of `send_response`, each with the line end
      the join puts after it. */
  function ResponseHeaders(body: string, contentType: string): seq<string>
  {
    [ "Content-Type: " + contentType + CRLF,
      "Content-Length: " + DecimalText(|body|) + CRLF,
      "Connection: close" + CRLF ]
  }

  /** What `send_response` writes: `"\r\n".join` of the status line, the
      three headers and two empty strings, then the body. */
  function ResponseText(status: int, body: string, contentType: string): (r: string)
    ensures |r| >= |StatusLine(status)| + |body|
    ensures r[..|StatusLine(status)|] == StatusLine(status)
    ensures r[|r| - |body|..] == body
  {
    var hs := ResponseHeaders(body, contentType);
    StatusLine(status) + CRLF + hs[0] + hs[1] + hs[2] + CRLF + body
  }

  /** `TrimSpace` removes whitespace around a text whose ends are not
      whitespace, and only that. */
  lemma {:induction false} TrimPadded(a: string, d: string, b: string)
    requires forall k :: 0 <= k < |a| ==> IsSpace(a[k])
    requires forall k :: 0 <= k < |b| ==> IsSpace(b[k])
    requires |d| > 0 && !IsSpace(d[0]) && !IsSpace(d[|d| - 1])
    ensures TrimSpace(a + d + b) == d
    decreases |a| + |b|
  {
    var s := a + d + b;
    if |a| > 0 {
      assert s[0] == a[0] && IsSpace(s[0]);
      assert s[1..] == a[1..] + d + b;
      assert TrimSpace(s) == TrimSpace(s[1..]);
      TrimPadded(a[1..], d, b);
    } else if |b| > 0 {
      assert s[0] == d[0] && s[|s| - 1] == b[|b| - 1];
      assert s[..|s| - 1] == a + d + b[..|b| - 1];
      TrimPadded(a, d, b[..|b| - 1]);
    } else {
      assert s == d;
    }
  }

  /** The length header `send_response` writes is read back as the body's
      length. */
  lemma LengthLineReadsBack(n: nat)
    ensures IsLengthHeader("Content-Length: " + DecimalText(n) + CRLF)
    ensures LengthValue("Content-Length: " + DecimalText(n) + CRLF) == Ok(n)
  {
    LengthLineIsHeader(DecimalText(n));
    LengthLineValue(n);
  }

  lemma LengthLineIsHeader(d: string)
    ensures IsLengthHeader("Content-Length: " + d + CRLF)
  {
    var h := "Content-Length: " + d + CRLF;
    forall k | 0 <= k < |CONTENT_LENGTH| ensures ToLower(h[k]) == CONTENT_LENGTH[k] {
      assert h[k] == "Content-Length"[k];
    }
  }

  lemma LengthLineValue(n: nat)
    ensures LengthValue("Content-Length: " + DecimalText(n) + CRLF) == Ok(n)
  {
    var d := DecimalText(n);
    var h := "Content-Length: " + d + CRLF;
    assert d == Digits(n);
    assert forall k :: 0 <= k < |d| ==> d[k] != ':' && !IsSpace(d[k]);
    var rest := " " + d + CRLF;
    assert ':' !in rest;
    assert h == "Content-Length" + [':'] + rest;
    SplitAt(h, ':', 14);
    assert h[15..] == rest;
    assert Split(rest, ':') == [rest];
    TrimPadded(" ", d, CRLF);
    DecimalRoundTrip(n);
  }


  /** `handle_client`'s header loop, reading the header block that
      `send_response` writes, finds `Content-Length` equal to the length of
      the body that follows it. */
  lemma ResponseLengthReadsBack(status: int, body: string, contentType: string)
    ensures HeaderLength(ResponseHeaders(body, contentType), 0) == Ok(|body|)
  {
    var hs := ResponseHeaders(body, contentType);
    assert !IsLengthHeader(hs[0]) by {
      assert hs[0][8] == 'T';
    }
    assert !IsLengthHeader(hs[2]) by {
      assert hs[2][3] == 'n';
    }
    LengthLineReadsBack(|body|);
    assert hs[1..][1..] == [hs[2]];
    assert hs[1..][1..][1..] == [];
  }

  /** The same loop over the lines of the stream, ending at the blank line
      `send_response` writes, leaves with the body's length; as written too,
      since the blank line comes before the end of the stream. */
  lemma ResponseHeadersEnd(body: string, contentType: string)
    ensures ReadHeaders(ResponseHeaders(body, contentType) + [CRLF], 0, false) == Blank(|body|)
  {
    var hs := ResponseHeaders(body, contentType);
    var lines := hs + [CRLF];
    assert lines[0] != CRLF by { assert |lines[0]| > 2; }
    assert lines[1] != CRLF by { assert |lines[1]| > 2; }
    assert lines[2] != CRLF by { assert |lines[2]| > 2; }
    assert BlankAt(lines[3..]) == 0;
    assert BlankAt(lines[2..]) == 1;
    assert BlankAt(lines[1..]) == 2;
    assert BlankAt(lines) == 3;
    assert lines[..3] == hs;
    ResponseLengthReadsBack(200, body, contentType);
    ReadHeadersMeaning(lines, 0, false);
  }
}

=== FILE: urequests.dfy ===
/** URL splitting of the bundled `urequests` client
    (`restful_api_client/urequests/urequests/__init__.py`, `_parse_url`).
    Sockets, TLS and the request writer around it are not modelled.
 */
module URequests {
  import opened Wrappers
  import opened PyStr

  datatype Url = Url(proto: string, host: string, port: int, path: string)

  /** The port a scheme implies; only `http:` and `https:` are known. */
  function DefaultPort(proto: string): (r: Result<int>)
    ensures r.Ok? <==> proto == "http:" || proto == "https:"
    ensures r.Raise? ==> r.exc == ValueError("Unsupported protocol: " + proto)
  {
    if proto == "http:" then Ok(80)
    else if proto == "https:" then Ok(443)
    else Raise(ValueError("Unsupported protocol: " + proto))
  }

  /** `url.split("/", 3)` unpacked into four names, falling back to
      `url.split("/", 2)` and an empty path when there are only two `/`;
      with fewer the second unpacking raises `ValueError` as well. */
  function SplitUrl(url: string): (r: Result<(string, string, string)>)
    ensures r.Ok? ==> '/' !in r.value.0 && '/' !in r.value.1
  {
    match Partition(url, '/')
    case None => Raise(ValueError("need more values to unpack"))
    case Some((proto, r1)) =>
      match Partition(r1, '/')
      case None => Raise(ValueError("need more values to unpack"))
      case Some((_, r2)) =>
        match Partition(r2, '/')
        case None => Ok((proto, r2, ""))
        case Some((host, path)) => Ok((proto, host, path))
  }

  /** `_parse_url`: the scheme decides the port unless the host names one
      after a `:`, which `int()` then has to accept. */
  function ParseUrl(url: string): (r: Result<Url>)
    ensures SplitUrl(url).Raise? ==> r == Raise(SplitUrl(url).exc)
    ensures SplitUrl(url).Ok? && DefaultPort(SplitUrl(url).value.0).Raise? ==>
      r == Raise(ValueError("Unsupported protocol: " + SplitUrl(url).value.0))
    ensures r.Ok? ==> (SplitUrl(url).Ok?
      && r.value.proto == SplitUrl(url).value.0 && r.value.path == SplitUrl(url).value.2
      && (r.value.proto == "http:" || r.value.proto == "https:")
      && ':' !in r.value.host
      && (':' !in SplitUrl(url).value.1 ==> r.value.host == SplitUrl(url).value.1 && r.value.port == DefaultPort(r.value.proto).value))
  {
    var parts :- SplitUrl(url);
    var (proto, host, path) := parts;
    var port :- DefaultPort(proto);
    match Partition(host, ':')
    case None => Ok(Url(proto, host, port, path))
    case Some((h, p)) =>
      var n :- ParseInt(p, 10);
      Ok(Url(proto, h, n, path))
  }

  /** Fewer than two `/` is the only way the split fails. */
  lemma SplitUrlFails(url: string)
    ensures SplitUrl(url).Raise? <==> |Split(url, '/')| < 3
  {
    SplitPartition(url, '/');
    if Partition(url, '/').Some? {
      var r1 := Partition(url, '/').value.1;
      SplitPartition(r1, '/');
      if Partition(r1, '/').Some? {
        var r2 := Partition(r1, '/').value.1;
        assert |Split(url, '/')| == 2 + |Split(r2, '/')|;
      }
    }
  }

  /** `Split` peels off the text before the first separator. */
  lemma SplitPartition(s: string, c: char)
    ensures Partition(s, c).None? ==> Split(s, c) == [s]
    ensures Partition(s, c).Some? ==>
      Split(s, c) == [Partition(s, c).value.0] + Split(Partition(s, c).value.1, c)
  {
    var i := Find(s, c);
    if i < |s| {
      assert s[..i] == Partition(s, c).value.0;
    }
  }

  /** `Partition` finds the first separator. */
  lemma PartitionAtFirst(a: string, b: string, c: char)
    requires c !in a
    ensures Partition(a + [c] + b, c) == Some((a, b))
  {
    var s := a + [c] + b;
    assert s[|a|] == c;
    assert forall k :: 0 <= k < |a| ==> s[k] == a[k];
    assert Find(s, c) == |a|;
    assert s[..|a|] == a && s[|a| + 1..] == b;
  }

  /** With three `/` the host runs from the second to the third and the
      path is the rest, `/` and all. */
  lemma SplitFour(proto: string, mid: string, host: string, path: string)
    requires '/' !in proto && '/' !in mid && '/' !in host
    ensures SplitUrl(proto + "/" + mid + "/" + host + "/" + path) == Ok((proto, host, path))
  {
    var r2 := host + "/" + path;
    var r1 := mid + "/" + r2;
    assert proto + "/" + mid + "/" + host + "/" + path == proto + "/" + r1;
    PartitionAtFirst(proto, r1, '/');
    PartitionAtFirst(mid, r2, '/');
    PartitionAtFirst(host, path, '/');
  }

  /** With two `/` the host is the rest and the path is empty. */
  lemma SplitThree(proto: string, mid: string, host: string)
    requires '/' !in proto && '/' !in mid && '/' !in host
    ensures SplitUrl(proto + "/" + mid + "/" + host) == Ok((proto, host, ""))
  {
    var r1 := mid + "/" + host;
    assert proto + "/" + mid + "/" + host == proto + "/" + r1;
    PartitionAtFirst(proto, r1, '/');
    PartitionAtFirst(mid, host, '/');
    assert Partition(host, '/').None?;
  }

  /** A URL built from a known scheme, a host without `/` or `:`, and a
      path parses back to those parts and the scheme's port; the path is
      empty when there is no `/` after the host. */
  lemma DefaultPortRoundTrip(proto: string, host: string, path: string)
    requires proto == "http:" || proto == "https:"
    requires '/' !in host && ':' !in host
    ensures ParseUrl(proto + "//" + host + "/" + path) == Ok(Url(proto, host, DefaultPort(proto).value, path))
    ensures ParseUrl(proto + "//" + host) == Ok(Url(proto, host, DefaultPort(proto).value, ""))
  {
    assert proto + "//" + host + "/" + path == proto + "/" + "" + "/" + host + "/" + path;
    assert proto + "//" + host == proto + "/" + "" + "/" + host;
    SplitFour(proto, "", host, path);
    SplitThree(proto, "", host);
  }

  /** An explicit decimal port after the host replaces the scheme's. */
  lemma ExplicitPortRoundTrip(proto: string, host: string, port: nat, path: string)
    requires proto == "http:" || proto == "https:"
    requires '/' !in host && ':' !in host
    ensures ParseUrl(proto + "//" + host + ":" + DecimalText(port) + "/" + path) == Ok(Url(proto, host, port, path))
  {
    var d := DecimalText(port);
    assert '/' !in d && ':' !in d by {
      assert d == Digits(port);
      assert forall k :: 0 <= k < |d| ==> IsAsciiDigit(d[k]);
    }
    var hp := host + ":" + d;
    assert '/' !in hp;
    assert proto + "//" + host + ":" + d + "/" + path == proto + "/" + "" + "/" + hp + "/" + path;
    SplitFour(proto, "", hp, path);
    PartitionAtFirst(host, d, ':');
    DecimalRoundTrip(port);
  }
}

=== FILE: wrappers.dfy ===
/** Failure-carrying datatypes shared by every module of the model.

    The robot's firmware reports errors by raising Python exceptions. The
    model makes each such exception a value of `Exc` and every operation that
    can raise returns a `Result`.
 */
module Wrappers {

  datatype Option<+T> = None | Some(value: T)

  /** The Python exceptions the modelled code raises or lets escape. */
  datatype Exc =
    | ValueError(msg: string)
    | KeyError(key: string)
    | TypeError(msg: string)
    | IndexError
    | NameError(name: string)
    | AttributeError(name: string)
    | ZeroDivisionError
    | QueueFull
    | QueueEmpty(msg: string)
    /** `asyncio.QueueEmpty`, a different class from the bus's own `QueueEmpty`. */
    | AsyncioQueueEmpty
    /** A file that cannot be opened. */
    | OSError
    /** A stream that ends before the requested bytes arrive. */
    | EOFError

  datatype Result<+T> = Ok(value: T) | Raise(exc: Exc) {
    predicate IsFailure() {
      Raise?
    }

    function PropagateFailure<U>(): Result<U>
      requires Raise?
    {
      Raise(exc)
    }

    function Extract(): T
      requires Ok?
    {
      value
    }
  }

  /** `str(e)`: the message the exception was raised with. */
  function ExcText(e: Exc): string
  {
    match e
    case ValueError(msg) => msg
    case KeyError(key) => "'" + key + "'"
    case TypeError(msg) => msg
    case IndexError => "index out of range"
    case NameError(name) => "name '" + name + "' isn't defined"
    case AttributeError(name) => name
    case ZeroDivisionError => "divide by zero"
    case QueueFull => ""
    case QueueEmpty(msg) => msg
    case AsyncioQueueEmpty => ""
    case OSError => ""
    case EOFError => ""
  }

  /** A Python byte. */
  type byte = x: int | 0 <= x < 256

  type Bytes = seq<byte>
}
